=== FILE: README.md ===
# Uniway, modelled in Dafny

Uniway is a university community app. A Spring backend stores users, forum
posts, comments, like/dislike reactions, teacher recommendations with star
ratings, and e-mail verification codes. An Android client in Kotlin talks
to it over REST. The client also keeps a session store and an account
cache on the device, and it falls back to local data when the server
fails.

This project models the rule-bearing core of both halves as pure functions
over immutable values. It proves what those rules promise.

**Backend.**
- Entities and enums: `Entities`, `Enums`.
- The repositories' JPQL queries as filters and orders over stores: `PostQueries`, `CommentQueries`, `CodeQueries`, `RecommendationQueries`. They share the helpers `Jpa`, `Jpql`, `Lists` and `Sorting`.
- The reaction table and its toggle-with-replacement rule: `ReactionStore`.
- The services as transitions over a store: `PostService`, `CommentService`, `RecommendationService`, `EmailService`, `UserService`, `AuthService`.
- The author-or-administrator permission rule shared by every layer: `Permission`.
- The one string helper of the controllers: `TeacherNames`.

**Client.**
- The tri-state API result and its status mapping: `ApiClient`.
- The response converters: `ApiRepository`.
- The session store: `TokenManager`.
- The account cache: `UserCache`.
- Every view model, as a step from a state and an API answer to a new state.
- The adapters' formatters and list edits.
- The forms' validation chains: `RegisterForm`, `ResetPasswordForm`, `EmailVerificationScreen`, `AddTeacherForm`, `PostDialogs`.

Some things the code takes from outside become parameters:
- the clock (milliseconds);
- fresh ids and the random six-digit draw;
- the password encoder;
- date parsing and formatting;
- the verdict of Android's e-mail pattern;
- the API answer itself.

Kotlin and Java `Int` arithmetic is wrapped to 32 bits where the source
casts or counts (`Text.Int32`). Java's `String.trim` and Kotlin's `trim`
are modelled separately, and so are Java's `split` (it drops trailing
empty pieces) and Kotlin's (it keeps them).

Three behaviours of the client are easy to miss:
- When editing a post fails, the forum's list is left unchanged. No local copy is made (`ForumViewModel.EditPost`). Comments do get a local copy (`CommentsViewModel.EditComment`).
- A like or dislike in the forum changes the list only through the server's answer. The local arithmetic runs only when the call fails (`ForumViewModel.ReactToPost`).
- The recommendation screens have no placeholder data. A failed load shows an empty list (`AllRecommendationsViewModel.LoadAll`, `MyRecommendationsViewModel.LoadMine`, `TeacherListViewModel.LoadTeachers`).

Some consequences of the code that the proofs make explicit:
- Accounts cached from a server sign-in carry no password, so they never sign in offline. Freshly registered accounts can (`LoginViewModel.ServerAccountNeverSignsInOffline`, `RegisterViewModel.RegisteredSignsInOffline`).
- The password-reset answer's success flag is never read (`ResetPasswordViewModel.SuccessFlagIgnored`).
- The new-post dialog can never produce an announcement or a low priority. The edit dialog can produce an announcement (`PostDialogs.DialogNeverAnnouncesOrLowers`, `PostDialogs.UntouchedSaveKeepsType`).
- The registration view model's empty-address check can never fire, because the completed address is never empty (`RegisterViewModel.EmptyAddressIsSentToDomain`).

## Model

| member | source | states |
|---|---|---|
| Entities.NewPost | backend/src/main/java/com/uniway/entity/Post.java:53-75 | a fresh post is GENERAL, NORMAL priority, not pinned, no alert, approved, with all three counters at zero |
| Entities.NewPostWith | backend/src/main/java/com/uniway/entity/Post.java:97-102 | the four-argument constructor sets id, author, content and type and keeps every other initialiser of the default constructor |
| Entities.NewCode | backend/src/main/java/com/uniway/entity/VerificationCode.java:69-75 | a new code is unused and carries the given id, address, code and expiry |
| Entities.GetIsUsed | backend/src/main/java/com/uniway/entity/VerificationCode.java:94-96 | the used flag reads true exactly when the stored column is true; null reads false |
| Entities.SetIsUsed | backend/src/main/java/com/uniway/entity/VerificationCode.java:97-99 | after setting, the column is never null, reads true exactly when true was passed, and no other field changes |
| Entities.IsValid | backend/src/main/java/com/uniway/entity/VerificationCode.java:110-120 | validity is "not used and not expired" (expired: now strictly after the expiry); a null flag makes the unboxing throw |
| Entities.SetIsUsedMakesValidTotal | backend/src/main/java/com/uniway/entity/VerificationCode.java:97-120 | once the setter has run, validity is always defined and equals "the flag set was not true and the code has not expired" |
| Enums.PostTypeOf | app/src/main/java/com/universidad/uniway/data/Post.kt:28-33 | valueOf finds a type exactly when the text is one of the four constant names |
| Enums.PriorityOf | app/src/main/java/com/universidad/uniway/data/Post.kt:35-40 | valueOf finds a priority exactly when the text is one of the four constant names |
| Enums.RoleOf | app/src/main/java/com/universidad/uniway/data/User.kt:16-19 | valueOf finds a role exactly when the text is STUDENT or ADMINISTRATION |
| Enums.NameRoundTrips | app/src/main/java/com/universidad/uniway/network/ApiRepository.kt:328-344 | valueOf inverts name for every type, priority and role, so a name sent by the client parses back to the same constant |
| Enums.Toggle | backend/src/main/java/com/uniway/entity/ReactionType.java:13-17 | the toggle table: pressing the reaction already held removes it, any other press leaves exactly the pressed reaction |
| Enums.ToggleTwice | backend/src/main/java/com/uniway/entity/ReactionType.java:13-17 | pressing the same button twice returns to no reaction from none, and to the pressed reaction from it |
| ReactionStore.FindByUserAndTarget | backend/src/main/java/com/uniway/repository/ReactionRepository.java:37-38 | the lookup returns a row of the table on that user and target, and finds nothing exactly when no row is on the pair |
| ReactionStore.LookupIsFind | backend/src/main/java/com/uniway/entity/Reaction.java:31 | under the one-reaction-per-(user, post) constraint the Optional lookup never throws and returns the pair's row |
| ReactionStore.FindByTargetAndType | backend/src/main/java/com/uniway/repository/ReactionRepository.java:57-58 | the rows returned are exactly the target's rows of that kind, in table order, and there are as many as the per-type count says |
| ReactionStore.CountByTargetSplits | backend/src/main/java/com/uniway/repository/TeacherRecommendationReactionRepository.java:39-48 | the total reaction count of a recommendation is its like count plus its dislike count |
| ReactionStore.CountByTargetAndType | backend/src/main/java/com/uniway/repository/TeacherRecommendationReactionRepository.java:39-40 | the count of one kind on one target is at most the table size and is zero exactly when no row of that kind is on the target; `countByPostIdAndType` (ReactionRepository.java:47-48) is the same query |
| ReactionStore.CountByTarget | backend/src/main/java/com/uniway/repository/TeacherRecommendationReactionRepository.java:47-48 | the count of a target's reactions is at most the table size and is zero exactly when no row is on the target |
| ReactionStore.CountReceivedByStudent | backend/src/main/java/com/uniway/repository/TeacherRecommendationReactionRepository.java:56-57 | the count of reactions of one kind on a student's recommendations is at most the table size and is zero exactly when none exists |
| ReactionStore.ReceivedByMeans | backend/src/main/java/com/uniway/repository/TeacherRecommendationReactionRepository.java:56-57 | a reaction counts as received by a student exactly when it has the kind and its recommendation is one of the student's |
| ReactionStore.ReceivedCoversOwnRecommendation | backend/src/main/java/com/uniway/repository/TeacherRecommendationReactionRepository.java:39-57 | the reactions of one kind on one of a student's recommendations never exceed the student's received count of that kind |
| ReactionStore.DeleteByUserAndTarget | backend/src/main/java/com/uniway/repository/ReactionRepository.java:66 | every row on the pair is removed, every other row keeps its multiplicity, and the user then has no reaction on the target |
| ReactionStore.DeleteByTarget | backend/src/main/java/com/uniway/repository/TeacherRecommendationReactionRepository.java:63-66 | every row of the recommendation is removed, every other row keeps its multiplicity, and the table constraints survive |
| ReactionStore.ApplyToggle | backend/src/main/java/com/uniway/service/TeacherRecommendationService.java:156-192 | the toggle fails exactly when the pair lookup finds more than one row |
| ReactionStore.ToggleCreates | backend/src/main/java/com/uniway/service/PostService.java:538-543 | with no reaction on the pair a new row of the pressed kind is appended under the fresh id, the constraints still hold and the user now holds the pressed kind |
| ReactionStore.ToggleRemoves | backend/src/main/java/com/uniway/service/PostService.java:522-528 | a reaction of the pressed kind is deleted by id, the constraints still hold and the user holds no reaction on the target |
| ReactionStore.ToggleSwitches | backend/src/main/java/com/uniway/service/PostService.java:529-534 | a reaction of the other kind is switched in place at its own index and nowhere else, and the user now holds the pressed kind |
| ReactionStore.ToggleFollowsTable | backend/src/main/java/com/uniway/service/PostService.java:500-545 | on a table that meets its constraints the toggle never fails, keeps one reaction per pair with distinct ids, and leaves the user's reaction as the toggle table of ReactionType prescribes |
| ReactionStore.ToggleLeavesOtherPairs | backend/src/main/java/com/uniway/service/TeacherRecommendationService.java:171-192 | every other (user, target) pair keeps its reaction through a toggle |
| ReactionStore.ToggleCounts | backend/src/main/java/com/uniway/service/PostService.java:605-608 | each per-target, per-kind count moves by exactly one down for the reaction held before and one up for the reaction held after, and other targets' counts do not move |
| CodeQueries.FindByEmailAndCode | backend/src/main/java/com/uniway/repository/VerificationCodeRepository.java:34-35 | the Optional query returns a row with that address and those digits, finds nothing exactly when no row matches both, and throws when more than one does |
| CodeQueries.FindValidByEmail | backend/src/main/java/com/uniway/repository/VerificationCodeRepository.java:43-44 | exactly the address's rows whose used column is false (not NULL) and whose expiry is after now, in table order up to a newest-first sort |
| CodeQueries.CountValid | backend/src/main/java/com/uniway/repository/VerificationCodeRepository.java:68-69 | the count has the same condition as the valid listing, so it equals that listing's length |
| CodeQueries.FindByEmail | backend/src/main/java/com/uniway/repository/VerificationCodeRepository.java:51-52 | exactly the address's rows, newest first |
| CodeQueries.FindExpired | backend/src/main/java/com/uniway/repository/VerificationCodeRepository.java:59-60 | exactly the rows whose expiry is strictly before now, whatever their address or used flag |
| CodeQueries.ExpiryBoundary | backend/src/main/java/com/uniway/repository/VerificationCodeRepository.java:43-60 | a code that expires exactly now is neither valid nor expired for the queries |
| CodeQueries.QueryValidityVsEntity | backend/src/main/java/com/uniway/entity/VerificationCode.java:110-120 | the queries' validity implies the entity's isValid(), and the converse holds except at the instant of expiry |
| CodeQueries.ExpiredNeverValid | backend/src/main/java/com/uniway/repository/VerificationCodeRepository.java:43-60 | no code is both in the expired listing and in the valid listing |
| CommentQueries.FindApprovedByPost | backend/src/main/java/com/uniway/repository/CommentRepository.java:37-38 | exactly the post's approved comments, oldest first |
| CommentQueries.FindAllByPost | backend/src/main/java/com/uniway/repository/CommentRepository.java:45-46 | exactly the post's comments, approved or not, oldest first |
| CommentQueries.CountApprovedByPost | backend/src/main/java/com/uniway/repository/CommentRepository.java:54-55 | the count has the approved listing's condition, so it equals that listing's length |
| CommentQueries.FindByAuthor | backend/src/main/java/com/uniway/repository/CommentRepository.java:62-63 | exactly the author's comments on any post, newest first |
| CommentQueries.FindPending | backend/src/main/java/com/uniway/repository/CommentRepository.java:70-71 | exactly the comments whose approval column is false, oldest first |
| CommentQueries.ApprovedWithinAll | backend/src/main/java/com/uniway/repository/CommentRepository.java:37-55 | the approved listing is a sub-multiset of the full listing, so the approved count never exceeds the number of comments |
| PostQueries.FindAllApprovedOrdered | backend/src/main/java/com/uniway/repository/PostRepository.java:42-43 | exactly the approved posts; pinned before unpinned; the NULL pin group first or last as the `nullsFirst` parameter (the database's NULL ordering) says; newest first among posts with the same pin flag |
| PostQueries.FindApprovedByType | backend/src/main/java/com/uniway/repository/PostRepository.java:49-50 | exactly the approved posts of the type, newest first |
| PostQueries.FindApprovedByPriority | backend/src/main/java/com/uniway/repository/PostRepository.java:56-57 | exactly the approved posts of the priority, newest first |
| PostQueries.FindApprovedByAuthor | backend/src/main/java/com/uniway/repository/PostRepository.java:63-64 | exactly the author's approved posts, newest first |
| PostQueries.FindAlertPosts | backend/src/main/java/com/uniway/repository/PostRepository.java:70-71 | exactly the approved posts flagged as alerts, newest first |
| PostQueries.FindPinnedPosts | backend/src/main/java/com/uniway/repository/PostRepository.java:77-78 | exactly the approved pinned posts, newest first |
| PostQueries.FindPostsSince | backend/src/main/java/com/uniway/repository/PostRepository.java:84-85 | exactly the approved posts created at or after the bound, newest first |
| PostQueries.CountApprovedByAuthor | backend/src/main/java/com/uniway/repository/PostRepository.java:92-93 | the count has the author listing's condition, so it equals that listing's length |
| PostQueries.FindAllPending | backend/src/main/java/com/uniway/repository/PostRepository.java:99-100 | exactly the posts whose approval column is false, oldest first |
| PostQueries.FindByIdWithAuthor | backend/src/main/java/com/uniway/repository/PostRepository.java:114-115 | the post found has the id, and none is found exactly when no post has it |
| PostQueries.PendingAndApprovedDisjoint | backend/src/main/java/com/uniway/repository/PostRepository.java:42-100 | no post is both pending and approved, and a post with a NULL approval column is in neither listing |
| PostQueries.ListingsWithinApproved | backend/src/main/java/com/uniway/repository/PostRepository.java:42-78 | the type, author and pinned listings draw only on the approved listing, and pinned posts have pin rank 1, above unpinned ones |
| RecommendationQueries.FindByStudentActive | backend/src/main/java/com/uniway/repository/StudentTeacherRepository.java:13-14 | exactly the student's active recommendations, in table order |
| RecommendationQueries.FindByTeacherActive | backend/src/main/java/com/uniway/repository/StudentTeacherRepository.java:16-17 | exactly the teacher's active recommendations, in table order |
| RecommendationQueries.FindByCourse | backend/src/main/java/com/uniway/repository/StudentTeacherRepository.java:19-24 | the Optional query returns an active row of that student, teacher and subject, finds nothing exactly when none exists, and throws on two |
| RecommendationQueries.FindDuplicate | backend/src/main/java/com/uniway/repository/StudentTeacherRepository.java:26-32 | a row found is active and matches student, teacher, subject and a non-null semester; a null semester parameter finds nothing |
| RecommendationQueries.FindActiveNewestFirst | backend/src/main/java/com/uniway/repository/StudentTeacherRepository.java:42-43 | exactly the active recommendations, newest first |
| RecommendationQueries.FindBySubjectActive | backend/src/main/java/com/uniway/repository/StudentTeacherRepository.java:48-49 | exactly the subject's active recommendations, in table order |
| RecommendationQueries.CountByStudentActive | backend/src/main/java/com/uniway/repository/StudentTeacherRepository.java:54-55 | the count equals the length of the student's active listing |
| RecommendationQueries.CountActive | backend/src/main/java/com/uniway/repository/StudentTeacherRepository.java:60-61 | the count equals the length of the active listing |
| RecommendationQueries.ActiveSubjects | backend/src/main/java/com/uniway/repository/StudentTeacherRepository.java:66-67 | each subject of an active row once, strictly ascending, and no other subject |
| RecommendationQueries.ActiveTeacherNames | backend/src/main/java/com/uniway/repository/StudentTeacherRepository.java:72-73 | each teacher name of an active row once, strictly ascending, and no other name |
| RecommendationQueries.ActiveSubjectsBySet | backend/src/main/java/com/uniway/repository/StudentTeacherRepository.java:34-35 | the subject list depends only on which active rows exist, not on their order or repeats |
| UserService.FindByEmail | backend/src/main/java/com/uniway/repository/UserRepository.java:14 | the account found has the address, and none is found exactly when no account has it |
| UserService.FindByStudentId | backend/src/main/java/com/uniway/repository/UserRepository.java:16 | the account found has the student number, and none is found exactly when no account has it |
| UserService.CreateUser | backend/src/main/java/com/uniway/service/UserService.java:25-46 | refused exactly when no password is given (the NOT NULL column) or another account holds the address or the non-null student number (the unique columns), with the matching message; otherwise a null or empty id gets the fresh one, a non-empty password is stored encoded, a null role becomes STUDENT and a null active flag true, other fields are kept, and the save keeps ids unique and finds the account by its id |
| UserService.CreateKeepsColumnsUnique | backend/src/main/java/com/uniway/entity/User.java:41-63 | after a successful creation no two accounts share an address or a non-null student number |
| UserService.CreateKeepsGivenFields | backend/src/main/java/com/uniway/service/UserService.java:27-43 | a draft that already has an id, a role and an active flag keeps all three, whatever fresh id is drawn |
| UserService.SetActive | backend/src/main/java/com/uniway/service/UserService.java:88-106 | an unknown id throws "Usuario no encontrado con ID: " with the id; otherwise only that account's active flag changes |
| UserService.ReactivateRestores | backend/src/main/java/com/uniway/service/UserService.java:88-106 | deactivating an active account and activating it again gives back the same table and account |
| UserService.ConvertUserToDto | backend/src/main/java/com/uniway/service/UserService.java:108-123 | the account is recovered from the DTO and its hash, and the DTO is the same whatever the hash was |
| AuthService.Register | backend/src/main/java/com/uniway/service/AuthService.java:24-48 | refused exactly when the address is taken, or a student gives a non-empty student number that is taken, or the save would break a unique column (another account holds the number), with the address check first and then the student check; otherwise a new active account with the fresh id, the encoded password and the given role, name, number and program is appended |
| AuthService.RegisterKeepsColumnsUnique | backend/src/main/java/com/uniway/entity/User.java:38-63 | every successful registration keeps the address and the non-null student number unique across accounts |
| AuthService.DuplicateNumberRefusedBySave | backend/src/main/java/com/uniway/service/AuthService.java:29-47 | an administration account, or a student with the empty number, that reuses a taken number passes the service checks but is refused at the save |
| AuthService.Authenticate | backend/src/main/java/com/uniway/service/AuthService.java:51-64 | succeeds exactly for a known address whose hash matches the password and whose active flag is true; an unknown address and a wrong password give the same message, and only a matching password learns the account is inactive |
| AuthService.UpdatePassword | backend/src/main/java/com/uniway/service/AuthService.java:70-75 | the account is saved with the encoding of the new password and every other account is unchanged |
| AuthService.RegisterThenFindByEmail | backend/src/main/java/com/uniway/service/AuthService.java:24-48 | a newly registered account is the one found by its address |
| AuthService.RegisterThenAuthenticate | backend/src/main/java/com/uniway/service/AuthService.java:24-64 | a newly registered account signs in with its password, given an encoder whose matches accepts its own encodings |
| AuthService.RegisterTwiceRefused | backend/src/main/java/com/uniway/service/AuthService.java:26-28 | registering the same address again is refused as taken |
| AuthService.UpdatePasswordThenAuthenticate | backend/src/main/java/com/uniway/service/AuthService.java:51-75 | after a password change the new password signs in and the old one is refused as bad credentials |
| EmailService.GenerateCode | backend/src/main/java/com/uniway/service/EmailService.java:240-244 | the code is the decimal form of 100000 plus the draw: six digits, no leading zero |
| EmailService.GeneratedCodesDiffer | backend/src/main/java/com/uniway/service/EmailService.java:240-244 | different draws give different codes |
| EmailService.IssueCode | backend/src/main/java/com/uniway/service/EmailService.java:79-99 | the new row has the fresh id, the address and the generated code, is unused, expires ten minutes after now, and counts as valid at once |
| EmailService.SendCode | backend/src/main/java/com/uniway/service/EmailService.java:135-170 | refused with the purpose's message exactly when the address already holds three valid codes; otherwise the new unused code expiring ten minutes after now is appended and returned |
| EmailService.SendKeepsLimit | backend/src/main/java/com/uniway/service/EmailService.java:73-75 | a successful send raises the address's valid count by exactly one and never above three, and no other address's count moves |
| EmailService.SendVerificationCodeAsWritten | backend/src/main/java/com/uniway/service/EmailService.java:68-127 | over the limit it is refused; whenever it succeeds it does what the corrected send does |
| EmailService.ReadBackCollision | backend/src/main/java/com/uniway/service/EmailService.java:99-103 | when the address already holds a row with the same six digits the read-back finds two rows and the whole send fails, though the corrected send succeeds |
| EmailService.ReadBackWithoutCollision | backend/src/main/java/com/uniway/service/EmailService.java:99-103 | with no such row the read-back finds exactly the new code and both versions agree |
| EmailService.VerifyCode | backend/src/main/java/com/uniway/service/EmailService.java:178-216 | true exactly when the lookup finds an unused code not yet past its expiry, and then only that row is marked used; a refusal changes nothing; a non-unique lookup throws |
| EmailService.VerifyOnce | backend/src/main/java/com/uniway/service/EmailService.java:200-212 | a code that was accepted is refused at any later instant |
| EmailService.ValidCodeVerifies | backend/src/main/java/com/uniway/service/EmailService.java:178-212 | every code the send limit counts as valid is accepted, as is one expiring at this very instant |
| EmailService.MarkedRowFoundAgain | backend/src/main/java/com/uniway/service/EmailService.java:210-212 | marking the found row used replaces it in place, so the lookup then finds the used row |
| EmailService.CleanupExpiredCodes | backend/src/main/java/com/uniway/service/EmailService.java:222-232 | every expired row is deleted by its key, every other row stays, and no expired row is left |
| EmailService.CleanupKeepsLiveCodes | backend/src/main/java/com/uniway/service/EmailService.java:222-232 | a cleanup keeps every row that has not expired, so no address's valid count changes |
| PostService.WithDefaults | backend/src/main/java/com/uniway/service/PostService.java:107-142 | a missing id gets the fresh one, every null column gets the entity's default, and every column already set is kept |
| PostService.DefaultsAreStable | backend/src/main/java/com/uniway/service/PostService.java:105-145 | filling in defaults is idempotent, leaves a complete post alone, and on an all-null post gives the defaults of a new Post |
| PostService.CreatePost | backend/src/main/java/com/uniway/service/PostService.java:105-145 | the saved post has no null column, keeps what was set, has the given or fresh id, is appended when new, and is found by its id afterwards |
| PostService.CreatePostBy | backend/src/main/java/com/uniway/service/PostService.java:298-329 | an unknown author is refused; otherwise a new approved post under the fresh id with the given or GENERAL type, the given or NORMAL priority, no pin, no alert and zero counters is appended |
| PostService.Moderate | backend/src/main/java/com/uniway/service/PostService.java:191-229 | an unknown id throws "Post no encontrado con ID: "; otherwise only the approval flag (approve, reject) or the pin flag (pin, unpin) of that post changes |
| PostService.EditedType | backend/src/main/java/com/uniway/service/PostService.java:377-382 | a null or blank type name, or one that is unknown once upper-cased, keeps the current type; any change is to the named type |
| PostService.EditedTypeByName | backend/src/main/java/com/uniway/service/PostService.java:377-382 | naming a type by its constant name sets it |
| PostService.UpdatePost | backend/src/main/java/com/uniway/service/PostService.java:346-389 | succeeds exactly when the post exists, the user exists and is its author or an administrator; the checks run in that order, each with its own message; on success only the content and the type change |
| PostService.DeletePost | backend/src/main/java/com/uniway/service/PostService.java:403-433 | the same checks in the same order; on success the post, its comments and its reactions are removed, and users, recommendations, their reactions and codes are untouched |
| PostService.DeleteCascade | backend/src/main/java/com/uniway/service/PostService.java:430-431 | the delete removes every row of the post, every comment on it and every reaction to it, keeps every other row with its multiplicity, and leaves the other tables untouched |
| PostService.UpdatePostCounters | backend/src/main/java/com/uniway/service/PostService.java:605-616 | the three counters become the 32-bit casts of the LIKE count, DISLIKE count and approved-comment count, and nothing else changes |
| PostService.ToggleReaction | backend/src/main/java/com/uniway/service/PostService.java:500-603 | an unknown post and then an unknown user are refused; otherwise the reaction table is toggled and the saved post's counters equal the counts |
| PostService.ToggleOnPost | backend/src/main/java/com/uniway/service/PostService.java:500-550 | on a consistent database a toggle by a known user on a known post succeeds, keeps one reaction per pair, and sets the user's reaction as the toggle table says |
| PostService.ToggleMovesCounts | backend/src/main/java/com/uniway/service/PostService.java:605-611 | the post's count of each kind goes down by one for the reaction held before and up by one for the reaction held after |
| PostService.ToggleKeepsOtherCounters | backend/src/main/java/com/uniway/service/PostService.java:500-550 | a toggle leaves every other post's row, and the agreement of its counters with its counts, as it was |
| PostService.ConvertToDto | backend/src/main/java/com/uniway/service/PostService.java:689-725 | the DTO copies the author's name, the content, type, priority, pinned, alert and approval flags and the creation time, reads null counters as zero, and its like and dislike flags report the current user's reaction, both false with no user or no reaction, never both true |
| PostService.DtoFlagsFollowReaction | backend/src/main/java/com/uniway/service/PostService.java:707-721 | under the one-reaction-per-pair constraint the conversion never throws and each flag is true exactly when the user holds that kind |
| PostService.FallbackListing | backend/src/main/java/com/uniway/service/PostService.java:274-293 | the fallback lists the approved posts sorted by pin flag and then date, both descending, and yields nothing when a null pin flag meets a non-null one |
| PostService.FallbackAgreesWithQuery | backend/src/main/java/com/uniway/service/PostService.java:270-296 | when the fallback does not throw it lists the same posts as the query, in an order the query also allows |
| PostService.FindAllApprovedPostsSafe | backend/src/main/java/com/uniway/service/PostService.java:270-296 | the query's answer when it does not fail; when it fails, nothing if the fallback read fails or the pin flags are mixed, and otherwise exactly the approved posts, sorted by pin flag then date, listing the same posts as the query in an order the query also allows |
| PostService.GetAllPosts | backend/src/main/java/com/uniway/service/PostService.java:239-268 | the type filter wins over the priority filter, which wins over the alert flag; with none of them the safe approved listing; a failing filtered query is caught and gives an empty list; only approved posts are ever listed |
| Permission.Authorize | backend/src/main/java/com/uniway/service/PostService.java:442-481 | an unknown actor is reported first, then an actor who is neither the author nor an administrator is refused; an accepted actor is a stored user with that id who may modify |
| Permission.AuthorizeUnknownAndAuthor | backend/src/main/java/com/uniway/service/PostService.java:442-457 | an unknown actor is always refused and a known author is never refused |
| Permission.ActionsFor | app/src/main/java/com/universidad/uniway/ui/forum/PostAdapter.kt:91-99 | the actions row is shown exactly when one of the buttons is allowed, and each button exactly when its check allows it |
| Permission.ButtonsInsideRow | app/src/main/java/com/universidad/uniway/ui/comments/CommentAdapter.kt:49-57 | a button is visible only when the row holding it is |
| Permission.ClientRulesAgree | app/src/main/java/com/universidad/uniway/ui/forum/ForumViewModel.kt:335-371 | with a complete session the view-model rule, the list adapters' rule and the recommendation card's rule each hold exactly when the backend's author-or-administrator rule does |
| Permission.MissingIdentity | app/src/main/java/com/universidad/uniway/ui/teacher/TeacherRecommendationAdapter.kt:89 | with no user id the view model and the list adapters refuse while the recommendation card still admits an administrator; with no role the view model refuses even the author, and the adapters do not |
| CommentService.GetCommentsByPostId | backend/src/main/java/com/uniway/service/CommentService.java:30-38 | exactly the post's approved comments, as many as the approved count |
| CommentService.RefreshCommentCount | backend/src/main/java/com/uniway/service/CommentService.java:182-188 | only that post's row changes, only in its comment count, which then equals the post's approved-comment count |
| CommentService.CreateComment | backend/src/main/java/com/uniway/service/CommentService.java:40-75 | an unknown post and then an unknown author are refused; otherwise a new approved comment of that post and author, stamped now, is appended and the post's count is refreshed |
| CommentService.CreateLeavesOtherPosts | backend/src/main/java/com/uniway/service/CommentService.java:40-75 | creating a comment on one post changes no other post's row or approved count |
| CommentService.UpdateComment | backend/src/main/java/com/uniway/service/CommentService.java:77-117 | the comment must exist, then the user, then the user must be author or administrator, each with its own message; only the content changes and no post row is touched |
| CommentService.DeleteComment | backend/src/main/java/com/uniway/service/CommentService.java:119-159 | succeeds exactly when the comment and the user exist, the user is its author or an administrator, and its post exists; a refused permission gives the permission message and a missing post its own message; on success just that comment goes and its post's count is refreshed |
| CommentService.RemoveComment | backend/src/main/java/com/uniway/service/CommentService.java:152-158 | the rows with the comment's id go, every other comment stays with its multiplicity, only comments and posts change, and the post's stored count equals its approved comments |
| CommentService.ApproveComment | backend/src/main/java/com/uniway/service/CommentService.java:161-176 | succeeds exactly when the comment exists and its post row exists; an unknown comment is refused, and a missing post row fails the count refresh; on success only its approval flag becomes true and its post's count is refreshed |
| CommentService.ApproveRaisesCount | backend/src/main/java/com/uniway/service/CommentService.java:161-176 | approving a comment that was not approved raises its post's approved count by one |
| RecommendationService.ReactionLabel | backend/src/main/java/com/uniway/service/TeacherRecommendationService.java:290-298 | the viewer's reaction is reported as its constant name, LIKE or DISLIKE, and as null when there is none |
| RecommendationService.ConvertRecToDto | backend/src/main/java/com/uniway/service/TeacherRecommendationService.java:264-307 | the DTO copies the row and the student's name, carries the like and dislike counts with their sum as total, reports the viewer's reaction consistently in the two flags and the name, and throws on a missing student or a non-unique reaction lookup |
| RecommendationService.RecDtoFollowsReaction | backend/src/main/java/com/uniway/service/TeacherRecommendationService.java:286-303 | under the one-reaction-per-pair constraint the conversion never throws and reports exactly the reaction the table holds for the viewer |
| RecommendationService.ConvertAll | backend/src/main/java/com/uniway/service/TeacherRecommendationService.java:49-51 | the listing converts every row in order, keeping each row's id, student, subject and active flag, and fails exactly when one conversion fails, with the message of the first failing row |
| RecommendationService.RecommendationsShown | backend/src/main/java/com/uniway/service/TeacherRecommendationService.java:43-47 | a filter that is not blank after trimming selects the active rows of that subject; otherwise every active row is shown, newest first |
| RecommendationService.GetAllRecommendationsWithReactions | backend/src/main/java/com/uniway/service/TeacherRecommendationService.java:40-52 | one DTO per row shown, all active, and all of the filtered subject when a filter applies |
| RecommendationService.GetUserRecommendations | backend/src/main/java/com/uniway/service/TeacherRecommendationService.java:57-63 | one DTO per active recommendation of the user, all the user's and active |
| RecommendationService.SaveRecommendation | backend/src/main/java/com/uniway/service/TeacherRecommendationService.java:95 | the row is saved by key: appended when new, found by its key afterwards, keys stay unique |
| RecommendationService.CreateRecommendation | backend/src/main/java/com/uniway/service/TeacherRecommendationService.java:68-97 | an unknown student is refused, then an active row with the same student, teacher, subject and semester; otherwise a new active row without rating is appended |
| RecommendationService.CreateThenDuplicate | backend/src/main/java/com/uniway/service/TeacherRecommendationService.java:76-82 | creating the same recommendation twice with a semester refuses the second |
| RecommendationService.NullSemesterNeverDuplicate | backend/src/main/java/com/uniway/service/TeacherRecommendationService.java:76-78 | without a semester the duplicate lookup matches nothing |
| RecommendationService.CreateRecommendationWithRating | backend/src/main/java/com/uniway/service/TeacherRecommendationService.java:102-137 | a null rating or one outside 1..5 is refused first, then an unknown student; there is no duplicate check; the new row is active and carries the rating |
| RecommendationService.ToggleRecReaction | backend/src/main/java/com/uniway/service/TeacherRecommendationService.java:142-197 | an unknown recommendation, then an unknown user, then the recommendation's own author are refused; otherwise only the recommendation reaction table changes, by the toggle, and the DTO returned is the converted recommendation |
| RecommendationService.ToggleOnRecommendation | backend/src/main/java/com/uniway/service/TeacherRecommendationService.java:156-197 | a permitted toggle succeeds, keeps one reaction per pair, sets the user's reaction as the toggle table says, reports it in the returned card, and moves each count by one at most |
| RecommendationService.NoSelfReaction | backend/src/main/java/com/uniway/service/TeacherRecommendationService.java:166-168 | a student reacting to their own recommendation is always refused |
| RecommendationService.DeleteRecommendation | backend/src/main/java/com/uniway/service/TeacherRecommendationService.java:203-225 | the recommendation must exist, then the user, then the user must be its author or an administrator; the recommendation and its reactions are removed and nothing else changes |
| RecommendationService.DeleteLeavesOtherCounts | backend/src/main/java/com/uniway/service/TeacherRecommendationService.java:203-225 | after a deletion no reaction points at the recommendation, and every other recommendation keeps its counts |
| RecommendationService.RecommendationStatsOf | backend/src/main/java/com/uniway/service/TeacherRecommendationService.java:230-249 | each figure is a 32-bit cast of its count: the user's active recommendations, the likes and dislikes they received, all active recommendations and all reactions |
| RecommendationService.StatsWithinTotals | backend/src/main/java/com/uniway/service/TeacherRecommendationService.java:230-249 | the user's recommendations never exceed the total, and the likes plus dislikes they received never exceed the total reactions |
| TeacherNames.Capitalize | backend/src/main/java/com/uniway/controller/StudentTeacherCompatibilityController.java:119 | a piece keeps its length, its first character is upper-cased and the rest is unchanged |
| TeacherNames.AppendPieces | backend/src/main/java/com/uniway/controller/StudentTeacherCompatibilityController.java:116-120 | the builder loop throws exactly when some piece is empty |
| TeacherNames.NameOfPieces | backend/src/main/java/com/uniway/controller/StudentTeacherCompatibilityController.java:114-122 | the name is the capitalised pieces joined by single spaces, and an empty piece makes it throw |
| TeacherNames.ExtractTeacherNameFromEmail | backend/src/main/java/com/uniway/controller/StudentTeacherCompatibilityController.java:111-123 | an address whose Java split at '@' is empty throws; otherwise the name is built from the dot-separated pieces of the part before the first '@' |
| TeacherNames.AppendPiecesIsJoin | backend/src/main/java/com/uniway/controller/StudentTeacherCompatibilityController.java:116-122 | the builder loop computes the space-separated join of the capitalised pieces |
| TeacherNames.NameOfDottedEmail | backend/src/main/java/com/uniway/controller/StudentTeacherCompatibilityController.java:111-123 | an address whose local part is non-empty dotted pieces yields those pieces capitalised and joined by spaces, and splitting that name at spaces gives the pieces back when none holds a space |
| ApiClient.StatusMessage | app/src/main/java/com/universidad/uniway/network/ApiClient.kt:136-157 | a 400 whose error body mentions error reports the decoded error field, or the body when decoding throws; the other four recognised codes have fixed messages; any other code is reported by number |
| ApiClient.SafeApiCall | app/src/main/java/com/universidad/uniway/network/ApiClient.kt:125-164 | a 2xx answer with a body is a success carrying it, a 2xx answer without one is the empty-body error, an error status is an error with that code and its message, and a thrown exception is a connection error without code; the result is never Loading |
| ApiClient.UnknownStatusReadable | app/src/main/java/com/universidad/uniway/network/ApiClient.kt:156 | the status of an unrecognised code is read back from its message |
| ApiClient.FixedMessagesDistinct | app/src/main/java/com/universidad/uniway/network/ApiClient.kt:152-156 | the messages of the recognised codes differ from each other and from every unrecognised code's message |
| ApiRepository.RoleOrStudent | app/src/main/java/com/universidad/uniway/network/ApiRepository.kt:328 | a role name the enum knows gives that role; any other text gives STUDENT; ADMINISTRATION comes only from its own name |
| ApiRepository.RoleOrStudentRoundTrip | app/src/main/java/com/universidad/uniway/network/ApiRepository.kt:328 | every role's server name converts back to that role, and any other text to STUDENT |
| ApiRepository.ConvertToUser | app/src/main/java/com/universidad/uniway/network/ApiRepository.kt:320-332 | id, address, name and role (or STUDENT) are copied, missing optional texts become empty, and the password and image are empty |
| ApiRepository.UserRoundTrip | app/src/main/java/com/universidad/uniway/network/ApiRepository.kt:320-332 | converting back what the server sends for a user loses only the password and the image |
| ApiRepository.ConvertToPost | app/src/main/java/com/universidad/uniway/network/ApiRepository.kt:334-358 | texts and flags are copied, unknown role, type and priority names fall back to STUDENT, GENERAL and NORMAL, an unparseable date to now, and the counters are truncated to 32 bits |
| ApiRepository.PostRoundTrip | app/src/main/java/com/universidad/uniway/network/ApiRepository.kt:334-358 | a post whose counters fit in 32 bits and whose date text parses back to its instant survives the trip through the server's response |
| ApiRepository.ConvertToComment | app/src/main/java/com/universidad/uniway/network/ApiRepository.kt:495-510 | texts and the approval flag are copied, an unknown role falls back to STUDENT and an unparseable date to now |
| ApiRepository.CommentRoundTrip | app/src/main/java/com/universidad/uniway/network/ApiRepository.kt:495-510 | a comment whose date text parses back to its instant survives the trip |
| ApiRepository.ConvertToRecommendation | app/src/main/java/com/universidad/uniway/network/ApiRepository.kt:470-493 | texts, counts and reaction flags are copied, a missing semester, year or rating becomes empty or zero, and an unparseable date becomes now |
| ApiRepository.RecommendationRoundTrip | app/src/main/java/com/universidad/uniway/network/ApiRepository.kt:470-493 | a recommendation whose date text parses back to its instant survives the trip |
| ApiRepository.ConvertRecommendations | app/src/main/java/com/universidad/uniway/network/ApiRepository.kt:416-442 | a success is converted element by element into a list of the same length, an error keeps its message and code, and loading stays loading |
| TokenManager.Text | app/src/main/java/com/universidad/uniway/network/TokenManager.kt:28-30 | an entry reads back as present exactly when it is stored, with its stored value |
| TokenManager.PutText | app/src/main/java/com/universidad/uniway/network/TokenManager.kt:24-26 | the written entry reads back as written and every other entry and flag is unchanged |
| TokenManager.SaveToken | app/src/main/java/com/universidad/uniway/network/TokenManager.kt:24-26 | the token reads back as saved and nothing else changes |
| TokenManager.ClearToken | app/src/main/java/com/universidad/uniway/network/TokenManager.kt:32-34 | only the token goes, so no token is held, and the user's details and the flags stay |
| TokenManager.SaveUserInfo | app/src/main/java/com/universidad/uniway/network/TokenManager.kt:42-49 | the four user entries read back as saved and every other entry and flag is unchanged |
| TokenManager.SaveAuthData | app/src/main/java/com/universidad/uniway/network/TokenManager.kt:69-77 | the token and the user's id, address, name and role read back from the response, the remember-me flag is unchanged, and the session is signed in exactly when token and id are non-empty |
| TokenManager.SetRememberMe | app/src/main/java/com/universidad/uniway/network/TokenManager.kt:79-81 | the flag reads back as set and every text entry and other flag is unchanged |
| TokenManager.ClearAllData | app/src/main/java/com/universidad/uniway/network/TokenManager.kt:87-89 | every entry goes: nobody is signed in, the flag reads false, and no text entry is left |
| TokenManager.ClearTokenSignsOut | app/src/main/java/com/universidad/uniway/network/TokenManager.kt:32-34 | dropping the token signs the user out but keeps who they were and the remember-me choice |
| TokenManager.RememberMeKeepsSession | app/src/main/java/com/universidad/uniway/network/TokenManager.kt:79-93 | remembering the choice neither signs anyone in nor out and keeps the token |
| TokenManager.TokenReadBack | app/src/main/java/com/universidad/uniway/network/TokenManager.kt:24-38 | the saved token reads back, a token is held exactly when the saved one is non-empty, and none is held after clearing |
| TokenManager.UserInfoReadBack | app/src/main/java/com/universidad/uniway/network/TokenManager.kt:42-65 | the four user getters read back what was saved, without touching the token, and saving a token leaves them alone |
| TokenManager.LoggedInAfterSave | app/src/main/java/com/universidad/uniway/network/TokenManager.kt:91-93 | after saving a token and the user, the session is signed in exactly when both the token and the id are non-empty; signed in implies a token and an id |
| TokenManager.RememberMeReadBack | app/src/main/java/com/universidad/uniway/network/TokenManager.kt:79-85 | the remember-me flag is false until set and then reads back the last value set |
| UserCache.GetUserByEmail | app/src/main/java/com/universidad/uniway/data/UserRepository.kt:27-30 | the account found is cached with that address, and none is found exactly when no cached account has it |
| UserCache.SaveUser | app/src/main/java/com/universidad/uniway/data/UserRepository.kt:13-25 | the account with the same address is replaced in place, otherwise appended; it is then found by its address, every other address finds what it found before, and distinct addresses stay distinct |
| UserCache.GetCurrentUser | app/src/main/java/com/universidad/uniway/data/UserRepository.kt:42-50 | no pointer finds no one; otherwise the cached account with that id, or no one when none has it |
| UserCache.SetCurrentUser | app/src/main/java/com/universidad/uniway/data/UserRepository.kt:52-54 | only the pointer changes, to the account's id |
| UserCache.Logout | app/src/main/java/com/universidad/uniway/data/UserRepository.kt:56-58 | the pointer goes, so there is no current user, and the cache is untouched |
| UserCache.SaveThenCurrent | app/src/main/java/com/universidad/uniway/data/UserRepository.kt:13-54 | saving an account and pointing at it makes it the current user, when no other cached account shares its id |
| UserCache.Remember | app/src/main/java/com/universidad/uniway/ui/login/LoginViewModel.kt:61-64 | the account is found by its address and is the current user, and every other address finds what it found before |
| AppData.PostWith | app/src/main/java/com/universidad/uniway/data/Post.kt:8-26 | a post built with only these fields named has no pin, alert or reaction flags, is approved, and has zero counters |
| ForumViewModel.MockPosts | app/src/main/java/com/universidad/uniway/ui/forum/ForumViewModel.kt:111-140 | the fallback list is exactly the two sample posts with ids 3 and 4, fifteen and ten minutes older than the clock |
| ForumViewModel.ConvertAll | app/src/main/java/com/universidad/uniway/ui/forum/ForumViewModel.kt:71-73 | every answer element becomes, in order, the converted post at the same position |
| ForumViewModel.AfterLoadError | app/src/main/java/com/universidad/uniway/ui/forum/ForumViewModel.kt:84-96 | a failed load always shows the connection line; the sample posts replace the list only when nothing was shown, otherwise the list is kept |
| ForumViewModel.LoadPosts | app/src/main/java/com/universidad/uniway/ui/forum/ForumViewModel.kt:64-104 | a success replaces the list with the converted posts and clears the error; an error behaves as the error branch; loading changes nothing; the loading flag always ends lowered |
| ForumViewModel.LoadErrorShowsSomething | app/src/main/java/com/universidad/uniway/ui/forum/ForumViewModel.kt:84-96 | after a failed load the forum shows a non-empty list, and a list it had is kept |
| ForumViewModel.UpdatePostInList | app/src/main/java/com/universidad/uniway/ui/forum/ForumViewModel.kt:206-214 | with no list nothing happens; otherwise the list keeps its length and the first post with the updated id is replaced |
| ForumViewModel.UpdateOnlyTouchesId | app/src/main/java/com/universidad/uniway/ui/forum/ForumViewModel.kt:206-214 | only the first position with the id changes, to the new post; with no such post the list is unchanged |
| ForumViewModel.LocalReaction | app/src/main/java/com/universidad/uniway/ui/forum/ForumViewModel.kt:216-254 | the optimistic copy: pressing an active reaction withdraws it, pressing an inactive one sets it and withdraws the other, each counter moving by one with 32-bit wrap, and the two flags never both set |
| ForumViewModel.LocalReactionKeepsOthers | app/src/main/java/com/universidad/uniway/ui/forum/ForumViewModel.kt:216-254 | the counts of other users' reactions (counter minus the user's own) are unchanged by the optimistic copy |
| ForumViewModel.LocalReactionTwice | app/src/main/java/com/universidad/uniway/ui/forum/ForumViewModel.kt:216-254 | pressing the same button twice restores the post when the first press did not clear the other reaction |
| ForumViewModel.UpdatePostLikeLocally | app/src/main/java/com/universidad/uniway/ui/forum/ForumViewModel.kt:216-256 | the optimistic copy replaces the first post with the tapped id; with no such post or no list nothing changes |
| ForumViewModel.ReactToPost | app/src/main/java/com/universidad/uniway/ui/forum/ForumViewModel.kt:142-204 | without a user id only the error line is set; a success replaces the shown post with the server's; a failure applies the optimistic copy and reports the like or dislike failure; loading changes nothing |
| ForumViewModel.ReactKeepsFlagsExclusive | app/src/main/java/com/universidad/uniway/ui/forum/ForumViewModel.kt:142-256 | no shown post ever becomes both liked and disliked through a reaction |
| ForumViewModel.EditPost | app/src/main/java/com/universidad/uniway/ui/forum/ForumViewModel.kt:258-293 | without an email only the error line is set; a success replaces the post and clears the error; a failure keeps the list and reports it |
| ForumViewModel.EditChangesOnlyThroughServer | app/src/main/java/com/universidad/uniway/ui/forum/ForumViewModel.kt:258-293 | the list changes only after a successful edit, and then keeps its length and changes only a post with the edited id, into the server's copy |
| ForumViewModel.DeletePost | app/src/main/java/com/universidad/uniway/ui/forum/ForumViewModel.kt:295-328 | without an email only the error line is set; a success removes the posts with the id and clears the error; a failure keeps the list and reports it |
| ForumViewModel.DeleteRemovesExactly | app/src/main/java/com/universidad/uniway/ui/forum/ForumViewModel.kt:311-318 | after a successful delete no shown post has the id, every other post is still shown, and nothing new appears |
| ForumViewModel.CanModifyNeedsSession | app/src/main/java/com/universidad/uniway/ui/forum/ForumViewModel.kt:335-371 | edit and delete are allowed exactly when the session has both id and role and the user is the author or an administrator |
| ForumViewModel.CanModifyPostAgreesWithServer | app/src/main/java/com/universidad/uniway/ui/forum/ForumViewModel.kt:335-371 | with a user's own session stored, the edit and delete checks allow exactly what the server's author-or-administrator rule allows |
| ForumViewModel.LocalPost | app/src/main/java/com/universidad/uniway/ui/forum/ForumViewModel.kt:432-450 | the local post carries the fresh id, the session's user as author, the given content, type, priority and clock, and zero counters and no reaction |
| ForumViewModel.CreatePost | app/src/main/java/com/universidad/uniway/ui/forum/ForumViewModel.kt:374-430 | without id, email or name only the error line is set; otherwise a success puts the server's post first and a failure puts the local post first and reports it, the earlier list following unchanged; loading changes nothing |
| ForumViewModel.CreateOfflineFindsPost | app/src/main/java/com/universidad/uniway/ui/forum/ForumViewModel.kt:419-450 | a post created while the server fails is found in the list by its fresh id, as built locally |
| PostAdapter.PostTypeLabel | app/src/main/java/com/universidad/uniway/ui/forum/PostAdapter.kt:69-88 | the type badge is hidden exactly for GENERAL posts |
| PostAdapter.LabelNamesType | app/src/main/java/com/universidad/uniway/ui/forum/PostAdapter.kt:69-88 | two posts showing the same badge have the same type |
| PostAdapter.FormatTimestamp | app/src/main/java/com/universidad/uniway/ui/forum/PostAdapter.kt:150-160 | under a minute reads as just now, under an hour in whole minutes, under a day in whole hours, and older posts show their date |
| PostAdapter.AgeShownRoundedDown | app/src/main/java/com/universidad/uniway/ui/forum/PostAdapter.kt:155-157 | the number shown is the age rounded down, between 1 and 59 minutes or between 1 and 23 hours |
| PostAdapter.AdapterIsViewerRule | app/src/main/java/com/universidad/uniway/ui/forum/PostAdapter.kt:165-222 | the adapter's edit and delete checks allow exactly what the list-screen rule allows for the role's name: a known user who is the author or an administrator |
| PostAdapter.PostActions | app/src/main/java/com/universidad/uniway/ui/forum/PostAdapter.kt:90-100 | edit and delete buttons and their row are shown together, exactly when the adapter's rule allows |
| Lists.Prepend | app/src/main/java/com/universidad/uniway/ui/forum/PostAdapter.kt:129-132 | the new element is first and the old list follows unchanged; `addComment` in CommentAdapter.kt:81-84 is the same operation on comments |
| PostAdapter.UpdatePost | app/src/main/java/com/universidad/uniway/ui/forum/PostAdapter.kt:134-140 | only the first post with the id is replaced; with none the list is unchanged |
| PostAdapter.RemovePost | app/src/main/java/com/universidad/uniway/ui/forum/PostAdapter.kt:142-148 | only the first post with the id is removed, one fewer post with that id remains; with none the list is unchanged |
| PostAdapter.AddThenRemoveOrUpdate | app/src/main/java/com/universidad/uniway/ui/forum/PostAdapter.kt:129-148 | removing an added post's id restores the list, and updating it changes only the top |
| CommentsViewModel.MockComments | app/src/main/java/com/universidad/uniway/ui/comments/CommentsViewModel.kt:149-176 | the fallback list is exactly the two sample comments mock-1 and mock-2 on the requested post, one and two hours older than the clock |
| CommentsViewModel.ConvertAll | app/src/main/java/com/universidad/uniway/ui/comments/CommentsViewModel.kt:79-82 | every answer element becomes, in order, the converted comment at the same position |
| CommentsViewModel.AfterLoadError | app/src/main/java/com/universidad/uniway/ui/comments/CommentsViewModel.kt:87-95 | a failed load always shows the error line; the sample comments replace the list only when nothing was shown, otherwise the list is kept |
| CommentsViewModel.LoadComments | app/src/main/java/com/universidad/uniway/ui/comments/CommentsViewModel.kt:71-102 | a success replaces the list with the converted comments and clears the error; an error behaves as the error branch; loading changes nothing; the loading flag ends lowered |
| CommentsViewModel.LoadErrorShowsSomething | app/src/main/java/com/universidad/uniway/ui/comments/CommentsViewModel.kt:87-95 | after a failed load the sheet shows a non-empty list, and a list it had is kept |
| CommentsViewModel.LocalComment | app/src/main/java/com/universidad/uniway/ui/comments/CommentsViewModel.kt:178-196 | the local comment carries the fresh id, the post, the content, the session's user and the clock, is approved, and takes the named role or STUDENT when the role is missing or unknown |
| CommentsViewModel.AddComment | app/src/main/java/com/universidad/uniway/ui/comments/CommentsViewModel.kt:104-147 | without id, email or name only the error line is set; a success records the server's comment as added; a failure reports it and puts the local comment first; loading changes nothing |
| CommentsViewModel.AddOfflineFindsComment | app/src/main/java/com/universidad/uniway/ui/comments/CommentsViewModel.kt:134-140 | a comment added while the server fails is found by its fresh id, approved, on its post, with its content |
| CommentsViewModel.UpdateCommentInList | app/src/main/java/com/universidad/uniway/ui/comments/CommentsViewModel.kt:296-317 | with no list nothing happens; otherwise the list keeps its length and the first comment with the updated id is replaced |
| CommentsViewModel.UpdateOnlyTouchesId | app/src/main/java/com/universidad/uniway/ui/comments/CommentsViewModel.kt:307-316 | only the first position with the id changes, to the new comment; with no such comment the list is unchanged |
| CommentsViewModel.RemoveCommentFromList | app/src/main/java/com/universidad/uniway/ui/comments/CommentsViewModel.kt:319-323 | every comment with the id goes, every other comment stays, and nothing new appears |
| CommentsViewModel.EditComment | app/src/main/java/com/universidad/uniway/ui/comments/CommentsViewModel.kt:198-258 | without id or email only the error line is set; the server's comment replaces the shown one and clears the error; an error answer or an exception reports it and applies the new content locally; loading changes nothing |
| CommentsViewModel.FailedEditChangesOnlyContent | app/src/main/java/com/universidad/uniway/ui/comments/CommentsViewModel.kt:234-256 | after a failed edit the list keeps its length and each comment is either unchanged or the same comment with the new content |
| CommentsViewModel.DeleteComment | app/src/main/java/com/universidad/uniway/ui/comments/CommentsViewModel.kt:260-294 | without id or email only the error line is set; a success removes the comment and clears the error; a failure keeps the list and reports it |
| CommentsViewModel.DeleteThenNotFound | app/src/main/java/com/universidad/uniway/ui/comments/CommentsViewModel.kt:277-281 | after a successful delete the comment's id is no longer found and every other id is found as before |
| CommentAdapter.DivDiv | app/src/main/java/com/universidad/uniway/ui/comments/CommentAdapter.kt:90-93 | the successive truncating divisions into seconds, minutes, hours and days equal single divisions of the age in milliseconds |
| CommentAdapter.TimeAgoBuckets | app/src/main/java/com/universidad/uniway/ui/comments/CommentAdapter.kt:86-101 | a day or more shows whole days, an hour or more whole hours, a minute or more whole minutes, and anything younger or in the future shows "ahora" |
| CommentAdapter.TimeAgo | app/src/main/java/com/universidad/uniway/ui/comments/CommentAdapter.kt:86-101 | the text is "ahora" exactly when the comment is under a minute old (or dated in the future), and otherwise digits followed by a unit letter d, h or m |
| CommentAdapter.CommentActions | app/src/main/java/com/universidad/uniway/ui/comments/CommentAdapter.kt:49-57 | edit and delete buttons and their row are shown together, exactly when the viewer is the author or an administrator, and never without a user id |
| CommentAdapter.UpdateComment | app/src/main/java/com/universidad/uniway/ui/comments/CommentAdapter.kt:165-180 | only the first comment with the id is replaced; with none the list is unchanged |
| CommentAdapter.RemoveComment | app/src/main/java/com/universidad/uniway/ui/comments/CommentAdapter.kt:182-188 | only the first comment with the id is removed, one fewer comment with that id remains; with none the list is unchanged |
| CommentAdapter.AddThenRemoveOrUpdate | app/src/main/java/com/universidad/uniway/ui/comments/CommentAdapter.kt:81-188 | removing an added comment's id restores the list, and updating it changes only the top |
| AllRecommendationsViewModel.LoadAll | app/src/main/java/com/universidad/uniway/ui/teacher/AllRecommendationsViewModel.kt:32-75 | the error line is cleared before the call; a success shows every recommendation, an error an empty list and the reason, loading keeps the list; the loading flag ends lowered |
| AllRecommendationsViewModel.LoadAllForgetsShown | app/src/main/java/com/universidad/uniway/ui/teacher/AllRecommendationsViewModel.kt:32-75 | an answered load decides the list, the flag and the error line whatever was shown before; a success shows exactly the recommendations received, an error an empty list |
| AllRecommendationsViewModel.ReactErrorTextClassifies | app/src/main/java/com/universidad/uniway/ui/teacher/AllRecommendationsViewModel.kt:99-107 | a failed reaction reads as the own-recommendation refusal exactly when the reason mentions it, as already reacted exactly when only that is mentioned, and otherwise quotes the reason |
| AllRecommendationsViewModel.React | app/src/main/java/com/universidad/uniway/ui/teacher/AllRecommendationsViewModel.kt:82-146 | the list is never edited: without a user only the error line is set, a success reports the like or dislike, a failure shows the classified text, loading changes nothing |
| AllRecommendationsViewModel.ReactShowsNothingUntilReload | app/src/main/java/com/universidad/uniway/ui/teacher/AllRecommendationsViewModel.kt:82-146 | a shown recommendation stays shown as it was after a reaction, and the following reload shows what it would have shown without the reaction, apart from the success line |
| AllRecommendationsViewModel.DeleteErrorTextClassifies | app/src/main/java/com/universidad/uniway/ui/teacher/AllRecommendationsViewModel.kt:165-173 | a failed delete reads as a permission refusal exactly when the reason mentions permissions, as missing exactly when only that is mentioned, and otherwise quotes the reason |
| AllRecommendationsViewModel.Delete | app/src/main/java/com/universidad/uniway/ui/teacher/AllRecommendationsViewModel.kt:148-179 | the list is never edited: without a user only the error line is set, a success reports the deletion, a failure shows the classified text |
| AllRecommendationsDeletion.DeletedShownUntilReload | app/src/main/java/com/universidad/uniway/ui/teacher/AllRecommendationsViewModel.kt:148-179 | a deleted recommendation is still shown until the reload; the reload ignores the deletion apart from the success line, and after a successful one the recommendation is shown exactly when the server still lists it |
| MyRecommendationsViewModel.LoadMine | app/src/main/java/com/universidad/uniway/ui/teacher/MyRecommendationsViewModel.kt:31-60 | without a user id only the error line is set; otherwise a success shows the user's list, an error an empty list and the reason, and the flag ends lowered |
| MyRecommendationsViewModel.Remove | app/src/main/java/com/universidad/uniway/ui/teacher/MyRecommendationsViewModel.kt:62-91 | the list is never edited: a success reports the deletion, a failure quotes the reason, and the flag ends lowered |
| MyRecommendationsViewModel.RemovedShownUntilReload | app/src/main/java/com/universidad/uniway/ui/teacher/MyRecommendationsViewModel.kt:62-91 | a removed recommendation is still shown until the reload, and the reload shows what it would have shown without the removal, apart from the success line |
| MyRecommendationsViewModel.LoadForgetsOldList | app/src/main/java/com/universidad/uniway/ui/teacher/MyRecommendationsViewModel.kt:45-53 | an answered load decides the shown list alone, whatever list was shown before |
| TeacherListViewModel.LoadTeachers | app/src/main/java/com/universidad/uniway/ui/teacherlist/TeacherListViewModel.kt:28-61 | without a user only the error line is set; a success shows the list and clears the error; an error shows the reason with an empty list |
| TeacherListViewModel.LoadTeachersForgetsShown | app/src/main/java/com/universidad/uniway/ui/teacherlist/TeacherListViewModel.kt:28-61 | an answered load decides the list, the flag and the error line whatever was shown before; a success shows exactly the recommendations received |
| TeacherListViewModel.RemoveTeacher | app/src/main/java/com/universidad/uniway/ui/teacherlist/TeacherListViewModel.kt:63-86 | the list is kept; a failure shows the reason and otherwise only the flag is lowered |
| TeacherListViewModel.RemovedTeacherShownUntilReload | app/src/main/java/com/universidad/uniway/ui/teacherlist/TeacherListViewModel.kt:63-86 | a removed teacher is still shown until the reload, and an answered reload shows exactly what it would have shown without the removal |
| TeacherMainViewModel.LoadStatistics | app/src/main/java/com/universidad/uniway/ui/teacher/TeacherMainViewModel.kt:27-53 | without a user only the error line is set; a success copies the two counts; an error zeroes both and leaves the error line alone; loading changes nothing |
| TeacherMainViewModel.LoadStatisticsForgetsShown | app/src/main/java/com/universidad/uniway/ui/teacher/TeacherMainViewModel.kt:27-53 | for a known user an answered load decides both counts whatever was shown before; without a user the old counts stay |
| TeacherMainViewModel.StatsShowServerCounts | backend/src/main/java/com/uniway/service/TeacherRecommendationService.java:230-249 | answered by the server's statistics, the tab shows the user's active recommendations and all active ones, never more of the first than of the second |
| RecommendationCard.OrElse | app/src/main/java/com/universidad/uniway/ui/teacher/TeacherRecommendationAdapter.kt:59-73 | an empty text is replaced by the fallback and any other text is kept, so the result is never empty |
| RecommendationCard.RatingText | app/src/main/java/com/universidad/uniway/ui/teacher/TeacherRecommendationAdapter.kt:64-70 | a positive rating shows exactly that many stars followed by the "(r/5)" part; zero or less shows the unrated text |
| RecommendationCard.RepeatAt | app/src/main/java/com/universidad/uniway/ui/teacher/TeacherRecommendationAdapter.kt:66 | every character of a repeated one-character text is that character |
| RecommendationCard.RatingTextsDiffer | app/src/main/java/com/universidad/uniway/ui/teacher/TeacherRecommendationAdapter.kt:64-70 | a rated text is never the unrated one and different positive ratings give different texts |
| RecommendationCard.RatingTextDeterminesRating | app/src/main/java/com/universidad/uniway/ui/teacher/TeacherRecommendationAdapter.kt:64-70 | the rating text tells the rating back: equal texts mean both unrated or the same rating |
| RecommendationCard.CardTextOf | app/src/main/java/com/universidad/uniway/ui/teacher/TeacherRecommendationAdapter.kt:58-77 | the card shows the teacher, the recommender and the reference with their fallbacks, the rating text and the two reaction highlights |
| RecommendationCard.RemoveVisibleForSession | app/src/main/java/com/universidad/uniway/ui/teacher/TeacherRecommendationAdapter.kt:87-95 | with both providers reading a user's session, the remove button shows exactly when the server would let that user delete the recommendation |
| RecommendationCard.NoProvidersNoRemove | app/src/main/java/com/universidad/uniway/ui/teacher/TeacherRecommendationAdapter.kt:87-95 | without providers the remove button never shows |
| RecommendationCard.SameContents | app/src/main/java/com/universidad/uniway/ui/teacher/TeacherRecommendationAdapter.kt:144-152 | same contents means full equality, and implies the same item |
| RecommendationLists.SubjectOptions | app/src/main/java/com/universidad/uniway/ui/teacher/AllRecommendationsFragment.kt:167-180 | the spinner offers "all subjects" first, then every subject of the list exactly once, in strictly increasing order, and no other |
| RecommendationLists.ViewOf | app/src/main/java/com/universidad/uniway/ui/teacher/AllRecommendationsFragment.kt:201-210 | the empty state replaces the list exactly when nothing is to be shown |
| RecommendationLists.FilterBySubject | app/src/main/java/com/universidad/uniway/ui/teacher/AllRecommendationsFragment.kt:182-192 | "all subjects" shows everything with no clear icon; any other choice shows, in order, exactly the recommendations of that subject, with the clear icon |
| RecommendationLists.ClearFilter | app/src/main/java/com/universidad/uniway/ui/teacher/AllRecommendationsFragment.kt:194-199 | clearing is choosing the first option, so everything shows again |
| RecommendationLists.OptionsNeverEmpty | app/src/main/java/com/universidad/uniway/ui/teacher/AllRecommendationsFragment.kt:167-192 | every option the spinner offers shows something unless the whole list is empty |
| RecommendationLists.OnRecommendations | app/src/main/java/com/universidad/uniway/ui/teacher/AllRecommendationsFragment.kt:138-148 | a new list is shown whole and the subject options are rebuilt from it |
| RecommendationLists.RemoveClick | app/src/main/java/com/universidad/uniway/ui/teacher/AllRecommendationsFragment.kt:54-65 | the remove click asks for confirmation exactly when the session's user wrote the recommendation or is an administrator, and otherwise shows the refusal |
| RecommendationLists.ReactClick | app/src/main/java/com/universidad/uniway/ui/teacher/AllRecommendationsFragment.kt:66-87 | a like or dislike is sent exactly when the recommendation is not the user's own; otherwise only the matching toast shows |
| RecommendationLists.AllRecommendationsConfig | app/src/main/java/com/universidad/uniway/ui/teacher/AllRecommendationsFragment.kt:53-91 | the all-recommendations adapter has every handler, shows own actions and reads both the user id and the role from the session |
| RecommendationLists.VisibleRemoveConfirms | app/src/main/java/com/universidad/uniway/ui/teacher/AllRecommendationsFragment.kt:53-91 | on the all-recommendations list the remove button shows exactly when its click leads to the confirmation |
| RecommendationLists.TeacherListConfigAsWritten | app/src/main/java/com/universidad/uniway/ui/teacherlist/TeacherListFragment.kt:53-60 | the student's own list passes a remove handler and own actions but no session providers |
| RecommendationLists.TeacherListRemoveNeverShown | app/src/main/java/com/universidad/uniway/ui/teacherlist/TeacherListFragment.kt:53-60 | as written, the remove button never shows on the student's own list |
| RecommendationLists.TeacherListConfig | app/src/main/java/com/universidad/uniway/ui/teacherlist/TeacherListFragment.kt:53-60 | the corrected adapter for the student's own list reads the user id and role from the session |
| RecommendationLists.TeacherListRemoveShown | app/src/main/java/com/universidad/uniway/ui/teacherlist/TeacherListFragment.kt:53-60 | with the providers every recommendation on a student's own list shows its remove button, and the button follows the server's delete rule |
| AddTeacherViewModel.ExtractYear | app/src/main/java/com/universidad/uniway/ui/addteacher/AddTeacherViewModel.kt:89-94 | the year is the piece before the first dash when it reads as a 32-bit integer in ASCII digits, and otherwise the current year |
| AddTeacherViewModel.SplitFirst | app/src/main/java/com/universidad/uniway/ui/addteacher/AddTeacherViewModel.kt:92 | the first piece of a split is the text before the first separator |
| AddTeacherViewModel.YearOfSemester | app/src/main/java/com/universidad/uniway/ui/addteacher/AddTeacherViewModel.kt:89-94 | a semester written as year, dash, term gives back its year whatever the term |
| AddTeacherViewModel.NoYearFallsBack | app/src/main/java/com/universidad/uniway/ui/addteacher/AddTeacherViewModel.kt:89-94 | a semester with nothing before its dash falls back to the current year |
| AddTeacherViewModel.AddressLocalPart | app/src/main/java/com/universidad/uniway/ui/addteacher/AddTeacherViewModel.kt:74-84 | the cleaned name holds only lower-case letters and dots and is never longer than the name |
| AddTeacherViewModel.EmailFromName | app/src/main/java/com/universidad/uniway/ui/addteacher/AddTeacherViewModel.kt:72-87 | the generated address is the cleaned name followed by the institutional domain |
| AddTeacherViewModel.PlainNameAddress | app/src/main/java/com/universidad/uniway/ui/addteacher/AddTeacherViewModel.kt:74-84 | a name already in lower-case letters, dots and inner spaces loses nothing: each space becomes a dot and every other character stays |
| AddTeacherViewModel.AddressLocalPartIdempotent | app/src/main/java/com/universidad/uniway/ui/addteacher/AddTeacherViewModel.kt:74-84 | cleaning an already cleaned name changes nothing |
| AddTeacherViewModel.CleanNameFixed | app/src/main/java/com/universidad/uniway/ui/addteacher/AddTeacherViewModel.kt:74-84 | a name made only of lower-case letters and dots comes out of the cleaning unchanged |
| AddTeacherViewModel.RequestOf | app/src/main/java/com/universidad/uniway/ui/addteacher/AddTeacherViewModel.kt:40-48 | the request carries the session's student id, the fields as typed and the year taken from the semester |
| AddTeacherViewModel.AddRecommendation | app/src/main/java/com/universidad/uniway/ui/addteacher/AddTeacherViewModel.kt:27-70 | without a user id only the error line is set; otherwise both lines are cleared, a success names the teacher, a failure quotes the reason, and the flag ends lowered |
| AddTeacherViewModel.OneMessageAfterAnswer | app/src/main/java/com/universidad/uniway/ui/addteacher/AddTeacherViewModel.kt:56-62 | after an answer exactly one of the two lines is non-empty, the success line exactly when the call succeeded |
| AddTeacherForm.InitialForm | app/src/main/java/com/universidad/uniway/ui/addteacher/AddTeacherFragment.kt:126-129 | the form opens empty with the default semester 2024-2 and no stars |
| AddTeacherForm.DefaultSemesterYear | app/src/main/java/com/universidad/uniway/ui/addteacher/AddTeacherFragment.kt:126-129 | the default semester is read as the year 2024 |
| AddTeacherForm.Check | app/src/main/java/com/universidad/uniway/ui/addteacher/AddTeacherFragment.kt:131-181 | the trimmed fields are submitted exactly when every rule holds; an empty name is reported on the name field; the missing-stars toast shows exactly when only the rating is missing |
| AddTeacherForm.FirstBrokenRuleShown | app/src/main/java/com/universidad/uniway/ui/addteacher/AddTeacherFragment.kt:138-166 | the field error shown is the first broken rule in the order name, subject, semester, reference, and a field error shows exactly when a text rule is broken |
| AddTeacherForm.SetRating | app/src/main/java/com/universidad/uniway/ui/addteacher/AddTeacherFragment.kt:96-124 | five stars of which exactly those below the rating are filled, with the rating's caption |
| AddTeacherForm.CaptionShowsRating | app/src/main/java/com/universidad/uniway/ui/addteacher/AddTeacherFragment.kt:113-121 | a rating from 1 to 5 is captioned with that many stars, so different ratings have different captions |
| AddTeacherForm.ClearForm | app/src/main/java/com/universidad/uniway/ui/addteacher/AddTeacherFragment.kt:183-189 | everything but the semester is emptied and the stars reset, so the cleared form stops at the empty name |
| AddTeacherForm.OnSuccessMessage | app/src/main/java/com/universidad/uniway/ui/addteacher/AddTeacherFragment.kt:60-67 | a non-empty success line clears the form and an empty one leaves it |
| AddTeacherForm.PublishedClearsForm | app/src/main/java/com/universidad/uniway/ui/addteacher/AddTeacherFragment.kt:60-67 | after a publication the form is cleared, so pressing publish again stops at the empty name instead of sending twice |
| AddTeacherForm.PublishButton | app/src/main/java/com/universidad/uniway/ui/addteacher/AddTeacherFragment.kt:55-58 | the publish button is enabled exactly when no call is running, and reads "Publicando..." exactly when it is disabled |
| AddTeacherForm.ButtonBackAfterAnswer | app/src/main/java/com/universidad/uniway/ui/addteacher/AddTeacherFragment.kt:55-58 | whatever a signed-in user's publish call answers, the button is enabled again with its caption; without a user it keeps its state |
| ProfileViewModel.SessionUser | app/src/main/java/com/universidad/uniway/ui/profile/ProfileViewModel.kt:121-131 | the rebuilt account carries the session's id, e-mail and name, the named role or STUDENT, and no password or optional fields |
| ProfileViewModel.LoadFromSession | app/src/main/java/com/universidad/uniway/ui/profile/ProfileViewModel.kt:96-144 | without a session e-mail nothing is shown; a cached account with that e-mail is shown; any account shown has the session's e-mail |
| ProfileViewModel.LoadCurrentUser | app/src/main/java/com/universidad/uniway/ui/profile/ProfileViewModel.kt:40-94 | without a session e-mail nothing is shown; without a token or on a server error the session fallback applies; a server account with the session's e-mail is shown, cached and written to the session |
| ProfileViewModel.ProfileIsSignedInUser | app/src/main/java/com/universidad/uniway/ui/profile/ProfileViewModel.kt:40-144 | whatever path a load takes, an account shown has the signed-in e-mail, and the session keeps that e-mail |
| ProfileViewModel.EditedUser | app/src/main/java/com/universidad/uniway/ui/profile/ProfileViewModel.kt:201-215 | the four typed fields replace the account's and every other field is kept |
| ProfileViewModel.UpdateLocally | app/src/main/java/com/universidad/uniway/ui/profile/ProfileViewModel.kt:201-215 | the edited account is cached, made current, shown and reported as updated, and the session is untouched |
| ProfileViewModel.UpdateProfile | app/src/main/java/com/universidad/uniway/ui/profile/ProfileViewModel.kt:146-199 | a blank name, then a blank e-mail, then an e-mail the pattern refuses is reported with the flag lowered; the session is never written; an account reported as updated is the one shown |
| ProfileViewModel.UpdateAccepted | app/src/main/java/com/universidad/uniway/ui/profile/ProfileViewModel.kt:162-199 | with no account shown nothing happens and the flag stays raised; without a token or on an error the local edit applies; a success shows and reports the server's account |
| ProfileViewModel.LocalEditIsFoundAgain | app/src/main/java/com/universidad/uniway/ui/profile/ProfileViewModel.kt:201-215 | a local edit is what a later load from the session finds under the new e-mail |
| ProfileViewModel.LocalEditIdempotent | app/src/main/java/com/universidad/uniway/ui/profile/ProfileViewModel.kt:201-215 | saving the same edit twice shows and caches the same account |
| RegisterViewModel.StudentFields | app/src/main/java/com/universidad/uniway/ui/register/RegisterViewModel.kt:74-75 | a student id built from the clock and the fixed programme are sent for a student and for no one else |
| RegisterViewModel.RequestOf | app/src/main/java/com/universidad/uniway/ui/register/RegisterViewModel.kt:74-77 | the request carries the typed address, password, name and role, with the student fields exactly for a student |
| RegisterViewModel.SendVerificationCode | app/src/main/java/com/universidad/uniway/ui/register/RegisterViewModel.kt:47-92 | an empty name or a password under six characters is refused with no call; otherwise the details are kept for the last step, the completed address is used, and the server's answer is reported |
| RegisterViewModel.EmptyAddressIsSentToDomain | app/src/main/java/com/universidad/uniway/ui/register/RegisterViewModel.kt:56-63 | the completed address is never empty, so an empty typed address is sent as the bare domain |
| RegisterViewModel.TestCodesAreSixDigits | app/src/main/java/com/universidad/uniway/ui/register/RegisterViewModel.kt:309-311 | each of the four test codes is six decimal digits |
| RegisterViewModel.VerifyCode | app/src/main/java/com/universidad/uniway/ui/register/RegisterViewModel.kt:99-156 | the code counts as verified exactly when the server says valid, or the server errs saying the code was used, or errs on a test code; a server "invalid" reports its message or the fixed one; an answer still loading leaves the verification under way |
| RegisterViewModel.TestCodeOverridesOnlyErrors | app/src/main/java/com/universidad/uniway/ui/register/RegisterViewModel.kt:109-137 | a server that answers "invalid" is believed even for a test code, while a server error on a test code still verifies |
| RegisterViewModel.RegisteredUser | app/src/main/java/com/universidad/uniway/ui/register/RegisterViewModel.kt:183-200 | the cached account is the server's account with the password that was typed |
| RegisterViewModel.CompleteRegistration | app/src/main/java/com/universidad/uniway/ui/register/RegisterViewModel.kt:161-243 | a success saves the session and caches the account with its password as current; an error about the code gets the fixed duplicate-verification message; any other error is passed through |
| RegisterViewModel.CompleteRequestOf | app/src/main/java/com/universidad/uniway/ui/register/RegisterViewModel.kt:177-181 | the final request carries the typed details, the student fields and the code |
| RegisterViewModel.RegisteredSignsInOffline | app/src/main/java/com/universidad/uniway/ui/register/RegisterViewModel.kt:183-200 | a freshly registered account signs in from the device with its password when the server later fails |
| RegisterViewModel.ResendVerificationCode | app/src/main/java/com/universidad/uniway/ui/register/RegisterViewModel.kt:259-277 | the answer is reported with the address as given and nothing else changes but the flag |
| RegisterViewModel.ResendAfterSend | app/src/main/java/com/universidad/uniway/ui/register/RegisterViewModel.kt:259-277 | resending to the address the first step kept reports the same completed address and keeps the details for the last step |
| RegisterViewModel.ResendDoesNotComplete | app/src/main/java/com/universidad/uniway/ui/register/RegisterViewModel.kt:259-277 | a resend reports a bare name as given, whereas the first step reports it completed with the domain |
| RegisterViewModel.RegisterUser | app/src/main/java/com/universidad/uniway/ui/register/RegisterViewModel.kt:282-285 | the older entry point forwards to the first step, so it sends exactly when the first step does |
| RegisterViewModel.ConfirmationIgnored | app/src/main/java/com/universidad/uniway/ui/register/RegisterViewModel.kt:282-285 | the confirmation plays no part in the older entry point |
| RegisterViewModel.ValidateInputs | app/src/main/java/com/universidad/uniway/ui/register/RegisterViewModel.kt:287-304 | no error exactly when the name is not blank, the address is institutional and the password has six characters; a blank name and then a bad address are reported first |
| RegisterViewModel.CleanPhone | app/src/main/java/com/universidad/uniway/ui/register/RegisterViewModel.kt:318-321 | the cleaned number is no longer than the typed one and holds no formatting character |
| RegisterViewModel.CleanPhoneConcat | app/src/main/java/com/universidad/uniway/ui/register/RegisterViewModel.kt:319 | cleaning distributes over concatenation |
| RegisterViewModel.CleanPhoneKeepsPlain | app/src/main/java/com/universidad/uniway/ui/register/RegisterViewModel.kt:319 | a number with no formatting character is its own cleaning |
| RegisterViewModel.PhoneIgnoresFormatting | app/src/main/java/com/universidad/uniway/ui/register/RegisterViewModel.kt:318-321 | inserting a formatting character anywhere does not change the phone verdict |
| RegisterViewModel.PlainDigitsAreValid | app/src/main/java/com/universidad/uniway/ui/register/RegisterViewModel.kt:318-321 | ten or more bare digits are a valid phone number, and cleaning is idempotent |
| RegisterViewModel.OtherCharRejectsPhone | app/src/main/java/com/universidad/uniway/ui/register/RegisterViewModel.kt:318-321 | a character that is neither whitespace, a dash, a parenthesis or a plus nor a digit makes the number invalid wherever it stands |
| RegisterForm.ValidateInputs | app/src/main/java/com/universidad/uniway/ui/register/RegisterFragment.kt:85-110 | no error exactly when the name is not empty, the address is not empty and passes the pattern if it has an '@', the password has six characters and the confirmation matches; the name and then the address are reported first |
| RegisterForm.BareNamePassesAddressRule | app/src/main/java/com/universidad/uniway/ui/register/RegisterFragment.kt:96 | a bare user name without '@' passes the address rule whatever the pattern says |
| RegisterForm.ValidatePasswordMatch | app/src/main/java/com/universidad/uniway/ui/register/RegisterFragment.kt:112-123 | the check passes exactly for a non-empty password equal to its confirmation, and the error shows exactly when it fails with a non-empty confirmation |
| RegisterForm.ValidFormMatches | app/src/main/java/com/universidad/uniway/ui/register/RegisterFragment.kt:85-123 | a form that passes the input checks also passes the confirmation check without an error |
| RegisterForm.SelectedRole | app/src/main/java/com/universidad/uniway/ui/register/RegisterFragment.kt:125-130 | only the student button gives a role, STUDENT; the form never produces ADMINISTRATION |
| RegisterForm.OnRegisterClick | app/src/main/java/com/universidad/uniway/ui/register/RegisterFragment.kt:65-83 | the code is asked for exactly when the trimmed inputs pass and the student button is checked, with the trimmed name and address, the typed password and STUDENT |
| RegisterForm.FormPassesViewModel | app/src/main/java/com/universidad/uniway/ui/register/RegisterFragment.kt:65-83 | whatever the form hands over passes the view model's own check and is sent to the server |
| ResetPasswordForm.OnResetClick | app/src/main/java/com/universidad/uniway/ui/resetpassword/ResetPasswordFragment.kt:75-104 | the request is submitted exactly when the trimmed code and the password are not blank, the password has six characters, the confirmation matches and an address was passed in; a blank code and then a blank password are reported first |
| ResetPasswordForm.FormPassesViewModel | app/src/main/java/com/universidad/uniway/ui/resetpassword/ResetPasswordFragment.kt:75-104 | what the form submits is sent by the view model exactly when the address is not blank |
| EmailVerificationScreen.NewInstance | app/src/main/java/com/universidad/uniway/ui/register/EmailVerificationFragment.kt:49-64 | the screen is opened with exactly the address, name, password and role entries |
| EmailVerificationScreen.RoleArgument | app/src/main/java/com/universidad/uniway/ui/register/EmailVerificationFragment.kt:97-101 | the role is ADMINISTRATION exactly for that name, and STUDENT for anything else or nothing |
| EmailVerificationScreen.ValidateArguments | app/src/main/java/com/universidad/uniway/ui/register/EmailVerificationFragment.kt:90-104 | the arguments are accepted exactly when there is a non-empty address, with the name and password defaulting to empty |
| EmailVerificationScreen.ArgumentsRoundTrip | app/src/main/java/com/universidad/uniway/ui/register/EmailVerificationFragment.kt:49-104 | what the screen is opened with is read back unchanged for any non-empty address |
| EmailVerificationScreen.CodeError | app/src/main/java/com/universidad/uniway/ui/register/EmailVerificationFragment.kt:242-261 | no error exactly for six decimal digits; an empty code and then a wrong length are reported first |
| EmailVerificationScreen.TestCodesAreWellFormed | app/src/main/java/com/universidad/uniway/ui/register/EmailVerificationFragment.kt:242-261 | every built-in test code passes the form's code check |
| EmailVerificationScreen.OnVerifyClick | app/src/main/java/com/universidad/uniway/ui/register/EmailVerificationFragment.kt:216-240 | a click during a verification is ignored, one within two seconds of the last attempt is refused, otherwise the attempt is recorded and a well-formed trimmed code is verified |
| EmailVerificationScreen.VerificationsAreThrottled | app/src/main/java/com/universidad/uniway/ui/register/EmailVerificationFragment.kt:216-240 | two codes sent from consecutive clicks are at least two seconds apart |
| EmailVerificationScreen.OnVerification | app/src/main/java/com/universidad/uniway/ui/register/EmailVerificationFragment.kt:142-177 | loading marks a verification under way; an error clears both guards; success clears the first and starts the registration step exactly when none is under way |
| EmailVerificationScreen.RegistrationStartsOnce | app/src/main/java/com/universidad/uniway/ui/register/EmailVerificationFragment.kt:142-166 | two successes in a row start the registration step only once |
| EmailVerificationScreen.OnRegistration | app/src/main/java/com/universidad/uniway/ui/register/EmailVerificationFragment.kt:179-194 | either registration answer ends the registration under way and keeps the other guards |
| EmailVerificationScreen.OnResend | app/src/main/java/com/universidad/uniway/ui/register/EmailVerificationFragment.kt:269-277 | a resend clears both guards and keeps the attempt time |
| EmailVerificationScreen.RegistrationRestartsAfterFailure | app/src/main/java/com/universidad/uniway/ui/register/EmailVerificationFragment.kt:179-277 | after a failed registration or a resend, a new success starts the registration step again |
| InstitutionalEmail.CompleteEmail | app/src/main/java/com/universidad/uniway/ui/login/LoginViewModel.kt:31-35 | an address with an '@' is kept and a bare name gets the institutional domain, so the result always holds an '@' |
| InstitutionalEmail.CompleteEmailIdempotent | app/src/main/java/com/universidad/uniway/ui/login/LoginViewModel.kt:31-35 | completing twice is completing once, and a completed bare name ends with the domain |
| InstitutionalEmail.CompletedNameNeedsOnlyPattern | app/src/main/java/com/universidad/uniway/ui/login/LoginViewModel.kt:103-106 | a completed bare name is institutional exactly when the address pattern matches it, and nothing the pattern refuses is institutional |
| LoginViewModel.LocalFallback | app/src/main/java/com/universidad/uniway/ui/login/LoginViewModel.kt:81-101 | the device signs in exactly when a cached account has the address and the same password, making it current; a cached account with another password is refused as bad credentials; with none the server's error decides between bad credentials and a quoted connection error |
| LoginViewModel.Login | app/src/main/java/com/universidad/uniway/ui/login/LoginViewModel.kt:27-79 | a blank field and then a non-institutional address are refused with no call; a success saves the session with the remember-me flag and caches the account as current; an error goes to the local fallback; the flag always ends lowered |
| LoginViewModel.ServerAccountNeverSignsInOffline | app/src/main/java/com/universidad/uniway/ui/login/LoginViewModel.kt:54-67 | an account cached from a server sign-in has no password, so it never signs in from the device later while the server fails |
| LoginViewModel.OfflineSignInNeedsCachedPassword | app/src/main/java/com/universidad/uniway/ui/login/LoginViewModel.kt:69-101 | a sign-in that succeeds without the server was for a cached account with that address and password |
| ForgotPasswordViewModel.SendResetCode | app/src/main/java/com/universidad/uniway/ui/forgotpassword/ForgotPasswordViewModel.kt:22-61 | a blank address and then a completed address the pattern refuses are reported with no call; otherwise the code is asked for the completed address and the server's answer is reported |
| ForgotPasswordViewModel.SignInAddressesCanReset | app/src/main/java/com/universidad/uniway/ui/forgotpassword/ForgotPasswordViewModel.kt:26-45 | every address sign-in accepts is accepted here too, and the code goes to the address sign-in would use |
| ForgotPasswordViewModel.ReportedAddressIsComplete | app/src/main/java/com/universidad/uniway/ui/forgotpassword/ForgotPasswordViewModel.kt:49-51 | the address a sent code names already has its '@' |
| ResetPasswordViewModel.ResetPassword | app/src/main/java/com/universidad/uniway/ui/resetpassword/ResetPasswordViewModel.kt:22-54 | a blank field and then a password under six characters are refused with no call; otherwise the three values are sent unchanged and the server's message is reported |
| ResetPasswordViewModel.SuccessFlagIgnored | app/src/main/java/com/universidad/uniway/ui/resetpassword/ResetPasswordViewModel.kt:42-44 | the answer's success flag is not read: an answer that says it failed is still reported as a reset |
| PostDialogs.PostTypeOfButton | app/src/main/java/com/universidad/uniway/ui/forum/CreatePostDialog.kt:94-100 | NEWS and ALERT exactly for their buttons, GENERAL otherwise, never ANNOUNCEMENT |
| PostDialogs.PriorityOfButton | app/src/main/java/com/universidad/uniway/ui/forum/CreatePostDialog.kt:102-108 | HIGH and URGENT exactly for their buttons, NORMAL otherwise, never LOW |
| PostDialogs.PriorityShown | app/src/main/java/com/universidad/uniway/ui/forum/CreatePostDialog.kt:54-65 | the priority section shows exactly when the checked type is not GENERAL |
| PostDialogs.OnCreateClick | app/src/main/java/com/universidad/uniway/ui/forum/CreatePostDialog.kt:77-110 | the post is created exactly when the trimmed content has ten characters, with that content and the checked type and priority; blank and then short content are refused with their messages |
| PostDialogs.DialogNeverAnnouncesOrLowers | app/src/main/java/com/universidad/uniway/ui/forum/CreatePostDialog.kt:94-108 | a post from the dialog is never an announcement and never low priority |
| PostDialogs.DefaultsAreGeneralNormal | app/src/main/java/com/universidad/uniway/ui/forum/CreatePostDialog.kt:43-52 | with the preselected buttons untouched a post is GENERAL with NORMAL priority |
| PostDialogs.TypePosition | app/src/main/java/com/universidad/uniway/ui/forum/EditPostDialog.kt:72-79 | the spinner position of a type holds that type |
| PostDialogs.OnSaveClick | app/src/main/java/com/universidad/uniway/ui/forum/EditPostDialog.kt:82-105 | the edit is saved exactly when the trimmed content has ten characters, with that content and the type at the spinner's position; empty and then short content are refused |
| PostDialogs.UntouchedSaveKeepsType | app/src/main/java/com/universidad/uniway/ui/forum/EditPostDialog.kt:67-105 | saving without touching the spinner keeps the post's type with its content trimmed, and ANNOUNCEMENT can be chosen |

## Left out

- HTTP plumbing is not modelled: the REST controllers (apart from `extractTeacherNameFromEmail`), the Retrofit interface, the OkHttp setup, `SecurityConfig` and the application class. They only turn service results and exceptions into HTTP answers.
- Android rendering and wiring are not modelled. This covers views, Toasts, navigation and dialogs. Only the validators, formatters and list edits of the listed screens are modelled.
- Coroutines, `viewModelScope`, LiveData and `postDelayed` timers are not modelled. Each view-model operation is one sequential step that takes the API answer as an argument, so interleavings and double taps are not modelled.
- Mail delivery through `JavaMailSender` is not modelled. Its failures are caught and ignored in `EmailService`, so sending is a no-op in the model.
- `AuthService.generateToken` and `JwtService` are not modelled: token contents are opaque strings.
- BCrypt hashing is a pair of function parameters (encode and match), not an implementation.
- Date parsing and formatting are parameters (`SimpleDateFormat`, `LocalDateTime` strings). So are Gson decoding and the verdict of `Patterns.EMAIL_ADDRESS`.
- `UUID.randomUUID`, `java.util.Random`, `Date()`, `LocalDateTime.now()`, `System.currentTimeMillis()` and `Calendar` are explicit arguments.
- Strings are sequences of characters. Kotlin and Java measure length in UTF-16 units, which differs only outside the Basic Multilingual Plane.
- Case mapping (`lowercase`, `equalsIgnoreCase`, `contains(…, ignoreCase = true)`) covers ASCII and the Spanish accented letters only.
- RegisterViewModel.IsValidPhone: a digit is one of the ASCII digits `0`-`9`. Kotlin's `isDigit` also accepts the other Unicode decimal digits (category Nd), such as Arabic-Indic digits, so the model refuses some numbers the app accepts.
- AddTeacherViewModel.ExtractYear: digits are ASCII 0-9 only. Kotlin's `toInt()` (AddTeacherViewModel.kt:90) is `Integer.parseInt`, which reads every Unicode decimal digit through `Character.digit`, so a semester typed as "٢٠٢٤-1" gives the year 2024 in the app and the current year in the model.
- The `catch` blocks of `RegisterViewModel.verifyCode` and `completeRegistration` are not modelled: `safeApiCall` already turns every exception into an error result, so they cannot run.
- PostService's `getDefaultUserId` and `getUserIdByEmail` are not modelled. They are fallbacks of the HTTP layer for requests without a known user.
- PostService's one-line query wrappers are not modelled separately, because they return the `PostQueries` functions unchanged. These are `findAllApprovedPosts`, `findApprovedPostsBy*`, `findAllAlertPosts`, `findAllPinnedPosts`, `findPostsSince` and `findAllPendingPosts`. The same holds for `CommentService.getPendingComments`, `getSubjectsWithRecommendations`, `UserService.findActiveUserByEmail`, `findActiveUsersByRole` and `existsBy*`.
- `PostService.updatePost(Post)`, `deletePost(id)`, `countAllPosts` and `countAllUsers` are not modelled. They are plain repository save, delete and count calls, covered by `Jpa`.
- `toggleSave` is not modelled: it only looks the post up.
- `togglePin` is not modelled. It flips the pin flag, the same as `PostService.Moderate`'s pin and unpin.
- `getAllPostsSimple` is not modelled: it is the approved filter of `PostQueries`.
- `CommentService.convertToDto` is not modelled: it copies fields one to one.
- `ProfileViewModel.loadUserProfile` and `clearOldUserData` are not modelled. They are a plain setter and a call of `UserCache.Logout`.
- The profile update request's fields are not modelled. Only its answer is used. The request carries name, phone, address and programme, never the e-mail, so a changed e-mail reaches only the device cache.
- When a subject filter leaves nothing to show, the recommendation fragments show the empty state but keep the adapter's previous rows. `RecommendationLists.ViewOf` models the shown list and the empty state, not the stale rows behind it.
- PostService.FallbackListing: the model does not simulate Java's sort. It states only the result: the list is empty when the approved posts mix null and non-null pin flags. This is exact, because any comparison sort compares every pair that ends up adjacent, so some null flag meets a non-null one and unboxing throws. The comparator's `!=` on boxed `Boolean`s is taken as value inequality, which holds for the canonical `Boolean.TRUE` and `Boolean.FALSE` that the persistence layer hands out.
- Ties in `ORDER BY` are left open by SQL. The model fixes one order; the contracts state only the ordering and that the result is a permutation.
- PostQueries.FindAllApprovedOrdered: where `ORDER BY p.isPinned DESC` puts a NULL pin flag depends on the database (PostgreSQL puts NULLs first in a descending order, MySQL and H2 last). The model takes that choice as the `nullsFirst` parameter and proves the order for both values; it does not fix one database.
- RecommendationQueries.ActiveSubjects: `DISTINCT` and `ORDER BY st.subject` are modelled as exact character equality and code-point order, that is a binary collation. Under a case- or accent-insensitive database collation two spellings of one subject would be merged and the order would differ (StudentTeacherRepository.java:34 and 66).
- RecommendationQueries.ActiveTeacherNames: the same binary-collation assumption as `ActiveSubjects`, for `DISTINCT st.teacherName … ORDER BY st.teacherName` (StudentTeacherRepository.java:72). Both go through the shared `RecommendationQueries.ActiveDistinct`.
- UserService.CreateUser: the entity's Bean Validation constraints, which JPA checks when the row is persisted (`@NotBlank` and `@Email` on the address, `@Size(min = 6)` on the password hash, `@NotBlank` on the full name; User.java:38-57), are not modelled. `@Email` follows the validator's own address grammar, which the model does not restate, and the size check applies to the encoded hash, which comes from the encoder parameter. A blank name or an address the validator rejects is therefore accepted by the model where the save would throw. Of the table constraints, the model refuses a missing password (NOT NULL) and a taken address or student number (unique); e-mail and full name are never null in the model, and a null role is given a default before the save.
- AuthService.Register: the same persist-time Bean Validation is not modelled for registration. The request is validated by `@Valid` in the controller (AuthController.java:36) before `register` runs, and that request validation is outside the model too, so a blank name or a malformed address reaches the model's save and is accepted.
- PostService.ConvertToDto: the `updatedAt` column that the DTO copies (PostService.java:702) is not part of the model's post, so it is not copied; the auditing listener that fills it is outside the model.
- UserService.ConvertUserToDto: the `updatedAt` audit column (User.java:93-96) is not part of the model's account, so the DTO's copy of it (UserService.java:121) is not modelled. The auditing listener that fills it is outside the model.

## Findings

| source | as written | input that shows it | evidently intended | confidence | as-written member | corrected member |
|---|---|---|---|---|---|---|
| backend/src/main/java/com/uniway/service/EmailService.java:99-103 | after saving a new code, `sendVerificationCode` reads it back with `findByEmailAndCode`, which fails when the e-mail already has another row (used, expired or not) with the same six digits; the whole send is rolled back | an e-mail with one old used row for code 123456 and fewer than three valid codes, and a new draw that again gives 123456 | the send succeeds whenever the three-code limit allows it | not executed | EmailService.SendVerificationCodeAsWritten, EmailService.ReadBackCollision | EmailService.SendCode, EmailService.SendKeepsLimit, EmailService.ReadBackWithoutCollision |
| app/src/main/java/com/universidad/uniway/ui/teacherlist/TeacherListFragment.kt:53-60 | the student's own list builds its card adapter with a remove handler and `showOwnActions = true` but without the user-id and role providers, so the card's delete rule never holds and the remove button never shows | any signed-in student opening their own list of recommendations | the remove button shows on the student's own recommendations, as the remove handler and the comment on `showOwnActions` say | not executed | RecommendationLists.TeacherListConfigAsWritten, RecommendationLists.TeacherListRemoveNeverShown | RecommendationLists.TeacherListConfig, RecommendationLists.TeacherListRemoveShown |

=== FILE: account_forms.dfy ===
/**
  `RegisterFragment`: the checks the registration form makes before it
  asks the view model to send a code. The name and the address are trimmed
  first; the e-mail pattern's verdict on the trimmed address is a
  parameter; the role comes from a radio group in which only the student
  button is recognised.
 */
module RegisterForm {
  import opened Wrappers
  import opened Text
  import opened Enums
  import opened ApiClient
  import RegisterViewModel

  datatype Field = NameField | EmailField | PasswordField | ConfirmField

  const NameRequired := "El nombre completo es requerido"
  const EmailInvalid := "Ingresa un email válido"
  const PasswordShort := "La contraseña debe tener al menos 6 caracteres"
  const PasswordsDiffer := "Las contraseñas no coinciden"
  const RoleMissing := "Por favor selecciona un cargo"
  const MinPassword := 6

  datatype FieldError = FieldError(field: Field, message: string)

  /**
    `validateInputs`: an empty name; an empty address, or one with an '@'
    that fails the pattern; a password under six characters; a confirmation
    that differs. The first failure is reported.
   */
  function ValidateInputs(fullName: string, email: string, password: string, confirmPassword: string,
                          emailPattern: bool): (r: Option<FieldError>)
    ensures r.None? <==>
              |fullName| > 0 && |email| > 0 && ('@' in email ==> emailPattern)
              && |password| >= MinPassword && password == confirmPassword
    ensures |fullName| == 0 ==> r == Some(FieldError(NameField, NameRequired))
    ensures |fullName| > 0 && (|email| == 0 || ('@' in email && !emailPattern)) ==>
              r == Some(FieldError(EmailField, EmailInvalid))
  {
    if |fullName| == 0 then Some(FieldError(NameField, NameRequired))
    else if |email| == 0 || ('@' in email && !emailPattern) then Some(FieldError(EmailField, EmailInvalid))
    else if |password| < MinPassword then Some(FieldError(PasswordField, PasswordShort))
    else if password != confirmPassword then Some(FieldError(ConfirmField, PasswordsDiffer))
    else None
  }

  /** A bare user name (no '@') passes the address rule whatever the pattern says. */
  lemma BareNamePassesAddressRule(fullName: string, email: string, password: string, emailPattern: bool)
    requires |fullName| > 0 && |email| > 0 && '@' !in email && |password| >= MinPassword
    ensures ValidateInputs(fullName, email, password, password, emailPattern).None?
  {
  }

  /** The confirmation check on leaving its field: its verdict, and whether an error is shown. */
  datatype MatchCheck = MatchCheck(valid: bool, showsError: bool)

  /**
    `validatePasswordMatch`: a non-empty password equal to its
    confirmation; the error is shown only when the check fails and the
    confirmation is not empty.
   */
  function ValidatePasswordMatch(password: string, confirmPassword: string): (r: MatchCheck)
    ensures r.valid <==> |password| > 0 && password == confirmPassword
    ensures r.showsError <==> !r.valid && |confirmPassword| > 0
  {
    var valid := |password| > 0 && password == confirmPassword;
    MatchCheck(valid, !valid && |confirmPassword| > 0)
  }

  /** A form that passes `validateInputs` also passes the confirmation check. */
  lemma ValidFormMatches(fullName: string, email: string, password: string, confirmPassword: string,
                         emailPattern: bool)
    requires ValidateInputs(fullName, email, password, confirmPassword, emailPattern).None?
    ensures ValidatePasswordMatch(password, confirmPassword) == MatchCheck(true, false)
  {
  }

  /** `getSelectedRole`: the student button gives STUDENT; anything else gives no role. */
  function SelectedRole(studentChecked: bool): (r: Option<UserRole>)
    ensures r.Some? <==> studentChecked
    ensures r != Some(ADMINISTRATION)
  {
    if studentChecked then Some(STUDENT) else None
  }

  datatype RegisterClick = Invalid(error: FieldError) | NoRole(message: string)
                         | SendCode(fullName: string, email: string, password: string, role: UserRole)

  /** `registerUser`: trim, check, pick the role, and hand the typed values to the view model. */
  function OnRegisterClick(fullName: string, email: string, password: string, confirmPassword: string,
                           emailPattern: bool, studentChecked: bool): (r: RegisterClick)
    ensures r.SendCode? <==>
              ValidateInputs(Trim(fullName), Trim(email), password, confirmPassword, emailPattern).None?
              && studentChecked
    ensures r.SendCode? ==>
              r.fullName == Trim(fullName) && r.email == Trim(email) && r.password == password && r.role == STUDENT
  {
    var name := Trim(fullName);
    var address := Trim(email);
    match ValidateInputs(name, address, password, confirmPassword, emailPattern)
    case Some(e) => Invalid(e)
    case None =>
      match SelectedRole(studentChecked)
      case None => NoRole(RoleMissing)
      case Some(role) => SendCode(name, address, password, role)
  }

  /**
    The form's checks are at least as strict as the view model's: whatever
    the form hands over is sent to the server, for the completed address.
   */
  lemma FormPassesViewModel(fullName: string, email: string, password: string, confirmPassword: string,
                            emailPattern: bool, studentChecked: bool, st: RegisterViewModel.RegisterState,
                            now: int, result: ApiResult<RegisterViewModel.CodeSentResponse>)
    ensures var click := OnRegisterClick(fullName, email, password, confirmPassword, emailPattern, studentChecked);
            click.SendCode? ==>
              RegisterViewModel.SendVerificationCode(st, click.fullName, click.email, click.password, click.role,
                                                     now, result).sent.Some?
  {
  }
}

/**
  `ResetPasswordFragment`: the checks the reset form makes before it asks
  the view model. The code is trimmed, the passwords are not; the address
  comes from the screen's arguments and may be missing.
 */
module ResetPasswordForm {
  import opened Wrappers
  import opened Text
  import opened ApiClient
  import ResetPasswordViewModel

  const CodeMissing := "Por favor ingresa el código"
  const PasswordMissing := "Por favor ingresa la nueva contraseña"
  const PasswordShort := "La contraseña debe tener al menos 6 caracteres"
  const PasswordsDiffer := "Las contraseñas no coinciden"
  const EmailNotFound := "Error: Email no encontrado"
  const MinPassword := 6

  datatype ResetClick = Toast(message: string) | Submit(email: string, code: string, newPassword: string)

  /**
    `resetPassword`: a blank code, a blank password, a password under six
    characters, a confirmation that differs, then a missing address; the
    first failure is shown and nothing is sent.
   */
  function OnResetClick(code: string, newPassword: string, confirmPassword: string, email: Option<string>): (r: ResetClick)
    ensures r.Submit? <==>
              !IsBlank(Trim(code)) && !IsBlank(newPassword) && |newPassword| >= MinPassword
              && newPassword == confirmPassword && email.Some?
    ensures r.Submit? ==> r == Submit(email.value, Trim(code), newPassword)
    ensures IsBlank(Trim(code)) ==> r == Toast(CodeMissing)
    ensures !IsBlank(Trim(code)) && IsBlank(newPassword) ==> r == Toast(PasswordMissing)
  {
    var trimmed := Trim(code);
    if IsBlank(trimmed) then Toast(CodeMissing)
    else if IsBlank(newPassword) then Toast(PasswordMissing)
    else if |newPassword| < MinPassword then Toast(PasswordShort)
    else if newPassword != confirmPassword then Toast(PasswordsDiffer)
    else if email.None? then Toast(EmailNotFound)
    else Submit(email.value, trimmed, newPassword)
  }

  /**
    What the form submits passes the view model's own checks unless the
    address argument is blank: the code and the password are already
    checked here.
   */
  lemma FormPassesViewModel(code: string, newPassword: string, confirmPassword: string, email: Option<string>,
                            st: ResetPasswordViewModel.ResetState,
                            result: ApiResult<ResetPasswordViewModel.ResetPasswordResponse>)
    ensures var click := OnResetClick(code, newPassword, confirmPassword, email);
            click.Submit? ==>
              (ResetPasswordViewModel.ResetPassword(st, click.email, click.code, click.newPassword, result).sent.Some?
               <==> !IsBlank(click.email))
  {
  }
}

/**
  `EmailVerificationFragment`: reads its arguments, checks the typed code,
  throttles attempts to one every two seconds, and starts the last
  registration step once per verification. The clock is the parameter `now`.
 */
module EmailVerificationScreen {
  import opened Wrappers
  import opened Text
  import opened Enums
  import RegisterViewModel

  const EmailKey := "email"
  const FullNameKey := "fullName"
  const PasswordKey := "password"
  const RoleKey := "role"

  /** The screen's arguments once read. */
  datatype Arguments = Arguments(email: string, fullName: string, password: string, role: UserRole)

  /** `newInstance`: the bundle the screen is opened with; the role is stored by name. */
  function NewInstance(email: string, fullName: string, password: string, role: UserRole): (b: map<string, string>)
    ensures b.Keys == {EmailKey, FullNameKey, PasswordKey, RoleKey}
  {
    map[EmailKey := email, FullNameKey := fullName, PasswordKey := password, RoleKey := RoleName(role)]
  }

  /** The role argument: "ADMINISTRATION" is ADMINISTRATION, anything else (or nothing) is STUDENT. */
  function RoleArgument(name: Option<string>): (r: UserRole)
    ensures r == ADMINISTRATION <==> name == Some("ADMINISTRATION")
  {
    if name == Some("ADMINISTRATION") then ADMINISTRATION else STUDENT
  }

  function Lookup(b: map<string, string>, key: string): Option<string>
  {
    if key in b then Some(b[key]) else None
  }

  /**
    `validateArguments`: no arguments or no address fails, an empty address
    fails; the name and password default to "" and the role to STUDENT.
   */
  function ValidateArguments(args: Option<map<string, string>>): (r: Option<Arguments>)
    ensures r.Some? <==> args.Some? && EmailKey in args.value && args.value[EmailKey] != ""
    ensures r.Some? ==> r.value.email == args.value[EmailKey]
                        && r.value.fullName == Lookup(args.value, FullNameKey).GetOr("")
                        && r.value.role == RoleArgument(Lookup(args.value, RoleKey))
  {
    match args
    case None => None
    case Some(b) =>
      if EmailKey !in b then None
      else
        var a := Arguments(b[EmailKey], Lookup(b, FullNameKey).GetOr(""), Lookup(b, PasswordKey).GetOr(""),
                           RoleArgument(Lookup(b, RoleKey)));
        if a.email != "" then Some(a) else None
  }

  /** What `newInstance` stores, `validateArguments` reads back, for any non-empty address. */
  lemma ArgumentsRoundTrip(email: string, fullName: string, password: string, role: UserRole)
    requires email != ""
    ensures ValidateArguments(Some(NewInstance(email, fullName, password, role)))
            == Some(Arguments(email, fullName, password, role))
  {
    assert RoleName(ADMINISTRATION) == "ADMINISTRATION";
    assert RoleName(STUDENT) != "ADMINISTRATION";
  }

  const CodeMissing := "Por favor ingresa el código de verificación"
  const CodeLength := "El código debe tener 6 dígitos"
  const CodeNotDigits := "El código debe contener solo números"
  const CodeSize := 6

  /** `isValidVerificationCode`: the first broken rule's message, or none. */
  function CodeError(code: string): (r: Option<string>)
    ensures r.None? <==> |code| == CodeSize && AllDigits(code)
    ensures |code| == 0 ==> r == Some(CodeMissing)
    ensures |code| != 0 && |code| != CodeSize ==> r == Some(CodeLength)
  {
    if |code| == 0 then Some(CodeMissing)
    else if |code| != CodeSize then Some(CodeLength)
    else if !AllDigits(code) then Some(CodeNotDigits)
    else None
  }

  /** Every built-in test code is a well-formed code, so the form lets it through. */
  lemma TestCodesAreWellFormed(code: string)
    requires RegisterViewModel.IsTestCode(code)
    ensures CodeError(code).None?
  {
    RegisterViewModel.TestCodesAreSixDigits(code);
  }

  const ThrottleMs := 2000
  const TooSoon := "Espera un momento antes de intentar nuevamente"

  /** The screen's guards: a verification or a registration under way, and the last attempt's time. */
  datatype Guards = Guards(verifying: bool, registering: bool, lastAttempt: int)

  const InitialGuards := Guards(false, false, 0)

  datatype Attempt = Ignored | Throttled(message: string) | CodeRefused(message: string) | Verify(code: string)

  datatype Click = Click(guards: Guards, attempt: Attempt)

  /**
    `verifyCode`: ignored while a verification is under way; refused when
    less than two seconds have passed since the last recorded attempt;
    otherwise the time is recorded before the trimmed code is checked, and
    a well-formed code is verified.
   */
  function OnVerifyClick(g: Guards, now: int, typed: string): (r: Click)
    ensures g.verifying ==> r == Click(g, Ignored)
    ensures !g.verifying && now - g.lastAttempt < ThrottleMs ==> r == Click(g, Throttled(TooSoon))
    ensures !g.verifying && now - g.lastAttempt >= ThrottleMs ==>
              r.guards == g.(lastAttempt := now)
              && (r.attempt.Verify? <==> CodeError(Trim(typed)).None?)
              && (r.attempt.Verify? ==> r.attempt.code == Trim(typed))
  {
    if g.verifying then Click(g, Ignored)
    else if now - g.lastAttempt < ThrottleMs then Click(g, Throttled(TooSoon))
    else
      var code := Trim(typed);
      match CodeError(code)
      case Some(message) => Click(g.(lastAttempt := now), CodeRefused(message))
      case None => Click(g.(lastAttempt := now), Verify(code))
  }

  /** Two codes sent to the server from consecutive clicks are at least two seconds apart. */
  lemma VerificationsAreThrottled(g: Guards, t1: int, typed1: string, t2: int, typed2: string)
    requires OnVerifyClick(g, t1, typed1).attempt.Verify?
    ensures var second := OnVerifyClick(OnVerifyClick(g, t1, typed1).guards, t2, typed2);
            second.attempt.Verify? ==> t2 - t1 >= ThrottleMs
  {
  }

  /**
    The verification observer: loading marks a verification under way; an
    error clears both guards; success clears the first and starts the last
    registration step unless one is already under way.
   */
  function OnVerification(g: Guards, v: RegisterViewModel.Verification): (r: (Guards, bool))
    ensures r.0.lastAttempt == g.lastAttempt
    ensures v.Verifying? ==> r == (g.(verifying := true), false)
    ensures v.NotVerified? ==> r == (g.(verifying := false, registering := false), false)
    ensures v.Verified? ==> !r.0.verifying && r.0.registering && (r.1 <==> !g.registering)
  {
    match v
    case Verifying => (g.(verifying := true), false)
    case NotVerified(_) => (g.(verifying := false, registering := false), false)
    case Verified => (g.(verifying := false, registering := true), !g.registering)
  }

  /** Two successes in a row start the registration step once. */
  lemma RegistrationStartsOnce(g: Guards)
    ensures var first := OnVerification(g, RegisterViewModel.Verified);
            var second := OnVerification(first.0, RegisterViewModel.Verified);
            !second.1
  {
  }

  /** The registration observer: either answer ends the registration under way. */
  function OnRegistration(g: Guards, result: RegisterViewModel.Registration): (r: Guards)
    ensures !r.registering && r.verifying == g.verifying && r.lastAttempt == g.lastAttempt
  {
    g.(registering := false)
  }

  /** `resendCode`: both guards are cleared, the attempt time is kept. */
  function OnResend(g: Guards): (r: Guards)
    ensures !r.verifying && !r.registering && r.lastAttempt == g.lastAttempt
  {
    g.(verifying := false, registering := false)
  }

  /** After a failed registration or a resend, a new success starts the registration step again. */
  lemma RegistrationRestartsAfterFailure(g: Guards, result: RegisterViewModel.Registration)
    ensures OnVerification(OnRegistration(g, result), RegisterViewModel.Verified).1
    ensures OnVerification(OnResend(g), RegisterViewModel.Verified).1
  {
  }
}

=== FILE: add_teacher.dfy ===
/**
  Publishing a teacher recommendation from the client: the form's
  validation chain and star rating (`AddTeacherFragment`), and the view
  model that builds the request and reports the outcome
  (`AddTeacherViewModel`). The current year, used when the semester does
  not start with a number, is a parameter.
 */
module AddTeacherViewModel {
  import opened Wrappers
  import opened Text
  import opened Lists
  import opened ApiClient

  // ---------------------------------------------------------------------------
  // The year of a semester
  // ---------------------------------------------------------------------------

  /**
    `extractYearFromSemester`: the piece before the first '-', read as an
    integer; when it does not read as one, the current year.
   */
  function ExtractYear(semester: string, currentYear: int): (year: int)
    ensures ParseInt(Split(semester, '-')[0]).Some? ==> year == ParseInt(Split(semester, '-')[0]).value
    ensures ParseInt(Split(semester, '-')[0]).None? ==> year == currentYear
  {
    match ParseInt(Split(semester, '-')[0])
    case Some(y) => y
    case None => currentYear
  }

  /** The first piece of a split is the text before the first separator. */
  lemma SplitFirst(a: string, sep: char, b: string)
    requires sep !in a
    ensures Split(a + [sep] + b, sep)[0] == a
  {
    var s := a + [sep] + b;
    assert s[|a|] == sep && s[..|a|] == a;
    assert IndexOf(s, sep) == |a|;
  }

  /** A semester written as "year-term" gives back its year, whatever the term. */
  lemma YearOfSemester(year: int, term: string, currentYear: int)
    requires 0 <= year <= IntMax
    ensures ExtractYear(IntToString(year) + "-" + term, currentYear) == year
  {
    var y := IntToString(year);
    DigitsHaveNoDash(y);
    SplitFirst(y, '-', term);
    assert y + "-" + term == y + ['-'] + term;
    ParseIntToString(year);
  }

  lemma DigitsHaveNoDash(y: string)
    requires AllDigits(y)
    ensures '-' !in y
  {
    forall k | 0 <= k < |y|
      ensures y[k] != '-'
    {
      assert IsDigit(y[k]);
    }
  }

  /** A semester without a number before its dash falls back to the current year. */
  lemma NoYearFallsBack(term: string, currentYear: int)
    ensures ExtractYear("-" + term, currentYear) == currentYear
  {
    SplitFirst("", '-', term);
    assert "" + ['-'] + term == "-" + term;
  }

  // ---------------------------------------------------------------------------
  // A teacher's address from the name
  // ---------------------------------------------------------------------------

  const TeacherDomain := "@pascualbravo.edu.co"

  /** Spaces become dots and Spanish accents are dropped. */
  function PlainChar(c: char): char
  {
    match c
    case ' ' => '.'
    case 'á' => 'a' case 'é' => 'e' case 'í' => 'i' case 'ó' => 'o' case 'ú' => 'u'
    case 'ñ' => 'n' case 'ü' => 'u'
    case _ => c
  }

  /** What the final `[^a-z.]` removal keeps. */
  predicate AddressChar(c: char)
  {
    'a' <= c <= 'z' || c == '.'
  }

  /** The cleaned name: lower-cased, trimmed, spaces and accents replaced, anything else removed. */
  function AddressLocalPart(name: string): (local: string)
    ensures forall k :: 0 <= k < |local| ==> AddressChar(local[k])
    ensures |local| <= |name|
  {
    Filter(Map(Trim(Lower(name)), PlainChar), AddressChar)
  }

  /** `generateEmailFromName` (defined but not called by the view model). */
  function EmailFromName(name: string): (email: string)
    ensures email == AddressLocalPart(name) + TeacherDomain
    ensures EndsWith(email, TeacherDomain)
  {
    var local := AddressLocalPart(name);
    assert (local + TeacherDomain)[|local|..] == TeacherDomain;
    local + TeacherDomain
  }

  /** Filtering by a predicate every element meets keeps the sequence. */
  lemma {:induction false} FilterKeepsAll(s: string, p: char -> bool)
    requires forall k :: 0 <= k < |s| ==> p(s[k])
    ensures Filter(s, p) == s
  {
    if |s| > 0 {
      FilterKeepsAll(s[1..], p);
    }
  }

  /** A string that neither starts nor ends with whitespace is its own trimmed form. */
  lemma TrimKeepsTrimmed(s: string)
    requires s != [] ==> !IsWhitespace(s[0]) && !IsWhitespace(s[|s| - 1])
    ensures Trim(s) == s
  {
    if s != [] {
      assert s[0..0 + |s|] == s && s[..0] == [] && s[|s|..] == [];
      assert TrimmedForm(s, s, IsWhitespace);
      TrimmedFormUnique(s, s, Trim(s), IsWhitespace);
    } else {
      assert IsBlank(s);
    }
  }

  /** Lower-casing leaves letters already in lower case, dots and spaces alone. */
  lemma LowerKeepsPlain(s: string)
    requires forall k :: 0 <= k < |s| ==> 'a' <= s[k] <= 'z' || s[k] == '.' || s[k] == ' '
    ensures Lower(s) == s
  {
    assert forall k :: 0 <= k < |s| ==> Lower(s)[k] == s[k];
  }

  /** Only spaces and accented letters are replaced. */
  lemma PlainKeepsAddressChars(s: string)
    requires forall k :: 0 <= k < |s| ==> AddressChar(s[k])
    ensures Map(s, PlainChar) == s
  {
    assert forall k :: 0 <= k < |s| ==> Map(s, PlainChar)[k] == s[k];
  }

  /** Replacing spaces and accents in letters, dots and spaces leaves only address chars. */
  lemma PlainNameKept(name: string)
    requires forall k :: 0 <= k < |name| ==> 'a' <= name[k] <= 'z' || name[k] == '.' || name[k] == ' '
    ensures Filter(Map(name, PlainChar), AddressChar) == Map(name, PlainChar)
  {
    var m := Map(name, PlainChar);
    assert forall k :: 0 <= k < |m| ==> AddressChar(m[k]);
    FilterKeepsAll(m, AddressChar);
  }

  /**
    A name written in lower-case letters, dots and inner spaces keeps every
    letter: each space turns into a dot and nothing is lost.
   */
  lemma PlainNameAddress(name: string)
    requires forall k :: 0 <= k < |name| ==> 'a' <= name[k] <= 'z' || name[k] == '.' || name[k] == ' '
    requires |name| > 0 ==> name[0] != ' ' && name[|name| - 1] != ' '
    ensures AddressLocalPart(name) == Map(name, PlainChar)
    ensures |AddressLocalPart(name)| == |name|
    ensures forall k :: 0 <= k < |name| && name[k] == ' ' ==> AddressLocalPart(name)[k] == '.'
    ensures forall k :: 0 <= k < |name| && name[k] != ' ' ==> AddressLocalPart(name)[k] == name[k]
  {
    PlainNameUnchanged(name);
    PlainNameKept(name);
    PlainNameDots(name);
  }

  /** Spaces become dots; letters and dots stay. */
  lemma PlainNameDots(name: string)
    requires forall k :: 0 <= k < |name| ==> 'a' <= name[k] <= 'z' || name[k] == '.' || name[k] == ' '
    ensures forall k :: 0 <= k < |name| && name[k] == ' ' ==> Map(name, PlainChar)[k] == '.'
    ensures forall k :: 0 <= k < |name| && name[k] != ' ' ==> Map(name, PlainChar)[k] == name[k]
  {
    var m := Map(name, PlainChar);
    forall k | 0 <= k < |name|
      ensures name[k] == ' ' ==> m[k] == '.'
      ensures name[k] != ' ' ==> m[k] == name[k]
    {
      assert m[k] == PlainChar(name[k]);
      if name[k] != ' ' {
        PlainCharFixes(name[k]);
      }
    }
  }

  lemma PlainCharFixes(c: char)
    requires AddressChar(c)
    ensures PlainChar(c) == c
  {
  }

  /** Lower-casing and trimming leave such a name as it is. */
  lemma PlainNameUnchanged(name: string)
    requires forall k :: 0 <= k < |name| ==> 'a' <= name[k] <= 'z' || name[k] == '.' || name[k] == ' '
    requires |name| > 0 ==> name[0] != ' ' && name[|name| - 1] != ' '
    ensures Trim(Lower(name)) == name
  {
    LowerKeepsPlain(name);
    TrimKeepsTrimmed(name);
  }

  /** Cleaning an already cleaned name changes nothing. */
  lemma AddressLocalPartIdempotent(name: string)
    ensures AddressLocalPart(AddressLocalPart(name)) == AddressLocalPart(name)
  {
    CleanNameFixed(AddressLocalPart(name));
  }

  /** A name made of address chars only comes out of the cleaning unchanged. */
  lemma CleanNameFixed(local: string)
    requires forall k :: 0 <= k < |local| ==> AddressChar(local[k])
    ensures AddressLocalPart(local) == local
  {
    LowerKeepsPlain(local);
    if local != [] {
      assert AddressChar(local[0]) && AddressChar(local[|local| - 1]);
    }
    TrimKeepsTrimmed(local);
    PlainKeepsAddressChars(local);
    FilterKeepsAll(local, AddressChar);
  }

  // ---------------------------------------------------------------------------
  // Publishing
  // ---------------------------------------------------------------------------

  datatype AddState = AddState(isLoading: bool, successMessage: Option<string>, errorMessage: Option<string>)

  /** The body of `createTeacherRecommendationWithRating`. */
  datatype CreateRequest = CreateRequest(
    studentId: string,
    teacherName: string,
    subject: string,
    semester: string,
    year: int,
    reference: string,
    rating: int)

  const NoSession := "Usuario no encontrado. Por favor, inicia sesión nuevamente."
  const PublishFailedPrefix := "Error al publicar recomendación: "

  function Published(teacherName: string): string
  {
    "Recomendación de '" + teacherName + "' publicada exitosamente"
  }

  /** The request sent for a signed-in student: the fields as typed, the year from the semester. */
  function RequestOf(studentId: string, teacherName: string, subject: string, semester: string,
                     reference: string, rating: int, currentYear: int): (req: CreateRequest)
    ensures req.studentId == studentId && req.teacherName == teacherName && req.subject == subject
    ensures req.semester == semester && req.reference == reference && req.rating == rating
    ensures req.year == ExtractYear(semester, currentYear)
  {
    CreateRequest(studentId, teacherName, subject, semester, ExtractYear(semester, currentYear), reference, rating)
  }

  /**
    `addTeacherRecommendation`: without a user id only the error line
    changes and nothing is sent; otherwise both lines are cleared before
    the call and the flag ends lowered.
   */
  function AddRecommendation<T>(st: AddState, userId: Option<string>, teacherName: string,
                                result: ApiResult<T>): (r: AddState)
    ensures userId.None? ==> r == st.(errorMessage := Some(NoSession))
    ensures userId.Some? ==> !r.isLoading
    ensures userId.Some? && result.Success? ==>
              r.successMessage == Some(Published(teacherName)) && r.errorMessage == Some("")
    ensures userId.Some? && result.Error? ==>
              r.successMessage == Some("") && r.errorMessage == Some(PublishFailedPrefix + result.message)
    ensures userId.Some? && result.Loading? ==> r.successMessage == Some("") && r.errorMessage == Some("")
  {
    if userId.None? then st.(errorMessage := Some(NoSession))
    else
      match result
      case Success(_) => AddState(false, Some(Published(teacherName)), Some(""))
      case Error(message, _) => AddState(false, Some(""), Some(PublishFailedPrefix + message))
      case Loading(_) => AddState(false, Some(""), Some(""))
  }

  /** Exactly one of the two lines is non-empty after an answer, and a success names the teacher. */
  lemma OneMessageAfterAnswer<T>(st: AddState, userId: string, teacherName: string, result: ApiResult<T>)
    requires !result.Loading?
    ensures var r := AddRecommendation(st, Some(userId), teacherName, result);
            r.successMessage.Some? && r.errorMessage.Some?
            && (r.successMessage.value != "" <==> r.errorMessage.value == "")
            && (result.Success? <==> r.successMessage.value != "")
  {
    var r := AddRecommendation(st, Some(userId), teacherName, result);
    assert Published(teacherName)[0] == 'R';
    assert PublishFailedPrefix[0] == 'E';
    if result.Error? {
      assert r.errorMessage.value[0] == 'E';
    }
  }
}

/**
  `AddTeacherFragment`: the form, its validation chain (first failing rule
  wins, on trimmed fields), the star rating and the reset after a success.
 */
module AddTeacherForm {
  import opened Wrappers
  import opened Text
  import opened ApiClient
  import opened AddTeacherViewModel

  datatype Form = Form(teacherName: string, subject: string, semester: string, reference: string, rating: int)

  /** The form when it opens: the default semester and no stars. */
  function InitialForm(): (f: Form)
    ensures f.teacherName == "" && f.subject == "" && f.reference == "" && f.rating == 0
    ensures f.semester == "2024-2"
  {
    Form("", "", "2024-2", "", 0)
  }

  /** The default semester is read as the year 2024. */
  lemma DefaultSemesterYear(currentYear: int)
    ensures ExtractYear(InitialForm().semester, currentYear) == 2024
  {
    YearDigits();
    YearOfSemester(2024, "2", currentYear);
    assert IntToString(2024) + "-" + "2" == "2024-2";
  }

  lemma YearDigits()
    ensures IntToString(2024) == "2024"
  {
    assert NatToString(2) == "2";
    assert NatToString(20) == "20";
    assert NatToString(202) == "202";
  }

  datatype Field = TeacherNameField | SubjectField | SemesterField | ReferenceField

  /** What pressing "publish" does: a field error, a toast asking for stars, or the call. */
  datatype FormCheck =
    | FieldError(field: Field, message: string)
    | RatingMissing
    | Submit(teacherName: string, subject: string, semester: string, reference: string, rating: int)

  const NameMissing := "Ingresa el nombre completo del profesor"
  const NameShort := "Ingresa el nombre completo (mínimo 5 caracteres)"
  const SubjectMissing := "Ingresa la materia que cursaste"
  const SemesterMissing := "Ingresa el semestre cursado"
  const ReferenceMissing := "Escribe tu referencia y recomendación"
  const ReferenceShort := "La referencia debe ser más detallada (mínimo 20 caracteres)"

  /** The rules every submitted form meets, on its trimmed fields. */
  predicate Acceptable(f: Form)
  {
    |Trim(f.teacherName)| >= 5 && Trim(f.subject) != "" && Trim(f.semester) != ""
    && |Trim(f.reference)| >= 20 && f.rating != 0
  }

  /** `addTeacher`. */
  function Check(f: Form): (c: FormCheck)
    ensures c.Submit? <==> Acceptable(f)
    ensures c.Submit? ==> c == Submit(Trim(f.teacherName), Trim(f.subject), Trim(f.semester),
                                      Trim(f.reference), f.rating)
    ensures Trim(f.teacherName) == "" ==> c == FieldError(TeacherNameField, NameMissing)
    ensures c == RatingMissing <==> Acceptable(f.(rating := 1)) && f.rating == 0
  {
    var name := Trim(f.teacherName);
    var subject := Trim(f.subject);
    var semester := Trim(f.semester);
    var reference := Trim(f.reference);
    if name == "" then FieldError(TeacherNameField, NameMissing)
    else if |name| < 5 then FieldError(TeacherNameField, NameShort)
    else if subject == "" then FieldError(SubjectField, SubjectMissing)
    else if semester == "" then FieldError(SemesterField, SemesterMissing)
    else if reference == "" then FieldError(ReferenceField, ReferenceMissing)
    else if |reference| < 20 then FieldError(ReferenceField, ReferenceShort)
    else if f.rating == 0 then RatingMissing
    else Submit(name, subject, semester, reference, f.rating)
  }

  /** The error shown is the first rule broken, in the order name, subject, semester, reference. */
  lemma FirstBrokenRuleShown(f: Form)
    ensures Check(f).FieldError? && Check(f).field == SubjectField ==> |Trim(f.teacherName)| >= 5
    ensures Check(f).FieldError? && Check(f).field == SemesterField ==>
              |Trim(f.teacherName)| >= 5 && Trim(f.subject) != ""
    ensures Check(f).FieldError? && Check(f).field == ReferenceField ==>
              |Trim(f.teacherName)| >= 5 && Trim(f.subject) != "" && Trim(f.semester) != ""
              && |Trim(f.reference)| < 20
    ensures Check(f).FieldError? <==> !Acceptable(f.(rating := 1))
  {
  }

  /** The stars: star `i` (from 0) is filled exactly when `i < rating`, and the caption. */
  datatype StarsView = StarsView(filled: seq<bool>, caption: string)

  function RatingCaption(rating: int): (caption: string)
  {
    match rating
    case 0 => "Toca las estrellas para calificar"
    case 1 => "⭐ Muy malo"
    case 2 => "⭐⭐ Malo"
    case 3 => "⭐⭐⭐ Regular"
    case 4 => "⭐⭐⭐⭐ Bueno"
    case 5 => "⭐⭐⭐⭐⭐ Excelente"
    case _ => "Calificación inválida"
  }

  /** `setRating`. */
  function SetRating(rating: int): (v: StarsView)
    ensures |v.filled| == 5
    ensures forall i :: 0 <= i < 5 ==> (v.filled[i] <==> i < rating)
    ensures v.caption == RatingCaption(rating)
  {
    StarsView(seq(5, i => i < rating), RatingCaption(rating))
  }

  /**
    A star click sets a rating from 1 to 5: its caption opens with that
    many stars, so different ratings have different captions.
   */
  lemma CaptionShowsRating(a: int, b: int)
    requires 1 <= a <= 5 && 1 <= b <= 5
    ensures forall k :: 0 <= k < a ==> RatingCaption(a)[k] == '⭐'
    ensures RatingCaption(a)[a] == ' '
    ensures a != b ==> RatingCaption(a) != RatingCaption(b)
  {
    if a < b {
      assert RatingCaption(a)[a] != RatingCaption(b)[a];
    } else if b < a {
      assert RatingCaption(a)[b] != RatingCaption(b)[b];
    }
  }

  /** `clearForm`: everything but the semester is emptied and the stars reset. */
  function ClearForm(f: Form): (r: Form)
    ensures r.teacherName == "" && r.subject == "" && r.reference == "" && r.rating == 0
    ensures r.semester == f.semester
    ensures Check(r) == FieldError(TeacherNameField, NameMissing)
  {
    assert IsBlank("");
    Form("", "", f.semester, "", 0)
  }

  /** The success observer: a non-empty message clears the form; an empty one leaves it. */
  function OnSuccessMessage(f: Form, message: string): (r: Form)
    ensures message == "" ==> r == f
    ensures message != "" ==> r == ClearForm(f)
  {
    if message != "" then ClearForm(f) else f
  }

  /**
    A published recommendation clears the form, so pressing "publish"
    again stops at the empty name instead of sending it twice.
   */
  lemma PublishedClearsForm<T>(f: Form, st: AddState, userId: string, data: T)
    ensures var r := AddRecommendation(st, Some(userId), f.teacherName, Success(data));
            Check(OnSuccessMessage(f, r.successMessage.value)) == FieldError(TeacherNameField, NameMissing)
  {
    assert Published(f.teacherName)[0] == 'R';
  }

  const Publishing := "Publicando..."
  const PublishCaption := "Publicar Recomendación"

  /** The publish button is disabled, and says so, while the call runs. */
  function PublishButton(isLoading: bool): (b: (bool, string))
    ensures b.0 <==> !isLoading
    ensures b.1 == Publishing <==> !b.0
    ensures b.0 ==> b.1 == PublishCaption
  {
    (!isLoading, if isLoading then Publishing else PublishCaption)
  }

  /**
    Whatever the answer, the button is pressable again once a signed-in
    user's call returns; without a user nothing is sent and the button
    keeps its state.
   */
  lemma ButtonBackAfterAnswer<T>(st: AddState, userId: Option<string>, teacherName: string, result: ApiResult<T>)
    ensures userId.Some? ==> PublishButton(AddRecommendation(st, userId, teacherName, result).isLoading) == (true, PublishCaption)
    ensures userId.None? ==> PublishButton(AddRecommendation(st, userId, teacherName, result).isLoading) == PublishButton(st.isLoading)
  {
  }
}

=== FILE: api_client.dfy ===
/**
  The client's view of an HTTP exchange: `ApiResult` and `safeApiCall`,
  which turns a response or a thrown exception into a result with a
  Spanish message and, for an error status, the status code.
 */
module ApiClient {
  import opened Wrappers
  import opened Text

  /** `ApiResult<T>`: success with data, an error with an optional status code, or loading. */
  datatype ApiResult<T> = Success(data: T) | Error(message: string, code: Option<int>) | Loading(isLoading: bool)

  /**
    What the call produced: a response with its status, its decoded body
    (absent when the body was null) and its error body text (absent when
    there was none), or an exception with its message.
   */
  datatype Exchange<T> = Response(status: int, body: Option<T>, errorBody: Option<string>) | Thrown(reason: string)

  const EmptyBody := "Respuesta vacía del servidor"
  const BadRequest := "Solicitud incorrecta"
  const Unauthorized := "No autorizado"
  const Forbidden := "Acceso prohibido"
  const NotFound := "Recurso no encontrado"
  const ServerError := "Error interno del servidor"
  const UnknownStatusPrefix := "Error desconocido: "
  const ConnectionPrefix := "Error de conexión: "

  /** Retrofit's `isSuccessful`: a 2xx status. */
  predicate IsSuccessful(status: int)
  {
    200 <= status <= 299
  }

  /**
    The message for an error status. A 400 whose error body mentions
    `error` is decoded: `decoded` is the decoded `error` field, or None when
    decoding threw.
   */
  function StatusMessage(status: int, errorBody: Option<string>, decoded: Option<string>): (m: string)
    ensures status == 400 && errorBody.Some? && Contains(errorBody.value, "error") ==>
              m == (if decoded.Some? then "Error: " + decoded.value else BadRequest + ": " + errorBody.value)
    ensures status == 400 && !(errorBody.Some? && Contains(errorBody.value, "error")) ==> m == BadRequest
    ensures status == 401 ==> m == Unauthorized
    ensures status == 403 ==> m == Forbidden
    ensures status == 404 ==> m == NotFound
    ensures status == 500 ==> m == ServerError
    ensures status !in {400, 401, 403, 404, 500} ==> m == UnknownStatusPrefix + IntToString(status)
  {
    if status == 400 then
      if errorBody.Some? && Contains(errorBody.value, "error") then
        if decoded.Some? then "Error: " + decoded.value else BadRequest + ": " + errorBody.value
      else BadRequest
    else if status == 401 then Unauthorized
    else if status == 403 then Forbidden
    else if status == 404 then NotFound
    else if status == 500 then ServerError
    else UnknownStatusPrefix + IntToString(status)
  }

  /** `safeApiCall`. */
  function SafeApiCall<T>(x: Exchange<T>, decoded: Option<string>): (r: ApiResult<T>)
    ensures !r.Loading?
    ensures r.Success? <==> x.Response? && IsSuccessful(x.status) && x.body.Some?
    ensures r.Success? ==> r.data == x.body.value
    ensures x.Response? && IsSuccessful(x.status) && x.body.None? ==> r == Error(EmptyBody, None)
    ensures (r.Error? && r.code.Some?) <==> x.Response? && !IsSuccessful(x.status)
    ensures r.Error? && r.code.Some? ==>
              r.code.value == x.status && r.message == StatusMessage(x.status, x.errorBody, decoded)
    ensures x.Thrown? ==> r == Error(ConnectionPrefix + x.reason, None)
  {
    match x
    case Thrown(reason) => Error(ConnectionPrefix + reason, None)
    case Response(status, body, errorBody) =>
      if IsSuccessful(status) then
        match body
        case Some(b) => Success(b)
        case None => Error(EmptyBody, None)
      else Error(StatusMessage(status, errorBody, decoded), Some(status))
  }

  /** The status of an unrecognised error code can be read back from its message. */
  lemma UnknownStatusReadable(status: int, errorBody: Option<string>, decoded: Option<string>)
    requires status !in {400, 401, 403, 404, 500}
    requires IntMin <= status <= IntMax
    ensures var m := StatusMessage(status, errorBody, decoded);
            StartsWith(m, UnknownStatusPrefix) && ParseInt(m[|UnknownStatusPrefix|..]) == Some(status)
  {
    var m := StatusMessage(status, errorBody, decoded);
    assert m[|UnknownStatusPrefix|..] == IntToString(status);
    ParseIntToString(status);
  }

  /**
    The fixed messages of the recognised codes are pairwise distinct and
    never taken for an unrecognised code, so a message names its status.
   */
  lemma FixedMessagesDistinct(a: int, b: int, ea: Option<string>, eb: Option<string>)
    requires a in {401, 403, 404, 500} && b in {401, 403, 404, 500} && a != b
    ensures StatusMessage(a, ea, None) != StatusMessage(b, eb, None)
    ensures forall c :: c !in {400, 401, 403, 404, 500} ==> StatusMessage(c, eb, None) != StatusMessage(a, ea, None)
  {
    forall c | c !in {400, 401, 403, 404, 500}
      ensures StatusMessage(c, eb, None) != StatusMessage(a, ea, None)
    {
      var m := StatusMessage(c, eb, None);
      assert m[0] == 'E' && m[6] == 'd';
    }
  }
}

=== FILE: api_repository.dfy ===
/**
  `ApiRepository`'s converters from server responses to the client's
  records, and the re-wrapping of list results.

  An enum name the client does not know falls back to a default; a null
  optional text becomes "" and a null number 0; a date the parser rejects
  (the parser is the parameter `parse`) becomes the current time `now`.
 */
module ApiRepository {
  import opened Wrappers
  import opened Text
  import opened Lists
  import opened Enums
  import opened ApiClient
  import opened AppData

  datatype UserResponse = UserResponse(
    id: string,
    email: string,
    role: string,
    fullName: string,
    studentId: Option<string>,
    program: Option<string>,
    profileImageUrl: Option<string>,
    phone: Option<string>,
    address: Option<string>,
    isActive: bool,
    createdAt: Option<string>,
    updatedAt: Option<string>)

  datatype PostResponse = PostResponse(
    id: string,
    authorId: string,
    authorName: string,
    authorRole: string,
    content: string,
    postType: string,
    priority: string,
    isPinned: bool,
    isAlert: bool,
    isApproved: bool,
    createdAt: string,
    updatedAt: Option<string>,
    likeCount: int,
    dislikeCount: int,
    commentCount: int,
    isLiked: bool,
    isDisliked: bool)

  datatype CommentResponse = CommentResponse(
    id: string,
    postId: string,
    authorId: string,
    authorName: string,
    authorRole: string,
    content: string,
    isApproved: bool,
    createdAt: string,
    updatedAt: Option<string>)

  datatype RecommendationResponse = RecommendationResponse(
    id: string,
    studentId: string,
    studentName: string,
    teacherName: string,
    subject: string,
    semester: Option<string>,
    year: Option<int>,
    reference: string,
    rating: Option<int>,
    isActive: bool,
    createdAt: string,
    likeCount: int,
    dislikeCount: int,
    totalReactions: int,
    isLiked: bool,
    isDisliked: bool,
    userReaction: Option<string>)

  /** `UserRole.valueOf`, falling back to STUDENT. */
  function RoleOrStudent(s: string): (r: UserRole)
    ensures RoleOf(s).Some? ==> r == RoleOf(s).value
    ensures RoleOf(s).None? ==> r == STUDENT
    ensures r == ADMINISTRATION <==> s == "ADMINISTRATION"
  {
    RoleOf(s).GetOr(STUDENT)
  }

  /** The server's role names come back as the roles they name; anything else reads as a student. */
  lemma RoleOrStudentRoundTrip(u: UserRole, other: string)
    requires other != "STUDENT" && other != "ADMINISTRATION"
    ensures RoleOrStudent(RoleName(u)) == u
    ensures RoleOrStudent(other) == STUDENT
  {
    NameRoundTrips(GENERAL, NORMAL, u);
  }

  /** `SimpleDateFormat.parse`, falling back to the current time. */
  function DateOrNow(text: string, parse: string -> Option<int>, now: int): (t: int)
    ensures parse(text).Some? ==> t == parse(text).value
    ensures parse(text).None? ==> t == now
  {
    parse(text).GetOr(now)
  }

  /** `convertToUser`. */
  function ConvertToUser(u: UserResponse): (r: User)
    ensures r.password == "" && r.profileImage == ""
    ensures r.id == u.id && r.email == u.email && r.fullName == u.fullName
    ensures r.role == RoleOrStudent(u.role)
    ensures r.studentId == u.studentId.GetOr("") && r.program == u.program.GetOr("")
    ensures r.phone == u.phone.GetOr("") && r.address == u.address.GetOr("")
  {
    User(u.id, u.email, "", RoleOrStudent(u.role), u.fullName, u.studentId.GetOr(""), u.program.GetOr(""),
         "", u.phone.GetOr(""), u.address.GetOr(""))
  }

  /** What the server sends for a client user, with every optional text present. */
  function ResponseOfUser(u: User, isActive: bool): UserResponse
  {
    UserResponse(u.id, u.email, RoleName(u.role), u.fullName, Some(u.studentId), Some(u.program),
                 Some(u.profileImage), Some(u.phone), Some(u.address), isActive, None, None)
  }

  /** Converting back what the server sent for a user loses only the password and the image. */
  lemma UserRoundTrip(u: User, isActive: bool)
    ensures ConvertToUser(ResponseOfUser(u, isActive)) == u.(password := "", profileImage := "")
  {
    NameRoundTrips(GENERAL, NORMAL, u.role);
  }

  /** `convertToPost`: counters pass through `Long.toInt()`. */
  function ConvertToPost(p: PostResponse, parse: string -> Option<int>, now: int): (r: Post)
    ensures r.id == p.id && r.authorId == p.authorId && r.authorName == p.authorName && r.content == p.content
    ensures r.isPinned == p.isPinned && r.isAlert == p.isAlert && r.isApproved == p.isApproved
    ensures r.isLiked == p.isLiked && r.isDisliked == p.isDisliked
    ensures r.authorRole == RoleOrStudent(p.authorRole)
    ensures r.postType == PostTypeOf(p.postType).GetOr(GENERAL)
    ensures r.priority == PriorityOf(p.priority).GetOr(NORMAL)
    ensures r.timestamp == DateOrNow(p.createdAt, parse, now)
    ensures r.likeCount == Int32(p.likeCount) && r.dislikeCount == Int32(p.dislikeCount)
            && r.commentCount == Int32(p.commentCount)
  {
    Post(p.id, p.authorId, p.authorName, RoleOrStudent(p.authorRole), p.content,
         PostTypeOf(p.postType).GetOr(GENERAL), p.isPinned, p.isAlert, PriorityOf(p.priority).GetOr(NORMAL),
         DateOrNow(p.createdAt, parse, now), Int32(p.likeCount), Int32(p.dislikeCount), Int32(p.commentCount),
         p.isLiked, p.isDisliked, p.isApproved)
  }

  /** What the server sends for a client post, its date written as `createdAt`. */
  function ResponseOfPost(p: Post, createdAt: string): PostResponse
  {
    PostResponse(p.id, p.authorId, p.authorName, RoleName(p.authorRole), p.content, PostTypeName(p.postType),
                 PriorityName(p.priority), p.isPinned, p.isAlert, p.isApproved, createdAt, None,
                 p.likeCount, p.dislikeCount, p.commentCount, p.isLiked, p.isDisliked)
  }

  /**
    A post whose counters fit in 32 bits and whose date text parses back to
    its timestamp survives the trip through the server's response.
   */
  lemma PostRoundTrip(p: Post, createdAt: string, parse: string -> Option<int>, now: int)
    requires parse(createdAt) == Some(p.timestamp)
    requires IntMin <= p.likeCount <= IntMax && IntMin <= p.dislikeCount <= IntMax
    requires IntMin <= p.commentCount <= IntMax
    ensures ConvertToPost(ResponseOfPost(p, createdAt), parse, now) == p
  {
    NameRoundTrips(p.postType, p.priority, p.authorRole);
  }

  /** `convertToComment`. */
  function ConvertToComment(c: CommentResponse, parse: string -> Option<int>, now: int): (r: Comment)
    ensures r.id == c.id && r.postId == c.postId && r.authorId == c.authorId && r.authorName == c.authorName
    ensures r.content == c.content && r.isApproved == c.isApproved
    ensures r.authorRole == RoleOrStudent(c.authorRole)
    ensures r.timestamp == DateOrNow(c.createdAt, parse, now)
  {
    Comment(c.id, c.postId, c.authorId, c.authorName, RoleOrStudent(c.authorRole), c.content,
            DateOrNow(c.createdAt, parse, now), c.isApproved)
  }

  function ResponseOfComment(c: Comment, createdAt: string): CommentResponse
  {
    CommentResponse(c.id, c.postId, c.authorId, c.authorName, RoleName(c.authorRole), c.content, c.isApproved,
                    createdAt, None)
  }

  lemma CommentRoundTrip(c: Comment, createdAt: string, parse: string -> Option<int>, now: int)
    requires parse(createdAt) == Some(c.timestamp)
    ensures ConvertToComment(ResponseOfComment(c, createdAt), parse, now) == c
  {
    NameRoundTrips(GENERAL, NORMAL, c.authorRole);
  }

  /** `convertToTeacherRecommendation`. */
  function ConvertToRecommendation(x: RecommendationResponse, parse: string -> Option<int>, now: int)
    : (r: TeacherRecommendation)
    ensures r.id == x.id && r.studentId == x.studentId && r.studentName == x.studentName
    ensures r.teacherName == x.teacherName && r.subject == x.subject && r.reference == x.reference
    ensures r.semester == x.semester.GetOr("") && r.year == x.year.GetOr(0) && r.rating == x.rating.GetOr(0)
    ensures r.isActive == x.isActive && r.createdAt == DateOrNow(x.createdAt, parse, now)
    ensures r.likeCount == x.likeCount && r.dislikeCount == x.dislikeCount && r.totalReactions == x.totalReactions
    ensures r.isLiked == x.isLiked && r.isDisliked == x.isDisliked && r.userReaction == x.userReaction
  {
    TeacherRecommendation(x.id, x.studentId, x.studentName, x.teacherName, x.subject, x.semester.GetOr(""),
                          x.year.GetOr(0), x.reference, x.rating.GetOr(0), x.isActive,
                          DateOrNow(x.createdAt, parse, now), x.likeCount, x.dislikeCount, x.totalReactions,
                          x.isLiked, x.isDisliked, x.userReaction)
  }

  function ResponseOfRecommendation(r: TeacherRecommendation, createdAt: string): RecommendationResponse
  {
    RecommendationResponse(r.id, r.studentId, r.studentName, r.teacherName, r.subject, Some(r.semester),
                           Some(r.year), r.reference, Some(r.rating), r.isActive, createdAt, r.likeCount,
                           r.dislikeCount, r.totalReactions, r.isLiked, r.isDisliked, r.userReaction)
  }

  lemma RecommendationRoundTrip(r: TeacherRecommendation, createdAt: string, parse: string -> Option<int>, now: int)
    requires parse(createdAt) == Some(r.createdAt)
    ensures ConvertToRecommendation(ResponseOfRecommendation(r, createdAt), parse, now) == r
  {
  }

  /**
    `getUserRecommendations` / `getAllRecommendations` after the call:
    a success is converted element by element, an error keeps its message
    and code, and loading stays loading.
   */
  function ConvertRecommendations(result: ApiResult<seq<RecommendationResponse>>,
                                  parse: string -> Option<int>, now: int)
    : (r: ApiResult<seq<TeacherRecommendation>>)
    ensures r.Success? <==> result.Success?
    ensures r.Error? <==> result.Error?
    ensures r.Success? ==> |r.data| == |result.data|
    ensures r.Success? ==> forall i :: 0 <= i < |r.data| ==> r.data[i] == ConvertToRecommendation(result.data[i], parse, now)
    ensures r.Error? ==> r.message == result.message && r.code == result.code
    ensures r.Loading? ==> r.isLoading
  {
    match result
    case Success(data) => Success(Map(data, (x: RecommendationResponse) => ConvertToRecommendation(x, parse, now)))
    case Error(message, code) => Error(message, code)
    case Loading(_) => Loading(true)
  }
}

=== FILE: app_data.dfy ===
/**
  The Android client's own records: the user, post, comment and teacher
  recommendation it shows and caches. Dates are milliseconds.
 */
module AppData {
  import opened Wrappers
  import opened Enums

  /** The client's `User`; the password is only known for accounts created on the device. */
  datatype User = User(
    id: string,
    email: string,
    password: string,
    role: UserRole,
    fullName: string,
    studentId: string,
    program: string,
    profileImage: string,
    phone: string,
    address: string)

  datatype Post = Post(
    id: string,
    authorId: string,
    authorName: string,
    authorRole: UserRole,
    content: string,
    postType: PostType,
    isPinned: bool,
    isAlert: bool,
    priority: PostPriority,
    timestamp: int,
    likeCount: int,
    dislikeCount: int,
    commentCount: int,
    isLiked: bool,
    isDisliked: bool,
    isApproved: bool)

  datatype Comment = Comment(
    id: string,
    postId: string,
    authorId: string,
    authorName: string,
    authorRole: UserRole,
    content: string,
    timestamp: int,
    isApproved: bool)

  datatype TeacherRecommendation = TeacherRecommendation(
    id: string,
    studentId: string,
    studentName: string,
    teacherName: string,
    subject: string,
    semester: string,
    year: int,
    reference: string,
    rating: int,
    isActive: bool,
    createdAt: int,
    likeCount: int,
    dislikeCount: int,
    totalReactions: int,
    isLiked: bool,
    isDisliked: bool,
    userReaction: Option<string>)

  /** A `Post` built with only these fields named: every other field keeps its default. */
  function PostWith(id: string, authorId: string, authorName: string, authorRole: UserRole, content: string,
                    postType: PostType, priority: PostPriority, timestamp: int): (p: Post)
    ensures !p.isPinned && !p.isAlert && p.isApproved && !p.isLiked && !p.isDisliked
    ensures p.likeCount == 0 && p.dislikeCount == 0 && p.commentCount == 0
    ensures p.id == id && p.content == content && p.postType == postType && p.priority == priority
  {
    Post(id, authorId, authorName, authorRole, content, postType, false, false, priority, timestamp,
         0, 0, 0, false, false, true)
  }

  /** The client's id lookup: the first element with the id. */
  function PostIdIs(id: string): Post -> bool { (p: Post) => p.id == id }
  function CommentIdIs(id: string): Comment -> bool { (c: Comment) => c.id == id }
  function RecommendationIdIs(id: string): TeacherRecommendation -> bool { (r: TeacherRecommendation) => r.id == id }
}

=== FILE: auth_service.dfy ===
/**
  `AuthService`: registering an account, checking credentials and
  replacing a password.

  The password encoder is the pair of function parameters `encode` and
  `matches`; the fresh account id is the parameter `freshId`.
 */
module AuthService {
  import opened Wrappers
  import opened Lists
  import opened Jpa
  import opened Enums
  import opened Entities
  import opened UserService

  const EmailTaken := "El correo electrónico ya está registrado"
  const StudentIdTaken := "El número de estudiante ya está registrado"
  const BadCredentials := "Credenciales inválidas"
  const InactiveUser := "Usuario inactivo"
  /** Unboxing a null `isActive` flag throws. */
  const NullActiveFlag := "java.lang.NullPointerException"

  /** The student-number check applies to students who gave a non-empty number. */
  predicate ChecksStudentId(role: UserRole, studentId: Option<string>)
  {
    role == STUDENT && studentId.Some? && studentId.value != ""
  }

  /**
    `register`: refused when the email is taken, or when a student gives a
    student number that is taken; otherwise a new active account with a
    fresh id and the encoded password is saved. The service checks the
    number only for students with a non-empty one, so the unique
    `student_id` column makes the save itself throw when anyone else holds
    the number given, an empty one included.
   */
  function Register(db: Db, email: string, password: string, role: UserRole, fullName: string,
                    studentId: Option<string>, program: Option<string>, freshId: string, now: int,
                    encode: string -> string): (r: Result<(Db, User)>)
    ensures r.Err? <==> FindByEmail(db.users, email).Some?
                        || (ChecksStudentId(role, studentId) && FindByStudentId(db.users, studentId.value).Some?)
                        || TakenByOther(db.users, freshId, email, studentId)
    ensures r.Err? ==> r.msg == (if FindByEmail(db.users, email).Some? then EmailTaken
                                 else if ChecksStudentId(role, studentId) && FindByStudentId(db.users, studentId.value).Some?
                                 then StudentIdTaken
                                 else ColumnTaken)
    ensures r.Ok? ==> r.value.0.(users := db.users) == db
    ensures r.Ok? ==> var u := r.value.1;
              u.id == freshId && u.email == email && u.passwordHash == encode(password) && u.role == role
              && u.fullName == fullName && u.studentId == studentId && u.program == program
              && u.isActive == Some(true)
              && u.profileImageUrl.None? && u.phone.None? && u.address.None?
    ensures r.Ok? && !ExistsById(db.users, UserKey, freshId) ==>
              r.value.0.users == db.users + [r.value.1] && r.value.1.createdAt == now
  {
    if FindByEmail(db.users, email).Some? then Err(EmailTaken)
    else if ChecksStudentId(role, studentId) && FindByStudentId(db.users, studentId.value).Some? then Err(StudentIdTaken)
    else if TakenByOther(db.users, freshId, email, studentId) then Err(ColumnTaken)
    else
      var stamp := match FindById(db.users, UserKey, freshId) case Some(prev) => prev.createdAt case None => now;
      var u := User(freshId, email, encode(password), role, fullName, studentId, program, None, None, None, Some(true), stamp);
      Ok((db.(users := Save(db.users, u, UserKey)), u))
  }

  /**
    A successful registration keeps the address and the student number
    unique, whatever the role and whether or not the number is empty.
   */
  lemma RegisterKeepsColumnsUnique(db: Db, email: string, password: string, role: UserRole, fullName: string,
                                   studentId: Option<string>, program: Option<string>, freshId: string, now: int,
                                   encode: string -> string)
    requires UniqueIds(db.users, UserKey) && UniqueColumns(db.users)
    ensures Register(db, email, password, role, fullName, studentId, program, freshId, now, encode).Ok? ==>
              UniqueColumns(Register(db, email, password, role, fullName, studentId, program, freshId, now, encode).value.0.users)
  {
    var r := Register(db, email, password, role, fullName, studentId, program, freshId, now, encode);
    if r.Ok? {
      var s := db.users;
      var u := r.value.1;
      assert !TakenByOther(s, u.id, u.email, u.studentId);
      if ExistsById(s, UserKey, u.id) {
        var k := SaveOverFound(s, u, UserKey);
        ReplacedKeepsColumnsUnique(s, k, u);
      } else {
        AppendedKeepsColumnsUnique(s, u);
      }
    }
  }

  /**
    The two cases the service's own checks let through: an administrator
    giving a number another account holds, and a student giving an empty
    number another account holds. Both are refused by the save.
   */
  lemma DuplicateNumberRefusedBySave(db: Db, email: string, password: string, fullName: string, sid: string,
                                     program: Option<string>, freshId: string, now: int, encode: string -> string,
                                     k: int)
    requires 0 <= k < |db.users| && db.users[k].studentId == Some(sid) && db.users[k].id != freshId
    requires FindByEmail(db.users, email).None?
    ensures Register(db, email, password, ADMINISTRATION, fullName, Some(sid), program, freshId, now, encode)
            == Err(ColumnTaken)
    ensures sid == "" ==>
              Register(db, email, password, STUDENT, fullName, Some(sid), program, freshId, now, encode) == Err(ColumnTaken)
  {
    assert TakenByOther(db.users, freshId, email, Some(sid));
  }

  /**
    `authenticate`: an unknown email and a wrong password give the same
    message; only an account whose password matches is told it is
    inactive.
   */
  function Authenticate(users: seq<User>, email: string, password: string,
                        matches: (string, string) -> bool): (r: Result<User>)
    ensures r.Ok? <==> FindByEmail(users, email).Some? && matches(password, FindByEmail(users, email).value.passwordHash)
                       && FindByEmail(users, email).value.isActive == Some(true)
    ensures r.Ok? ==> r.value == FindByEmail(users, email).value && r.value in users
    ensures r.Err? ==> r.msg in {BadCredentials, InactiveUser, NullActiveFlag}
    ensures r.Err? && r.msg != BadCredentials ==>
              FindByEmail(users, email).Some? && matches(password, FindByEmail(users, email).value.passwordHash)
  {
    match FindByEmail(users, email)
    case None => Err(BadCredentials)
    case Some(u) =>
      if !matches(password, u.passwordHash) then Err(BadCredentials)
      else match u.isActive
        case None => Err(NullActiveFlag)
        case Some(active) => if !active then Err(InactiveUser) else Ok(u)
  }

  /**
    `updatePassword`: the account is saved with the encoding of the new
    password; nothing else about it changes.
   */
  function UpdatePassword(db: Db, u: User, newPassword: string, encode: string -> string): (r: Db)
    ensures r.(users := db.users) == db
    ensures UniqueIds(db.users, UserKey) ==>
              UniqueIds(r.users, UserKey)
              && FindById(r.users, UserKey, u.id) == Some(u.(passwordHash := encode(newPassword)))
              && forall key :: key != u.id ==> FindById(r.users, UserKey, key) == FindById(db.users, UserKey, key)
  {
    var v := u.(passwordHash := encode(newPassword));
    if UniqueIds(db.users, UserKey) then
      SaveThenFind(db.users, v, UserKey, u.id);
      SaveKeepsOthers(db.users, v, UserKey);
      db.(users := Save(db.users, v, UserKey))
    else db.(users := Save(db.users, v, UserKey))
  }

  /** A newly registered account is found by its email. */
  lemma RegisterThenFindByEmail(db: Db, email: string, password: string, role: UserRole, fullName: string,
                                studentId: Option<string>, program: Option<string>, freshId: string, now: int,
                                encode: string -> string)
    requires !ExistsById(db.users, UserKey, freshId)
    requires Register(db, email, password, role, fullName, studentId, program, freshId, now, encode).Ok?
    ensures var r := Register(db, email, password, role, fullName, studentId, program, freshId, now, encode).value;
            FindByEmail(r.0.users, email) == Some(r.1)
  {
    var r := Register(db, email, password, role, fullName, studentId, program, freshId, now, encode).value;
    var t := r.0.users;
    assert t == db.users + [r.1];
    assert forall i :: 0 <= i < |db.users| ==> t[i] == db.users[i] && t[i].email != email;
    assert t[|db.users|] == r.1;
  }

  /** Registering the same email a second time is refused. */
  lemma RegisterTwiceRefused(db: Db, email: string, password: string, role: UserRole, fullName: string,
                             studentId: Option<string>, program: Option<string>, freshId: string, now: int,
                             encode: string -> string,
                             password2: string, role2: UserRole, fullName2: string,
                             studentId2: Option<string>, program2: Option<string>, freshId2: string, now2: int)
    requires !ExistsById(db.users, UserKey, freshId)
    requires Register(db, email, password, role, fullName, studentId, program, freshId, now, encode).Ok?
    ensures var db2 := Register(db, email, password, role, fullName, studentId, program, freshId, now, encode).value.0;
            Register(db2, email, password2, role2, fullName2, studentId2, program2, freshId2, now2, encode)
              == Err(EmailTaken)
  {
    RegisterThenFindByEmail(db, email, password, role, fullName, studentId, program, freshId, now, encode);
  }

  /**
    With an encoder whose `matches` accepts what `encode` produced, a newly
    registered account signs in with its password.
   */
  lemma RegisterThenAuthenticate(db: Db, email: string, password: string, role: UserRole, fullName: string,
                                 studentId: Option<string>, program: Option<string>, freshId: string, now: int,
                                 encode: string -> string, matches: (string, string) -> bool)
    requires !ExistsById(db.users, UserKey, freshId)
    requires matches(password, encode(password))
    requires Register(db, email, password, role, fullName, studentId, program, freshId, now, encode).Ok?
    ensures var r := Register(db, email, password, role, fullName, studentId, program, freshId, now, encode).value;
            Authenticate(r.0.users, email, password, matches) == Ok(r.1)
  {
    RegisterThenFindByEmail(db, email, password, role, fullName, studentId, program, freshId, now, encode);
  }

  /**
    After a password change on an account found by its email, the new
    password signs in and, when the encoder tells passwords apart, the old
    one no longer does.
   */
  lemma UpdatePasswordThenAuthenticate(db: Db, email: string, oldPassword: string, newPassword: string,
                                       encode: string -> string, matches: (string, string) -> bool)
    requires UniqueIds(db.users, UserKey)
    requires FindByEmail(db.users, email).Some?
    requires FindByEmail(db.users, email).value.isActive == Some(true)
    requires matches(newPassword, encode(newPassword)) && !matches(oldPassword, encode(newPassword))
    ensures var u := FindByEmail(db.users, email).value;
            var after := UpdatePassword(db, u, newPassword, encode).users;
            Authenticate(after, email, newPassword, matches) == Ok(u.(passwordHash := encode(newPassword)))
            && Authenticate(after, email, oldPassword, matches) == Err(BadCredentials)
  {
    var u := FindByEmail(db.users, email).value;
    var v := u.(passwordHash := encode(newPassword));
    var s := db.users;
    var i := FindAt(s, HasEmail(email));
    assert FindById(s, UserKey, u.id).Some?;
    var k := SaveOverFound(s, v, UserKey);
    SameKeySameRow(s, UserKey, i, k);
    FindByEmailAfterUpdate(s, i, v, email);
  }

  /** Overwriting the row an email lookup finds with a row of the same email finds the new row. */
  lemma FindByEmailAfterUpdate(s: seq<User>, i: int, v: User, email: string)
    requires 0 <= i < |s| && FindByEmail(s, email) == Some(s[i]) && v.email == email
    requires forall j :: 0 <= j < i ==> s[j].email != email
    ensures FindByEmail(s[i := v], email) == Some(v)
  {
    var t := s[i := v];
    var p := HasEmail(email);
    assert forall j :: 0 <= j < i ==> t[j] == s[j] && !p(t[j]);
    assert p(t[i]);
    FindIsIndexOfFirst(t, p);
  }
}

=== FILE: code_queries.dfy ===
/**
  The queries of `VerificationCodeRepository`. `isUsed = false` does not
  hold for a NULL column. A code is "valid" for the queries when it is
  unused and `expiresAt > now`, and "expired" when `expiresAt < now`.
 */
module CodeQueries {
  import opened Wrappers
  import opened Lists
  import opened Sorting
  import opened Jpa
  import opened Jpql
  import opened Entities

  function OfEmailAndCode(email: string, code: string): VerificationCode -> bool
  {
    (c: VerificationCode) => c.email == email && c.code == code
  }

  /** The condition of `findValidCodesByEmail` and `countValidCodesByEmail`. */
  predicate IsValidAt(c: VerificationCode, email: string, now: int)
  {
    c.email == email && c.isUsed == Some(false) && c.expiresAt > now
  }

  function ValidFor(email: string, now: int): VerificationCode -> bool
  {
    (c: VerificationCode) => IsValidAt(c, email, now)
  }

  function OfEmail(email: string): VerificationCode -> bool
  {
    (c: VerificationCode) => c.email == email
  }

  function ExpiredAt(now: int): VerificationCode -> bool
  {
    (c: VerificationCode) => c.expiresAt < now
  }

  function NewestFirst(c: VerificationCode): int
  {
    c.createdAt
  }

  /** `findByEmailAndCode`: an `Optional` query, which fails when two rows share email and digits. */
  function FindByEmailAndCode(codes: seq<VerificationCode>, email: string, code: string): (r: Result<Option<VerificationCode>>)
    ensures r == Single(Filter(codes, OfEmailAndCode(email, code)))
    ensures r.Ok? && r.value.Some? ==> r.value.value in codes && r.value.value.email == email && r.value.value.code == code
    ensures r == Ok(None) <==> forall i :: 0 <= i < |codes| ==> !(codes[i].email == email && codes[i].code == code)
  {
    var m := Filter(codes, OfEmailAndCode(email, code));
    if |m| > 0 then assert m[0] in codes; Single(m) else Single(m)
  }

  /** `findValidCodesByEmail`: the email's unused, unexpired codes, newest first. */
  function FindValidByEmail(codes: seq<VerificationCode>, email: string, now: int): (r: seq<VerificationCode>)
    ensures forall x :: x in r <==> x in codes && x.email == email && x.isUsed == Some(false) && x.expiresAt > now
    ensures IsFilterOf(r, codes, ValidFor(email, now))
    ensures forall i, j :: 0 <= i < j < |r| ==> r[i].createdAt >= r[j].createdAt
  {
    SelectMembers(codes, ValidFor(email, now), NewestFirst, NoKey);
    Select(codes, ValidFor(email, now), NewestFirst, NoKey)
  }

  /** `countValidCodesByEmail`: as many as the valid listing returns. */
  function CountValid(codes: seq<VerificationCode>, email: string, now: int): (n: nat)
    ensures n == |FindValidByEmail(codes, email, now)|
  {
    Count(codes, ValidFor(email, now))
  }

  /** `findByEmailOrderByCreatedAtDesc`. */
  function FindByEmail(codes: seq<VerificationCode>, email: string): (r: seq<VerificationCode>)
    ensures forall x :: x in r <==> x in codes && x.email == email
    ensures IsFilterOf(r, codes, OfEmail(email))
    ensures forall i, j :: 0 <= i < j < |r| ==> r[i].createdAt >= r[j].createdAt
  {
    SelectMembers(codes, OfEmail(email), NewestFirst, NoKey);
    Select(codes, OfEmail(email), NewestFirst, NoKey)
  }

  /** `findExpiredCodes`: every code whose expiry is strictly before now, any email, used or not. */
  function FindExpired(codes: seq<VerificationCode>, now: int): (r: seq<VerificationCode>)
    ensures forall x :: x in r <==> x in codes && x.expiresAt < now
    ensures IsFilterOf(r, codes, ExpiredAt(now))
  {
    Filter(codes, ExpiredAt(now))
  }

  /** A code expiring exactly now is in neither the valid count nor the expired listing. */
  lemma ExpiryBoundary(codes: seq<VerificationCode>, email: string, now: int, c: VerificationCode)
    requires c.expiresAt == now
    ensures c !in FindValidByEmail(codes, email, now)
    ensures c !in FindExpired(codes, now)
  {
  }

  /**
    The query's notion of validity is the entity's `isValid()` minus the
    boundary instant: the entity still calls a code valid when it expires
    exactly now, the query does not.
   */
  lemma QueryValidityVsEntity(c: VerificationCode, email: string, now: int)
    requires c.email == email
    ensures IsValidAt(c, email, now) ==> IsValid(c, now) == Some(true)
    ensures IsValid(c, now) == Some(true) ==> IsValidAt(c, email, now) || c.expiresAt == now
  {
  }

  /** Each code is expired, valid, or neither; never both. */
  lemma ExpiredNeverValid(codes: seq<VerificationCode>, email: string, now: int, c: VerificationCode)
    ensures !(c in FindExpired(codes, now) && c in FindValidByEmail(codes, email, now))
  {
  }
}

=== FILE: comment_adapter.dfy ===
/**
  The comment list's `CommentAdapter`: the rows' age text and action
  buttons, and the adapter's own copy of the list. The clock is the
  parameter `now`; the user id and role providers are optional, and a
  missing provider reads as a missing value.
 */
module CommentAdapter {
  import opened Wrappers
  import opened Text
  import opened Lists
  import opened AppData
  import opened Permission

  /**
    `getTimeAgo`: seconds, minutes, hours and days by successive truncating
    divisions; the largest unit that is positive is shown as the number
    followed by its letter, with no prefix, and "ahora" when none is.
   */
  function TimeAgo(now: int, date: int): (text: string)
    ensures text == "ahora" || (|text| >= 2 && text[|text| - 1] in "dhm" && AllDigits(text[..|text| - 1]))
    ensures text == "ahora" <==> now - date < 60000
  {
    var diff := now - date;
    var seconds := Quot(diff, 1000);
    var minutes := Quot(seconds, 60);
    var hours := Quot(minutes, 60);
    var days := Quot(hours, 24);
    if days > 0 then IntToString(days) + "d"
    else if hours > 0 then IntToString(hours) + "h"
    else if minutes > 0 then IntToString(minutes) + "m"
    else "ahora"
  }

  /** Dividing by `b` and then by `c` is dividing by `b * c` (here for the three unit steps). */
  lemma DivDiv(a: nat, b: nat, c: nat)
    requires (b, c) in {(1000, 60), (60000, 60), (3600000, 24)}
    ensures a / b / c == a / (b * c)
  {
    var s := a / b;
    var q := a / (b * c);
    assert s * b <= a < s * b + b;
    assert q * (b * c) <= a < q * (b * c) + b * c;
    if (b, c) == (1000, 60) {
      assert q * 60 <= s < q * 60 + 60;
    } else if (b, c) == (60000, 60) {
      assert q * 60 <= s < q * 60 + 60;
    } else {
      assert q * 24 <= s < q * 24 + 24;
    }
  }

  /**
    The bucket is decided by the whole age in milliseconds: a day or more
    shows whole days, an hour or more whole hours, a minute or more whole
    minutes, and anything younger (or dated in the future) "ahora".
   */
  lemma TimeAgoBuckets(now: int, date: int)
    ensures var d := now - date;
            d >= 86400000 ==> TimeAgo(now, date) == IntToString(d / 86400000) + "d"
    ensures var d := now - date;
            3600000 <= d < 86400000 ==> TimeAgo(now, date) == IntToString(d / 3600000) + "h"
    ensures var d := now - date;
            60000 <= d < 3600000 ==> TimeAgo(now, date) == IntToString(d / 60000) + "m"
    ensures now - date < 60000 ==> TimeAgo(now, date) == "ahora"
  {
    var d := now - date;
    if d >= 0 {
      DivDiv(d, 1000, 60);
      DivDiv(d, 60000, 60);
      DivDiv(d, 3600000, 24);
      assert d / 1000 / 60 == d / 60000;
      assert d / 60000 / 60 == d / 3600000;
      assert d / 3600000 / 24 == d / 86400000;
    }
  }

  /** `canUserEditComment` / `canUserDeleteComment`: the list rule. */
  function CommentActions(comment: Comment, userId: Option<string>, role: Option<string>): (v: ActionsView)
    ensures v.edit == v.delete == v.row == ViewerMayModify(comment.authorId, userId, role)
    ensures userId.None? ==> !v.row
  {
    ActionsFor(ViewerMayModify(comment.authorId, userId, role), ViewerMayModify(comment.authorId, userId, role))
  }

  /** `updateComment`: the first comment with the id is replaced; without one nothing changes. */
  function UpdateComment(comments: seq<Comment>, comment: Comment): (r: seq<Comment>)
    ensures |r| == |comments|
    ensures IndexOfFirst(comments, CommentIdIs(comment.id)) == -1 ==> r == comments
    ensures IndexOfFirst(comments, CommentIdIs(comment.id)) != -1 ==>
              r[IndexOfFirst(comments, CommentIdIs(comment.id))] == comment
              && forall k :: 0 <= k < |comments| && k != IndexOfFirst(comments, CommentIdIs(comment.id)) ==>
                   r[k] == comments[k]
  {
    ReplaceFirst(comments, CommentIdIs(comment.id), comment)
  }

  /** `removeComment`: the first comment with the id goes; later ones with the same id stay. */
  function RemoveComment(comments: seq<Comment>, id: string): (r: seq<Comment>)
    ensures IndexOfFirst(comments, CommentIdIs(id)) == -1 ==> r == comments
    ensures IndexOfFirst(comments, CommentIdIs(id)) != -1 ==>
              r == comments[..IndexOfFirst(comments, CommentIdIs(id))] + comments[IndexOfFirst(comments, CommentIdIs(id)) + 1..]
              && Count(r, CommentIdIs(id)) == Count(comments, CommentIdIs(id)) - 1
  {
    if IndexOfFirst(comments, CommentIdIs(id)) != -1 then
      RemoveFirstDropsOne(comments, CommentIdIs(id));
      RemoveFirst(comments, CommentIdIs(id))
    else RemoveFirst(comments, CommentIdIs(id))
  }

  /** `addComment` is `Prepend`. Adding a comment and removing its id gives back the list; updating it changes only the top. */
  lemma AddThenRemoveOrUpdate(comments: seq<Comment>, comment: Comment, newer: Comment)
    requires newer.id == comment.id
    ensures RemoveComment(Prepend(comments, comment), comment.id) == comments
    ensures UpdateComment(Prepend(comments, comment), newer) == Prepend(comments, newer)
  {
    FirstOfCons(comments, comment, newer, CommentIdIs(comment.id));
  }
}

=== FILE: comment_queries.dfy ===
/** The queries of `CommentRepository`. */
module CommentQueries {
  import opened Wrappers
  import opened Lists
  import opened Sorting
  import opened Jpql
  import opened Entities

  function OldestFirst(c: Comment): int
  {
    -c.createdAt
  }

  function NewestFirst(c: Comment): int
  {
    c.createdAt
  }

  function ApprovedOfPost(postId: string): Comment -> bool
  {
    (c: Comment) => c.postId == postId && c.isApproved == Some(true)
  }

  function OfPost(postId: string): Comment -> bool
  {
    (c: Comment) => c.postId == postId
  }

  function OfAuthor(authorId: string): Comment -> bool
  {
    (c: Comment) => c.authorId == authorId
  }

  function Unapproved(): Comment -> bool
  {
    (c: Comment) => c.isApproved == Some(false)
  }

  /** `findApprovedCommentsByPostId`: the post's approved comments, oldest first. */
  function FindApprovedByPost(cs: seq<Comment>, postId: string): (r: seq<Comment>)
    ensures forall x :: x in r <==> x in cs && x.postId == postId && x.isApproved == Some(true)
    ensures IsFilterOf(r, cs, ApprovedOfPost(postId))
    ensures forall i, j :: 0 <= i < j < |r| ==> r[i].createdAt <= r[j].createdAt
  {
    SelectMembers(cs, ApprovedOfPost(postId), OldestFirst, NoKey);
    Select(cs, ApprovedOfPost(postId), OldestFirst, NoKey)
  }

  /** `findAllCommentsByPostId`: approved or not, oldest first. */
  function FindAllByPost(cs: seq<Comment>, postId: string): (r: seq<Comment>)
    ensures forall x :: x in r <==> x in cs && x.postId == postId
    ensures IsFilterOf(r, cs, OfPost(postId))
    ensures forall i, j :: 0 <= i < j < |r| ==> r[i].createdAt <= r[j].createdAt
  {
    SelectMembers(cs, OfPost(postId), OldestFirst, NoKey);
    Select(cs, OfPost(postId), OldestFirst, NoKey)
  }

  /** `countApprovedCommentsByPostId`: as many as the approved listing returns. */
  function CountApprovedByPost(cs: seq<Comment>, postId: string): (n: nat)
    ensures n == |FindApprovedByPost(cs, postId)|
  {
    Count(cs, ApprovedOfPost(postId))
  }

  /** `findCommentsByAuthorId`: the author's comments on any post, newest first. */
  function FindByAuthor(cs: seq<Comment>, authorId: string): (r: seq<Comment>)
    ensures forall x :: x in r <==> x in cs && x.authorId == authorId
    ensures IsFilterOf(r, cs, OfAuthor(authorId))
    ensures forall i, j :: 0 <= i < j < |r| ==> r[i].createdAt >= r[j].createdAt
  {
    SelectMembers(cs, OfAuthor(authorId), NewestFirst, NoKey);
    Select(cs, OfAuthor(authorId), NewestFirst, NoKey)
  }

  /** `findPendingComments`: every comment explicitly not approved, oldest first. */
  function FindPending(cs: seq<Comment>): (r: seq<Comment>)
    ensures forall x :: x in r <==> x in cs && x.isApproved == Some(false)
    ensures IsFilterOf(r, cs, Unapproved())
    ensures forall i, j :: 0 <= i < j < |r| ==> r[i].createdAt <= r[j].createdAt
  {
    SelectMembers(cs, Unapproved(), OldestFirst, NoKey);
    Select(cs, Unapproved(), OldestFirst, NoKey)
  }

  /**
    The approved listing is part of the full listing, counting repeats:
    every comment occurs in it at most as often as in the full one, so it
    is never longer.
   */
  lemma ApprovedWithinAll(cs: seq<Comment>, postId: string)
    ensures multiset(FindApprovedByPost(cs, postId)) <= multiset(FindAllByPost(cs, postId))
    ensures CountApprovedByPost(cs, postId) <= |FindAllByPost(cs, postId)|
  {
    var a := FindApprovedByPost(cs, postId);
    var b := FindAllByPost(cs, postId);
    assert forall x :: multiset(a)[x] <= multiset(b)[x];
    CountMonotone(cs, ApprovedOfPost(postId), OfPost(postId));
  }
}

=== FILE: comment_service.dfy ===
/**
  `CommentService`: listing, creating, editing, deleting and approving
  comments. Creating, deleting and approving refresh the post's stored
  comment count (`updatePostCommentCount`).

  The service class is transactional, so an `Err` leaves the database as
  it was.
 */
module CommentService {
  import opened Wrappers
  import opened Text
  import opened Lists
  import opened Jpa
  import opened Entities
  import opened Permission
  import opened CommentQueries
  import PostQueries
  import PostService

  function CommentNotFound(id: string): string { "Comentario no encontrado con ID: " + id }
  const EditDenied := "No tienes permisos para editar este comentario"
  const DeleteDenied := "No tienes permisos para eliminar este comentario"

  /**
    The exception Hibernate raises when a comment's post reference points
    at no row: the lazy post is only loaded when its count is set.
   */
  function MissingPostRow(id: string): string { MissingRow("com.uniway.entity.Post", id) }

  /** `getCommentsByPostId`: only the post's approved comments, oldest first. */
  function GetCommentsByPostId(cs: seq<Comment>, postId: string): (r: seq<Comment>)
    ensures forall x :: x in r <==> x in cs && x.postId == postId && x.isApproved == Some(true)
    ensures |r| == CountApprovedByPost(cs, postId)
  {
    FindApprovedByPost(cs, postId)
  }

  /** The stored post `postId` exists and its comment count is its approved-comment count. */
  predicate CommentCountMatches(db: Db, postId: string)
  {
    FindById(db.posts, PostKey, postId).Some?
    && FindById(db.posts, PostKey, postId).value.commentCount == Some(CountApprovedByPost(db.comments, postId))
  }

  /**
    `updatePostCommentCount(post)`: count the post's approved comments,
    cast to a 32-bit `int`, and save the post with that count. Only the
    posts table changes, and only the row of that post.
   */
  function RefreshCommentCount(db: Db, p: Post): (r: Db)
    ensures r.(posts := db.posts) == db
    ensures UniqueIds(db.posts, PostKey) ==> UniqueIds(r.posts, PostKey)
    ensures UniqueIds(db.posts, PostKey) ==>
              forall k :: k != p.id ==> FindById(r.posts, PostKey, k) == FindById(db.posts, PostKey, k)
    ensures UniqueIds(db.posts, PostKey) ==>
              FindById(r.posts, PostKey, p.id).Some? && FindById(r.posts, PostKey, p.id).value.(commentCount := p.commentCount) == p
    ensures UniqueIds(db.posts, PostKey) && |db.comments| <= IntMax ==> CommentCountMatches(r, p.id)
  {
    var q := p.(commentCount := Some(Int32(CountApprovedByPost(db.comments, p.id))));
    if UniqueIds(db.posts, PostKey) then
      RefreshedRow(db, q);
      db.(posts := Save(db.posts, q, PostKey))
    else db.(posts := Save(db.posts, q, PostKey))
  }

  lemma RefreshedRow(db: Db, q: Post)
    requires UniqueIds(db.posts, PostKey)
    requires q.commentCount == Some(Int32(CountApprovedByPost(db.comments, q.id)))
    ensures UniqueIds(Save(db.posts, q, PostKey), PostKey)
    ensures forall k :: k != q.id ==> FindById(Save(db.posts, q, PostKey), PostKey, k) == FindById(db.posts, PostKey, k)
    ensures FindById(Save(db.posts, q, PostKey), PostKey, q.id) == Some(q)
    ensures |db.comments| <= IntMax ==> CommentCountMatches(db.(posts := Save(db.posts, q, PostKey)), q.id)
  {
    SaveThenFind(db.posts, q, PostKey, q.id);
    SaveKeepsOthers(db.posts, q, PostKey);
    CountWithin(db.comments, ApprovedOfPost(q.id));
  }

  /**
    `createComment`: the post must exist, then the author; the new comment
    is approved, belongs to that post and author, is stamped `now`, and the
    post's count is refreshed.
   */
  function CreateComment(db: Db, postId: string, authorId: string, content: string, freshId: string, now: int): (r: Result<(Db, Comment)>)
    ensures PostQueries.FindByIdWithAuthor(db.posts, postId).None? ==> r == Err(PostService.PostNotFound(postId))
    ensures PostQueries.FindByIdWithAuthor(db.posts, postId).Some? && !ExistsById(db.users, UserKey, authorId) ==>
              r == Err(PostService.UserNotFound(authorId))
    ensures r.Ok? <==> ExistsById(db.posts, PostKey, postId) && ExistsById(db.users, UserKey, authorId)
    ensures r.Ok? ==> var c := r.value.1;
                      c.id == freshId && c.postId == postId && c.authorId == authorId && c.content == content
                      && c.isApproved == Some(true)
    ensures r.Ok? && !ExistsById(db.comments, CommentKey, freshId) ==>
              r.value.0.comments == db.comments + [r.value.1] && r.value.1.createdAt == now
    ensures r.Ok? ==> r.value.0.(posts := db.posts, comments := db.comments) == db
    ensures r.Ok? && UniqueIds(db.posts, PostKey) && |r.value.0.comments| <= IntMax ==> CommentCountMatches(r.value.0, postId)
  {
    match PostQueries.FindByIdWithAuthor(db.posts, postId)
    case None => Err(PostService.PostNotFound(postId))
    case Some(p) =>
      if !ExistsById(db.users, UserKey, authorId) then Err(PostService.UserNotFound(authorId))
      else
        var stamp := match FindById(db.comments, CommentKey, freshId) case Some(prev) => prev.createdAt case None => now;
        var c := Comment(freshId, postId, authorId, content, Some(true), stamp);
        var saved := db.(comments := Save(db.comments, c, CommentKey));
        Ok((RefreshCommentCount(saved, p), c))
  }

  /**
    Creating a comment on one post leaves every other post's row and
    approved-comment count as they were.
   */
  lemma CreateLeavesOtherPosts(db: Db, postId: string, authorId: string, content: string, freshId: string, now: int, other: string)
    requires UniqueIds(db.posts, PostKey) && other != postId
    requires !ExistsById(db.comments, CommentKey, freshId)
    requires CreateComment(db, postId, authorId, content, freshId, now).Ok?
    ensures FindById(CreateComment(db, postId, authorId, content, freshId, now).value.0.posts, PostKey, other)
            == FindById(db.posts, PostKey, other)
    ensures CountApprovedByPost(CreateComment(db, postId, authorId, content, freshId, now).value.0.comments, other)
            == CountApprovedByPost(db.comments, other)
  {
    var r := CreateComment(db, postId, authorId, content, freshId, now);
    CountAppend(db.comments, r.value.1, ApprovedOfPost(other));
  }

  /**
    `updateComment`: the comment must exist, then the user, then the user
    must be its author or an administrator; only the content changes, and
    no post row is touched.
   */
  function UpdateComment(db: Db, commentId: string, content: string, userId: string): (r: Result<(Db, Comment)>)
    ensures FindById(db.comments, CommentKey, commentId).None? ==> r == Err(CommentNotFound(commentId))
    ensures FindById(db.comments, CommentKey, commentId).Some? && FindById(db.users, UserKey, userId).None? ==>
              r == Err(PostService.UserNotFound(userId))
    ensures r.Ok? <==> FindById(db.comments, CommentKey, commentId).Some? && FindById(db.users, UserKey, userId).Some?
                       && MayModify(FindById(db.comments, CommentKey, commentId).value.authorId, FindById(db.users, UserKey, userId).value)
    ensures r.Err? && FindById(db.comments, CommentKey, commentId).Some? && FindById(db.users, UserKey, userId).Some? ==>
              r.msg == EditDenied
    ensures r.Ok? ==> var before := FindById(db.comments, CommentKey, commentId).value;
                      r.value.1.content == content && r.value.1.(content := before.content) == before
    ensures r.Ok? ==> r.value.0.(comments := db.comments) == db
    ensures r.Ok? && UniqueIds(db.comments, CommentKey) ==>
              UniqueIds(r.value.0.comments, CommentKey) && FindById(r.value.0.comments, CommentKey, commentId) == Some(r.value.1)
  {
    match FindById(db.comments, CommentKey, commentId)
    case None => Err(CommentNotFound(commentId))
    case Some(c) =>
      match Authorize(db.users, c.authorId, userId, PostService.UserNotFound(userId), EditDenied)
      case Err(msg) => Err(msg)
      case Ok(_) =>
        var q := c.(content := content);
        if UniqueIds(db.comments, CommentKey) then
          SaveThenFind(db.comments, q, CommentKey, commentId);
          Ok((db.(comments := Save(db.comments, q, CommentKey)), q))
        else Ok((db.(comments := Save(db.comments, q, CommentKey)), q))
  }

  /**
    `deleteComment`: the same checks with the delete message, then the
    comment goes and its post's count is refreshed.
   */
  function DeleteComment(db: Db, commentId: string, userId: string): (r: Result<Db>)
    ensures FindById(db.comments, CommentKey, commentId).None? ==> r == Err(CommentNotFound(commentId))
    ensures FindById(db.comments, CommentKey, commentId).Some? && FindById(db.users, UserKey, userId).None? ==>
              r == Err(PostService.UserNotFound(userId))
    ensures r.Ok? <==> FindById(db.comments, CommentKey, commentId).Some? && FindById(db.users, UserKey, userId).Some?
                       && MayModify(FindById(db.comments, CommentKey, commentId).value.authorId, FindById(db.users, UserKey, userId).value)
                       && ExistsById(db.posts, PostKey, FindById(db.comments, CommentKey, commentId).value.postId)
    ensures FindById(db.comments, CommentKey, commentId).Some? && FindById(db.users, UserKey, userId).Some?
            && !MayModify(FindById(db.comments, CommentKey, commentId).value.authorId, FindById(db.users, UserKey, userId).value) ==>
              r == Err(DeleteDenied)
    ensures r.Err? && FindById(db.comments, CommentKey, commentId).Some? && FindById(db.users, UserKey, userId).Some?
            && MayModify(FindById(db.comments, CommentKey, commentId).value.authorId, FindById(db.users, UserKey, userId).value) ==>
              r == Err(MissingPostRow(FindById(db.comments, CommentKey, commentId).value.postId))
    ensures r.Ok? ==> r.value.(posts := db.posts, comments := db.comments) == db
    ensures r.Ok? ==> forall x :: multiset(r.value.comments)[x] == if x.id == commentId then 0 else multiset(db.comments)[x]
    ensures r.Ok? && UniqueIds(db.posts, PostKey) && |db.comments| <= IntMax ==>
              CommentCountMatches(r.value, FindById(db.comments, CommentKey, commentId).value.postId)
  {
    match FindById(db.comments, CommentKey, commentId)
    case None => Err(CommentNotFound(commentId))
    case Some(c) =>
      match Authorize(db.users, c.authorId, userId, PostService.UserNotFound(userId), DeleteDenied)
      case Err(msg) => Err(msg)
      case Ok(_) =>
        match FindById(db.posts, PostKey, c.postId)
        case None => Err(MissingPostRow(c.postId))
        case Some(p) => Ok(RemoveComment(db, commentId, p))
  }

  /** The comment's row goes and its post's count is refreshed; only those two tables change. */
  function RemoveComment(db: Db, commentId: string, p: Post): (r: Db)
    ensures r.(posts := db.posts, comments := db.comments) == db
    ensures forall x :: multiset(r.comments)[x] == if x.id == commentId then 0 else multiset(db.comments)[x]
    ensures UniqueIds(db.posts, PostKey) && |db.comments| <= IntMax ==> CommentCountMatches(r, p.id)
  {
    RefreshCommentCount(db.(comments := DeleteById(db.comments, CommentKey, commentId)), p)
  }

  /**
    `approveComment`: the comment must exist; it becomes approved and its
    post's count is refreshed, which fails when the post's row is missing.
   */
  function ApproveComment(db: Db, commentId: string): (r: Result<(Db, Comment)>)
    ensures FindById(db.comments, CommentKey, commentId).None? ==> r == Err(CommentNotFound(commentId))
    ensures r.Ok? <==> FindById(db.comments, CommentKey, commentId).Some?
                       && ExistsById(db.posts, PostKey, FindById(db.comments, CommentKey, commentId).value.postId)
    ensures r.Err? && FindById(db.comments, CommentKey, commentId).Some? ==>
              r == Err(MissingPostRow(FindById(db.comments, CommentKey, commentId).value.postId))
    ensures r.Ok? ==> var before := FindById(db.comments, CommentKey, commentId).value;
                      r.value.1.isApproved == Some(true) && r.value.1.(isApproved := before.isApproved) == before
    ensures r.Ok? ==> r.value.0.(posts := db.posts, comments := db.comments) == db
    ensures r.Ok? && UniqueIds(db.posts, PostKey) && UniqueIds(db.comments, CommentKey) && |db.comments| <= IntMax ==>
              CommentCountMatches(r.value.0, r.value.1.postId)
              && FindById(r.value.0.comments, CommentKey, commentId) == Some(r.value.1)
  {
    match FindById(db.comments, CommentKey, commentId)
    case None => Err(CommentNotFound(commentId))
    case Some(c) =>
      match FindById(db.posts, PostKey, c.postId)
      case None => Err(MissingPostRow(c.postId))
      case Some(p) =>
        var q := c.(isApproved := Some(true));
        var saved := db.(comments := Save(db.comments, q, CommentKey));
        if UniqueIds(db.comments, CommentKey) then
          SaveThenFind(db.comments, q, CommentKey, commentId);
          Ok((RefreshCommentCount(saved, p), q))
        else Ok((RefreshCommentCount(saved, p), q))
  }

  /** Approving a comment that was not approved raises its post's approved count by one. */
  lemma ApproveRaisesCount(db: Db, commentId: string)
    requires ApproveComment(db, commentId).Ok?
    requires FindById(db.comments, CommentKey, commentId).value.isApproved != Some(true)
    ensures var c := FindById(db.comments, CommentKey, commentId).value;
            CountApprovedByPost(ApproveComment(db, commentId).value.0.comments, c.postId)
            == CountApprovedByPost(db.comments, c.postId) + 1
  {
    var c := FindById(db.comments, CommentKey, commentId).value;
    var q := c.(isApproved := Some(true));
    var p := FindById(db.posts, PostKey, c.postId).value;
    var saved := db.(comments := Save(db.comments, q, CommentKey));
    assert ApproveComment(db, commentId).value.0 == RefreshCommentCount(saved, p);
    assert RefreshCommentCount(saved, p).comments == saved.comments;
    var i := SaveOverFound(db.comments, q, CommentKey);
    CountUpdate(db.comments, i, q, ApprovedOfPost(c.postId));
  }
}

=== FILE: comments_view_model.dfy ===
/**
  The comment sheet's `CommentsViewModel`: the shown comments of one post
  (null until the first load), the loading flag, the error line and the
  comment just added. As in the forum, each operation is the state after
  the server's answer has been handled; a missing session entry means no
  call and only the error line changes.
 */
module CommentsViewModel {
  import opened Wrappers
  import opened Lists
  import opened Enums
  import opened ApiClient
  import opened AppData
  import opened ApiRepository

  datatype CommentsState = CommentsState(
    comments: Option<seq<Comment>>,
    isLoading: bool,
    errorMessage: Option<string>,
    commentAdded: Option<Comment>)

  /** How `updateComment` ended: an answer, or an exception escaping the call with its message. */
  datatype EditOutcome = Answered(result: ApiResult<CommentResponse>) | Threw(reason: string)

  const NoUserInfo := "No se pudo obtener la información del usuario"
  const NoSessionForComment := NoUserInfo + ". Por favor, inicia sesión nuevamente."
  const LoadFailedPrefix := "Error al cargar comentarios: "
  const AddFailedPrefix := "Error al crear comentario: "
  const EditFailedPrefix := "Error al actualizar comentario: "
  const EditThrewPrefix := "Error inesperado: "
  const DeleteFailedPrefix := "Error al eliminar comentario: "

  /** The two sample comments shown when nothing could be loaded, one and two hours old. */
  function MockComments(postId: string, now: int): (r: seq<Comment>)
    ensures |r| == 2 && r[0].id == "mock-1" && r[1].id == "mock-2"
    ensures r[0].postId == postId && r[1].postId == postId
    ensures r[0].timestamp == now - 3600000 && r[1].timestamp == now - 7200000
  {
    [Comment("mock-1", postId, "user1", "Juan Pérez", STUDENT, "Excelente post, muy informativo!",
             now - 3600000, true),
     Comment("mock-2", postId, "user2", "María García", STUDENT, "Estoy de acuerdo contigo, gracias por compartir.",
             now - 7200000, true)]
  }

  predicate NoComments(st: CommentsState)
  {
    st.comments.None? || |st.comments.value| == 0
  }

  function ConvertAll(data: seq<CommentResponse>, parse: string -> Option<int>, now: int): (r: seq<Comment>)
    ensures |r| == |data|
    ensures forall i :: 0 <= i < |r| ==> r[i] == ConvertToComment(data[i], parse, now)
  {
    Map(data, (c: CommentResponse) => ConvertToComment(c, parse, now))
  }

  /** The error branch of `loadComments`: the sample comments only when nothing is shown. */
  function AfterLoadError(st: CommentsState, postId: string, message: string, now: int): (r: CommentsState)
    ensures !r.isLoading && r.errorMessage == Some(LoadFailedPrefix + message) && r.commentAdded == st.commentAdded
    ensures NoComments(st) ==> r.comments == Some(MockComments(postId, now))
    ensures !NoComments(st) ==> r.comments == st.comments
  {
    st.(comments := if NoComments(st) then Some(MockComments(postId, now)) else st.comments,
        isLoading := false, errorMessage := Some(LoadFailedPrefix + message))
  }

  /** `loadComments`: a success replaces the list and clears the error; the flag ends lowered. */
  function LoadComments(st: CommentsState, postId: string, result: ApiResult<seq<CommentResponse>>,
                        parse: string -> Option<int>, now: int): (r: CommentsState)
    ensures !r.isLoading && r.commentAdded == st.commentAdded
    ensures result.Success? ==> r.comments == Some(ConvertAll(result.data, parse, now)) && r.errorMessage.None?
    ensures result.Error? ==> r == AfterLoadError(st, postId, result.message, now)
    ensures result.Loading? ==> r == st.(isLoading := false)
  {
    match result
    case Success(data) => st.(comments := Some(ConvertAll(data, parse, now)), isLoading := false, errorMessage := None)
    case Error(message, _) => AfterLoadError(st, postId, message, now)
    case Loading(_) => st.(isLoading := false)
  }

  /** After a failed load the sheet shows something, and a list it had is kept. */
  lemma LoadErrorShowsSomething(st: CommentsState, postId: string, message: string, code: Option<int>,
                                parse: string -> Option<int>, now: int)
    ensures var r := LoadComments(st, postId, Error(message, code), parse, now);
            r.comments.Some? && |r.comments.value| > 0 && (!NoComments(st) ==> r.comments == st.comments)
  {
  }

  /** The comment `createCommentLocally` builds: approved, and STUDENT for a missing or unknown role. */
  function LocalComment(freshId: string, postId: string, content: string, userId: string, userName: string,
                        role: Option<string>, now: int): (c: Comment)
    ensures c.id == freshId && c.postId == postId && c.content == content && c.isApproved
    ensures c.authorId == userId && c.authorName == userName && c.timestamp == now
    ensures role.None? ==> c.authorRole == STUDENT
    ensures role.Some? && RoleOf(role.value).None? ==> c.authorRole == STUDENT
    ensures role.Some? && RoleOf(role.value).Some? ==> c.authorRole == RoleOf(role.value).value
  {
    Comment(freshId, postId, userId, userName, RoleOrStudent(role.GetOr("STUDENT")), content, now, true)
  }

  /**
    `addComment`: without the id, email or name only the error line
    changes. A success records the server's comment as just added (the
    reload that follows is a separate `LoadComments`); a failure reports it
    and puts a local comment first.
   */
  function AddComment(st: CommentsState, postId: string, content: string, userId: Option<string>,
                      userEmail: Option<string>, userName: Option<string>, role: Option<string>,
                      result: ApiResult<CommentResponse>, freshId: string,
                      parse: string -> Option<int>, now: int): (r: CommentsState)
    ensures userId.None? || userEmail.None? || userName.None? ==> r == st.(errorMessage := Some(NoSessionForComment))
    ensures userId.Some? && userEmail.Some? && userName.Some? ==> !r.isLoading
    ensures userId.Some? && userEmail.Some? && userName.Some? && result.Success? ==>
              r.commentAdded == Some(ConvertToComment(result.data, parse, now))
              && r.comments == st.comments && r.errorMessage == st.errorMessage
    ensures userId.Some? && userEmail.Some? && userName.Some? && result.Error? ==>
              var c := LocalComment(freshId, postId, content, userId.value, userName.value, role, now);
              r.commentAdded == Some(c) && r.comments == Some([c] + st.comments.GetOr([]))
              && r.errorMessage == Some(AddFailedPrefix + result.message)
    ensures userId.Some? && userEmail.Some? && userName.Some? && result.Loading? ==> r == st.(isLoading := false)
  {
    if userId.None? || userEmail.None? || userName.None? then st.(errorMessage := Some(NoSessionForComment))
    else
      match result
      case Success(data) => st.(commentAdded := Some(ConvertToComment(data, parse, now)), isLoading := false)
      case Error(message, _) =>
        var c := LocalComment(freshId, postId, content, userId.value, userName.value, role, now);
        st.(comments := Some([c] + st.comments.GetOr([])), isLoading := false,
            errorMessage := Some(AddFailedPrefix + message), commentAdded := Some(c))
      case Loading(_) => st.(isLoading := false)
  }

  /** A comment added while the server is unreachable belongs to the post and is found by its fresh id. */
  lemma AddOfflineFindsComment(st: CommentsState, postId: string, content: string, userId: string,
                               userEmail: string, userName: string, role: Option<string>, message: string,
                               freshId: string, parse: string -> Option<int>, now: int)
    ensures var r := AddComment(st, postId, content, Some(userId), Some(userEmail), Some(userName), role,
                                Error(message, None), freshId, parse, now);
            var found := Find(r.comments.value, CommentIdIs(freshId));
            found.Some? && found.value.postId == postId && found.value.content == content && found.value.isApproved
  {
  }

  /** `updateCommentInList`: the first comment with the same id is replaced; otherwise nothing changes. */
  function UpdateCommentInList(comments: Option<seq<Comment>>, updated: Comment): (r: Option<seq<Comment>>)
    ensures comments.None? ==> r.None?
    ensures comments.Some? ==> r.Some? && |r.value| == |comments.value|
    ensures comments.Some? ==> r.value == ReplaceFirst(comments.value, CommentIdIs(updated.id), updated)
  {
    match comments
    case None => None
    case Some(s) => Some(ReplaceFirst(s, CommentIdIs(updated.id), updated))
  }

  /** Only the first comment with the id changes; every other position keeps its comment. */
  lemma UpdateOnlyTouchesId(s: seq<Comment>, updated: Comment)
    ensures var r := UpdateCommentInList(Some(s), updated).value;
            var i := IndexOfFirst(s, CommentIdIs(updated.id));
            (i == -1 ==> r == s)
            && (i != -1 ==> r[i] == updated && s[i].id == updated.id
                            && forall k :: 0 <= k < |s| && k != i ==> r[k] == s[k])
  {
    var i := IndexOfFirst(s, CommentIdIs(updated.id));
    if i != -1 {
      assert CommentIdIs(updated.id)(s[i]);
    }
  }

  /** `removeCommentFromList`: every comment with the id goes; with no list nothing happens. */
  function RemoveCommentFromList(comments: Option<seq<Comment>>, id: string): (r: Option<seq<Comment>>)
    ensures comments.None? ==> r.None?
    ensures comments.Some? ==> r.Some?
    ensures r.Some? ==> forall i :: 0 <= i < |r.value| ==> r.value[i].id != id && r.value[i] in comments.value
    ensures r.Some? ==> forall c :: c in comments.value && c.id != id ==> c in r.value
  {
    match comments
    case None => None
    case Some(s) =>
      var r := RemoveAll(s, CommentIdIs(id));
      assert forall c :: c in s && c.id != id ==> c in r by {
        forall c | c in s && c.id != id ensures c in r {
          var k :| 0 <= k < |s| && s[k] == c;
          assert !CommentIdIs(id)(s[k]);
        }
      }
      Some(r)
  }

  /**
    `editComment`: without the id or email only the error line changes.
    The server's comment replaces the shown one and clears the error; an
    error answer or an exception reports it and applies the new content to
    the tapped comment locally.
   */
  function EditComment(st: CommentsState, comment: Comment, newContent: string, userId: Option<string>,
                       userEmail: Option<string>, outcome: EditOutcome, parse: string -> Option<int>, now: int)
    : (r: CommentsState)
    ensures userId.None? || userEmail.None? ==> r == st.(errorMessage := Some(NoUserInfo))
    ensures userId.Some? && userEmail.Some? ==> !r.isLoading && r.commentAdded == st.commentAdded
    ensures userId.Some? && userEmail.Some? && outcome.Answered? && outcome.result.Success? ==>
              r.comments == UpdateCommentInList(st.comments, ConvertToComment(outcome.result.data, parse, now))
              && r.errorMessage.None?
    ensures userId.Some? && userEmail.Some? && outcome.Answered? && outcome.result.Error? ==>
              r.comments == UpdateCommentInList(st.comments, comment.(content := newContent))
              && r.errorMessage == Some(EditFailedPrefix + outcome.result.message)
    ensures userId.Some? && userEmail.Some? && outcome.Threw? ==>
              r.comments == UpdateCommentInList(st.comments, comment.(content := newContent))
              && r.errorMessage == Some(EditThrewPrefix + outcome.reason)
    ensures userId.Some? && userEmail.Some? && outcome.Answered? && outcome.result.Loading? ==>
              r == st.(isLoading := false)
  {
    if userId.None? || userEmail.None? then st.(errorMessage := Some(NoUserInfo))
    else
      match outcome
      case Threw(reason) =>
        st.(comments := UpdateCommentInList(st.comments, comment.(content := newContent)), isLoading := false,
            errorMessage := Some(EditThrewPrefix + reason))
      case Answered(result) =>
        match result
        case Success(data) =>
          st.(comments := UpdateCommentInList(st.comments, ConvertToComment(data, parse, now)), isLoading := false,
              errorMessage := None)
        case Error(message, _) =>
          st.(comments := UpdateCommentInList(st.comments, comment.(content := newContent)), isLoading := false,
              errorMessage := Some(EditFailedPrefix + message))
        case Loading(_) => st.(isLoading := false)
  }

  /**
    When the edit fails, only the content of the shown comment with the
    tapped comment's id changes (the shown comment being the tapped one).
   */
  lemma FailedEditChangesOnlyContent(st: CommentsState, comment: Comment, newContent: string, userId: string,
                                     userEmail: string, outcome: EditOutcome, parse: string -> Option<int>, now: int)
    requires st.comments.Some?
    requires outcome.Threw? || outcome.result.Error?
    requires forall k :: 0 <= k < |st.comments.value| && st.comments.value[k].id == comment.id ==>
               st.comments.value[k] == comment
    ensures var r := EditComment(st, comment, newContent, Some(userId), Some(userEmail), outcome, parse, now).comments.value;
            var s := st.comments.value;
            |r| == |s| && forall k :: 0 <= k < |s| ==> r[k] == s[k] || r[k] == s[k].(content := newContent)
  {
    UpdateOnlyTouchesId(st.comments.value, comment.(content := newContent));
  }

  /**
    `deleteComment`: without the id or email only the error line changes; a
    success removes the comment and clears the error; a failure keeps the list.
   */
  function DeleteComment(st: CommentsState, comment: Comment, userId: Option<string>, userEmail: Option<string>,
                         result: ApiResult<map<string, string>>): (r: CommentsState)
    ensures userId.None? || userEmail.None? ==> r == st.(errorMessage := Some(NoUserInfo))
    ensures userId.Some? && userEmail.Some? ==> !r.isLoading && r.commentAdded == st.commentAdded
    ensures userId.Some? && userEmail.Some? && result.Success? ==>
              r.comments == RemoveCommentFromList(st.comments, comment.id) && r.errorMessage.None?
    ensures userId.Some? && userEmail.Some? && result.Error? ==>
              r.comments == st.comments && r.errorMessage == Some(DeleteFailedPrefix + result.message)
    ensures userId.Some? && userEmail.Some? && result.Loading? ==> r == st.(isLoading := false)
  {
    if userId.None? || userEmail.None? then st.(errorMessage := Some(NoUserInfo))
    else
      match result
      case Success(_) =>
        st.(comments := RemoveCommentFromList(st.comments, comment.id), isLoading := false, errorMessage := None)
      case Error(message, _) => st.(isLoading := false, errorMessage := Some(DeleteFailedPrefix + message))
      case Loading(_) => st.(isLoading := false)
  }

  /** Once the server has deleted a comment the sheet no longer finds it, and finds every other comment as before. */
  lemma DeleteThenNotFound(st: CommentsState, comment: Comment, userId: string, userEmail: string,
                           answer: map<string, string>, other: string)
    requires st.comments.Some?
    requires other != comment.id
    ensures var r := DeleteComment(st, comment, Some(userId), Some(userEmail), Success(answer)).comments.value;
            Find(r, CommentIdIs(comment.id)).None?
            && Find(r, CommentIdIs(other)) == Find(st.comments.value, CommentIdIs(other))
  {
    FindAfterRemoveAll(st.comments.value, CommentIdIs(comment.id), CommentIdIs(other));
  }
}

=== FILE: email_service.dfy ===
/**
  `EmailService`: six-digit codes mailed to an address, for registration
  and for password recovery, checked once each and swept when expired.

  Time is an integer number of milliseconds. The random draw of
  `Random.nextInt(900000)` and the new row's UUID are parameters; sending
  the mail is left out, since a mail failure never fails the operation.
  The service class is transactional, so an `Err` leaves the database as
  it was.
 */
module EmailService {
  import opened Wrappers
  import opened Text
  import opened Lists
  import opened Jpa
  import opened Entities
  import opened CodeQueries

  const CodeExpirationMinutes := 10
  const MaxCodesPerEmail := 3
  const CodeLength := 6
  const MillisPerMinute := 60000

  /** How long a code stays usable after it is issued. */
  const CodeLifetime := CodeExpirationMinutes * MillisPerMinute

  const TooManyVerificationCodes := "Demasiados códigos de verificación activos. Espera 10 minutos antes de solicitar otro."
  const TooManyResetCodes := "Demasiados códigos de recuperación activos. Espera 10 minutos antes de solicitar otro."
  const SaveFailed := "Error guardando código"

  /** What the code is for; only the refusal message differs. */
  datatype CodePurpose = Registration | PasswordReset

  function TooManyCodes(purpose: CodePurpose): string
  {
    match purpose
    case Registration => TooManyVerificationCodes
    case PasswordReset => TooManyResetCodes
  }

  // ---------------------------------------------------------------------
  // Code generation

  /**
    `generateVerificationCode`: the decimal form of 100000 plus the draw,
    which is below 900000, so always six digits with no leading zero.
   */
  function GenerateCode(draw: int): (code: string)
    requires 0 <= draw < 900000
    ensures |code| == CodeLength && AllDigits(code) && code[0] != '0'
    ensures ParseInt(code) == Some(100000 + draw)
  {
    NatToStringWidth(100000 + draw, 5);
    ParseIntToString(100000 + draw);
    NatToString(100000 + draw)
  }

  /** Different draws give different codes. */
  lemma GeneratedCodesDiffer(d1: int, d2: int)
    requires 0 <= d1 < 900000 && 0 <= d2 < 900000 && d1 != d2
    ensures GenerateCode(d1) != GenerateCode(d2)
  {
  }

  // ---------------------------------------------------------------------
  // Issuing codes

  /** The new unused row, expiring `CodeLifetime` after `now`; a taken id keeps its stored creation time. */
  function IssueCode(db: Db, email: string, now: int, freshId: string, draw: int): (r: (Db, VerificationCode))
    requires 0 <= draw < 900000
    ensures r.0.(codes := db.codes) == db
    ensures r.1.id == freshId && r.1.email == email && r.1.code == GenerateCode(draw)
    ensures r.1.expiresAt == now + CodeLifetime && r.1.isUsed == Some(false)
    ensures IsValidAt(r.1, email, now)
    ensures !ExistsById(db.codes, CodeKey, freshId) ==> r.0.codes == db.codes + [r.1] && r.1.createdAt == now
  {
    var stamp := match FindById(db.codes, CodeKey, freshId) case Some(prev) => prev.createdAt case None => now;
    var c := NewCode(freshId, email, GenerateCode(draw), now + CodeLifetime, stamp);
    (db.(codes := Save(db.codes, c, CodeKey)), c)
  }

  /**
    `sendPasswordResetCode`, and `sendVerificationCode` with its read-back
    corrected (see `SendVerificationCodeAsWritten`): refused while the
    email holds three valid codes; otherwise a new code is saved and
    returned.
   */
  function SendCode(db: Db, email: string, now: int, freshId: string, draw: int, purpose: CodePurpose): (r: Result<(Db, string)>)
    requires 0 <= draw < 900000
    ensures r.Err? <==> CountValid(db.codes, email, now) >= MaxCodesPerEmail
    ensures r.Err? ==> r.msg == TooManyCodes(purpose)
    ensures r.Ok? ==> r.value.1 == GenerateCode(draw) && r.value.0.(codes := db.codes) == db
    ensures r.Ok? && !ExistsById(db.codes, CodeKey, freshId) ==>
              r.value.0.codes == db.codes + [NewCode(freshId, email, r.value.1, now + CodeLifetime, now)]
  {
    if CountValid(db.codes, email, now) >= MaxCodesPerEmail then Err(TooManyCodes(purpose))
    else
      var (after, c) := IssueCode(db, email, now, freshId, draw);
      Ok((after, c.code))
  }

  /**
    The limit holds after every send: an email never holds more than
    three valid codes at the instant one is issued, and other emails'
    counts do not move.
   */
  lemma SendKeepsLimit(db: Db, email: string, now: int, freshId: string, draw: int, purpose: CodePurpose, other: string)
    requires 0 <= draw < 900000
    requires !ExistsById(db.codes, CodeKey, freshId)
    requires SendCode(db, email, now, freshId, draw, purpose).Ok?
    ensures CountValid(SendCode(db, email, now, freshId, draw, purpose).value.0.codes, email, now)
            == CountValid(db.codes, email, now) + 1
    ensures CountValid(SendCode(db, email, now, freshId, draw, purpose).value.0.codes, email, now) <= MaxCodesPerEmail
    ensures other != email ==>
              CountValid(SendCode(db, email, now, freshId, draw, purpose).value.0.codes, other, now)
              == CountValid(db.codes, other, now)
  {
    var c := IssueCode(db, email, now, freshId, draw).1;
    CountAppend(db.codes, c, ValidFor(email, now));
    CountAppend(db.codes, c, ValidFor(other, now));
  }

  /**
    `sendVerificationCode` as written: after the save it reads the row back
    by email and digits, throwing when nothing comes back and when the
    lookup is not unique.
   */
  function SendVerificationCodeAsWritten(db: Db, email: string, now: int, freshId: string, draw: int): (r: Result<(Db, string)>)
    requires 0 <= draw < 900000
    ensures CountValid(db.codes, email, now) >= MaxCodesPerEmail ==> r == Err(TooManyVerificationCodes)
    ensures r.Ok? ==> r == SendCode(db, email, now, freshId, draw, Registration)
  {
    if CountValid(db.codes, email, now) >= MaxCodesPerEmail then Err(TooManyVerificationCodes)
    else
      var (after, c) := IssueCode(db, email, now, freshId, draw);
      match FindByEmailAndCode(after.codes, email, c.code)
      case Err(m) => Err(m)
      case Ok(None) => Err(SaveFailed)
      case Ok(Some(_)) => Ok((after, c.code))
  }

  /**
    The read-back fails the send when the email already holds a row, used
    or expired or not, with the same six digits as the new code: the
    lookup finds two rows and the whole send is rolled back, though the
    limit allowed it. The corrected `SendCode` succeeds on the same input.
   */
  lemma ReadBackCollision(db: Db, email: string, now: int, freshId: string, draw: int, j: int)
    requires 0 <= draw < 900000
    requires CountValid(db.codes, email, now) < MaxCodesPerEmail
    requires !ExistsById(db.codes, CodeKey, freshId)
    requires 0 <= j < |db.codes| && db.codes[j].email == email && db.codes[j].code == GenerateCode(draw)
    ensures SendVerificationCodeAsWritten(db, email, now, freshId, draw) == Err(NonUniqueResult)
    ensures SendCode(db, email, now, freshId, draw, Registration).Ok?
  {
    ReadBackFindsTwo(db, email, now, freshId, draw, j);
  }

  /** With a colliding row, the read-back after the save finds it and the new code. */
  lemma ReadBackFindsTwo(db: Db, email: string, now: int, freshId: string, draw: int, j: int)
    requires 0 <= draw < 900000
    requires !ExistsById(db.codes, CodeKey, freshId)
    requires 0 <= j < |db.codes| && db.codes[j].email == email && db.codes[j].code == GenerateCode(draw)
    ensures var (after, c) := IssueCode(db, email, now, freshId, draw);
            FindByEmailAndCode(after.codes, email, c.code) == Err(NonUniqueResult)
  {
    var (after, c) := IssueCode(db, email, now, freshId, draw);
    var p := OfEmailAndCode(email, c.code);
    assert after.codes == db.codes + [c];
    CountPositive(db.codes, p, j);
    CountAppend(db.codes, c, p);
    FilterLength(after.codes, p);
  }

  /** Without such a row the read-back finds exactly the new code, so both versions agree. */
  lemma ReadBackWithoutCollision(db: Db, email: string, now: int, freshId: string, draw: int)
    requires 0 <= draw < 900000
    requires !ExistsById(db.codes, CodeKey, freshId)
    requires forall j :: 0 <= j < |db.codes| ==> !(db.codes[j].email == email && db.codes[j].code == GenerateCode(draw))
    ensures SendVerificationCodeAsWritten(db, email, now, freshId, draw) == SendCode(db, email, now, freshId, draw, Registration)
  {
    if CountValid(db.codes, email, now) < MaxCodesPerEmail {
      ReadBackFindsNewCode(db, email, now, freshId, draw);
    }
  }

  /** Without a colliding row, the row read back after the save is the new code. */
  lemma ReadBackFindsNewCode(db: Db, email: string, now: int, freshId: string, draw: int)
    requires 0 <= draw < 900000
    requires !ExistsById(db.codes, CodeKey, freshId)
    requires forall j :: 0 <= j < |db.codes| ==> !(db.codes[j].email == email && db.codes[j].code == GenerateCode(draw))
    ensures var (after, c) := IssueCode(db, email, now, freshId, draw);
            FindByEmailAndCode(after.codes, email, c.code) == Ok(Some(c))
  {
    var (after, c) := IssueCode(db, email, now, freshId, draw);
    var p := OfEmailAndCode(email, c.code);
    assert after.codes == db.codes + [c];
    CountNone(db.codes, p);
    CountAppend(db.codes, c, p);
    FilterLength(after.codes, p);
    assert c in Filter(after.codes, p);
  }

  // ---------------------------------------------------------------------
  // Checking codes

  /** The lookup finds one row, unused and not yet past its expiry instant. */
  predicate Accepts(codes: seq<VerificationCode>, email: string, input: string, now: int)
  {
    match FindByEmailAndCode(codes, email, input)
    case Ok(Some(c)) => !GetIsUsed(c) && !(c.expiresAt < now)
    case _ => false
  }

  /**
    `verifyCode`: false for an unknown, used or expired code (expired means
    strictly before now); otherwise the code is marked used and the answer
    is true. Two rows with the same email and digits make the lookup throw.
   */
  function VerifyCode(db: Db, email: string, input: string, now: int): (r: Result<(Db, bool)>)
    ensures r.Err? <==> FindByEmailAndCode(db.codes, email, input).Err?
    ensures r.Err? ==> r.msg == NonUniqueResult
    ensures r.Ok? ==> (r.value.1 <==> Accepts(db.codes, email, input, now))
    ensures r.Ok? && !r.value.1 ==> r.value.0 == db
    ensures r.Ok? && r.value.1 ==>
              var c := FindByEmailAndCode(db.codes, email, input).value.value;
              r.value.0 == db.(codes := Save(db.codes, SetIsUsed(c, Some(true)), CodeKey))
  {
    match FindByEmailAndCode(db.codes, email, input)
    case Err(m) => Err(m)
    case Ok(None) => Ok((db, false))
    case Ok(Some(c)) =>
      if GetIsUsed(c) then Ok((db, false))
      else if c.expiresAt < now then Ok((db, false))
      else Ok((db.(codes := Save(db.codes, SetIsUsed(c, Some(true)), CodeKey)), true))
  }

  /** Marking the found row used replaces it in place, so the lookup then finds the used row. */
  lemma MarkedRowFoundAgain(s: seq<VerificationCode>, email: string, input: string, c: VerificationCode)
    requires UniqueIds(s, CodeKey)
    requires FindByEmailAndCode(s, email, input) == Ok(Some(c))
    ensures FindByEmailAndCode(Save(s, SetIsUsed(c, Some(true)), CodeKey), email, input) == Ok(Some(SetIsUsed(c, Some(true))))
  {
    var p := OfEmailAndCode(email, input);
    var used := SetIsUsed(c, Some(true));
    assert |Filter(s, p)| == 1 && c == Filter(s, p)[0];
    var k :| 0 <= k < |s| && s[k] == c;
    var i := SaveOverFound(s, used, CodeKey);
    assert i == k;
    FilterAfterUpdateOnly(s, k, used, p);
  }

  /**
    A code is accepted once: after a successful check the same email and
    digits are refused, at any later instant.
   */
  lemma VerifyOnce(db: Db, email: string, input: string, now: int, later: int)
    requires UniqueIds(db.codes, CodeKey)
    requires VerifyCode(db, email, input, now).Ok? && VerifyCode(db, email, input, now).value.1
    ensures VerifyCode(VerifyCode(db, email, input, now).value.0, email, input, later)
            == Ok((VerifyCode(db, email, input, now).value.0, false))
  {
    var c := FindByEmailAndCode(db.codes, email, input).value.value;
    MarkedRowFoundAgain(db.codes, email, input, c);
  }

  /** Every code the limit counts as valid is accepted, as is one expiring at this very instant. */
  lemma ValidCodeVerifies(db: Db, email: string, c: VerificationCode, now: int)
    requires FindByEmailAndCode(db.codes, email, c.code) == Ok(Some(c))
    requires IsValidAt(c, email, now) || (c.isUsed == Some(false) && c.expiresAt == now)
    ensures VerifyCode(db, email, c.code, now).Ok? && VerifyCode(db, email, c.code, now).value.1
  {
  }

  // ---------------------------------------------------------------------
  // Cleanup

  function IdsOf(rows: seq<VerificationCode>): set<string>
  {
    set x | x in rows :: x.id
  }

  /**
    `cleanupExpiredCodes`: the expired rows are listed and then deleted,
    each by its key.
   */
  function CleanupExpiredCodes(db: Db, now: int): (r: Db)
    ensures r.(codes := db.codes) == db
    ensures FindExpired(r.codes, now) == []
    ensures forall x :: multiset(r.codes)[x] == if x.id in IdsOf(FindExpired(db.codes, now)) then 0 else multiset(db.codes)[x]
  {
    var ids := IdsOf(FindExpired(db.codes, now));
    var rest := RemoveAll(db.codes, (c: VerificationCode) => c.id in ids);
    db.(codes := rest)
  }

  /** Under the primary-key constraint a row's key is among the expired keys iff the row itself is expired. */
  lemma ExpiredKey(s: seq<VerificationCode>, now: int, i: int)
    requires UniqueIds(s, CodeKey) && 0 <= i < |s|
    ensures s[i].id in IdsOf(FindExpired(s, now)) <==> s[i].expiresAt < now
  {
    if s[i].id in IdsOf(FindExpired(s, now)) {
      var y :| y in FindExpired(s, now) && y.id == s[i].id;
      var j :| 0 <= j < |s| && s[j] == y;
      SameKeySameRow(s, CodeKey, i, j);
    }
  }

  /**
    Under the primary-key constraint a cleanup removes exactly the expired
    rows: every code that is not expired stays, so no valid code is lost.
   */
  lemma CleanupKeepsLiveCodes(db: Db, now: int, email: string)
    requires UniqueIds(db.codes, CodeKey)
    ensures forall x :: x in db.codes && !(x.expiresAt < now) ==> x in CleanupExpiredCodes(db, now).codes
    ensures CountValid(CleanupExpiredCodes(db, now).codes, email, now) == CountValid(db.codes, email, now)
  {
    var s := db.codes;
    var ids := IdsOf(FindExpired(s, now));
    var q := (c: VerificationCode) => c.id in ids;
    forall i | 0 <= i < |s| ensures q(s[i]) <==> s[i].expiresAt < now {
      ExpiredKey(s, now, i);
    }
    var p := ValidFor(email, now);
    var qp := (c: VerificationCode) => q(c) && p(c);
    CountRemoveAll(s, q, p, qp);
    CountNone(s, qp);
  }
}

=== FILE: entities.dfy ===
/**
  The backend's JPA entities as immutable records, and the database that
  holds one table of each.

  A nullable column or a boxed `Boolean`/`Integer` field is an `Option`;
  a many-to-one association is the referenced row's id; a timestamp is an
  integer number of milliseconds. Columns the service logic never reads
  (`updatedAt`, the inverse one-to-many lists) are not carried.
 */
module Entities {
  import opened Wrappers
  import opened Enums

  datatype User = User(
    id: string,
    email: string,
    passwordHash: string,
    role: UserRole,
    fullName: string,
    studentId: Option<string>,
    program: Option<string>,
    profileImageUrl: Option<string>,
    phone: Option<string>,
    address: Option<string>,
    isActive: Option<bool>,
    createdAt: int)

  datatype Post = Post(
    id: string,
    authorId: string,
    content: string,
    postType: Option<PostType>,
    priority: Option<PostPriority>,
    isPinned: Option<bool>,
    isAlert: Option<bool>,
    isApproved: Option<bool>,
    likeCount: Option<int>,
    dislikeCount: Option<int>,
    commentCount: Option<int>,
    createdAt: int)

  datatype Comment = Comment(
    id: string,
    postId: string,
    authorId: string,
    content: string,
    isApproved: Option<bool>,
    createdAt: int)

  /**
    A like or dislike of one user on one target. The `reactions` table
    (target = a post) and the `teacher_recommendation_reactions` table
    (target = a recommendation) have this same shape; the type column is
    NOT NULL, so `kind` is never absent.
   */
  datatype Reaction = Reaction(id: string, userId: string, targetId: string, kind: ReactionType)

  /** A `StudentTeacher` row: one student's recommendation of one teacher. */
  datatype Recommendation = Recommendation(
    id: string,
    studentId: string,
    teacherName: string,
    subject: string,
    semester: Option<string>,
    year: Option<int>,
    reference: Option<string>,
    rating: Option<int>,
    isActive: Option<bool>,
    createdAt: int)

  datatype VerificationCode = VerificationCode(
    id: string,
    email: string,
    code: string,
    expiresAt: int,
    isUsed: Option<bool>,
    createdAt: int)

  /** The backend database: one sequence of rows per table. */
  datatype Db = Db(
    users: seq<User>,
    posts: seq<Post>,
    comments: seq<Comment>,
    reactions: seq<Reaction>,
    recommendations: seq<Recommendation>,
    recReactions: seq<Reaction>,
    codes: seq<VerificationCode>)

  // Primary keys, as function values for the generic repository.
  function UserKey(u: User): string { u.id }
  function PostKey(p: Post): string { p.id }
  function CommentKey(c: Comment): string { c.id }
  function ReactionKey(r: Reaction): string { r.id }
  function RecommendationKey(r: Recommendation): string { r.id }
  function CodeKey(c: VerificationCode): string { c.id }

  // ---------------------------------------------------------------------
  // Post

  /** The field initialisers of a `Post`: general, normal priority, not pinned, no alert, approved, zero counters. */
  predicate HasPostDefaults(p: Post)
  {
    p.priority == Some(NORMAL)
    && p.isPinned == Some(false) && p.isAlert == Some(false) && p.isApproved == Some(true)
    && p.likeCount == Some(0) && p.dislikeCount == Some(0) && p.commentCount == Some(0)
  }

  /** `new Post()`. Key, author and content are still unset (null), shown as "". */
  function NewPost(): (p: Post)
    ensures HasPostDefaults(p) && p.postType == Some(GENERAL)
    ensures p.id == "" && p.authorId == "" && p.content == ""
  {
    Post("", "", "", Some(GENERAL), Some(NORMAL), Some(false), Some(false), Some(true),
         Some(0), Some(0), Some(0), 0)
  }

  /** `new Post(id, author, content, postType)`: the four given fields, the initialisers for the rest. */
  function NewPostWith(id: string, authorId: string, content: string, postType: Option<PostType>): (p: Post)
    ensures p == NewPost().(id := id, authorId := authorId, content := content, postType := postType)
    ensures HasPostDefaults(p)
  {
    Post(id, authorId, content, postType, Some(NORMAL), Some(false), Some(false), Some(true),
         Some(0), Some(0), Some(0), 0)
  }

  // ---------------------------------------------------------------------
  // VerificationCode

  /** `new VerificationCode(id, email, code, expiresAt)`: unused. */
  function NewCode(id: string, email: string, code: string, expiresAt: int, createdAt: int): (c: VerificationCode)
    ensures c.isUsed == Some(false)
    ensures c.id == id && c.email == email && c.code == code && c.expiresAt == expiresAt
  {
    VerificationCode(id, email, code, expiresAt, Some(false), createdAt)
  }

  /** `getIsUsed()`: a null column reads as false. */
  function GetIsUsed(c: VerificationCode): (used: bool)
    ensures used <==> c.isUsed == Some(true)
  {
    c.isUsed.GetOr(false)
  }

  /** `setIsUsed(v)`: null is stored as false; nothing else changes. */
  function SetIsUsed(c: VerificationCode, v: Option<bool>): (r: VerificationCode)
    ensures r.isUsed.Some?
    ensures GetIsUsed(r) <==> v == Some(true)
    ensures r.(isUsed := c.isUsed) == c
  {
    c.(isUsed := Some(v.GetOr(false)))
  }

  /** `isExpired()`: now is strictly after the expiry instant. */
  predicate IsExpired(c: VerificationCode, now: int)
  {
    now > c.expiresAt
  }

  /**
    `isValid()`, which reads the raw field: unboxing a null `isUsed` throws,
    shown as `None`.
   */
  function IsValid(c: VerificationCode, now: int): (r: Option<bool>)
    ensures r.None? <==> c.isUsed.None?
    ensures r.Some? ==> (r.value <==> !GetIsUsed(c) && !IsExpired(c, now))
  {
    match c.isUsed
    case None => None
    case Some(used) => Some(!used && !IsExpired(c, now))
  }

  /** Setting the flag never leaves the null that makes `isValid()` throw. */
  lemma SetIsUsedMakesValidTotal(c: VerificationCode, v: Option<bool>, now: int)
    ensures IsValid(SetIsUsed(c, v), now) == Some(v != Some(true) && !IsExpired(c, now))
  {
  }
}

=== FILE: enums.dfy ===
/**
  The enumerations shared by the backend and the Android client: post type,
  post priority, user role and reaction type, with their `name()` strings and
  `valueOf` parsing, and the like/dislike toggle table.
 */
module Enums {
  import opened Wrappers

  datatype PostType = GENERAL | NEWS | ALERT | ANNOUNCEMENT
  datatype PostPriority = LOW | NORMAL | HIGH | URGENT
  datatype UserRole = STUDENT | ADMINISTRATION
  datatype ReactionType = LIKE | DISLIKE

  const AllPostTypes: seq<PostType> := [GENERAL, NEWS, ALERT, ANNOUNCEMENT]

  function PostTypeName(t: PostType): string
  {
    match t
    case GENERAL => "GENERAL"
    case NEWS => "NEWS"
    case ALERT => "ALERT"
    case ANNOUNCEMENT => "ANNOUNCEMENT"
  }

  /** `PostType.valueOf(s)`: exact, case-sensitive match of a constant name. */
  function PostTypeOf(s: string): (r: Option<PostType>)
    ensures r.Some? ==> PostTypeName(r.value) == s
  {
    if s == "GENERAL" then Some(GENERAL)
    else if s == "NEWS" then Some(NEWS)
    else if s == "ALERT" then Some(ALERT)
    else if s == "ANNOUNCEMENT" then Some(ANNOUNCEMENT)
    else None
  }

  function PriorityName(p: PostPriority): string
  {
    match p
    case LOW => "LOW"
    case NORMAL => "NORMAL"
    case HIGH => "HIGH"
    case URGENT => "URGENT"
  }

  function PriorityOf(s: string): (r: Option<PostPriority>)
    ensures r.Some? ==> PriorityName(r.value) == s
  {
    if s == "LOW" then Some(LOW)
    else if s == "NORMAL" then Some(NORMAL)
    else if s == "HIGH" then Some(HIGH)
    else if s == "URGENT" then Some(URGENT)
    else None
  }

  function RoleName(r: UserRole): string
  {
    match r
    case STUDENT => "STUDENT"
    case ADMINISTRATION => "ADMINISTRATION"
  }

  function RoleOf(s: string): (r: Option<UserRole>)
    ensures r.Some? ==> RoleName(r.value) == s
  {
    if s == "STUDENT" then Some(STUDENT)
    else if s == "ADMINISTRATION" then Some(ADMINISTRATION)
    else None
  }

  function ReactionName(t: ReactionType): string
  {
    match t
    case LIKE => "LIKE"
    case DISLIKE => "DISLIKE"
  }

  /** Every `valueOf` inverts `name()`, and `name()` is injective. */
  lemma NameRoundTrips(t: PostType, p: PostPriority, u: UserRole)
    ensures PostTypeOf(PostTypeName(t)) == Some(t)
    ensures PriorityOf(PriorityName(p)) == Some(p)
    ensures RoleOf(RoleName(u)) == Some(u)
  {
  }

  /**
    The toggle table: pressing the reaction one already has withdraws it;
    pressing the other one, or pressing with none, leaves the pressed one.
   */
  function Toggle(current: Option<ReactionType>, pressed: ReactionType): (r: Option<ReactionType>)
    ensures r == None <==> current == Some(pressed)
    ensures r != None ==> r == Some(pressed)
  {
    if current == Some(pressed) then None else Some(pressed)
  }

  /** Pressing twice: from nothing back to nothing, from the pressed one back to it, from the other one to nothing. */
  lemma ToggleTwice(current: Option<ReactionType>, pressed: ReactionType)
    ensures current == None ==> Toggle(Toggle(current, pressed), pressed) == None
    ensures current == Some(pressed) ==> Toggle(Toggle(current, pressed), pressed) == Some(pressed)
    ensures current.Some? && current != Some(pressed) ==> Toggle(Toggle(current, pressed), pressed) == None
  {
  }
}

=== FILE: forum_view_model.dfy ===
/**
  The forum screen's `ForumViewModel`: the shown post list (null until the
  first load), the loading flag and the error line. Each operation is the
  state after the server's answer `result` has been handled; the session
  entries it reads are parameters, and when one is missing no call is made
  and `result` is ignored. A post response stands for the `post` field of
  the like, edit or create response.
 */
module ForumViewModel {
  import opened Wrappers
  import opened Text
  import opened Lists
  import opened Enums
  import opened ApiClient
  import opened AppData
  import opened ApiRepository
  import opened Permission

  datatype ForumState = ForumState(posts: Option<seq<Post>>, isLoading: bool, errorMessage: Option<string>)

  const NoUserInfo := "No se pudo obtener la información del usuario"
  const NoSessionForPost := NoUserInfo + ". Por favor, inicia sesión nuevamente."
  const LikeFailedPrefix := "Error al actualizar like: "
  const DislikeFailedPrefix := "Error al actualizar dislike: "
  const EditFailedPrefix := "Error al actualizar post: "
  const DeleteFailedPrefix := "Error al eliminar post: "
  const CreateFailedPrefix := "Error al crear post: "

  /** The line shown when the load fails. */
  function LoadFailed(message: string): string
  {
    "Error de conexión: " + message + ". Verifica que el backend esté ejecutándose."
  }

  const SampleStudyGroup := "¿Alguien sabe si hay algún grupo de estudio para la materia de Programación II? Me gustaría unirme."
  const SampleNotes := "Comparto mis apuntes de la clase de Matemáticas. Espero que les sirvan para el examen."

  /** The two sample posts shown when nothing could be loaded, 15 and 10 minutes old. */
  function MockPosts(now: int): (r: seq<Post>)
    ensures |r| == 2 && r[0].id == "3" && r[1].id == "4"
    ensures r[0].timestamp == now - 900000 && r[1].timestamp == now - 600000
  {
    [Post("3", "student1", "María González", STUDENT,
          SampleStudyGroup,
          GENERAL, false, false, NORMAL, now - 900000, 5, 0, 12, false, false, true),
     Post("4", "student2", "Carlos Ruiz", STUDENT,
          SampleNotes,
          GENERAL, false, false, NORMAL, now - 600000, 18, 1, 6, false, false, true)]
  }

  function ConvertAll(data: seq<PostResponse>, parse: string -> Option<int>, now: int): (r: seq<Post>)
    ensures |r| == |data|
    ensures forall i :: 0 <= i < |r| ==> r[i] == ConvertToPost(data[i], parse, now)
  {
    Map(data, (p: PostResponse) => ConvertToPost(p, parse, now))
  }

  /** `posts.value.isNullOrEmpty()`. */
  predicate NoPosts(st: ForumState)
  {
    st.posts.None? || |st.posts.value| == 0
  }

  /** The error branch of `loadPosts`: the sample posts only when nothing is shown. */
  function AfterLoadError(st: ForumState, message: string, now: int): (r: ForumState)
    ensures !r.isLoading && r.errorMessage == Some(LoadFailed(message))
    ensures NoPosts(st) ==> r.posts == Some(MockPosts(now))
    ensures !NoPosts(st) ==> r.posts == st.posts
  {
    ForumState(if NoPosts(st) then Some(MockPosts(now)) else st.posts, false, Some(LoadFailed(message)))
  }

  /**
    `loadPosts`: a success replaces the list and clears the error; an error
    sets the error line and falls back to the sample posts only when
    nothing is shown; loading changes nothing. The flag ends lowered.
   */
  function LoadPosts(st: ForumState, result: ApiResult<seq<PostResponse>>, parse: string -> Option<int>, now: int)
    : (r: ForumState)
    ensures !r.isLoading
    ensures result.Success? ==> r.posts == Some(ConvertAll(result.data, parse, now)) && r.errorMessage.None?
    ensures result.Error? ==> r == AfterLoadError(st, result.message, now)
    ensures result.Loading? ==> r == st.(isLoading := false)
  {
    match result
    case Success(data) => ForumState(Some(ConvertAll(data, parse, now)), false, None)
    case Error(message, _) => AfterLoadError(st, message, now)
    case Loading(_) => st.(isLoading := false)
  }

  /** After a failed load the forum never shows an empty list, and never loses a list it had. */
  lemma LoadErrorShowsSomething(st: ForumState, message: string, code: Option<int>, parse: string -> Option<int>, now: int)
    ensures var r := LoadPosts(st, Error(message, code), parse, now);
            r.posts.Some? && |r.posts.value| > 0 && (!NoPosts(st) ==> r.posts == st.posts)
  {
  }

  /** `updatePostInList`: the first post with the same id is replaced; otherwise, or with no list, nothing changes. */
  function UpdatePostInList(posts: Option<seq<Post>>, updated: Post): (r: Option<seq<Post>>)
    ensures posts.None? ==> r.None?
    ensures posts.Some? ==> r.Some? && |r.value| == |posts.value|
    ensures posts.Some? ==> r.value == ReplaceFirst(posts.value, PostIdIs(updated.id), updated)
  {
    match posts
    case None => None
    case Some(s) => Some(ReplaceFirst(s, PostIdIs(updated.id), updated))
  }

  /**
    Only the first post with the id changes, to `updated`; every other
    position keeps its post. With no post of that id the list is kept.
   */
  lemma UpdateOnlyTouchesId(s: seq<Post>, updated: Post)
    ensures var r := UpdatePostInList(Some(s), updated).value;
            var i := IndexOfFirst(s, PostIdIs(updated.id));
            (i == -1 ==> r == s)
            && (i != -1 ==> r[i] == updated && s[i].id == updated.id
                            && forall k :: 0 <= k < |s| && k != i ==> r[k] == s[k])
  {
    var i := IndexOfFirst(s, PostIdIs(updated.id));
    if i != -1 {
      assert PostIdIs(updated.id)(s[i]);
    }
  }

  /**
    The optimistic copy of `updatePostLikeLocally`, made from the post the
    user tapped. Counters are Kotlin `Int`s and wrap at 32 bits.
   */
  function LocalReaction(post: Post, isLike: bool): (r: Post)
    ensures !(r.isLiked && r.isDisliked)
    ensures r == post.(isLiked := r.isLiked, isDisliked := r.isDisliked,
                       likeCount := r.likeCount, dislikeCount := r.dislikeCount)
    ensures isLike && post.isLiked ==>
              !r.isLiked && r.isDisliked == post.isDisliked
              && r.likeCount == Int32(post.likeCount - 1) && r.dislikeCount == post.dislikeCount
    ensures isLike && !post.isLiked ==>
              r.isLiked && r.likeCount == Int32(post.likeCount + 1)
              && r.dislikeCount == (if post.isDisliked then Int32(post.dislikeCount - 1) else post.dislikeCount)
    ensures !isLike && post.isDisliked ==>
              !r.isDisliked && r.isLiked == post.isLiked
              && r.dislikeCount == Int32(post.dislikeCount - 1) && r.likeCount == post.likeCount
    ensures !isLike && !post.isDisliked ==>
              r.isDisliked && r.dislikeCount == Int32(post.dislikeCount + 1)
              && r.likeCount == (if post.isLiked then Int32(post.likeCount - 1) else post.likeCount)
  {
    if isLike then
      if post.isLiked then post.(isLiked := false, likeCount := Int32(post.likeCount - 1))
      else post.(isLiked := true, isDisliked := false, likeCount := Int32(post.likeCount + 1),
                 dislikeCount := if post.isDisliked then Int32(post.dislikeCount - 1) else post.dislikeCount)
    else
      if post.isDisliked then post.(isDisliked := false, dislikeCount := Int32(post.dislikeCount - 1))
      else post.(isDisliked := true, isLiked := false, dislikeCount := Int32(post.dislikeCount + 1),
                 likeCount := if post.isLiked then Int32(post.likeCount - 1) else post.likeCount)
  }

  function Own(flag: bool): int { if flag then 1 else 0 }

  /**
    The reactions of everybody else: the counter without the user's own
    reaction. The optimistic update only moves the user's own reaction.
   */
  lemma LocalReactionKeepsOthers(post: Post, isLike: bool)
    requires !(post.isLiked && post.isDisliked)
    requires IntMin < post.likeCount < IntMax && IntMin < post.dislikeCount < IntMax
    ensures var r := LocalReaction(post, isLike);
            r.likeCount - Own(r.isLiked) == post.likeCount - Own(post.isLiked)
            && r.dislikeCount - Own(r.isDisliked) == post.dislikeCount - Own(post.isDisliked)
  {
  }

  /** Pressing the same button twice undoes it, unless the first press also cleared the other reaction. */
  lemma LocalReactionTwice(post: Post, isLike: bool)
    requires if isLike then !post.isDisliked else !post.isLiked
    requires IntMin < post.likeCount < IntMax && IntMin < post.dislikeCount < IntMax
    ensures LocalReaction(LocalReaction(post, isLike), isLike) == post
  {
  }

  /** `updatePostLikeLocally`: the optimistic copy replaces the first post with the tapped post's id. */
  function UpdatePostLikeLocally(posts: Option<seq<Post>>, post: Post, isLike: bool): (r: Option<seq<Post>>)
    ensures posts.None? ==> r.None?
    ensures posts.Some? ==> r.Some? && |r.value| == |posts.value|
    ensures posts.Some? && IndexOfFirst(posts.value, PostIdIs(post.id)) == -1 ==> r == posts
    ensures posts.Some? && IndexOfFirst(posts.value, PostIdIs(post.id)) != -1 ==>
              r.value[IndexOfFirst(posts.value, PostIdIs(post.id))] == LocalReaction(post, isLike)
  {
    UpdatePostInList(posts, LocalReaction(post, isLike))
  }

  /**
    `likePost` (`isLike`) and `dislikePost`: without a user id only the
    error line changes; the server's post replaces the shown one; a failed
    call applies the optimistic copy and reports the failure.
   */
  function ReactToPost(st: ForumState, post: Post, isLike: bool, userId: Option<string>,
                       result: ApiResult<PostResponse>, parse: string -> Option<int>, now: int): (r: ForumState)
    ensures r.isLoading == st.isLoading
    ensures userId.None? ==> r == st.(errorMessage := Some(NoUserInfo))
    ensures userId.Some? && result.Success? ==>
              r == st.(posts := UpdatePostInList(st.posts, ConvertToPost(result.data, parse, now)))
    ensures userId.Some? && result.Error? ==>
              r.posts == UpdatePostLikeLocally(st.posts, post, isLike)
              && r.errorMessage == Some((if isLike then LikeFailedPrefix else DislikeFailedPrefix) + result.message)
    ensures userId.Some? && result.Loading? ==> r == st
  {
    if userId.None? then st.(errorMessage := Some(NoUserInfo))
    else
      match result
      case Success(data) => st.(posts := UpdatePostInList(st.posts, ConvertToPost(data, parse, now)))
      case Error(message, _) =>
        st.(posts := UpdatePostLikeLocally(st.posts, post, isLike),
            errorMessage := Some((if isLike then LikeFailedPrefix else DislikeFailedPrefix) + message))
      case Loading(_) => st
  }

  /** After any reaction, a post whose flags were exclusive everywhere keeps them exclusive everywhere. */
  lemma ReactKeepsFlagsExclusive(st: ForumState, post: Post, isLike: bool, userId: Option<string>,
                                 result: ApiResult<PostResponse>, parse: string -> Option<int>, now: int)
    requires st.posts.Some? ==> forall i :: 0 <= i < |st.posts.value| ==>
               !(st.posts.value[i].isLiked && st.posts.value[i].isDisliked)
    requires result.Success? ==> !(result.data.isLiked && result.data.isDisliked)
    ensures var r := ReactToPost(st, post, isLike, userId, result, parse, now);
            r.posts.Some? ==> forall i :: 0 <= i < |r.posts.value| ==>
              !(r.posts.value[i].isLiked && r.posts.value[i].isDisliked)
  {
    var r := ReactToPost(st, post, isLike, userId, result, parse, now);
    if st.posts.Some? && userId.Some? && (result.Success? || result.Error?) {
      var s := st.posts.value;
      var x := if result.Success? then ConvertToPost(result.data, parse, now) else LocalReaction(post, isLike);
      assert r.posts == Some(ReplaceFirst(s, PostIdIs(x.id), x));
      assert !(x.isLiked && x.isDisliked);
      UpdateOnlyTouchesId(s, x);
    }
  }

  /**
    `editPost`: without an email only the error line changes; a success
    replaces the post and clears the error; a failure keeps the list.
   */
  function EditPost(st: ForumState, userEmail: Option<string>, result: ApiResult<PostResponse>,
                    parse: string -> Option<int>, now: int): (r: ForumState)
    ensures r.isLoading == st.isLoading
    ensures userEmail.None? ==> r == st.(errorMessage := Some(NoUserInfo))
    ensures userEmail.Some? && result.Success? ==>
              r.posts == UpdatePostInList(st.posts, ConvertToPost(result.data, parse, now)) && r.errorMessage.None?
    ensures userEmail.Some? && result.Error? ==>
              r.posts == st.posts && r.errorMessage == Some(EditFailedPrefix + result.message)
    ensures userEmail.Some? && result.Loading? ==> r == st
  {
    if userEmail.None? then st.(errorMessage := Some(NoUserInfo))
    else
      match result
      case Success(data) => st.(posts := UpdatePostInList(st.posts, ConvertToPost(data, parse, now)), errorMessage := None)
      case Error(message, _) => st.(errorMessage := Some(EditFailedPrefix + message))
      case Loading(_) => st
  }

  /**
    The forum edits only through the server: the list changes only on a
    success, and then only a post with the edited id, which becomes the
    server's copy. The comment screen differs here, since its failed edit
    still rewrites the comment's text locally.
   */
  lemma EditChangesOnlyThroughServer(st: ForumState, userEmail: Option<string>, result: ApiResult<PostResponse>,
                                     parse: string -> Option<int>, now: int)
    ensures EditPost(st, userEmail, result, parse, now).posts != st.posts ==> userEmail.Some? && result.Success?
    ensures userEmail.Some? && result.Success? && st.posts.Some? ==>
              var x := ConvertToPost(result.data, parse, now);
              var r := EditPost(st, userEmail, result, parse, now).posts.value;
              |r| == |st.posts.value|
              && forall k :: 0 <= k < |r| ==>
                   (st.posts.value[k].id != x.id ==> r[k] == st.posts.value[k])
                   && (r[k] == st.posts.value[k] || r[k] == x)
  {
    if userEmail.Some? && result.Success? && st.posts.Some? {
      UpdateOnlyTouchesId(st.posts.value, ConvertToPost(result.data, parse, now));
    }
  }

  /**
    `deletePost`: a success removes every post with the id and clears the
    error (with no list it does nothing at all); a failure keeps the list.
   */
  function DeletePost(st: ForumState, post: Post, userEmail: Option<string>, result: ApiResult<bool>): (r: ForumState)
    ensures r.isLoading == st.isLoading
    ensures userEmail.None? ==> r == st.(errorMessage := Some(NoUserInfo))
    ensures userEmail.Some? && result.Success? && st.posts.None? ==> r == st
    ensures userEmail.Some? && result.Success? && st.posts.Some? ==>
              r.posts == Some(RemoveAll(st.posts.value, PostIdIs(post.id))) && r.errorMessage.None?
    ensures userEmail.Some? && result.Error? ==>
              r.posts == st.posts && r.errorMessage == Some(DeleteFailedPrefix + result.message)
    ensures userEmail.Some? && result.Loading? ==> r == st
  {
    if userEmail.None? then st.(errorMessage := Some(NoUserInfo))
    else
      match result
      case Success(_) =>
        if st.posts.None? then st
        else st.(posts := Some(RemoveAll(st.posts.value, PostIdIs(post.id))), errorMessage := None)
      case Error(message, _) => st.(errorMessage := Some(DeleteFailedPrefix + message))
      case Loading(_) => st
  }

  /** After a successful delete no shown post has the id, and every other post is still shown. */
  lemma DeleteRemovesExactly(st: ForumState, post: Post, userEmail: string, ok: bool)
    requires st.posts.Some?
    ensures var r := DeletePost(st, post, Some(userEmail), Success(ok)).posts.value;
            (forall i :: 0 <= i < |r| ==> r[i].id != post.id)
            && (forall q :: q in st.posts.value && q.id != post.id ==> q in r)
            && (forall q :: q in r ==> q in st.posts.value)
  {
    var s := st.posts.value;
    var r := RemoveAll(s, PostIdIs(post.id));
    forall q | q in s && q.id != post.id ensures q in r {
      var k :| 0 <= k < |s| && s[k] == q;
      assert !PostIdIs(post.id)(s[k]);
    }
    forall q | q in r ensures q in s {
      var k :| 0 <= k < |r| && r[k] == q;
    }
  }

  /** `canEditPost` and `canDeletePost`: the session's user is the author or an administrator. */
  predicate CanModifyPost(post: Post, userId: Option<string>, role: Option<string>)
  {
    SessionMayModify(post.authorId, userId, role)
  }

  /** With a user's own session stored, the forum's edit and delete checks agree with the server's rule. */
  lemma CanModifyPostAgreesWithServer(post: Post, u: Entities.User)
    ensures CanModifyPost(post, SessionOf(u).0, SessionOf(u).1) <==> MayModify(post.authorId, u)
  {
    ClientRulesAgree(post.authorId, u);
  }

  /** The two checks refuse whenever the session lacks the id or the role. */
  lemma CanModifyNeedsSession(post: Post, userId: Option<string>, role: Option<string>)
    ensures CanModifyPost(post, userId, role) ==> userId.Some? && role.Some?
    ensures userId.Some? && role.Some? ==>
              (CanModifyPost(post, userId, role) <==> post.authorId == userId.value || role.value == Administration)
  {
  }

  /** The post `createPostLocally` builds for the session's user. */
  function LocalPost(freshId: string, userId: string, userName: string, role: Option<string>, content: string,
                     postType: PostType, priority: PostPriority, now: int): (p: Post)
    ensures p.id == freshId && p.authorId == userId && p.authorName == userName
    ensures p.authorRole == RoleOrStudent(role.GetOr("STUDENT"))
    ensures p.content == content && p.postType == postType && p.priority == priority && p.timestamp == now
    ensures p.likeCount == 0 && p.dislikeCount == 0 && p.commentCount == 0 && !p.isLiked && !p.isDisliked
  {
    PostWith(freshId, userId, userName, RoleOrStudent(role.GetOr("STUDENT")), content, postType, priority, now)
  }

  /**
    `createPost`: without the id, email or name only the error line
    changes. A success puts the server's post first (the reload that follows
    is a separate `LoadPosts`); a failure puts a local post first and
    reports the failure.
   */
  function CreatePost(st: ForumState, content: string, postType: PostType, priority: PostPriority,
                      userId: Option<string>, userEmail: Option<string>, userName: Option<string>,
                      role: Option<string>, result: ApiResult<PostResponse>, freshId: string,
                      parse: string -> Option<int>, now: int): (r: ForumState)
    ensures r.isLoading == st.isLoading
    ensures userId.None? || userEmail.None? || userName.None? ==> r == st.(errorMessage := Some(NoSessionForPost))
    ensures userId.Some? && userEmail.Some? && userName.Some? && !result.Loading? ==>
              r.posts.Some? && |r.posts.value| >= 1 && r.posts.value[1..] == st.posts.GetOr([])
    ensures userId.Some? && userEmail.Some? && userName.Some? && result.Success? ==>
              r.posts.value[0] == ConvertToPost(result.data, parse, now) && r.errorMessage == st.errorMessage
    ensures userId.Some? && userEmail.Some? && userName.Some? && result.Error? ==>
              r.posts.value[0] == LocalPost(freshId, userId.value, userName.value, role, content, postType, priority, now)
              && r.errorMessage == Some(CreateFailedPrefix + result.message)
    ensures userId.Some? && userEmail.Some? && userName.Some? && result.Loading? ==> r == st
  {
    if userId.None? || userEmail.None? || userName.None? then st.(errorMessage := Some(NoSessionForPost))
    else
      match result
      case Success(data) => st.(posts := Some([ConvertToPost(data, parse, now)] + st.posts.GetOr([])))
      case Error(message, _) =>
        var p := LocalPost(freshId, userId.value, userName.value, role, content, postType, priority, now);
        st.(posts := Some([p] + st.posts.GetOr([])), errorMessage := Some(CreateFailedPrefix + message))
      case Loading(_) => st
  }

  /** A post created while the server is unreachable is shown first and found by its fresh id. */
  lemma CreateOfflineFindsPost(st: ForumState, content: string, postType: PostType, priority: PostPriority,
                               userId: string, userEmail: string, userName: string, role: Option<string>,
                               message: string, freshId: string, parse: string -> Option<int>, now: int)
    ensures var r := CreatePost(st, content, postType, priority, Some(userId), Some(userEmail), Some(userName),
                                role, Error(message, None), freshId, parse, now);
            Find(r.posts.value, PostIdIs(freshId))
              == Some(LocalPost(freshId, userId, userName, role, content, postType, priority, now))
  {
  }
}

=== FILE: jpa.dfy ===
/**
  What a Spring Data JPA repository does to one table, with the table held
  as a sequence of rows in insertion order.

  `save` is an upsert by primary key (a merge replaces the row in place, a
  persist appends it); `findById` returns the row with that key; `deleteById`
  removes it; an `Optional`-returning query throws when more than one row
  matches.
 */
module Jpa {
  import opened Wrappers
  import opened Lists

  /** Message of the exception Spring raises when an `Optional` query finds several rows. */
  const NonUniqueResult := "query did not return a unique result"

  /**
    Message of the exception Hibernate raises when a lazy reference to
    `entity` points at no row and is first read.
   */
  function MissingRow(entity: string, key: string): string
  {
    "Unable to find " + entity + " with id " + key
  }

  /** Two rows have different keys. */
  function KeysDiffer<T>(id: T -> string): (T, T) -> bool
  {
    (a, b) => id(a) != id(b)
  }

  /** The primary-key constraint: no two rows share a key. */
  predicate UniqueIds<T>(s: seq<T>, id: T -> string)
  {
    Pairwise(s, KeysDiffer(id))
  }

  /** Under the primary-key constraint two rows with one key are one row. */
  lemma SameKeySameRow<T>(s: seq<T>, id: T -> string, i: int, j: int)
    requires UniqueIds(s, id) && 0 <= i < |s| && 0 <= j < |s| && id(s[i]) == id(s[j])
    ensures i == j
  {
  }

  function FindById<T>(s: seq<T>, id: T -> string, key: string): (r: Option<T>)
    ensures r.Some? ==> r.value in s && id(r.value) == key
    ensures r.None? <==> forall i :: 0 <= i < |s| ==> id(s[i]) != key
  {
    var i := IndexOfFirst(s, x => id(x) == key);
    if i == -1 then None else Some(s[i])
  }

  predicate ExistsById<T>(s: seq<T>, id: T -> string, key: string)
  {
    FindById(s, id, key).Some?
  }

  /** `repository.save(x)`: replace the row with the same key, or append. */
  function Save<T>(s: seq<T>, x: T, id: T -> string): (r: seq<T>)
    ensures ExistsById(s, id, id(x)) ==> |r| == |s|
    ensures !ExistsById(s, id, id(x)) ==> r == s + [x]
  {
    ReplaceFirst(s, y => id(y) == id(x), x)
      + (if IndexOfFirst(s, y => id(y) == id(x)) == -1 then [x] else [])
  }

  /** After a save the row is found under its key, and every other key finds what it found before. */
  lemma SaveThenFind<T>(s: seq<T>, x: T, id: T -> string, key: string)
    requires UniqueIds(s, id)
    ensures UniqueIds(Save(s, x, id), id)
    ensures FindById(Save(s, x, id), id, key) == if key == id(x) then Some(x) else FindById(s, id, key)
  {
    var i := IndexOfFirst(s, y => id(y) == id(x));
    if i == -1 {
      assert Save(s, x, id) == s + [x];
      AppendUnique(s, x, id);
      if key != id(x) {
        FindInPrefix(s, [x], id, key);
      } else {
        FindAppended(s, x, id);
      }
    } else {
      assert Save(s, x, id) == s[i := x];
      ReplaceUnique(s, i, x, id);
      if key != id(x) {
        FindAfterReplace(s, i, x, id, key);
      } else {
        FindReplaced(s, i, x, id);
      }
    }
  }

  /** A row with a new key keeps the keys unique. */
  lemma AppendUnique<T>(s: seq<T>, x: T, id: T -> string)
    requires UniqueIds(s, id) && forall j :: 0 <= j < |s| ==> id(s[j]) != id(x)
    ensures UniqueIds(s + [x], id)
  {
    var r := s + [x];
    forall a, b | 0 <= a < b < |r| ensures KeysDiffer(id)(r[a], r[b]) {
      assert r[a] == s[a];
      if b < |s| {
        assert r[b] == s[b];
      }
    }
  }

  /** The row with a new key is found under it. */
  lemma FindAppended<T>(s: seq<T>, x: T, id: T -> string)
    requires forall j :: 0 <= j < |s| ==> id(s[j]) != id(x)
    ensures FindById(s + [x], id, id(x)) == Some(x)
  {
    var r := s + [x];
    assert forall j :: 0 <= j < |s| ==> r[j] == s[j];
    assert r[|s|] == x;
  }

  /** Overwriting a row with one of the same key keeps the keys unique. */
  lemma ReplaceUnique<T>(s: seq<T>, i: int, x: T, id: T -> string)
    requires UniqueIds(s, id) && 0 <= i < |s| && id(s[i]) == id(x)
    ensures UniqueIds(s[i := x], id)
  {
    var r := s[i := x];
    forall a, b | 0 <= a < b < |r| ensures KeysDiffer(id)(r[a], r[b]) {
      assert KeysDiffer(id)(s[a], s[b]);
    }
  }

  /** The overwriting row is found under its key. */
  lemma FindReplaced<T>(s: seq<T>, i: int, x: T, id: T -> string)
    requires UniqueIds(s, id) && 0 <= i < |s| && id(s[i]) == id(x)
    ensures FindById(s[i := x], id, id(x)) == Some(x)
  {
    var r := s[i := x];
    forall j | 0 <= j < |r| && j != i ensures id(r[j]) != id(x) {
      assert KeysDiffer(id)(s[if j < i then j else i], s[if j < i then i else j]);
    }
    assert r[i] == x;
    var f := FindById(r, id, id(x));
    assert f.Some?;
    var j :| 0 <= j < |r| && r[j] == f.value;
    assert j == i;
  }

  /** A save changes what no other key finds. */
  lemma SaveKeepsOthers<T>(s: seq<T>, x: T, id: T -> string)
    requires UniqueIds(s, id)
    ensures forall key :: key != id(x) ==> FindById(Save(s, x, id), id, key) == FindById(s, id, key)
  {
    forall key | key != id(x) ensures FindById(Save(s, x, id), id, key) == FindById(s, id, key) {
      SaveThenFind(s, x, id, key);
    }
  }

  /** Saving a row whose key is taken overwrites the row `findById` finds, in place. */
  lemma SaveOverFound<T>(s: seq<T>, x: T, id: T -> string) returns (i: int)
    requires ExistsById(s, id, id(x))
    ensures 0 <= i < |s| && Save(s, x, id) == s[i := x] && s[i] == FindById(s, id, id(x)).value
  {
    var key := id(x);
    i := IndexOfFirst(s, y => id(y) == id(x));
    IndexOfFirstSame(s, y => id(y) == id(x), z => id(z) == key);
  }

  lemma FindInPrefix<T>(s: seq<T>, t: seq<T>, id: T -> string, key: string)
    requires forall j :: 0 <= j < |t| ==> id(t[j]) != key
    ensures FindById(s + t, id, key) == FindById(s, id, key)
  {
    assert forall j :: 0 <= j < |s| ==> (s + t)[j] == s[j];
    assert forall j :: |s| <= j < |s + t| ==> (s + t)[j] == t[j - |s|];
  }

  lemma FindAfterReplace<T>(s: seq<T>, i: int, x: T, id: T -> string, key: string)
    requires 0 <= i < |s| && id(s[i]) == id(x) && id(x) != key
    ensures FindById(s[i := x], id, key) == FindById(s, id, key)
  {
    var r := s[i := x];
    var a := IndexOfFirst(r, y => id(y) == key);
    var b := IndexOfFirst(s, y => id(y) == key);
    assert forall j :: 0 <= j < |s| ==> (id(r[j]) == key <==> id(s[j]) == key);
  }

  /** `repository.deleteById(key)` / `repository.delete(row)`: every row with that key goes. */
  function DeleteById<T(!new)>(s: seq<T>, id: T -> string, key: string): (r: seq<T>)
    ensures |r| <= |s|
    ensures forall x :: multiset(r)[x] == if id(x) == key then 0 else multiset(s)[x]
  {
    RemoveAll(s, y => id(y) == key)
  }

  lemma DeleteKeepsUniqueIds<T(!new)>(s: seq<T>, id: T -> string, key: string)
    requires UniqueIds(s, id)
    ensures UniqueIds(DeleteById(s, id, key), id)
  {
    RemoveAllPairwise(s, y => id(y) == key, KeysDiffer(id));
  }

  /** Deleting by key lowers a count by the rows with that key that it counted. */
  lemma CountAfterDeleteById<T(!new)>(s: seq<T>, id: T -> string, key: string, p: T -> bool)
    ensures Count(DeleteById(s, id, key), p) == Count(s, p) - Count(s, y => id(y) == key && p(y))
  {
    CountRemoveAll(s, y => id(y) == key, p, y => id(y) == key && p(y));
  }

  /** Deleting the only row with a key lowers a count by that row's share. */
  lemma CountAfterDeleteOnly<T(!new)>(s: seq<T>, id: T -> string, i: int, p: T -> bool)
    requires 0 <= i < |s|
    requires forall j :: 0 <= j < |s| && j != i ==> id(s[j]) != id(s[i])
    ensures Count(DeleteById(s, id, id(s[i])), p) == Count(s, p) - (if p(s[i]) then 1 else 0)
  {
    var key := id(s[i]);
    CountAfterDeleteById(s, id, key, p);
    CountOnlyAt(s, i, y => id(y) == key, y => id(y) == key && p(y), p);
  }

  /** Deleting by a key no `p`-row has keeps the first `p`-row. */
  lemma FindAfterDeleteById<T(!new)>(s: seq<T>, id: T -> string, key: string, p: T -> bool)
    requires forall j :: 0 <= j < |s| && p(s[j]) ==> id(s[j]) != key
    ensures Find(DeleteById(s, id, key), p) == Find(s, p)
  {
    FindAfterRemoveAll(s, y => id(y) == key, p);
  }

  /** The result of an `Optional`-returning query over the rows that match. */
  function Single<T>(matches: seq<T>): (r: Result<Option<T>>)
    ensures r == Ok(None) <==> |matches| == 0
    ensures (r.Ok? && r.value.Some?) <==> |matches| == 1
    ensures r.Ok? && r.value.Some? ==> r.value.value == matches[0]
    ensures r.Err? <==> |matches| > 1
  {
    if |matches| == 0 then Ok(None)
    else if |matches| == 1 then Ok(Some(matches[0]))
    else Err(NonUniqueResult)
  }
}

=== FILE: jpql.dfy ===
/**
  A JPQL `SELECT … WHERE … ORDER BY …` over one table: the rows that
  satisfy the condition, ordered by two descending integer keys (an
  ascending key is given negated, a query with one key passes `NoKey` as
  the second). `COUNT(…)` with the same condition is `Count`.
 */
module Jpql {
  import opened Lists
  import opened Sorting

  /** The constant key: a query ordered by one column. */
  function NoKey<T>(x: T): int
  {
    0
  }

  function Select<T(!new)>(s: seq<T>, where: T -> bool, major: T -> int, minor: T -> int): (r: seq<T>)
    ensures IsFilterOf(r, s, where)
    ensures SortedDesc(r, major, minor)
    ensures |r| == Count(s, where)
  {
    var f := Filter(s, where);
    FilterLength(s, where);
    var r := SortDesc(f, major, minor);
    assert |r| == |multiset(r)| == |multiset(f)| == |f|;
    r
  }

  /** Two selections from the same rows by nested conditions: the narrower one's rows are among the wider one's. */
  lemma SelectNarrower<T(!new)>(s: seq<T>, wide: T -> bool, narrow: T -> bool, major: T -> int, minor: T -> int, x: T)
    requires forall y :: narrow(y) ==> wide(y)
    ensures x in Select(s, narrow, major, minor) ==> x in Select(s, wide, major, minor)
  {
    IsFilterOfMembers(Select(s, narrow, major, minor), s, narrow, x);
    IsFilterOfMembers(Select(s, wide, major, minor), s, wide, x);
  }

  /** A row is selected iff it is in the table and satisfies the condition. */
  lemma SelectMembers<T(!new)>(s: seq<T>, where: T -> bool, major: T -> int, minor: T -> int)
    ensures forall x :: x in Select(s, where, major, minor) <==> x in s && where(x)
  {
    forall x ensures x in Select(s, where, major, minor) <==> x in s && where(x) {
      IsFilterOfMembers(Select(s, where, major, minor), s, where, x);
    }
  }
}

=== FILE: lists.dfy ===
/**
  List operations of the Kotlin collections library and of JPQL `WHERE`
  filters, over immutable sequences: `filter`, `count`, `map`,
  `indexOfFirst`, replace-first, remove-first and `removeAll`.
 */
module Lists {
  import opened Wrappers

  /**
    Kotlin `filter` / a JPQL `WHERE`: the elements that satisfy `p`, in
    order, each as often as in `s`.
   */
  function Filter<T(!new)>(s: seq<T>, p: T -> bool): (r: seq<T>)
    ensures |r| <= |s|
    ensures forall i :: 0 <= i < |r| ==> r[i] in s && p(r[i])
    ensures forall i :: 0 <= i < |s| && p(s[i]) ==> s[i] in r
    ensures IsFilterOf(r, s, p)
  {
    if |s| == 0 then []
    else
      assert s == [s[0]] + s[1..];
      if p(s[0]) then [s[0]] + Filter(s[1..], p)
      else Filter(s[1..], p)
  }

  function Count<T>(s: seq<T>, p: T -> bool): nat
  {
    if |s| == 0 then 0
    else (if p(s[0]) then 1 else 0) + Count(s[1..], p)
  }

  /** A `COUNT(*)` over a filter is the length of the filtered list. */
  lemma {:induction false} FilterLength<T(!new)>(s: seq<T>, p: T -> bool)
    ensures |Filter(s, p)| == Count(s, p)
  {
    if |s| > 0 {
      FilterLength(s[1..], p);
    }
  }

  lemma CountWithin<T(!new)>(s: seq<T>, p: T -> bool)
    ensures Count(s, p) <= |s|
  {
    FilterLength(s, p);
  }

  lemma {:induction false} CountConcat<T>(a: seq<T>, b: seq<T>, p: T -> bool)
    ensures Count(a + b, p) == Count(a, p) + Count(b, p)
  {
    if |a| > 0 {
      assert (a + b)[1..] == a[1..] + b;
      CountConcat(a[1..], b, p);
    } else {
      assert a + b == b;
    }
  }

  /** Counting elements that satisfy both of two exclusive predicates adds up. */
  lemma {:induction false} CountSplit<T>(s: seq<T>, p: T -> bool, q: T -> bool, pq: T -> bool)
    requires forall x :: pq(x) <==> (p(x) || q(x))
    requires forall x :: !(p(x) && q(x))
    ensures Count(s, pq) == Count(s, p) + Count(s, q)
  {
    if |s| > 0 {
      CountSplit(s[1..], p, q, pq);
    }
  }

  lemma {:induction false} CountMonotone<T>(s: seq<T>, p: T -> bool, q: T -> bool)
    requires forall x :: p(x) ==> q(x)
    ensures Count(s, p) <= Count(s, q)
  {
    if |s| > 0 {
      CountMonotone(s[1..], p, q);
    }
  }

  /** Filtering twice by nested predicates is filtering once by the narrower one. */
  lemma {:induction false} FilterOfFilter<T(!new)>(s: seq<T>, p: T -> bool, q: T -> bool)
    requires forall x :: q(x) ==> p(x)
    ensures Filter(Filter(s, p), q) == Filter(s, q)
  {
    if |s| > 0 {
      FilterOfFilter(s[1..], p, q);
    }
  }

  /**
    `r` holds exactly the elements of `s` that satisfy `p`, each as many
    times as in `s`: the meaning of a `WHERE` clause, whatever the order.
   */
  ghost predicate IsFilterOf<T(!new)>(r: seq<T>, s: seq<T>, p: T -> bool)
  {
    forall x :: multiset(r)[x] == if p(x) then multiset(s)[x] else 0
  }

  lemma IsFilterOfMembers<T(!new)>(r: seq<T>, s: seq<T>, p: T -> bool, x: T)
    requires IsFilterOf(r, s, p)
    ensures x in r <==> x in s && p(x)
  {
    assert multiset(r)[x] == if p(x) then multiset(s)[x] else 0;
  }

  /** Changing one element changes a count by what the old and new elements contribute. */
  lemma {:induction false} CountUpdate<T>(s: seq<T>, i: int, y: T, p: T -> bool)
    requires 0 <= i < |s|
    ensures Count(s[i := y], p) == Count(s, p) - (if p(s[i]) then 1 else 0) + (if p(y) then 1 else 0)
  {
    if i > 0 {
      assert s[i := y][1..] == s[1..][i - 1 := y];
      CountUpdate(s[1..], i - 1, y, p);
    } else {
      assert s[i := y][1..] == s[1..];
    }
  }

  /** Replacing the only `p`-element by another `p`-element leaves just that one. */
  lemma FilterAfterUpdateOnly<T(!new)>(s: seq<T>, i: int, y: T, p: T -> bool)
    requires 0 <= i < |s| && p(s[i]) && p(y) && |Filter(s, p)| == 1
    ensures Filter(s[i := y], p) == [y]
  {
    var t := s[i := y];
    CountUpdate(s, i, y, p);
    FilterLength(s, p);
    FilterLength(t, p);
    var r := Filter(t, p);
    assert |r| == 1;
    assert t[i] == y && p(t[i]);
    assert y in r;
    assert r == [r[0]];
  }

  lemma CountAppend<T>(s: seq<T>, x: T, p: T -> bool)
    ensures Count(s + [x], p) == Count(s, p) + (if p(x) then 1 else 0)
  {
    CountConcat(s, [x], p);
    assert [x][1..] == [];
  }

  /** Removing everything that satisfies `q` removes exactly the `q`-elements from every count. */
  lemma {:induction false} CountRemoveAll<T(!new)>(s: seq<T>, q: T -> bool, p: T -> bool, qp: T -> bool)
    requires forall x :: qp(x) <==> q(x) && p(x)
    ensures Count(RemoveAll(s, q), p) == Count(s, p) - Count(s, qp)
  {
    if |s| > 0 {
      CountRemoveAll(s[1..], q, p, qp);
    }
  }

  /** When only the element at `i` satisfies `q`, counting `q` and `p` together is asking whether `p(s[i])`. */
  lemma {:induction false} CountOnlyAt<T>(s: seq<T>, i: int, q: T -> bool, qp: T -> bool, p: T -> bool)
    requires 0 <= i < |s| && q(s[i])
    requires forall j :: 0 <= j < |s| && j != i ==> !q(s[j])
    requires forall x :: qp(x) <==> q(x) && p(x)
    ensures Count(s, qp) == if p(s[i]) then 1 else 0
  {
    if i == 0 {
      CountNone(s[1..], qp);
    } else {
      CountOnlyAt(s[1..], i - 1, q, qp, p);
    }
  }

  lemma {:induction false} CountNone<T>(s: seq<T>, p: T -> bool)
    requires forall j :: 0 <= j < |s| ==> !p(s[j])
    ensures Count(s, p) == 0
  {
    if |s| > 0 {
      CountNone(s[1..], p);
    }
  }

  /** A row matching a predicate makes the count positive. */
  lemma CountPositive<T(!new)>(s: seq<T>, p: T -> bool, i: int)
    requires 0 <= i < |s| && p(s[i])
    ensures Count(s, p) >= 1
  {
    assert s[i] in Filter(s, p);
    FilterLength(s, p);
  }

  /** A count is zero exactly when no row matches, and never exceeds the rows. */
  lemma CountZeroIffNone<T(!new)>(s: seq<T>, p: T -> bool)
    ensures Count(s, p) <= |s|
    ensures Count(s, p) == 0 <==> forall j :: 0 <= j < |s| ==> !p(s[j])
  {
    CountWithin(s, p);
    if j :| 0 <= j < |s| && p(s[j]) {
      CountPositive(s, p, j);
    } else {
      CountNone(s, p);
    }
  }

  function Map<T, U>(s: seq<T>, f: T -> U): (r: seq<U>)
    ensures |r| == |s|
    ensures forall i :: 0 <= i < |s| ==> r[i] == f(s[i])
  {
    seq(|s|, i requires 0 <= i < |s| => f(s[i]))
  }

  /** Kotlin `indexOfFirst`: the first index satisfying `p`, or -1. */
  function IndexOfFirst<T>(s: seq<T>, p: T -> bool): (i: int)
    ensures -1 <= i < |s|
    ensures i == -1 <==> forall k :: 0 <= k < |s| ==> !p(s[k])
    ensures i >= 0 ==> p(s[i]) && forall k :: 0 <= k < i ==> !p(s[k])
  {
    if |s| == 0 then -1
    else if p(s[0]) then 0
    else
      var j := IndexOfFirst(s[1..], p);
      if j == -1 then -1 else j + 1
  }

  /** `indexOfFirst` depends only on which elements satisfy the predicate. */
  lemma {:induction false} IndexOfFirstSame<T>(s: seq<T>, p: T -> bool, q: T -> bool)
    requires forall k :: 0 <= k < |s| ==> (p(s[k]) <==> q(s[k]))
    ensures IndexOfFirst(s, p) == IndexOfFirst(s, q)
  {
    if |s| > 0 {
      IndexOfFirstSame(s[1..], p, q);
    }
  }

  /** `list[indexOfFirst(p)] = x` guarded by `index != -1`. */
  function ReplaceFirst<T>(s: seq<T>, p: T -> bool, x: T): (r: seq<T>)
    ensures |r| == |s|
    ensures IndexOfFirst(s, p) == -1 ==> r == s
    ensures IndexOfFirst(s, p) >= 0 ==> r == s[IndexOfFirst(s, p) := x]
  {
    var i := IndexOfFirst(s, p);
    if i == -1 then s else s[i := x]
  }

  /** `list.removeAt(indexOfFirst(p))` guarded by `index != -1`. */
  function RemoveFirst<T>(s: seq<T>, p: T -> bool): (r: seq<T>)
    ensures IndexOfFirst(s, p) == -1 ==> r == s
    ensures IndexOfFirst(s, p) >= 0 ==> |r| == |s| - 1
  {
    var i := IndexOfFirst(s, p);
    if i == -1 then s else s[..i] + s[i + 1..]
  }

  /** `removeAll(p)`: everything that fails `p`, in order. */
  function RemoveAll<T(!new)>(s: seq<T>, p: T -> bool): (r: seq<T>)
    ensures |r| <= |s|
    ensures forall i :: 0 <= i < |r| ==> r[i] in s && !p(r[i])
    ensures forall i :: 0 <= i < |s| && !p(s[i]) ==> s[i] in r
    ensures forall x :: multiset(r)[x] == if p(x) then 0 else multiset(s)[x]
  {
    Filter(s, x => !p(x))
  }

  /**
    `stream().map(f).toList()` where `f` may throw: every element is
    converted, and the first failure fails the whole list.
   */
  function MapAll<T, U>(s: seq<T>, f: T -> Result<U>): (r: Result<seq<U>>)
    ensures r.Ok? <==> forall i :: 0 <= i < |s| ==> f(s[i]).Ok?
    ensures r.Ok? ==> |r.value| == |s| && forall i :: 0 <= i < |s| ==> r.value[i] == f(s[i]).value
    ensures r.Err? ==> exists i :: 0 <= i < |s| && f(s[i]) == Err(r.msg) && forall j :: 0 <= j < i ==> f(s[j]).Ok?
    decreases |s|
  {
    if |s| == 0 then Ok([])
    else
      match f(s[0])
      case Err(m) => Err(m)
      case Ok(d) =>
        var rest := MapAll(s[1..], f);
        assert forall i :: 1 <= i < |s| ==> s[i] == s[1..][i - 1];
        match rest
        case Err(m) =>
          var k :| 0 <= k < |s[1..]| && f(s[1..][k]) == Err(m) && forall j :: 0 <= j < k ==> f(s[1..][j]).Ok?;
          assert forall j :: 1 <= j < k + 1 ==> f(s[j]).Ok?;
          Err(m)
        case Ok(ds) => Ok([d] + ds)
  }

  /** Kotlin `find` / `firstOrNull`: the first element satisfying `p`. */
  function Find<T>(s: seq<T>, p: T -> bool): (r: Option<T>)
    ensures r.Some? ==> r.value in s && p(r.value)
    ensures r.None? <==> forall i :: 0 <= i < |s| ==> !p(s[i])
  {
    if |s| == 0 then None
    else if p(s[0]) then Some(s[0])
    else Find(s[1..], p)
  }

  /** `find` reports the element `indexOfFirst` points at. */
  lemma {:induction false} FindIsIndexOfFirst<T>(s: seq<T>, p: T -> bool)
    ensures Find(s, p) == if IndexOfFirst(s, p) == -1 then None else Some(s[IndexOfFirst(s, p)])
  {
    if |s| > 0 && !p(s[0]) {
      FindIsIndexOfFirst(s[1..], p);
    }
  }

  /** Where `find` found its element: no earlier element matches. */
  lemma FindAt<T>(s: seq<T>, p: T -> bool) returns (i: int)
    requires Find(s, p).Some?
    ensures 0 <= i < |s| && s[i] == Find(s, p).value
    ensures forall k :: 0 <= k < i ==> !p(s[k])
  {
    FindIsIndexOfFirst(s, p);
    i := IndexOfFirst(s, p);
  }

  /** The first match is the same after filtering out elements that cannot match. */
  lemma {:induction false} FindInFilter<T(!new)>(s: seq<T>, q: T -> bool, p: T -> bool)
    requires forall i :: 0 <= i < |s| && p(s[i]) ==> q(s[i])
    ensures Find(Filter(s, q), p) == Find(s, p)
  {
    if |s| > 0 {
      FindInFilter(s[1..], q, p);
    }
  }

  lemma {:induction false} FindAppend<T>(s: seq<T>, x: T, p: T -> bool)
    ensures Find(s + [x], p) == if Find(s, p).Some? then Find(s, p) else if p(x) then Some(x) else None
  {
    if |s| > 0 {
      assert (s + [x])[1..] == s[1..] + [x];
      FindAppend(s[1..], x, p);
    } else {
      assert s + [x] == [x];
    }
  }

  /** Replacing a non-matching element by another non-matching one keeps the first match. */
  lemma {:induction false} FindUpdate<T>(s: seq<T>, i: int, y: T, p: T -> bool)
    requires 0 <= i < |s| && !p(s[i]) && !p(y)
    ensures Find(s[i := y], p) == Find(s, p)
  {
    if i > 0 {
      assert s[i := y][1..] == s[1..][i - 1 := y];
      FindUpdate(s[1..], i - 1, y, p);
    } else {
      assert s[i := y][1..] == s[1..];
    }
  }

  /** `rel` holds between every element and every later one. */
  predicate Pairwise<T>(s: seq<T>, rel: (T, T) -> bool)
  {
    forall i, j :: 0 <= i < j < |s| ==> rel(s[i], s[j])
  }

  /** Filtering keeps a pairwise relation among the survivors. */
  lemma {:induction false} FilterPairwise<T(!new)>(s: seq<T>, p: T -> bool, rel: (T, T) -> bool)
    requires Pairwise(s, rel)
    ensures Pairwise(Filter(s, p), rel)
  {
    if |s| > 0 {
      var tail := s[1..];
      assert Pairwise(tail, rel) by {
        forall i, j | 0 <= i < j < |tail| ensures rel(tail[i], tail[j]) {
          assert tail[i] == s[i + 1] && tail[j] == s[j + 1];
        }
      }
      FilterPairwise(tail, p, rel);
      var t := Filter(tail, p);
      if p(s[0]) {
        forall j | 0 <= j < |t| ensures rel(s[0], t[j]) {
          var k :| 0 <= k < |tail| && tail[k] == t[j];
          assert s[k + 1] == t[j];
        }
        ConsPairwise(s[0], t, rel);
      }
    }
  }

  /** An element related to everything after it extends a pairwise-related list. */
  lemma ConsPairwise<T>(h: T, t: seq<T>, rel: (T, T) -> bool)
    requires Pairwise(t, rel) && forall j :: 0 <= j < |t| ==> rel(h, t[j])
    ensures Pairwise([h] + t, rel)
  {
    var r := [h] + t;
    forall i, j | 0 <= i < j < |r| ensures rel(r[i], r[j]) {
      assert r[j] == t[j - 1];
      if i > 0 {
        assert r[i] == t[i - 1];
      }
    }
  }

  lemma RemoveAllPairwise<T(!new)>(s: seq<T>, p: T -> bool, rel: (T, T) -> bool)
    requires Pairwise(s, rel)
    ensures Pairwise(RemoveAll(s, p), rel)
  {
    FilterPairwise(s, x => !p(x), rel);
  }

  lemma FindAfterRemoveAll<T(!new)>(s: seq<T>, q: T -> bool, p: T -> bool)
    requires forall i :: 0 <= i < |s| && p(s[i]) ==> !q(s[i])
    ensures Find(RemoveAll(s, q), p) == Find(s, p)
  {
    FindInFilter(s, x => !q(x), p);
  }

  /**
    `removeAt(indexOfFirst(p))` takes out exactly one matching element, the
    first, and keeps the rest in order.
   */
  lemma RemoveFirstDropsOne<T>(s: seq<T>, p: T -> bool)
    requires IndexOfFirst(s, p) != -1
    ensures var i := IndexOfFirst(s, p);
            RemoveFirst(s, p) == s[..i] + s[i + 1..] && Count(RemoveFirst(s, p), p) == Count(s, p) - 1
  {
    var i := IndexOfFirst(s, p);
    CountWithoutFirst(s, i, p);
  }

  /** Dropping the first match from a list lowers its count by one. */
  lemma CountWithoutFirst<T>(s: seq<T>, i: int, p: T -> bool)
    requires 0 <= i < |s| && p(s[i]) && forall k :: 0 <= k < i ==> !p(s[k])
    ensures Count(s[..i] + s[i + 1..], p) == Count(s, p) - 1
  {
    var a, b := s[..i], s[i + 1..];
    assert s == (a + [s[i]]) + b;
    CountConcat(a + [s[i]], b, p);
    CountAppend(a, s[i], p);
    CountConcat(a, b, p);
    forall j | 0 <= j < |a| ensures !p(a[j]) {
      assert a[j] == s[j];
    }
    CountNone(a, p);
  }

  /** The list adapters' `add`: the new element goes on top and the rest follows unchanged. */
  function Prepend<T>(s: seq<T>, x: T): (r: seq<T>)
    ensures |r| == |s| + 1 && r[0] == x && r[1..] == s
  {
    [x] + s
  }

  /** In a list that starts with a match, the first match is the head: removing it gives back the tail, replacing it changes only the head. */
  lemma FirstOfCons<T>(s: seq<T>, x: T, y: T, p: T -> bool)
    requires p(x)
    ensures RemoveFirst([x] + s, p) == s
    ensures ReplaceFirst([x] + s, p, y) == [y] + s
  {
    assert IndexOfFirst([x] + s, p) == 0;
    assert ([x] + s)[1..] == s;
  }
}

=== FILE: login_view_model.dfy ===
/**
  The institutional address rule shared by the sign-in, registration and
  password screens: a bare user name gets the university's domain.
 */
module InstitutionalEmail {
  import opened Text

  const Domain := "@pascualbravo.edu.co"

  /** The typed address, completed with the domain when it has no '@'. */
  function CompleteEmail(email: string): (r: string)
    ensures '@' in email ==> r == email
    ensures '@' !in email ==> r == email + Domain
    ensures '@' in r && |r| > 0
  {
    if '@' in email then email
    else
      assert (email + Domain)[|email|] == '@';
      email + Domain
  }

  /** Completing twice is completing once, and a bare name always ends with the domain. */
  lemma CompleteEmailIdempotent(email: string)
    ensures CompleteEmail(CompleteEmail(email)) == CompleteEmail(email)
    ensures '@' !in email ==> EndsWith(CompleteEmail(email), Domain)
  {
    if '@' !in email {
      var r := email + Domain;
      assert r[|r| - |Domain|..] == Domain;
    }
  }

  /** The sign-in and registration address check: the pattern's verdict, and the domain at the end. */
  predicate IsInstitutional(email: string, patternMatches: bool)
  {
    patternMatches && EndsWith(email, Domain)
  }

  /**
    A completed bare name always carries the domain, so only the pattern
    can refuse it; an address the pattern refuses is never institutional.
   */
  lemma CompletedNameNeedsOnlyPattern(email: string, patternMatches: bool)
    ensures '@' !in email ==> (IsInstitutional(CompleteEmail(email), patternMatches) <==> patternMatches)
    ensures !patternMatches ==> !IsInstitutional(email, patternMatches)
  {
    CompleteEmailIdempotent(email);
  }
}

/**
  `LoginViewModel`: the address is completed, the fields are checked, the
  server is asked, and when the server answers with an error the account
  cache on the device is tried before the error is shown. The session and
  the cache are part of the state; the e-mail pattern's verdict on the
  completed address is a parameter.
 */
module LoginViewModel {
  import opened Wrappers
  import opened Text
  import opened ApiClient
  import opened AppData
  import opened ApiRepository
  import opened TokenManager
  import opened UserCache
  import opened InstitutionalEmail

  datatype LoginResult = SignedIn(user: User) | Refused(message: string)

  datatype LoginState = LoginState(result: Option<LoginResult>, isLoading: bool, prefs: Prefs, store: UserStore)

  const FieldsMissing := "Por favor completa todos los campos"
  const EmailInvalid := "Correo electrónico inválido"
  const WrongCredentials := "Correo electrónico o contraseña incorrectos"
  const ConnectionPrefix := "Error de conexión: "

  /** A server error that speaks about credentials or carries status 401 or 400. */
  predicate IsCredentialsError(apiError: string)
  {
    Contains(apiError, "Credenciales") || Contains(apiError, "401") || Contains(apiError, "400")
  }

  /**
    `loginLocalFallback`: a cached account with the address and the same
    password signs in (and becomes the current user); a cached account with
    another password is refused as bad credentials; with no cached account
    the server's error decides between bad credentials and a connection
    error that quotes it.
   */
  function LocalFallback(st: LoginState, email: string, password: string, apiError: string): (r: LoginState)
    ensures r.prefs == st.prefs && r.isLoading == st.isLoading && r.store.users == st.store.users
    ensures r.result.Some?
    ensures r.result.value.SignedIn? <==>
              GetUserByEmail(st.store, email).Some? && GetUserByEmail(st.store, email).value.password == password
    ensures r.result.value.SignedIn? ==>
              r.result.value.user.email == email && r.result.value.user.password == password
              && r.store.currentUserId == Some(r.result.value.user.id)
    ensures GetUserByEmail(st.store, email).Some? && GetUserByEmail(st.store, email).value.password != password ==>
              r == st.(result := Some(Refused(WrongCredentials)))
    ensures GetUserByEmail(st.store, email).None? ==>
              r == st.(result := Some(Refused(if IsCredentialsError(apiError) then WrongCredentials
                                              else ConnectionPrefix + apiError)))
  {
    match GetUserByEmail(st.store, email)
    case Some(u) =>
      if u.password == password then st.(store := SetCurrentUser(st.store, u), result := Some(SignedIn(u)))
      else st.(result := Some(Refused(WrongCredentials)))
    case None =>
      st.(result := Some(Refused(if IsCredentialsError(apiError) then WrongCredentials else ConnectionPrefix + apiError)))
  }

  /**
    `loginUser`: a blank field, then an address that fails the pattern or
    lies outside the domain, is refused before any call; a server success
    saves the session with the remember-me flag and caches the account as
    current; a server error goes to the local fallback; the flag is always
    lowered at the end.
   */
  function Login(st: LoginState, email: string, password: string, rememberMe: bool, emailPattern: bool,
                 result: ApiResult<AuthResponse>): (r: LoginState)
    ensures !r.isLoading
    ensures IsBlank(email) || IsBlank(password) ==>
              r == st.(result := Some(Refused(FieldsMissing)), isLoading := false)
    ensures !IsBlank(email) && !IsBlank(password) && !IsInstitutional(CompleteEmail(email), emailPattern) ==>
              r == st.(result := Some(Refused(EmailInvalid)), isLoading := false)
    ensures Accepted(email, password, emailPattern) && result.Success? ==>
              r.prefs == SetRememberMe(SaveAuthData(st.prefs, result.data), rememberMe)
              && r.result == Some(SignedIn(ConvertToUser(result.data.user)))
              && r.store == Remember(st.store, ConvertToUser(result.data.user))
    ensures Accepted(email, password, emailPattern) && result.Error? ==>
              r == LocalFallback(st, CompleteEmail(email), password, result.message).(isLoading := false)
    ensures Accepted(email, password, emailPattern) && result.Loading? ==> r == st.(isLoading := false)
    ensures !result.Success? ==> r.prefs == st.prefs && r.store.users == st.store.users
  {
    var fullEmail := CompleteEmail(email);
    if IsBlank(email) || IsBlank(password) then st.(result := Some(Refused(FieldsMissing)), isLoading := false)
    else if !IsInstitutional(fullEmail, emailPattern) then st.(result := Some(Refused(EmailInvalid)), isLoading := false)
    else
      match result
      case Success(auth) =>
        var u := ConvertToUser(auth.user);
        st.(prefs := SetRememberMe(SaveAuthData(st.prefs, auth), rememberMe), store := Remember(st.store, u),
            result := Some(SignedIn(u)), isLoading := false)
      case Error(message, _) => LocalFallback(st, fullEmail, password, message).(isLoading := false)
      case Loading(_) => st.(isLoading := false)
  }

  /** The checks that let `loginUser` call the server. */
  predicate Accepted(email: string, password: string, emailPattern: bool)
  {
    !IsBlank(email) && !IsBlank(password) && IsInstitutional(CompleteEmail(email), emailPattern)
  }

  /**
    Accounts cached from a server answer carry an empty password, and the
    blank check runs first, so once the server signed someone in, a later
    attempt while the server fails never signs that account in offline.
   */
  lemma ServerAccountNeverSignsInOffline(st: LoginState, email: string, password: string, rememberMe: bool,
                                         emailPattern: bool, auth: AuthResponse, email2: string,
                                         password2: string, apiError: string, code: Option<int>)
    requires Accepted(email, password, emailPattern)
    requires CompleteEmail(email2) == auth.user.email
    ensures var online := Login(st, email, password, rememberMe, emailPattern, Success(auth));
            var offline := Login(online, email2, password2, rememberMe, emailPattern, Error(apiError, code));
            offline.result.Some? && !offline.result.value.SignedIn?
  {
    var online := Login(st, email, password, rememberMe, emailPattern, Success(auth));
    assert GetUserByEmail(online.store, auth.user.email) == Some(ConvertToUser(auth.user));
  }

  /** Whatever the server says, a sign-in that succeeds offline was for a cached account with that password. */
  lemma OfflineSignInNeedsCachedPassword(st: LoginState, email: string, password: string, rememberMe: bool,
                                         emailPattern: bool, result: ApiResult<AuthResponse>)
    requires !result.Success?
    ensures var r := Login(st, email, password, rememberMe, emailPattern, result);
            r.result.Some? && r.result.value.SignedIn? && r.result != st.result ==>
              GetUserByEmail(st.store, CompleteEmail(email)) == Some(r.result.value.user)
              && r.result.value.user.password == password
  {
  }
}

=== FILE: password_view_models.dfy ===
/**
  `ForgotPasswordViewModel`: asks the server to e-mail a reset code. The
  address is completed with the institutional domain when it has no '@';
  unlike sign-in, any domain passes. The e-mail pattern's verdict on the
  completed address is a parameter.
 */
module ForgotPasswordViewModel {
  import opened Wrappers
  import opened Text
  import opened ApiClient
  import opened InstitutionalEmail
  import opened RegisterViewModel
  import LoginViewModel

  datatype ForgotResult = ResetCodeSent(email: string, message: string) | ResetCodeRefused(message: string)

  datatype ForgotState = ForgotState(result: Option<ForgotResult>, isLoading: bool)

  /** A state after one call, with the address the code was asked for, if any. */
  datatype Asked = Asked(state: ForgotState, to: Option<string>)

  const EmailMissing := "Por favor completa el campo de correo"
  const EmailInvalid := "Correo electrónico inválido"

  /**
    `sendResetCode`: a blank address, then a completed address that fails
    the pattern, is refused with no call; otherwise the code is asked for
    the completed address and the server's answer is reported.
   */
  function SendResetCode(st: ForgotState, email: string, emailPattern: bool,
                         result: ApiResult<CodeSentResponse>): (r: Asked)
    ensures !r.state.isLoading
    ensures r.to.None? <==> IsBlank(email) || !emailPattern
    ensures IsBlank(email) ==> r.state.result == Some(ResetCodeRefused(EmailMissing))
    ensures !IsBlank(email) && !emailPattern ==> r.state.result == Some(ResetCodeRefused(EmailInvalid))
    ensures r.to.Some? ==> r.to.value == CompleteEmail(email)
    ensures r.to.Some? && result.Success? ==>
              r.state.result == Some(ResetCodeSent(CompleteEmail(email), result.data.message))
    ensures r.to.Some? && result.Error? ==> r.state.result == Some(ResetCodeRefused(result.message))
    ensures r.to.Some? && result.Loading? ==> r.state.result == st.result
  {
    var fullEmail := CompleteEmail(email);
    if IsBlank(email) then Asked(ForgotState(Some(ResetCodeRefused(EmailMissing)), false), None)
    else if !emailPattern then Asked(ForgotState(Some(ResetCodeRefused(EmailInvalid)), false), None)
    else
      match result
      case Success(data) => Asked(ForgotState(Some(ResetCodeSent(fullEmail, data.message)), false), Some(fullEmail))
      case Error(message, _) => Asked(ForgotState(Some(ResetCodeRefused(message)), false), Some(fullEmail))
      case Loading(_) => Asked(st.(isLoading := false), Some(fullEmail))
  }

  /**
    Every address sign-in accepts is accepted here as well, for the same
    account: the reset code goes to the address sign-in would use.
   */
  lemma SignInAddressesCanReset(st: ForgotState, email: string, password: string, emailPattern: bool,
                                result: ApiResult<CodeSentResponse>)
    requires LoginViewModel.Accepted(email, password, emailPattern)
    ensures SendResetCode(st, email, emailPattern, result).to == Some(CompleteEmail(email))
  {
  }

  /** A reported code names an address that already has its '@', so completing it again changes nothing. */
  lemma ReportedAddressIsComplete(st: ForgotState, email: string, emailPattern: bool,
                                  result: ApiResult<CodeSentResponse>)
    ensures var r := SendResetCode(st, email, emailPattern, result);
            r.state.result.Some? && r.state.result.value.ResetCodeSent? && r.state.result != st.result ==>
              CompleteEmail(r.state.result.value.email) == r.state.result.value.email
  {
  }
}

/**
  `ResetPasswordViewModel`: sends the address, the code and the new
  password to the server after two checks, and passes the answer through.
 */
module ResetPasswordViewModel {
  import opened Wrappers
  import opened Text
  import opened ApiClient

  datatype ResetResult = PasswordReset(message: string) | ResetRefused(message: string)

  datatype ResetState = ResetState(result: Option<ResetResult>, isLoading: bool)

  /** `ResetPasswordRequest`. */
  datatype ResetRequest = ResetRequest(email: string, code: string, newPassword: string)

  /** `ResetPasswordResponse`: a message and a success flag. */
  datatype ResetPasswordResponse = ResetPasswordResponse(message: string, success: bool)

  /** A state after one call, with the request that was sent, if any. */
  datatype Reset = Reset(state: ResetState, sent: Option<ResetRequest>)

  const FieldsMissing := "Por favor completa todos los campos"
  const PasswordShort := "La contraseña debe tener al menos 6 caracteres"
  const MinPassword := 6

  /**
    `resetPassword`: any blank field, then a new password under six
    characters, is refused with no call; otherwise the three values are
    sent unchanged and the server's message is reported.
   */
  function ResetPassword(st: ResetState, email: string, code: string, newPassword: string,
                         result: ApiResult<ResetPasswordResponse>): (r: Reset)
    ensures !r.state.isLoading
    ensures r.sent.None? <==> IsBlank(email) || IsBlank(code) || IsBlank(newPassword) || |newPassword| < MinPassword
    ensures IsBlank(email) || IsBlank(code) || IsBlank(newPassword) ==>
              r.state.result == Some(ResetRefused(FieldsMissing))
    ensures !IsBlank(email) && !IsBlank(code) && !IsBlank(newPassword) && |newPassword| < MinPassword ==>
              r.state.result == Some(ResetRefused(PasswordShort))
    ensures r.sent.Some? ==> r.sent.value == ResetRequest(email, code, newPassword)
    ensures r.sent.Some? && result.Success? ==> r.state.result == Some(PasswordReset(result.data.message))
    ensures r.sent.Some? && result.Error? ==> r.state.result == Some(ResetRefused(result.message))
    ensures r.sent.Some? && result.Loading? ==> r.state.result == st.result
  {
    if IsBlank(email) || IsBlank(code) || IsBlank(newPassword) then
      Reset(ResetState(Some(ResetRefused(FieldsMissing)), false), None)
    else if |newPassword| < MinPassword then Reset(ResetState(Some(ResetRefused(PasswordShort)), false), None)
    else
      var request := ResetRequest(email, code, newPassword);
      match result
      case Success(data) => Reset(ResetState(Some(PasswordReset(data.message)), false), Some(request))
      case Error(message, _) => Reset(ResetState(Some(ResetRefused(message)), false), Some(request))
      case Loading(_) => Reset(st.(isLoading := false), Some(request))
  }

  /** The answer's success flag is not read: an answer that says it failed is still reported as a reset. */
  lemma SuccessFlagIgnored(st: ResetState, email: string, code: string, newPassword: string, message: string)
    requires !IsBlank(email) && !IsBlank(code) && |newPassword| >= MinPassword && !IsBlank(newPassword)
    ensures ResetPassword(st, email, code, newPassword, Success(ResetPasswordResponse(message, false))).state.result
            == Some(PasswordReset(message))
  {
  }
}

=== FILE: permission.dfy ===
/**
  The edit/delete rule shared by the services, the view models and the
  adapters: the actor may change a post, comment or recommendation when
  the actor wrote it or holds the ADMINISTRATION role.

  The backend decides it on a stored `User`; the client decides it on the
  session's user id and role name, either of which may be missing, and
  each client screen treats a missing piece a little differently.
 */
module Permission {
  import opened Wrappers
  import opened Enums
  import opened Entities
  import opened Jpa

  const Administration := "ADMINISTRATION"

  /** `canUserEditPost` / `canUserDeletePost` and the comment and recommendation checks. */
  predicate MayModify(authorId: string, actor: User)
  {
    authorId == actor.id || actor.role == ADMINISTRATION
  }

  /**
    The order every guarded backend operation checks in, once the target
    exists: an unknown actor is reported first, then a refused one.
   */
  function Authorize(users: seq<User>, authorId: string, userId: string, unknownUser: string, denied: string): (r: Result<User>)
    ensures r.Ok? ==> r.value in users && r.value.id == userId && MayModify(authorId, r.value)
    ensures FindById(users, UserKey, userId).None? ==> r == Err(unknownUser)
    ensures FindById(users, UserKey, userId).Some? ==>
              (r.Ok? <==> MayModify(authorId, FindById(users, UserKey, userId).value))
    ensures r.Err? ==> r.msg == unknownUser || r.msg == denied
  {
    match FindById(users, UserKey, userId)
    case None => Err(unknownUser)
    case Some(u) => if MayModify(authorId, u) then Ok(u) else Err(denied)
  }

  /** An unknown actor is refused whatever the author, and an author is never refused. */
  lemma AuthorizeUnknownAndAuthor(users: seq<User>, authorId: string, userId: string, unknownUser: string, denied: string)
    ensures (forall i :: 0 <= i < |users| ==> users[i].id != userId) ==>
              Authorize(users, authorId, userId, unknownUser, denied).Err?
    ensures (exists i :: 0 <= i < |users| && users[i].id == userId) && authorId == userId ==>
              Authorize(users, authorId, userId, unknownUser, denied).Ok?
  {
  }

  // ---------------------------------------------------------------------
  // Client-side variants

  /**
    `ForumViewModel.canEditPost` / `canDeletePost`: false as soon as the
    session lacks the user id or the role.
   */
  predicate SessionMayModify(authorId: string, userId: Option<string>, role: Option<string>)
  {
    userId.Some? && role.Some? && (authorId == userId.value || role.value == Administration)
  }

  /**
    `PostAdapter` and `CommentAdapter`: false for a missing user id; a
    missing role only loses the administrator branch.
   */
  predicate ViewerMayModify(authorId: string, userId: Option<string>, role: Option<string>)
  {
    userId.Some? && (authorId == userId.value || role == Some(Administration))
  }

  /**
    `TeacherRecommendationAdapter`'s `canDelete`: the row's student id is
    never null, so it equals a missing user id never; a role name of
    ADMINISTRATION alone is enough.
   */
  predicate CardMayDelete(studentId: string, userId: Option<string>, role: Option<string>)
  {
    userId == Some(studentId) || role == Some(Administration)
  }

  /**
    What a list row shows: the actions row, and the edit and delete
    buttons inside it (a button inside a hidden row is not seen).
   */
  datatype ActionsView = ActionsView(row: bool, edit: bool, delete: bool)

  /** The actions row of `PostAdapter` and `CommentAdapter`. */
  function ActionsFor(canEdit: bool, canDelete: bool): (v: ActionsView)
    ensures v.row <==> canEdit || canDelete
    ensures v.edit <==> canEdit
    ensures v.delete <==> canDelete
  {
    if canEdit || canDelete then ActionsView(true, canEdit, canDelete) else ActionsView(false, false, false)
  }

  /** A button is only ever seen inside a shown row. */
  lemma ButtonsInsideRow(canEdit: bool, canDelete: bool)
    ensures var v := ActionsFor(canEdit, canDelete); (v.edit || v.delete) <==> v.row
  {
  }

  /** The session the client holds for a logged-in user. */
  function SessionOf(u: User): (s: (Option<string>, Option<string>))
    ensures s.0 == Some(u.id) && s.1.Some?
  {
    (Some(u.id), Some(RoleName(u.role)))
  }

  /**
    With a complete session the three client rules and the backend rule
    agree, so no button offers what the server would refuse and none is
    hidden that the server would allow.
   */
  lemma ClientRulesAgree(authorId: string, u: User)
    ensures SessionMayModify(authorId, SessionOf(u).0, SessionOf(u).1) <==> MayModify(authorId, u)
    ensures ViewerMayModify(authorId, SessionOf(u).0, SessionOf(u).1) <==> MayModify(authorId, u)
    ensures CardMayDelete(authorId, SessionOf(u).0, SessionOf(u).1) <==> MayModify(authorId, u)
  {
    NameRoundTrips(GENERAL, NORMAL, u.role);
  }

  /**
    Without a user id the view model and the list adapters refuse; the
    recommendation card still lets an administrator through.
   */
  lemma MissingIdentity(authorId: string, role: Option<string>)
    ensures !SessionMayModify(authorId, None, role)
    ensures !ViewerMayModify(authorId, None, role)
    ensures CardMayDelete(authorId, None, role) <==> role == Some(Administration)
    ensures !SessionMayModify(authorId, Some(authorId), None)
    ensures ViewerMayModify(authorId, Some(authorId), None)
  {
  }
}

=== FILE: post_adapter.dfy ===
/**
  The forum list's `PostAdapter`: the rows' type label, age text and
  action buttons, and the adapter's own copy of the list. The clock
  (`now`) and the `dd/MM/yyyy HH:mm` date format are parameters.
 */
module PostAdapter {
  import opened Wrappers
  import opened Text
  import opened Lists
  import opened Enums
  import opened AppData
  import opened Permission

  /** The type badge: None when the badge is hidden. */
  function PostTypeLabel(t: PostType): (badge: Option<string>)
    ensures badge.None? <==> t == GENERAL
  {
    match t
    case NEWS => Some("NOTICIA")
    case ALERT => Some("ALERTA")
    case ANNOUNCEMENT => Some("ANUNCIO")
    case GENERAL => None
  }

  /** Each shown badge names one type. */
  lemma LabelNamesType(a: PostType, b: PostType)
    requires PostTypeLabel(a).Some? && PostTypeLabel(a) == PostTypeLabel(b)
    ensures a == b
  {
  }

  const JustNow := "Hace un momento"

  /**
    `formatTimestamp`: under a minute, then whole minutes, then whole hours
    (the division truncates), then the date itself.
   */
  function FormatTimestamp(now: int, timestamp: int, formatDate: int -> string): (text: string)
    ensures now - timestamp < 60000 ==> text == JustNow
    ensures 60000 <= now - timestamp < 3600000 ==>
              text == "Hace " + IntToString((now - timestamp) / 60000) + " minutos"
    ensures 3600000 <= now - timestamp < 86400000 ==>
              text == "Hace " + IntToString((now - timestamp) / 3600000) + " horas"
    ensures now - timestamp >= 86400000 ==> text == formatDate(timestamp)
  {
    var diff := now - timestamp;
    if diff < 60000 then JustNow
    else if diff < 3600000 then "Hace " + IntToString(Quot(diff, 60000)) + " minutos"
    else if diff < 86400000 then "Hace " + IntToString(Quot(diff, 3600000)) + " horas"
    else formatDate(timestamp)
  }

  /**
    The number shown is the age rounded down: 1 to 59 minutes in the
    minutes bucket and 1 to 23 hours in the hours bucket.
   */
  lemma AgeShownRoundedDown(now: int, timestamp: int)
    ensures var d := now - timestamp;
            60000 <= d < 3600000 ==> 1 <= d / 60000 <= 59 && d / 60000 * 60000 <= d < (d / 60000 + 1) * 60000
    ensures var d := now - timestamp;
            3600000 <= d < 86400000 ==> 1 <= d / 3600000 <= 23 && d / 3600000 * 3600000 <= d < (d / 3600000 + 1) * 3600000
  {
  }

  /**
    `canUserEditPost` / `canUserDeletePost`: the adapter holds the role as
    an enum, so only the user id can be missing.
   */
  predicate AdapterMayModify(post: Post, role: UserRole, userId: Option<string>)
  {
    userId.Some? && (post.authorId == userId.value || role == ADMINISTRATION)
  }

  /** The adapter's rule is the list rule on the role's name. */
  lemma AdapterIsViewerRule(post: Post, role: UserRole, userId: Option<string>)
    ensures AdapterMayModify(post, role, userId) <==> ViewerMayModify(post.authorId, userId, Some(RoleName(role)))
  {
    NameRoundTrips(GENERAL, NORMAL, role);
    if RoleName(role) == Administration {
      assert RoleOf(RoleName(role)) == Some(ADMINISTRATION);
    }
  }

  /** The row's buttons: both checks are the same rule, so edit and delete show together. */
  function PostActions(post: Post, role: UserRole, userId: Option<string>): (v: ActionsView)
    ensures v.edit == v.delete == v.row == AdapterMayModify(post, role, userId)
  {
    ActionsFor(AdapterMayModify(post, role, userId), AdapterMayModify(post, role, userId))
  }

  /** `updatePost`: the first post with the id is replaced; without one nothing changes. */
  function UpdatePost(posts: seq<Post>, post: Post): (r: seq<Post>)
    ensures |r| == |posts|
    ensures IndexOfFirst(posts, PostIdIs(post.id)) == -1 ==> r == posts
    ensures IndexOfFirst(posts, PostIdIs(post.id)) != -1 ==>
              r[IndexOfFirst(posts, PostIdIs(post.id))] == post
              && forall k :: 0 <= k < |posts| && k != IndexOfFirst(posts, PostIdIs(post.id)) ==> r[k] == posts[k]
  {
    ReplaceFirst(posts, PostIdIs(post.id), post)
  }

  /** `removePost`: the first post with the id goes; later ones with the same id stay. */
  function RemovePost(posts: seq<Post>, id: string): (r: seq<Post>)
    ensures IndexOfFirst(posts, PostIdIs(id)) == -1 ==> r == posts
    ensures IndexOfFirst(posts, PostIdIs(id)) != -1 ==>
              r == posts[..IndexOfFirst(posts, PostIdIs(id))] + posts[IndexOfFirst(posts, PostIdIs(id)) + 1..]
              && Count(r, PostIdIs(id)) == Count(posts, PostIdIs(id)) - 1
  {
    if IndexOfFirst(posts, PostIdIs(id)) != -1 then
      RemoveFirstDropsOne(posts, PostIdIs(id));
      RemoveFirst(posts, PostIdIs(id))
    else RemoveFirst(posts, PostIdIs(id))
  }

  /** `addPost` is `Prepend`. Adding a post and removing its id gives back the list; updating it changes only the top. */
  lemma AddThenRemoveOrUpdate(posts: seq<Post>, post: Post, newer: Post)
    requires newer.id == post.id
    ensures RemovePost(Prepend(posts, post), post.id) == posts
    ensures UpdatePost(Prepend(posts, post), newer) == Prepend(posts, newer)
  {
    FirstOfCons(posts, post, newer, PostIdIs(post.id));
  }
}

=== FILE: post_dialogs.dfy ===
/**
  The forum's two dialogs: `CreatePostDialog` and `EditPostDialog`. Each
  trims the typed content, refuses empty or short content, and hands the
  content and the chosen type (and, for a new post, a priority) to its
  caller. The radio groups and the spinner are modelled by which button,
  or which position, is selected.
 */
module PostDialogs {
  import opened Wrappers
  import opened Text
  import opened Enums
  import opened AppData

  const MinContent := 10

  /** The type radio buttons of the new-post dialog. */
  datatype TypeButton = GeneralButton | NewsButton | AlertButton

  /** The priority radio buttons of the new-post dialog. */
  datatype PriorityButton = NormalButton | HighButton | UrgentButton

  /** The preselected buttons. */
  const InitialType: Option<TypeButton> := Some(GeneralButton)
  const InitialPriority: Option<PriorityButton> := Some(NormalButton)

  /** The type of the checked button; with none checked, GENERAL. */
  function PostTypeOfButton(checked: Option<TypeButton>): (t: PostType)
    ensures t != ANNOUNCEMENT
    ensures checked == Some(NewsButton) <==> t == NEWS
    ensures checked == Some(AlertButton) <==> t == ALERT
  {
    match checked
    case Some(NewsButton) => NEWS
    case Some(AlertButton) => ALERT
    case _ => GENERAL
  }

  /** The priority of the checked button; with none checked, NORMAL. */
  function PriorityOfButton(checked: Option<PriorityButton>): (p: PostPriority)
    ensures p != LOW
    ensures checked == Some(HighButton) <==> p == HIGH
    ensures checked == Some(UrgentButton) <==> p == URGENT
  {
    match checked
    case Some(HighButton) => HIGH
    case Some(UrgentButton) => URGENT
    case _ => NORMAL
  }

  /** The priority section after the type changes: hidden for GENERAL, shown for NEWS and ALERT. */
  function PriorityShown(checked: TypeButton): (shown: bool)
    ensures shown <==> PostTypeOfButton(Some(checked)) != GENERAL
  {
    checked != GeneralButton
  }

  const CreateEmpty := "Por favor escribe el contenido de tu publicación"
  const ContentShort := "El contenido debe tener al menos 10 caracteres"

  datatype CreateClick = CreateRefused(message: string) | Create(content: string, postType: PostType, priority: PostPriority)

  /**
    `createPost`: blank content, then content under ten characters after
    trimming, is refused; otherwise the trimmed content with the checked
    type and priority is handed on.
   */
  function OnCreateClick(content: string, postType: Option<TypeButton>, priority: Option<PriorityButton>): (r: CreateClick)
    ensures r.Create? <==> |Trim(content)| >= MinContent
    ensures IsBlank(content) ==> r == CreateRefused(CreateEmpty)
    ensures !IsBlank(content) && |Trim(content)| < MinContent ==> r == CreateRefused(ContentShort)
    ensures r.Create? ==>
              r.content == Trim(content) && r.postType == PostTypeOfButton(postType)
              && r.priority == PriorityOfButton(priority)
  {
    var trimmed := Trim(content);
    if IsBlank(trimmed) then CreateRefused(CreateEmpty)
    else if |trimmed| < MinContent then CreateRefused(ContentShort)
    else Create(trimmed, PostTypeOfButton(postType), PriorityOfButton(priority))
  }

  /** A new post from the dialog is never an announcement and never low priority. */
  lemma DialogNeverAnnouncesOrLowers(content: string, postType: Option<TypeButton>, priority: Option<PriorityButton>)
    ensures var r := OnCreateClick(content, postType, priority);
            r.Create? ==> r.postType != ANNOUNCEMENT && r.priority != LOW
  {
  }

  /** With the preselected buttons untouched, a post is GENERAL with NORMAL priority. */
  lemma DefaultsAreGeneralNormal(content: string)
    requires |Trim(content)| >= MinContent
    ensures OnCreateClick(content, InitialType, InitialPriority) == Create(Trim(content), GENERAL, NORMAL)
  {
  }

  const EditEmpty := "El contenido no puede estar vacío"

  /** The spinner's entry for a type: its index in the enum's order. */
  function TypePosition(t: PostType): (i: nat)
    ensures i < |AllPostTypes| && AllPostTypes[i] == t
  {
    match t
    case GENERAL => 0
    case NEWS => 1
    case ALERT => 2
    case ANNOUNCEMENT => 3
  }

  datatype EditClick = EditRefused(message: string) | Edit(content: string, postType: PostType)

  /**
    The save button: empty, then short, trimmed content is refused;
    otherwise the trimmed content and the type at the spinner's position
    are handed on.
   */
  function OnSaveClick(content: string, position: nat): (r: EditClick)
    requires position < |AllPostTypes|
    ensures r.Edit? <==> |Trim(content)| >= MinContent
    ensures |Trim(content)| == 0 ==> r == EditRefused(EditEmpty)
    ensures 0 < |Trim(content)| < MinContent ==> r == EditRefused(ContentShort)
    ensures r.Edit? ==> r.content == Trim(content) && r.postType == AllPostTypes[position]
  {
    var trimmed := Trim(content);
    if |trimmed| == 0 then EditRefused(EditEmpty)
    else if |trimmed| < MinContent then EditRefused(ContentShort)
    else Edit(trimmed, AllPostTypes[position])
  }

  /**
    Saving without touching the dialog keeps the post's type, with its
    content trimmed; any of the four types can be chosen, including
    ANNOUNCEMENT, which the new-post dialog never produces.
   */
  lemma UntouchedSaveKeepsType(post: Post)
    requires |Trim(post.content)| >= MinContent
    ensures OnSaveClick(post.content, TypePosition(post.postType)) == Edit(Trim(post.content), post.postType)
    ensures OnSaveClick(post.content, TypePosition(ANNOUNCEMENT)).postType == ANNOUNCEMENT
  {
  }
}

=== FILE: post_queries.dfy ===
/**
  The queries of `PostRepository`. Every listing query joins the author
  (`JOIN FETCH`); authors are never missing, so the join filters nothing.
  A condition `p.flag = true` does not hold for a NULL column.
 */
module PostQueries {
  import opened Wrappers
  import opened Enums
  import opened Lists
  import opened Sorting
  import opened Jpa
  import opened Jpql
  import opened Entities

  predicate IsApproved(p: Post)
  {
    p.isApproved == Some(true)
  }

  /**
    `ORDER BY isPinned DESC`: true before false. Where a NULL flag goes is
    the database's choice, `nullsFirst`: PostgreSQL puts NULLs first under
    DESC, MySQL and H2 put them last.
   */
  function PinRank(nullsFirst: bool, p: Post): int
  {
    match p.isPinned
    case Some(true) => 1
    case Some(false) => 0
    case None => if nullsFirst then 2 else -1
  }

  function PinOrder(nullsFirst: bool): Post -> int
  {
    (p: Post) => PinRank(nullsFirst, p)
  }

  function NewestFirst(p: Post): int
  {
    p.createdAt
  }

  function OldestFirst(p: Post): int
  {
    -p.createdAt
  }

  function Approved(): Post -> bool
  {
    (p: Post) => IsApproved(p)
  }

  function ApprovedOfType(t: PostType): Post -> bool
  {
    (p: Post) => p.postType == Some(t) && IsApproved(p)
  }

  function ApprovedOfPriority(pr: PostPriority): Post -> bool
  {
    (p: Post) => p.priority == Some(pr) && IsApproved(p)
  }

  function ApprovedOfAuthor(a: string): Post -> bool
  {
    (p: Post) => p.authorId == a && IsApproved(p)
  }

  function ApprovedAlert(): Post -> bool
  {
    (p: Post) => p.isAlert == Some(true) && IsApproved(p)
  }

  function ApprovedPinned(): Post -> bool
  {
    (p: Post) => p.isPinned == Some(true) && IsApproved(p)
  }

  function ApprovedSince(since: int): Post -> bool
  {
    (p: Post) => p.createdAt >= since && IsApproved(p)
  }

  function Pending(): Post -> bool
  {
    (p: Post) => p.isApproved == Some(false)
  }

  /** Newest first: no post stands before a newer one. */
  predicate NewestFirstOrder(r: seq<Post>)
  {
    forall i, j :: 0 <= i < j < |r| ==> r[i].createdAt >= r[j].createdAt
  }

  /**
    `findAllApprovedPostsOrderByPinnedAndDate`: approved posts, pinned ones
    before unpinned ones whatever the database does with NULL, the NULL
    group first or last as `nullsFirst` says, newest first within a group.
   */
  function FindAllApprovedOrdered(posts: seq<Post>, nullsFirst: bool): (r: seq<Post>)
    ensures forall x :: x in r <==> x in posts && IsApproved(x)
    ensures IsFilterOf(r, posts, Approved())
    ensures forall i, j :: 0 <= i < j < |r| && r[i].isPinned == Some(false) ==> r[j].isPinned != Some(true)
    ensures forall i, j :: 0 <= i < j < |r| && r[i].isPinned.None? && r[j].isPinned.Some? ==> nullsFirst
    ensures forall i, j :: 0 <= i < j < |r| && r[i].isPinned.Some? && r[j].isPinned.None? ==> !nullsFirst
    ensures forall i, j :: 0 <= i < j < |r| && r[i].isPinned == r[j].isPinned ==> r[i].createdAt >= r[j].createdAt
    ensures SortedDesc(r, PinOrder(nullsFirst), NewestFirst)
  {
    SelectMembers(posts, Approved(), PinOrder(nullsFirst), NewestFirst);
    var r := Select(posts, Approved(), PinOrder(nullsFirst), NewestFirst);
    PinOrderGroups(r, nullsFirst);
    r
  }

  /** A listing sorted by pin rank and date keeps the pin groups apart and each group newest first. */
  lemma PinOrderGroups(r: seq<Post>, nullsFirst: bool)
    requires SortedDesc(r, PinOrder(nullsFirst), NewestFirst)
    ensures forall i, j :: 0 <= i < j < |r| && r[i].isPinned == Some(false) ==> r[j].isPinned != Some(true)
    ensures forall i, j :: 0 <= i < j < |r| && r[i].isPinned.None? && r[j].isPinned.Some? ==> nullsFirst
    ensures forall i, j :: 0 <= i < j < |r| && r[i].isPinned.Some? && r[j].isPinned.None? ==> !nullsFirst
    ensures forall i, j :: 0 <= i < j < |r| && r[i].isPinned == r[j].isPinned ==> r[i].createdAt >= r[j].createdAt
  {
    forall i, j | 0 <= i < j < |r|
      ensures r[i].isPinned == Some(false) ==> r[j].isPinned != Some(true)
      ensures r[i].isPinned.None? && r[j].isPinned.Some? ==> nullsFirst
      ensures r[i].isPinned.Some? && r[j].isPinned.None? ==> !nullsFirst
      ensures r[i].isPinned == r[j].isPinned ==> r[i].createdAt >= r[j].createdAt
    {
      assert Precedes(r[i], r[j], PinOrder(nullsFirst), NewestFirst);
      assert PinOrder(nullsFirst)(r[i]) == PinRank(nullsFirst, r[i]);
      assert PinOrder(nullsFirst)(r[j]) == PinRank(nullsFirst, r[j]);
    }
  }

  /** `findApprovedPostsByType`. */
  function FindApprovedByType(posts: seq<Post>, t: PostType): (r: seq<Post>)
    ensures forall x :: x in r <==> x in posts && x.postType == Some(t) && IsApproved(x)
    ensures IsFilterOf(r, posts, ApprovedOfType(t))
    ensures NewestFirstOrder(r)
  {
    SelectMembers(posts, ApprovedOfType(t), NewestFirst, NoKey);
    Select(posts, ApprovedOfType(t), NewestFirst, NoKey)
  }

  /** `findApprovedPostsByPriority`. */
  function FindApprovedByPriority(posts: seq<Post>, pr: PostPriority): (r: seq<Post>)
    ensures forall x :: x in r <==> x in posts && x.priority == Some(pr) && IsApproved(x)
    ensures IsFilterOf(r, posts, ApprovedOfPriority(pr))
    ensures NewestFirstOrder(r)
  {
    SelectMembers(posts, ApprovedOfPriority(pr), NewestFirst, NoKey);
    Select(posts, ApprovedOfPriority(pr), NewestFirst, NoKey)
  }

  /** `findApprovedPostsByAuthor`. */
  function FindApprovedByAuthor(posts: seq<Post>, a: string): (r: seq<Post>)
    ensures forall x :: x in r <==> x in posts && x.authorId == a && IsApproved(x)
    ensures IsFilterOf(r, posts, ApprovedOfAuthor(a))
    ensures NewestFirstOrder(r)
  {
    SelectMembers(posts, ApprovedOfAuthor(a), NewestFirst, NoKey);
    Select(posts, ApprovedOfAuthor(a), NewestFirst, NoKey)
  }

  /** `findAllAlertPosts`. */
  function FindAlertPosts(posts: seq<Post>): (r: seq<Post>)
    ensures forall x :: x in r <==> x in posts && x.isAlert == Some(true) && IsApproved(x)
    ensures IsFilterOf(r, posts, ApprovedAlert())
    ensures NewestFirstOrder(r)
  {
    SelectMembers(posts, ApprovedAlert(), NewestFirst, NoKey);
    Select(posts, ApprovedAlert(), NewestFirst, NoKey)
  }

  /** `findAllPinnedPosts`. */
  function FindPinnedPosts(posts: seq<Post>): (r: seq<Post>)
    ensures forall x :: x in r <==> x in posts && x.isPinned == Some(true) && IsApproved(x)
    ensures IsFilterOf(r, posts, ApprovedPinned())
    ensures NewestFirstOrder(r)
  {
    SelectMembers(posts, ApprovedPinned(), NewestFirst, NoKey);
    Select(posts, ApprovedPinned(), NewestFirst, NoKey)
  }

  /** `findPostsSince`: the bound is inclusive. */
  function FindPostsSince(posts: seq<Post>, since: int): (r: seq<Post>)
    ensures forall x :: x in r <==> x in posts && x.createdAt >= since && IsApproved(x)
    ensures IsFilterOf(r, posts, ApprovedSince(since))
    ensures NewestFirstOrder(r)
  {
    SelectMembers(posts, ApprovedSince(since), NewestFirst, NoKey);
    Select(posts, ApprovedSince(since), NewestFirst, NoKey)
  }

  /** `countApprovedPostsByAuthor`: as many as the author listing returns. */
  function CountApprovedByAuthor(posts: seq<Post>, a: string): (n: nat)
    ensures n == |FindApprovedByAuthor(posts, a)|
  {
    Count(posts, ApprovedOfAuthor(a))
  }

  /** `findAllPendingPosts`: the posts explicitly not approved, oldest first. */
  function FindAllPending(posts: seq<Post>): (r: seq<Post>)
    ensures forall x :: x in r <==> x in posts && x.isApproved == Some(false)
    ensures IsFilterOf(r, posts, Pending())
    ensures forall i, j :: 0 <= i < j < |r| ==> r[i].createdAt <= r[j].createdAt
  {
    SelectMembers(posts, Pending(), OldestFirst, NoKey);
    Select(posts, Pending(), OldestFirst, NoKey)
  }

  /** `findByIdWithAuthor`. */
  function FindByIdWithAuthor(posts: seq<Post>, id: string): (r: Option<Post>)
    ensures r.Some? ==> r.value in posts && r.value.id == id
    ensures r.None? <==> forall i :: 0 <= i < |posts| ==> posts[i].id != id
  {
    FindById(posts, PostKey, id)
  }

  /** No post is both pending and approved; a post with a NULL flag is in neither listing. */
  lemma PendingAndApprovedDisjoint(posts: seq<Post>, nullsFirst: bool, x: Post)
    ensures !(x in FindAllPending(posts) && x in FindAllApprovedOrdered(posts, nullsFirst))
    ensures x.isApproved.None? ==> x !in FindAllPending(posts) && x !in FindAllApprovedOrdered(posts, nullsFirst)
  {
  }

  /** Each approved listing by one field is drawn from the full approved listing. */
  lemma ListingsWithinApproved(posts: seq<Post>, nullsFirst: bool, t: PostType, a: string, x: Post)
    ensures x in FindApprovedByType(posts, t) ==> x in FindAllApprovedOrdered(posts, nullsFirst)
    ensures x in FindApprovedByAuthor(posts, a) ==> x in FindAllApprovedOrdered(posts, nullsFirst)
    ensures x in FindPinnedPosts(posts) ==>
              x in FindAllApprovedOrdered(posts, nullsFirst) && PinRank(nullsFirst, x) == 1
  {
  }
}

=== FILE: post_service.dfy ===
/**
  `PostService`: creating, moderating, editing and deleting posts, the
  like/dislike toggles with the counter refresh that follows them, the
  conversion to a `PostDto`, and the approved listing with its fallback.

  Every operation maps the database to a `Result`; an `Err` is a thrown
  `RuntimeException`, and since the operations run in one transaction an
  error leaves the database as it was.
 */
module PostService {
  import opened Wrappers
  import opened Enums
  import opened Text
  import opened Lists
  import opened Sorting
  import opened Jpa
  import opened Entities
  import opened ReactionStore
  import opened PostQueries
  import CommentQueries
  import opened Permission

  function PostNotFound(id: string): string { "Post no encontrado con ID: " + id }
  function UserNotFound(id: string): string { "Usuario no encontrado con ID: " + id }
  const EditDenied := "No tienes permisos para editar este post. Solo el autor o administradores pueden editarlo."
  const DeleteDenied := "No tienes permisos para eliminar este post. Solo el autor o administradores pueden eliminarlo."

  // ---------------------------------------------------------------------
  // Creation

  /** No nullable column of the post is null. */
  predicate NoNullColumns(p: Post)
  {
    p.postType.Some? && p.priority.Some? && p.isPinned.Some? && p.isAlert.Some?
    && p.isApproved.Some? && p.likeCount.Some? && p.dislikeCount.Some? && p.commentCount.Some?
  }

  /** Every column `p` sets, `q` holds unchanged. */
  predicate KeepsSetColumns(p: Post, q: Post)
  {
    (p.postType.Some? ==> q.postType == p.postType)
    && (p.priority.Some? ==> q.priority == p.priority)
    && (p.isPinned.Some? ==> q.isPinned == p.isPinned)
    && (p.isAlert.Some? ==> q.isAlert == p.isAlert)
    && (p.isApproved.Some? ==> q.isApproved == p.isApproved)
    && (p.likeCount.Some? ==> q.likeCount == p.likeCount)
    && (p.dislikeCount.Some? ==> q.dislikeCount == p.dislikeCount)
    && (p.commentCount.Some? ==> q.commentCount == p.commentCount)
  }

  /** Every column `p` leaves null, `q` holds at the entity's field initialiser. */
  predicate InitialisesNullColumns(p: Post, q: Post)
  {
    (p.postType.None? ==> q.postType == NewPost().postType)
    && (p.priority.None? ==> q.priority == NewPost().priority)
    && (p.isPinned.None? ==> q.isPinned == NewPost().isPinned)
    && (p.isAlert.None? ==> q.isAlert == NewPost().isAlert)
    && (p.isApproved.None? ==> q.isApproved == NewPost().isApproved)
    && (p.likeCount.None? ==> q.likeCount == NewPost().likeCount)
    && (p.dislikeCount.None? ==> q.dislikeCount == NewPost().dislikeCount)
    && (p.commentCount.None? ==> q.commentCount == NewPost().commentCount)
  }

  /**
    The checks at the head of `createPost(Post)`: a missing id (null or
    empty, both shown as "") gets `freshId`, and each null column gets its
    default.
   */
  function WithDefaults(p: Post, freshId: string): (q: Post)
    ensures q.id == (if p.id == "" then freshId else p.id)
    ensures q.authorId == p.authorId && q.content == p.content && q.createdAt == p.createdAt
    ensures NoNullColumns(q)
    ensures KeepsSetColumns(p, q)
    ensures InitialisesNullColumns(p, q)
  {
    Post(if p.id == "" then freshId else p.id, p.authorId, p.content,
         Some(p.postType.GetOr(GENERAL)), Some(p.priority.GetOr(NORMAL)),
         Some(p.isPinned.GetOr(false)), Some(p.isAlert.GetOr(false)), Some(p.isApproved.GetOr(true)),
         Some(p.likeCount.GetOr(0)), Some(p.dislikeCount.GetOr(0)), Some(p.commentCount.GetOr(0)),
         p.createdAt)
  }

  /**
    Filling in defaults twice is filling them in once, a post without null
    columns and with an id is left alone, and a post with every column null
    comes out with the entity's own initial values.
   */
  lemma DefaultsAreStable(p: Post, freshId: string, otherId: string)
    requires freshId != ""
    ensures WithDefaults(WithDefaults(p, freshId), otherId) == WithDefaults(p, freshId)
    ensures NoNullColumns(p) && p.id != "" ==> WithDefaults(p, freshId) == p
    ensures p.postType.None? && p.priority.None? && p.isPinned.None? && p.isAlert.None? && p.isApproved.None?
            && p.likeCount.None? && p.dislikeCount.None? && p.commentCount.None? ==>
              HasPostDefaults(WithDefaults(p, freshId)) && WithDefaults(p, freshId).postType == NewPost().postType
  {
  }

  /**
    `createPost(Post)`: save the post with its defaults. Auditing stamps
    `createdAt` with `now` when the row is new; the column is not
    updatable, so an existing row keeps its stamp.
   */
  function CreatePost(db: Db, p: Post, freshId: string, now: int): (r: (Db, Post))
    ensures r.0.(posts := db.posts) == db
    ensures NoNullColumns(r.1) && KeepsSetColumns(p, r.1) && InitialisesNullColumns(p, r.1)
    ensures r.1.id == (if p.id == "" then freshId else p.id)
    ensures !ExistsById(db.posts, PostKey, r.1.id) ==> r.0.posts == db.posts + [r.1] && r.1.createdAt == now
    ensures UniqueIds(db.posts, PostKey) ==>
              UniqueIds(r.0.posts, PostKey) && FindById(r.0.posts, PostKey, r.1.id) == Some(r.1)
  {
    var q := WithDefaults(p, freshId);
    var stamp := match FindById(db.posts, PostKey, q.id) case Some(prev) => prev.createdAt case None => now;
    var saved := q.(createdAt := stamp);
    if UniqueIds(db.posts, PostKey) then SaveThenFind(db.posts, saved, PostKey, saved.id); (db.(posts := Save(db.posts, saved, PostKey)), saved)
    else (db.(posts := Save(db.posts, saved, PostKey)), saved)
  }

  /** The exception of `createPost(authorId, …)` for an unknown author, which reports how many users exist. */
  function UnknownAuthor(authorId: string, users: seq<User>): string
  {
    "Usuario no encontrado con ID: " + authorId + ". Usuarios disponibles: " + IntToString(|users|)
  }

  /**
    `createPost(authorId, content, postType, priority)`: a `new Post()`
    under a fresh id for a known author, with the type and priority given
    or GENERAL and NORMAL, then `createPost(Post)`.
   */
  function CreatePostBy(db: Db, authorId: string, content: string, postType: Option<PostType>,
                        priority: Option<PostPriority>, freshId: string, now: int): (r: Result<(Db, Post)>)
    requires freshId != ""
    ensures r.Err? <==> !ExistsById(db.users, UserKey, authorId)
    ensures r.Err? ==> r.msg == UnknownAuthor(authorId, db.users)
    ensures r.Ok? ==> r.value.1.id == freshId && r.value.1.authorId == authorId && r.value.1.content == content
    ensures r.Ok? ==> r.value.1.postType == Some(postType.GetOr(GENERAL)) && r.value.1.priority == Some(priority.GetOr(NORMAL))
    ensures r.Ok? ==> r.value.1.isPinned == Some(false) && r.value.1.isAlert == Some(false) && IsApproved(r.value.1)
    ensures r.Ok? ==> r.value.1.likeCount == Some(0) && r.value.1.dislikeCount == Some(0) && r.value.1.commentCount == Some(0)
    ensures r.Ok? && !ExistsById(db.posts, PostKey, freshId) ==>
              r.value.0 == db.(posts := db.posts + [r.value.1]) && r.value.1.createdAt == now
  {
    if !ExistsById(db.users, UserKey, authorId) then Err(UnknownAuthor(authorId, db.users))
    else
      var draft := NewPost().(id := freshId, authorId := authorId, content := content,
                              postType := Some(postType.GetOr(GENERAL)), priority := Some(priority.GetOr(NORMAL)));
      Ok(CreatePost(db, draft, freshId, now))
  }

  // ---------------------------------------------------------------------
  // Moderation

  /** `approvePost`, `rejectPost`, `pinPost`, `unpinPost`. */
  datatype Moderation = Approve | Reject | Pin | Unpin

  /** The flag a moderation action sets: approval for Approve/Reject, pinning for Pin/Unpin. */
  predicate FlagSet(p: Post, m: Moderation)
  {
    match m
    case Approve => p.isApproved == Some(true)
    case Reject => p.isApproved == Some(false)
    case Pin => p.isPinned == Some(true)
    case Unpin => p.isPinned == Some(false)
  }

  function Moderate(db: Db, id: string, m: Moderation): (r: Result<(Db, Post)>)
    ensures r.Err? <==> !ExistsById(db.posts, PostKey, id)
    ensures r.Err? ==> r.msg == PostNotFound(id)
    ensures r.Ok? ==> r.value.0.(posts := db.posts) == db
    ensures r.Ok? ==> FlagSet(r.value.1, m) && r.value.1.id == id
    ensures r.Ok? ==> r.value.1.(isApproved := FindById(db.posts, PostKey, id).value.isApproved,
                                 isPinned := FindById(db.posts, PostKey, id).value.isPinned)
                      == FindById(db.posts, PostKey, id).value
    ensures r.Ok? && UniqueIds(db.posts, PostKey) ==>
              UniqueIds(r.value.0.posts, PostKey) && FindById(r.value.0.posts, PostKey, id) == Some(r.value.1)
  {
    match FindById(db.posts, PostKey, id)
    case None => Err(PostNotFound(id))
    case Some(p) =>
      var q := match m
        case Approve => p.(isApproved := Some(true))
        case Reject => p.(isApproved := Some(false))
        case Pin => p.(isPinned := Some(true))
        case Unpin => p.(isPinned := Some(false));
      if UniqueIds(db.posts, PostKey) then
        SaveThenFind(db.posts, q, PostKey, id);
        Ok((db.(posts := Save(db.posts, q, PostKey)), q))
      else Ok((db.(posts := Save(db.posts, q, PostKey)), q))
  }

  // ---------------------------------------------------------------------
  // Edit and delete

  /**
    The type `updatePost` ends up with: a null, blank (after Java's
    `trim`) or unknown (after upper-casing) name keeps the current type.
   */
  function EditedType(current: Option<PostType>, requested: Option<string>): (t: Option<PostType>)
    ensures requested.None? ==> t == current
    ensures requested.Some? && JavaTrim(requested.value) == "" ==> t == current
    ensures requested.Some? && PostTypeOf(Upper(requested.value)).None? ==> t == current
    ensures t != current ==> requested.Some? && t == PostTypeOf(Upper(requested.value))
  {
    if requested.Some? && JavaTrim(requested.value) != "" then
      match PostTypeOf(Upper(requested.value))
      case Some(k) => Some(k)
      case None => current
    else current
  }

  /** A type name in upper case is accepted as it is, so naming the type sets it. */
  lemma EditedTypeByName(current: Option<PostType>, t: PostType)
    ensures EditedType(current, Some(PostTypeName(t))) == Some(t)
  {
    NameRoundTrips(t, NORMAL, STUDENT);
    var n := PostTypeName(t);
    assert Upper(n) == n by {
      assert forall i :: 0 <= i < |n| ==> 'A' <= n[i] <= 'Z';
    }
    assert n[0] != ' ';
    assert JavaTrim(n) != "" by {
      assert !IsJavaTrimmable(n[0]);
    }
  }

  /**
    `updatePost`: the post must exist, then the user, then the user must
    be its author or an administrator; the content is replaced and the
    type changes as `EditedType` says. Nothing else about the post changes.
   */
  function UpdatePost(db: Db, id: string, content: string, postType: Option<string>, userId: string): (r: Result<(Db, Post)>)
    ensures FindByIdWithAuthor(db.posts, id).None? ==> r == Err(PostNotFound(id))
    ensures FindByIdWithAuthor(db.posts, id).Some? && FindById(db.users, UserKey, userId).None? ==> r == Err(UserNotFound(userId))
    ensures FindByIdWithAuthor(db.posts, id).Some? && FindById(db.users, UserKey, userId).Some?
            && !MayModify(FindByIdWithAuthor(db.posts, id).value.authorId, FindById(db.users, UserKey, userId).value)
            ==> r == Err(EditDenied)
    ensures r.Ok? <==> FindByIdWithAuthor(db.posts, id).Some? && FindById(db.users, UserKey, userId).Some?
                       && MayModify(FindByIdWithAuthor(db.posts, id).value.authorId, FindById(db.users, UserKey, userId).value)
    ensures r.Ok? ==> MayModify(r.value.1.authorId, FindById(db.users, UserKey, userId).value)
    ensures r.Ok? ==> r.value.0.(posts := db.posts) == db
    ensures r.Ok? ==> var before := FindByIdWithAuthor(db.posts, id).value;
                      r.value.1.content == content
                      && r.value.1.postType == EditedType(before.postType, postType)
                      && r.value.1.(content := before.content, postType := before.postType) == before
    ensures r.Ok? && UniqueIds(db.posts, PostKey) ==>
              UniqueIds(r.value.0.posts, PostKey) && FindById(r.value.0.posts, PostKey, id) == Some(r.value.1)
  {
    match FindByIdWithAuthor(db.posts, id)
    case None => Err(PostNotFound(id))
    case Some(p) =>
      match Authorize(db.users, p.authorId, userId, UserNotFound(userId), EditDenied)
      case Err(msg) => Err(msg)
      case Ok(_) =>
        var q := p.(content := content, postType := EditedType(p.postType, postType));
        if UniqueIds(db.posts, PostKey) then
          SaveThenFind(db.posts, q, PostKey, id);
          Ok((db.(posts := Save(db.posts, q, PostKey)), q))
        else Ok((db.(posts := Save(db.posts, q, PostKey)), q))
  }

  /**
    `deletePost(id, userId)`: the same checks with the delete message,
    then `deleteById`, which cascades to the post's comments and
    reactions. Users and the recommendation tables are untouched.
   */
  function DeletePost(db: Db, id: string, userId: string): (r: Result<Db>)
    ensures FindByIdWithAuthor(db.posts, id).None? ==> r == Err(PostNotFound(id))
    ensures FindByIdWithAuthor(db.posts, id).Some? && FindById(db.users, UserKey, userId).None? ==> r == Err(UserNotFound(userId))
    ensures r.Ok? <==> FindByIdWithAuthor(db.posts, id).Some? && FindById(db.users, UserKey, userId).Some?
                       && MayModify(FindByIdWithAuthor(db.posts, id).value.authorId, FindById(db.users, UserKey, userId).value)
    ensures r.Err? && FindByIdWithAuthor(db.posts, id).Some? && FindById(db.users, UserKey, userId).Some? ==> r.msg == DeleteDenied
    ensures r.Ok? ==> r.value.users == db.users && r.value.recommendations == db.recommendations
                      && r.value.recReactions == db.recReactions && r.value.codes == db.codes
    ensures r.Ok? ==> r.value == DeleteCascade(db, id)
  {
    match FindByIdWithAuthor(db.posts, id)
    case None => Err(PostNotFound(id))
    case Some(p) =>
      match Authorize(db.users, p.authorId, userId, UserNotFound(userId), DeleteDenied)
      case Err(msg) => Err(msg)
      case Ok(_) => Ok(DeleteCascade(db, id))
  }

  /** The post's row goes, with every comment on it and every reaction to it; nothing else changes. */
  function DeleteCascade(db: Db, id: string): (r: Db)
    ensures r.users == db.users && r.recommendations == db.recommendations
            && r.recReactions == db.recReactions && r.codes == db.codes
    ensures forall x :: multiset(r.posts)[x] == if x.id == id then 0 else multiset(db.posts)[x]
    ensures forall c :: multiset(r.comments)[c] == if c.postId == id then 0 else multiset(db.comments)[c]
    ensures forall x :: multiset(r.reactions)[x] == if x.targetId == id then 0 else multiset(db.reactions)[x]
  {
    db.(posts := DeleteById(db.posts, PostKey, id),
        comments := RemoveAll(db.comments, CommentQueries.OfPost(id)),
        reactions := DeleteByTarget(db.reactions, id))
  }

  // ---------------------------------------------------------------------
  // Reactions and counters

  /** The post's stored counters are its LIKE count, DISLIKE count and approved-comment count. */
  predicate CountersMatch(p: Post, rs: seq<Reaction>, cs: seq<Comment>)
  {
    p.likeCount == Some(CountByTargetAndType(rs, p.id, LIKE))
    && p.dislikeCount == Some(CountByTargetAndType(rs, p.id, DISLIKE))
    && p.commentCount == Some(CommentQueries.CountApprovedByPost(cs, p.id))
  }

  /**
    `updatePostCounters`: the three counters become the counts, each cast
    to a 32-bit `int`; nothing else about the post changes. When the
    tables are smaller than 2^31 rows the counters equal the counts.
   */
  function UpdatePostCounters(p: Post, rs: seq<Reaction>, cs: seq<Comment>): (q: Post)
    ensures q.(likeCount := p.likeCount, dislikeCount := p.dislikeCount, commentCount := p.commentCount) == p
    ensures q.likeCount.Some? && IntMin <= q.likeCount.value <= IntMax
    ensures q.dislikeCount.Some? && IntMin <= q.dislikeCount.value <= IntMax
    ensures q.commentCount.Some? && IntMin <= q.commentCount.value <= IntMax
    ensures |rs| <= IntMax && |cs| <= IntMax ==> CountersMatch(q, rs, cs)
  {
    CountWithin(rs, OfTargetAndType(p.id, LIKE));
    CountWithin(rs, OfTargetAndType(p.id, DISLIKE));
    FilterLength(cs, CommentQueries.ApprovedOfPost(p.id));
    CountWithin(cs, CommentQueries.ApprovedOfPost(p.id));
    p.(likeCount := Some(Int32(CountByTargetAndType(rs, p.id, LIKE))),
       dislikeCount := Some(Int32(CountByTargetAndType(rs, p.id, DISLIKE))),
       commentCount := Some(Int32(CommentQueries.CountApprovedByPost(cs, p.id))))
  }

  /**
    `toggleLike` (pressed = LIKE) and `toggleDislike` (pressed = DISLIKE):
    the post must exist, then the user; the toggle runs on the reaction
    table and the post is saved with fresh counters. A non-unique
    reaction lookup throws.
   */
  function ToggleReaction(db: Db, postId: string, userId: string, pressed: ReactionType, freshId: string): (r: Result<(Db, Post)>)
    ensures FindByIdWithAuthor(db.posts, postId).None? ==> r == Err(PostNotFound(postId))
    ensures FindByIdWithAuthor(db.posts, postId).Some? && !ExistsById(db.users, UserKey, userId) ==> r == Err(UserNotFound(userId))
    ensures r.Err? <==> FindByIdWithAuthor(db.posts, postId).None? || !ExistsById(db.users, UserKey, userId)
                        || FindByUserAndTarget(db.reactions, userId, postId).Err?
    ensures r.Ok? ==> r.value.0.(posts := db.posts, reactions := db.reactions) == db
    ensures r.Ok? ==> r.value.1.id == postId
    ensures r.Ok? ==> r.value.0.reactions == ApplyToggle(db.reactions, userId, postId, pressed, freshId).value
    ensures r.Ok? && |r.value.0.reactions| <= IntMax && |db.comments| <= IntMax ==>
              CountersMatch(r.value.1, r.value.0.reactions, r.value.0.comments)
    ensures r.Ok? && UniqueIds(db.posts, PostKey) ==>
              UniqueIds(r.value.0.posts, PostKey) && FindById(r.value.0.posts, PostKey, postId) == Some(r.value.1)
  {
    var found := FindByIdWithAuthor(db.posts, postId);
    var toggled := ApplyToggle(db.reactions, userId, postId, pressed, freshId);
    if found.None? then Err(PostNotFound(postId))
    else if !ExistsById(db.users, UserKey, userId) then Err(UserNotFound(userId))
    else if toggled.Err? then Err(toggled.msg)
    else Ok(StoreReactions(db, found.value, toggled.value))
  }

  /**
    The reactions after a toggle are stored, and the post is saved with
    its counters recomputed from them; the saved post is the one returned.
   */
  function StoreReactions(db: Db, p: Post, rs: seq<Reaction>): (r: (Db, Post))
    ensures r.0.(posts := db.posts, reactions := db.reactions) == db
    ensures r.0.reactions == rs && r.1.id == p.id
    ensures |rs| <= IntMax && |db.comments| <= IntMax ==> CountersMatch(r.1, rs, r.0.comments)
    ensures UniqueIds(db.posts, PostKey) ==>
              UniqueIds(r.0.posts, PostKey) && FindById(r.0.posts, PostKey, p.id) == Some(r.1)
  {
    var q := UpdatePostCounters(p, rs, db.comments);
    if UniqueIds(db.posts, PostKey) then
      SaveThenFind(db.posts, q, PostKey, p.id);
      (db.(reactions := rs, posts := Save(db.posts, q, PostKey)), q)
    else (db.(reactions := rs, posts := Save(db.posts, q, PostKey)), q)
  }

  /** The database invariants the toggles rely on: unique post keys and well-formed reactions. */
  predicate Consistent(db: Db)
  {
    UniqueIds(db.posts, PostKey) && Wellformed(db.reactions)
  }

  /**
    On a consistent database with an unused reaction id, a toggle on an
    existing post by an existing user succeeds, keeps the database
    consistent, and leaves the user's reaction as the toggle table says.
   */
  lemma ToggleOnPost(db: Db, postId: string, userId: string, pressed: ReactionType, freshId: string)
    requires Consistent(db) && !ExistsById(db.reactions, ReactionKey, freshId)
    requires ExistsById(db.posts, PostKey, postId) && ExistsById(db.users, UserKey, userId)
    ensures ToggleReaction(db, postId, userId, pressed, freshId).Ok?
    ensures Consistent(ToggleReaction(db, postId, userId, pressed, freshId).value.0)
    ensures UserReaction(ToggleReaction(db, postId, userId, pressed, freshId).value.0.reactions, userId, postId)
            == Toggle(UserReaction(db.reactions, userId, postId), pressed)
  {
    ToggleFollowsTable(db.reactions, userId, postId, pressed, freshId);
  }

  /**
    A toggle moves the post's like count by one at most, as the toggle
    table says: down when a like is withdrawn or switched away, up when
    one is added; the dislike count likewise.
   */
  lemma ToggleMovesCounts(db: Db, postId: string, userId: string, pressed: ReactionType, freshId: string, k: ReactionType)
    requires Consistent(db) && !ExistsById(db.reactions, ReactionKey, freshId)
    requires ExistsById(db.posts, PostKey, postId) && ExistsById(db.users, UserKey, userId)
    ensures ToggleReaction(db, postId, userId, pressed, freshId).Ok?
    ensures CountByTargetAndType(ToggleReaction(db, postId, userId, pressed, freshId).value.0.reactions, postId, k)
            == CountByTargetAndType(db.reactions, postId, k)
               - (if UserReaction(db.reactions, userId, postId) == Some(k) then 1 else 0)
               + (if Toggle(UserReaction(db.reactions, userId, postId), pressed) == Some(k) then 1 else 0)
  {
    ToggleCounts(db.reactions, userId, postId, pressed, freshId, postId, k);
  }

  /**
    A toggle on one post leaves every other post's row as it was, and if
    that row's counters matched its counts they still do.
   */
  lemma ToggleKeepsOtherCounters(db: Db, postId: string, userId: string, pressed: ReactionType, freshId: string, other: Post)
    requires Consistent(db) && !ExistsById(db.reactions, ReactionKey, freshId)
    requires ExistsById(db.posts, PostKey, postId) && ExistsById(db.users, UserKey, userId)
    requires other.id != postId && FindById(db.posts, PostKey, other.id) == Some(other)
    requires CountersMatch(other, db.reactions, db.comments)
    ensures ToggleReaction(db, postId, userId, pressed, freshId).Ok?
    ensures FindById(ToggleReaction(db, postId, userId, pressed, freshId).value.0.posts, PostKey, other.id) == Some(other)
    ensures CountersMatch(other, ToggleReaction(db, postId, userId, pressed, freshId).value.0.reactions,
                          ToggleReaction(db, postId, userId, pressed, freshId).value.0.comments)
  {
    var r := ToggleReaction(db, postId, userId, pressed, freshId);
    ToggleFollowsTable(db.reactions, userId, postId, pressed, freshId);
    SaveThenFind(db.posts, r.value.1, PostKey, other.id);
    ToggleCounts(db.reactions, userId, postId, pressed, freshId, other.id, LIKE);
    ToggleCounts(db.reactions, userId, postId, pressed, freshId, other.id, DISLIKE);
  }

  // ---------------------------------------------------------------------
  // DTO

  datatype PostDto = PostDto(
    id: string,
    authorId: string,
    authorName: string,
    authorRole: string,
    content: string,
    postType: Option<PostType>,
    priority: Option<PostPriority>,
    isPinned: Option<bool>,
    isAlert: Option<bool>,
    isApproved: Option<bool>,
    createdAt: int,
    likeCount: int,
    dislikeCount: int,
    commentCount: int,
    isLiked: bool,
    isDisliked: bool)

  /**
    `convertToDto(post, currentUserId)`: the post's columns, the author's
    name and role name, null counters read as 0, and the current user's
    reaction as two flags. The reaction lookup throws when it is not unique.
   */
  function ConvertToDto(p: Post, author: User, rs: seq<Reaction>, currentUserId: Option<string>): (r: Result<PostDto>)
    requires author.id == p.authorId
    ensures currentUserId.None? ==> r.Ok? && !r.value.isLiked && !r.value.isDisliked
    ensures r.Ok? ==> !(r.value.isLiked && r.value.isDisliked)
    ensures r.Ok? ==> r.value.id == p.id && r.value.authorId == p.authorId && r.value.authorRole == RoleName(author.role)
    ensures r.Ok? ==> r.value.authorName == author.fullName && r.value.content == p.content
                      && r.value.postType == p.postType && r.value.priority == p.priority
                      && r.value.isPinned == p.isPinned && r.value.isAlert == p.isAlert
                      && r.value.isApproved == p.isApproved && r.value.createdAt == p.createdAt
    ensures r.Ok? ==> (p.likeCount.None? ==> r.value.likeCount == 0) && (p.likeCount.Some? ==> r.value.likeCount == p.likeCount.value)
    ensures r.Ok? ==> (p.dislikeCount.None? ==> r.value.dislikeCount == 0) && (p.dislikeCount.Some? ==> r.value.dislikeCount == p.dislikeCount.value)
    ensures r.Ok? ==> (p.commentCount.None? ==> r.value.commentCount == 0) && (p.commentCount.Some? ==> r.value.commentCount == p.commentCount.value)
    ensures currentUserId.Some? ==> (r.Err? <==> FindByUserAndTarget(rs, currentUserId.value, p.id).Err?)
    ensures currentUserId.Some? && r.Ok? ==>
              match FindByUserAndTarget(rs, currentUserId.value, p.id).value
              case None => !r.value.isLiked && !r.value.isDisliked
              case Some(x) => r.value.isLiked == (x.kind == LIKE) && r.value.isDisliked == (x.kind == DISLIKE)
  {
    var base := PostDto(p.id, p.authorId, author.fullName, RoleName(author.role), p.content,
                        p.postType, p.priority, p.isPinned, p.isAlert, p.isApproved, p.createdAt,
                        p.likeCount.GetOr(0), p.dislikeCount.GetOr(0), p.commentCount.GetOr(0), false, false);
    match currentUserId
    case None => Ok(base)
    case Some(u) => Flags(base, rs, u, p.id)
  }

  /**
    Under the one-reaction-per-pair constraint the conversion never
    throws, and the flags report the current user's reaction kind.
   */
  lemma DtoFlagsFollowReaction(p: Post, author: User, rs: seq<Reaction>, u: string)
    requires author.id == p.authorId && UniquePairs(rs)
    ensures ConvertToDto(p, author, rs, Some(u)).Ok?
    ensures ConvertToDto(p, author, rs, Some(u)).value.isLiked <==> UserReaction(rs, u, p.id) == Some(LIKE)
    ensures ConvertToDto(p, author, rs, Some(u)).value.isDisliked <==> UserReaction(rs, u, p.id) == Some(DISLIKE)
  {
    LookupIsFind(rs, u, p.id);
  }

  function Flags(base: PostDto, rs: seq<Reaction>, u: string, t: string): (r: Result<PostDto>)
    ensures r.Err? <==> FindByUserAndTarget(rs, u, t).Err?
    ensures r.Ok? ==> r.value.(isLiked := base.isLiked, isDisliked := base.isDisliked) == base
    ensures r.Ok? ==> FindByUserAndTarget(rs, u, t).Ok?
    ensures r.Ok? ==> match FindByUserAndTarget(rs, u, t).value
                      case None => !r.value.isLiked && !r.value.isDisliked
                      case Some(x) => r.value.isLiked == (x.kind == LIKE) && r.value.isDisliked == (x.kind == DISLIKE)
  {
    match FindByUserAndTarget(rs, u, t)
    case Err(m) => Err(m)
    case Ok(None) => Ok(base.(isLiked := false, isDisliked := false))
    case Ok(Some(x)) => Ok(base.(isLiked := x.kind == LIKE, isDisliked := x.kind == DISLIKE))
  }

  // ---------------------------------------------------------------------
  // Listing

  /** Among the approved posts, some have a null pin flag and some do not. */
  predicate MixedPinFlags(posts: seq<Post>)
  {
    (exists i :: 0 <= i < |posts| && IsApproved(posts[i]) && posts[i].isPinned.None?)
    && (exists j :: 0 <= j < |posts| && IsApproved(posts[j]) && posts[j].isPinned.Some?)
  }

  /** `Boolean.compare` on the pin flag, descending; only reached when no flag involved is null. */
  function PinKey(p: Post): int
  {
    if p.isPinned == Some(true) then 1 else 0
  }

  /**
    The Java-side fallback of `findAllApprovedPostsSafe`: the approved
    posts sorted by pin flag then date, both descending. Comparing a null
    flag with a non-null one unboxes the null and throws, and the sort
    then compares some such pair whenever both kinds are present; the
    exception is caught and the answer is the empty list.
   */
  function FallbackListing(posts: seq<Post>): (r: seq<Post>)
    ensures MixedPinFlags(posts) ==> r == []
    ensures !MixedPinFlags(posts) ==> IsFilterOf(r, posts, Approved()) && SortedDesc(r, PinKey, NewestFirst)
  {
    if MixedPinFlags(posts) then []
    else
      var f := Filter(posts, Approved());
      SortDesc(f, PinKey, NewestFirst)
  }

  /**
    When the fallback does not throw it lists the same posts as the query,
    in an order the query's `ORDER BY` also allows, wherever the database
    puts NULL flags.
   */
  lemma FallbackAgreesWithQuery(posts: seq<Post>, nullsFirst: bool)
    requires !MixedPinFlags(posts)
    ensures multiset(FallbackListing(posts)) == multiset(FindAllApprovedOrdered(posts, nullsFirst))
    ensures SortedDesc(FallbackListing(posts), PinOrder(nullsFirst), NewestFirst)
  {
    var r := FallbackListing(posts);
    var q := FindAllApprovedOrdered(posts, nullsFirst);
    assert multiset(r) == multiset(q) by {
      forall x ensures multiset(r)[x] == multiset(q)[x] {
        assert multiset(r)[x] == if Approved()(x) then multiset(posts)[x] else 0;
        assert multiset(q)[x] == if Approved()(x) then multiset(posts)[x] else 0;
      }
    }
    forall i, j | 0 <= i < j < |r| ensures Precedes(r[i], r[j], PinOrder(nullsFirst), NewestFirst) {
      assert Precedes(r[i], r[j], PinKey, NewestFirst);
      assert r[i] in posts && IsApproved(r[i]) by { IsFilterOfMembers(r, posts, Approved(), r[i]); }
      assert r[j] in posts && IsApproved(r[j]) by { IsFilterOfMembers(r, posts, Approved(), r[j]); }
      assert r[i].isPinned.None? <==> r[j].isPinned.None?;
    }
  }

  /**
    `findAllApprovedPostsSafe`: the query, or the fallback when the query
    throws. The fallback's own read of every post can throw as well
    (`fallbackFails`); that is caught and the answer is the empty list.
    When the fallback runs and does not throw, it lists exactly what the
    query would have listed, in an order the query also allows.
   */
  function FindAllApprovedPostsSafe(posts: seq<Post>, queryFails: bool, fallbackFails: bool, nullsFirst: bool): (r: seq<Post>)
    ensures !queryFails ==> r == FindAllApprovedOrdered(posts, nullsFirst)
    ensures forall x :: x in r ==> x in posts && IsApproved(x)
    ensures queryFails && (fallbackFails || MixedPinFlags(posts)) ==> r == []
    ensures queryFails && !fallbackFails && !MixedPinFlags(posts) ==>
              IsFilterOf(r, posts, Approved()) && SortedDesc(r, PinKey, NewestFirst)
              && multiset(r) == multiset(FindAllApprovedOrdered(posts, nullsFirst))
              && SortedDesc(r, PinOrder(nullsFirst), NewestFirst)
  {
    if !queryFails then FindAllApprovedOrdered(posts, nullsFirst)
    else if fallbackFails then []
    else
      var r := FallbackListing(posts);
      assert forall x :: x in r ==> x in posts && IsApproved(x) by {
        forall x | x in r ensures x in posts && IsApproved(x) {
          if !MixedPinFlags(posts) { IsFilterOfMembers(r, posts, Approved(), x); }
        }
      }
      assert !MixedPinFlags(posts) ==> multiset(r) == multiset(FindAllApprovedOrdered(posts, nullsFirst))
                                       && SortedDesc(r, PinOrder(nullsFirst), NewestFirst) by {
        if !MixedPinFlags(posts) { FallbackAgreesWithQuery(posts, nullsFirst); }
      }
      r
  }

  /**
    `getAllPosts(type, priority, isAlert, pageable)`: the first filter
    given wins, in the order type, priority, alert flag; with none the
    safe approved listing. The page is ignored. A filtered query that
    throws (`filterFails`) is caught and the answer is the empty list; the
    unfiltered branch catches its own failures (`queryFails`,
    `fallbackFails`).
   */
  function GetAllPosts(posts: seq<Post>, postType: Option<PostType>, priority: Option<PostPriority>,
                       isAlert: Option<bool>, filterFails: bool, queryFails: bool, fallbackFails: bool,
                       nullsFirst: bool): (r: seq<Post>)
    ensures forall x :: x in r ==> x in posts && IsApproved(x)
    ensures (postType.Some? || priority.Some? || isAlert == Some(true)) && filterFails ==> r == []
    ensures postType.Some? && !filterFails ==>
              forall x :: x in r <==> x in posts && IsApproved(x) && x.postType == postType
    ensures postType.None? && priority.Some? && !filterFails ==>
              forall x :: x in r <==> x in posts && IsApproved(x) && x.priority == priority
    ensures postType.None? && priority.None? && isAlert == Some(true) && !filterFails ==>
              forall x :: x in r <==> x in posts && IsApproved(x) && x.isAlert == Some(true)
    ensures postType.None? && priority.None? && isAlert != Some(true) ==>
              r == FindAllApprovedPostsSafe(posts, queryFails, fallbackFails, nullsFirst)
  {
    if (postType.Some? || priority.Some? || isAlert == Some(true)) && filterFails then []
    else if postType.Some? then FindApprovedByType(posts, postType.value)
    else if priority.Some? then FindApprovedByPriority(posts, priority.value)
    else if isAlert == Some(true) then FindAlertPosts(posts)
    else FindAllApprovedPostsSafe(posts, queryFails, fallbackFails, nullsFirst)
  }

}

=== FILE: profile_view_model.dfy ===
/**
  `ProfileViewModel`: which account the profile screen shows, and how an
  edit of the profile is validated and saved. The view model reads and
  writes the session (`TokenManager`) and the device's account cache
  (`UserRepository`), so both are part of its state. The verdict of
  Android's e-mail pattern is a parameter.
 */
module ProfileViewModel {
  import opened Wrappers
  import opened Text
  import opened Enums
  import opened ApiClient
  import opened AppData
  import opened ApiRepository
  import opened TokenManager
  import opened UserCache

  datatype UpdateResult = Updated(user: User) | Refused(message: string)

  datatype ProfileState = ProfileState(
    profile: Option<User>,
    updateResult: Option<UpdateResult>,
    isLoading: bool,
    prefs: Prefs,
    store: UserStore)

  /** `UpdateProfileResponse`. */
  datatype UpdateProfileResponse = UpdateProfileResponse(user: UserResponse, message: string)

  /** The account rebuilt from the session's four entries: no password and empty optional fields. */
  function SessionUser(userId: string, email: string, fullName: string, role: string): (u: User)
    ensures u.id == userId && u.email == email && u.fullName == fullName
    ensures u.role == RoleOrStudent(role)
    ensures u.password == "" && u.studentId == "" && u.program == "" && u.phone == "" && u.address == ""
  {
    User(userId, email, "", RoleOrStudent(role), fullName, "", "", "", "", "")
  }

  /**
    `loadUserFromTokenManager`: the cached account with the session's
    email; otherwise one rebuilt from the session, which is then cached;
    otherwise nothing.
   */
  function LoadFromSession(st: ProfileState): (r: ProfileState)
    ensures r.prefs == st.prefs && r.updateResult == st.updateResult && r.isLoading == st.isLoading
    ensures GetUserEmail(st.prefs).None? ==> r == st.(profile := None)
    ensures GetUserEmail(st.prefs).Some? && GetUserByEmail(st.store, GetUserEmail(st.prefs).value).Some? ==>
              r == st.(profile := GetUserByEmail(st.store, GetUserEmail(st.prefs).value))
    ensures r.profile.Some? ==> GetUserEmail(st.prefs) == Some(r.profile.value.email)
  {
    match GetUserEmail(st.prefs)
    case None => st.(profile := None)
    case Some(email) =>
      match GetUserByEmail(st.store, email)
      case Some(cached) => st.(profile := Some(cached))
      case None =>
        if GetUserId(st.prefs).Some? && GetUserName(st.prefs).Some? && GetUserRole(st.prefs).Some? then
          var u := SessionUser(GetUserId(st.prefs).value, email, GetUserName(st.prefs).value,
                               GetUserRole(st.prefs).value);
          st.(profile := Some(u), store := Remember(st.store, u))
        else st.(profile := None)
  }

  /**
    `loadCurrentUser`: with no session e-mail, nothing; with a token, the
    server's account if it has the session's e-mail (then also cached and
    written to the session), else the session fallback; without a token,
    the session fallback.
   */
  function LoadCurrentUser(st: ProfileState, result: ApiResult<UserResponse>): (r: ProfileState)
    ensures r.updateResult == st.updateResult && r.isLoading == st.isLoading
    ensures GetUserEmail(st.prefs).None? ==> r == st.(profile := None)
    ensures GetUserEmail(st.prefs).Some? && GetToken(st.prefs).None? ==> r == LoadFromSession(st)
    ensures GetUserEmail(st.prefs).Some? && GetToken(st.prefs).Some? && result.Error? ==> r == LoadFromSession(st)
    ensures GetUserEmail(st.prefs).Some? && GetToken(st.prefs).Some? && result.Loading? ==> r == st
    ensures GetUserEmail(st.prefs).Some? && GetToken(st.prefs).Some? && result.Success?
            && result.data.email == GetUserEmail(st.prefs).value ==>
              r.profile == Some(ConvertToUser(result.data))
              && GetUserByEmail(r.store, result.data.email) == Some(ConvertToUser(result.data))
              && GetUserId(r.prefs) == Some(result.data.id)
  {
    match GetUserEmail(st.prefs)
    case None => st.(profile := None)
    case Some(email) =>
      if GetToken(st.prefs).None? then LoadFromSession(st)
      else
        match result
        case Success(data) =>
          var u := ConvertToUser(data);
          if u.email == email then
            st.(profile := Some(u), store := Remember(st.store, u),
                prefs := SaveUserInfo(st.prefs, u.id, u.email, u.fullName, RoleName(u.role)))
          else LoadFromSession(st)
        case Error(_, _) => LoadFromSession(st)
        case Loading(_) => st
  }

  /**
    Whatever path it takes, a load shows no account or one with the
    signed-in e-mail (a load still under way leaves the screen as it was),
    and the session keeps that e-mail.
   */
  lemma ProfileIsSignedInUser(st: ProfileState, result: ApiResult<UserResponse>)
    ensures var r := LoadCurrentUser(st, result);
            (r.profile.Some? && r != st ==> GetUserEmail(st.prefs) == Some(r.profile.value.email))
            && GetUserEmail(r.prefs) == GetUserEmail(st.prefs)
  {
  }

  const NameRequired := "El nombre completo es obligatorio"
  const EmailRequired := "El correo electrónico es obligatorio"
  const EmailInvalid := "Correo electrónico inválido"

  /** The local edit: the four typed fields replace the account's, nothing else changes. */
  function EditedUser(u: User, fullName: string, email: string, phone: string, address: string): (r: User)
    ensures r.fullName == fullName && r.email == email && r.phone == phone && r.address == address
    ensures r.id == u.id && r.role == u.role && r.password == u.password
    ensures r.studentId == u.studentId && r.program == u.program && r.profileImage == u.profileImage
  {
    u.(fullName := fullName, email := email, phone := phone, address := address)
  }

  /** `updateProfileLocally`: the edited account is cached, made current, shown and reported. */
  function UpdateLocally(st: ProfileState, current: User, fullName: string, email: string, phone: string,
                         address: string): (r: ProfileState)
    ensures r.profile == Some(EditedUser(current, fullName, email, phone, address))
    ensures r.updateResult == Some(Updated(EditedUser(current, fullName, email, phone, address)))
    ensures r.store == Remember(st.store, EditedUser(current, fullName, email, phone, address))
    ensures r.prefs == st.prefs && r.isLoading == st.isLoading
  {
    var u := EditedUser(current, fullName, email, phone, address);
    st.(profile := Some(u), store := Remember(st.store, u), updateResult := Some(Updated(u)))
  }

  /**
    `updateProfile`: name, e-mail and e-mail pattern are checked first (the
    first failure is reported and the flag lowered); with no account shown
    nothing more happens and the flag stays raised; with a token the
    server's answer is used and an error falls back to the local edit;
    without a token the edit is local.
   */
  function UpdateProfile(st: ProfileState, fullName: string, email: string, phone: string, address: string,
                         emailMatches: bool, result: ApiResult<UpdateProfileResponse>): (r: ProfileState)
    ensures IsBlank(fullName) ==> r == st.(isLoading := false, updateResult := Some(Refused(NameRequired)))
    ensures !IsBlank(fullName) && IsBlank(email) ==>
              r == st.(isLoading := false, updateResult := Some(Refused(EmailRequired)))
    ensures !IsBlank(fullName) && !IsBlank(email) && !emailMatches ==>
              r == st.(isLoading := false, updateResult := Some(Refused(EmailInvalid)))
    ensures r.prefs == st.prefs
    ensures r.updateResult != st.updateResult && r.updateResult.Some? && r.updateResult.value.Updated? ==>
              r.profile == Some(r.updateResult.value.user)
  {
    if IsBlank(fullName) then st.(isLoading := false, updateResult := Some(Refused(NameRequired)))
    else if IsBlank(email) then st.(isLoading := false, updateResult := Some(Refused(EmailRequired)))
    else if !emailMatches then st.(isLoading := false, updateResult := Some(Refused(EmailInvalid)))
    else UpdateAccepted(st, fullName, email, phone, address, result)
  }

  /** The part of `updateProfile` after the checks. */
  function UpdateAccepted(st: ProfileState, fullName: string, email: string, phone: string, address: string,
                          result: ApiResult<UpdateProfileResponse>): (r: ProfileState)
    ensures st.profile.None? ==> r == st.(isLoading := true)
    ensures st.profile.Some? ==> !r.isLoading
    ensures st.profile.Some? && (GetToken(st.prefs).None? || result.Error?) ==>
              r == UpdateLocally(st, st.profile.value, fullName, email, phone, address).(isLoading := false)
    ensures st.profile.Some? && GetToken(st.prefs).Some? && result.Success? ==>
              r.profile == Some(ConvertToUser(result.data.user))
              && r.updateResult == Some(Updated(ConvertToUser(result.data.user)))
    ensures st.profile.Some? && GetToken(st.prefs).Some? && result.Loading? ==> r == st.(isLoading := false)
    ensures r.prefs == st.prefs
    ensures r.updateResult != st.updateResult ==>
              r.updateResult.Some? && r.updateResult.value.Updated? && r.profile == Some(r.updateResult.value.user)
  {
    var busy := st.(isLoading := true);
    match st.profile
    case None => busy
    case Some(current) =>
      if GetToken(st.prefs).None? then UpdateLocally(busy, current, fullName, email, phone, address).(isLoading := false)
      else
        match result
        case Success(data) =>
          var u := ConvertToUser(data.user);
          busy.(profile := Some(u), store := Remember(st.store, u), updateResult := Some(Updated(u)),
                isLoading := false)
        case Error(_, _) => UpdateLocally(busy, current, fullName, email, phone, address).(isLoading := false)
        case Loading(_) => st.(isLoading := false)
  }

  /**
    A local edit is what a later load finds: its account is cached under
    the new e-mail, so with that e-mail in the session the fallback shows it.
   */
  lemma LocalEditIsFoundAgain(st: ProfileState, current: User, fullName: string, email: string,
                              phone: string, address: string)
    requires GetUserEmail(st.prefs) == Some(email)
    ensures var r := UpdateLocally(st, current, fullName, email, phone, address);
            LoadFromSession(r).profile == Some(EditedUser(current, fullName, email, phone, address))
  {
  }

  /** Saving the same edit twice shows and caches the same account. */
  lemma LocalEditIdempotent(st: ProfileState, current: User, fullName: string, email: string,
                            phone: string, address: string)
    ensures var once := UpdateLocally(st, current, fullName, email, phone, address);
            var twice := UpdateLocally(once, once.profile.value, fullName, email, phone, address);
            twice.profile == once.profile
            && GetUserByEmail(twice.store, email) == GetUserByEmail(once.store, email)
  {
  }
}

=== FILE: reaction_store.dfy ===
/**
  The two reaction tables (reactions on posts, reactions on teacher
  recommendations), their repository queries, and the like/dislike toggle
  that both services run against them.

  A row is a `Reaction` whose `targetId` is the post or the recommendation.
  `Wellformed` is the primary key plus one row per (user, target). The
  post table declares that pair unique; the recommendation table declares
  no such constraint, so there `Wellformed` is an invariant that the toggle
  (`ToggleCreates`, `ToggleRemoves`, `ToggleSwitches`) and `DeleteByTarget`
  keep, not one the database enforces.
 */
module ReactionStore {
  import opened Wrappers
  import opened Enums
  import opened Lists
  import opened Jpa
  import opened Entities

  /** The row belongs to user `u` and target `t`. */
  function OnPair(u: string, t: string): Reaction -> bool
  {
    (x: Reaction) => x.userId == u && x.targetId == t
  }

  function PairsDiffer(): (Reaction, Reaction) -> bool
  {
    (a: Reaction, b: Reaction) => !(a.userId == b.userId && a.targetId == b.targetId)
  }

  /** At most one reaction per (user, target). */
  predicate UniquePairs(rs: seq<Reaction>)
  {
    Pairwise(rs, PairsDiffer())
  }

  predicate Wellformed(rs: seq<Reaction>)
  {
    UniqueIds(rs, ReactionKey) && UniquePairs(rs)
  }

  /** The only row on a pair, when the pair constraint holds. */
  lemma PairOwner(rs: seq<Reaction>, i: int, j: int)
    requires UniquePairs(rs)
    requires 0 <= i < |rs| && 0 <= j < |rs|
    requires rs[i].userId == rs[j].userId && rs[i].targetId == rs[j].targetId
    ensures i == j
  {
  }

  lemma ReactionKeysDiffer(a: Reaction, b: Reaction)
    ensures KeysDiffer(ReactionKey)(a, b) <==> a.id != b.id
  {
    assert KeysDiffer(ReactionKey)(a, b) == (ReactionKey(a) != ReactionKey(b));
  }

  /** The only row with a key, when the key constraint holds. */
  lemma KeyOwner(rs: seq<Reaction>, i: int, j: int)
    requires UniqueIds(rs, ReactionKey)
    requires 0 <= i < |rs| && 0 <= j < |rs| && rs[i].id == rs[j].id
    ensures i == j
  {
    ReactionKeysDiffer(rs[i], rs[j]);
    ReactionKeysDiffer(rs[j], rs[i]);
  }

  // ---------------------------------------------------------------------
  // Queries

  /** `findByUserIdAndPostId` / `findByUserIdAndRecommendationId`. */
  function FindByUserAndTarget(rs: seq<Reaction>, u: string, t: string): (r: Result<Option<Reaction>>)
    ensures r.Ok? && r.value.Some? ==> r.value.value in rs && r.value.value.userId == u && r.value.value.targetId == t
    ensures r == Ok(None) <==> forall i :: 0 <= i < |rs| ==> !(rs[i].userId == u && rs[i].targetId == t)
  {
    var m := Filter(rs, OnPair(u, t));
    if |m| > 0 then assert m[0] in rs; Single(m) else Single(m)
  }

  /** The kind of the reaction `u` has on `t`, if any: the first row on the pair. */
  function UserReaction(rs: seq<Reaction>, u: string, t: string): Option<ReactionType>
  {
    match Find(rs, OnPair(u, t))
    case None => None
    case Some(x) => Some(x.kind)
  }

  /** Under the pair constraint the lookup never fails and finds the pair's only row. */
  lemma LookupIsFind(rs: seq<Reaction>, u: string, t: string)
    requires UniquePairs(rs)
    ensures FindByUserAndTarget(rs, u, t) == Ok(Find(rs, OnPair(u, t)))
  {
    var m := Filter(rs, OnPair(u, t));
    FilterLength(rs, OnPair(u, t));
    match Find(rs, OnPair(u, t))
    case None =>
      CountNone(rs, OnPair(u, t));
    case Some(x) =>
      var i :| 0 <= i < |rs| && rs[i] == x;
      forall j | 0 <= j < |rs| && j != i ensures !OnPair(u, t)(rs[j]) {
        if OnPair(u, t)(rs[j]) {
          PairOwner(rs, i, j);
        }
      }
      CountOnlyAt(rs, i, OnPair(u, t), OnPair(u, t), y => true);
      assert m[0] in rs;
      var k :| 0 <= k < |rs| && rs[k] == m[0];
      PairOwner(rs, i, k);
  }

  /** The rows of one target with one kind. */
  function OfTargetAndType(t: string, k: ReactionType): Reaction -> bool
  {
    (x: Reaction) => x.targetId == t && x.kind == k
  }

  function OfTarget(t: string): Reaction -> bool
  {
    (x: Reaction) => x.targetId == t
  }

  /** `countByPostIdAndType` / `countByRecommendationIdAndReactionType`. */
  function CountByTargetAndType(rs: seq<Reaction>, t: string, k: ReactionType): (n: nat)
    ensures n <= |rs|
    ensures n == 0 <==> forall i :: 0 <= i < |rs| ==> rs[i].targetId != t || rs[i].kind != k
  {
    CountZeroIffNone(rs, OfTargetAndType(t, k));
    Count(rs, OfTargetAndType(t, k))
  }

  /** `countByRecommendationId`. */
  function CountByTarget(rs: seq<Reaction>, t: string): (n: nat)
    ensures n <= |rs|
    ensures n == 0 <==> forall i :: 0 <= i < |rs| ==> rs[i].targetId != t
  {
    CountZeroIffNone(rs, OfTarget(t));
    Count(rs, OfTarget(t))
  }

  /** `findByPostIdAndType`: exactly the rows the per-type count counts. */
  function FindByTargetAndType(rs: seq<Reaction>, t: string, k: ReactionType): (r: seq<Reaction>)
    ensures IsFilterOf(r, rs, OfTargetAndType(t, k))
    ensures |r| == CountByTargetAndType(rs, t, k)
  {
    FilterLength(rs, OfTargetAndType(t, k));
    Filter(rs, OfTargetAndType(t, k))
  }

  /** Every reaction is a like or a dislike, so the total is their sum. */
  lemma CountByTargetSplits(rs: seq<Reaction>, t: string)
    ensures CountByTarget(rs, t) == CountByTargetAndType(rs, t, LIKE) + CountByTargetAndType(rs, t, DISLIKE)
  {
    CountSplit(rs, OfTargetAndType(t, LIKE), OfTargetAndType(t, DISLIKE), OfTarget(t));
  }

  /** The row is of kind `k` and its recommendation is `student`'s (the join of `countReactionsReceivedByStudent`). */
  function ReceivedBy(recs: seq<Recommendation>, student: string, k: ReactionType): Reaction -> bool
  {
    (x: Reaction) => x.kind == k
         && match FindById(recs, RecommendationKey, x.targetId)
            case None => false
            case Some(rec) => rec.studentId == student
  }

  /**
    `countReactionsReceivedByStudent`: the reactions of kind `k` on the
    student's recommendations; none exactly when no such reaction exists.
   */
  function CountReceivedByStudent(rs: seq<Reaction>, recs: seq<Recommendation>, student: string, k: ReactionType): (n: nat)
    ensures n <= |rs|
    ensures n == 0 <==> forall i :: 0 <= i < |rs| ==> !ReceivedBy(recs, student, k)(rs[i])
  {
    CountZeroIffNone(rs, ReceivedBy(recs, student, k));
    Count(rs, ReceivedBy(recs, student, k))
  }

  /** A reaction counts for a student iff it has the kind and its recommendation is one of theirs. */
  lemma ReceivedByMeans(recs: seq<Recommendation>, student: string, k: ReactionType, x: Reaction)
    requires UniqueIds(recs, RecommendationKey)
    ensures ReceivedBy(recs, student, k)(x)
        <==> x.kind == k && exists i :: 0 <= i < |recs| && recs[i].id == x.targetId && recs[i].studentId == student
  {
    match FindById(recs, RecommendationKey, x.targetId)
    case None =>
    case Some(rec) =>
      var i :| 0 <= i < |recs| && recs[i] == rec;
      assert forall j :: 0 <= j < |recs| && recs[j].id == x.targetId ==> j == i;
  }

  /** Every reaction of a kind on one of the student's recommendations is among those received. */
  lemma ReceivedCoversOwnRecommendation(rs: seq<Reaction>, recs: seq<Recommendation>, rec: Recommendation, k: ReactionType)
    requires UniqueIds(recs, RecommendationKey) && rec in recs
    ensures CountByTargetAndType(rs, rec.id, k) <= CountReceivedByStudent(rs, recs, rec.studentId, k)
  {
    forall x | OfTargetAndType(rec.id, k)(x) ensures ReceivedBy(recs, rec.studentId, k)(x) {
      ReceivedByMeans(recs, rec.studentId, k, x);
    }
    CountMonotone(rs, OfTargetAndType(rec.id, k), ReceivedBy(recs, rec.studentId, k));
  }

  /** `deleteByUserIdAndPostId`: the pair's rows go, every other row stays. */
  function DeleteByUserAndTarget(rs: seq<Reaction>, u: string, t: string): (r: seq<Reaction>)
    ensures forall x :: multiset(r)[x] == if x.userId == u && x.targetId == t then 0 else multiset(rs)[x]
    ensures UserReaction(r, u, t) == None
  {
    RemoveAll(rs, OnPair(u, t))
  }

  /** `deleteByRecommendationId`: the target's rows go, every other row stays. */
  function DeleteByTarget(rs: seq<Reaction>, t: string): (r: seq<Reaction>)
    ensures forall x :: multiset(r)[x] == if x.targetId == t then 0 else multiset(rs)[x]
    ensures Wellformed(rs) ==> Wellformed(r)
  {
    if Wellformed(rs) then
      RemoveAllPairwise(rs, OfTarget(t), KeysDiffer(ReactionKey));
      RemoveAllPairwise(rs, OfTarget(t), PairsDiffer());
      RemoveAll(rs, OfTarget(t))
    else RemoveAll(rs, OfTarget(t))
  }

  // ---------------------------------------------------------------------
  // Toggle

  /**
    The common body of `toggleLike`, `toggleDislike` and `toggleReaction`
    once the target and the user are known: look the pair up, then delete
    a reaction of the pressed kind, switch one of the other kind in place,
    or save a new one under `freshId`. A non-unique lookup throws.
   */
  function ApplyToggle(rs: seq<Reaction>, u: string, t: string, pressed: ReactionType, freshId: string): (r: Result<seq<Reaction>>)
    ensures r.Err? <==> FindByUserAndTarget(rs, u, t).Err?
  {
    match FindByUserAndTarget(rs, u, t)
    case Err(m) => Err(m)
    case Ok(None) => Ok(Save(rs, Reaction(freshId, u, t, pressed), ReactionKey))
    case Ok(Some(x)) =>
      if x.kind == pressed then Ok(DeleteById(rs, ReactionKey, x.id))
      else Ok(Save(rs, x.(kind := pressed), ReactionKey))
  }

  /** Where the pair's row sits, under the pair and key constraints. */
  lemma PairRow(rs: seq<Reaction>, u: string, t: string) returns (i: int)
    requires Wellformed(rs)
    requires Find(rs, OnPair(u, t)).Some?
    ensures 0 <= i < |rs| && rs[i] == Find(rs, OnPair(u, t)).value
    ensures forall j :: 0 <= j < |rs| && j != i ==> !OnPair(u, t)(rs[j]) && rs[j].id != rs[i].id
  {
    i :| 0 <= i < |rs| && rs[i] == Find(rs, OnPair(u, t)).value;
    forall j | 0 <= j < |rs| && j != i ensures !OnPair(u, t)(rs[j]) && rs[j].id != rs[i].id {
      if OnPair(u, t)(rs[j]) {
        PairOwner(rs, i, j);
      }
      if rs[j].id == rs[i].id {
        KeyOwner(rs, i, j);
      }
    }
  }

  /** Saving a row whose key is taken overwrites that key's row in place. */
  lemma SaveOverwrites(rs: seq<Reaction>, i: int, y: Reaction)
    requires UniqueIds(rs, ReactionKey) && 0 <= i < |rs| && rs[i].id == y.id
    ensures Save(rs, y, ReactionKey) == rs[i := y]
  {
    var k := IndexOfFirst(rs, (z: Reaction) => ReactionKey(z) == ReactionKey(y));
    KeyOwner(rs, i, k);
  }

  lemma AppendKeepsWellformed(rs: seq<Reaction>, n: Reaction)
    requires Wellformed(rs)
    requires forall j :: 0 <= j < |rs| ==> rs[j].id != n.id && !(rs[j].userId == n.userId && rs[j].targetId == n.targetId)
    ensures Wellformed(rs + [n])
  {
    var r := rs + [n];
    forall i, j | 0 <= i < j < |r| ensures KeysDiffer(ReactionKey)(r[i], r[j]) && PairsDiffer()(r[i], r[j]) {
      ReactionKeysDiffer(r[i], r[j]);
      assert r[i] == rs[i];
      if j < |rs| {
        assert r[j] == rs[j];
        ReactionKeysDiffer(rs[i], rs[j]);
        assert KeysDiffer(ReactionKey)(rs[i], rs[j]) && PairsDiffer()(rs[i], rs[j]);
      } else {
        assert r[j] == n;
        assert rs[i].id != n.id && !(rs[i].userId == n.userId && rs[i].targetId == n.targetId);
      }
    }
  }

  /** Overwriting a row with one of the same key and pair keeps both constraints. */
  lemma UpdateKeepsWellformed(rs: seq<Reaction>, i: int, y: Reaction)
    requires Wellformed(rs) && 0 <= i < |rs|
    requires y.id == rs[i].id && y.userId == rs[i].userId && y.targetId == rs[i].targetId
    ensures Wellformed(rs[i := y])
  {
    var r := rs[i := y];
    forall a, b | 0 <= a < b < |r| ensures KeysDiffer(ReactionKey)(r[a], r[b]) && PairsDiffer()(r[a], r[b]) {
      ReactionKeysDiffer(r[a], r[b]);
      ReactionKeysDiffer(rs[a], rs[b]);
      assert KeysDiffer(ReactionKey)(rs[a], rs[b]) && PairsDiffer()(rs[a], rs[b]);
      assert r[a].id == rs[a].id && r[a].userId == rs[a].userId && r[a].targetId == rs[a].targetId;
      assert r[b].id == rs[b].id && r[b].userId == rs[b].userId && r[b].targetId == rs[b].targetId;
    }
  }

  /** When only index `i` matches, the first match after overwriting it is the new row. */
  lemma FindReplaceFirst(rs: seq<Reaction>, i: int, y: Reaction, p: Reaction -> bool)
    requires 0 <= i < |rs| && p(y)
    requires forall j :: 0 <= j < |rs| && j != i ==> !p(rs[j])
    ensures Find(rs[i := y], p) == Some(y)
  {
    var r := rs[i := y];
    assert r[i] == y;
    assert forall j :: 0 <= j < |r| && j != i ==> !p(r[j]);
  }

  /** No reaction yet: a new row of the pressed kind is appended. */
  lemma ToggleCreates(rs: seq<Reaction>, u: string, t: string, pressed: ReactionType, freshId: string)
    requires Wellformed(rs) && !ExistsById(rs, ReactionKey, freshId)
    requires Find(rs, OnPair(u, t)).None?
    ensures ApplyToggle(rs, u, t, pressed, freshId) == Ok(rs + [Reaction(freshId, u, t, pressed)])
    ensures Wellformed(rs + [Reaction(freshId, u, t, pressed)])
    ensures UserReaction(rs + [Reaction(freshId, u, t, pressed)], u, t) == Some(pressed)
  {
    var n := Reaction(freshId, u, t, pressed);
    LookupIsFind(rs, u, t);
    AppendKeepsWellformed(rs, n);
    FindAppend(rs, n, OnPair(u, t));
  }

  /** A reaction of the pressed kind: its row is deleted, and the pair has none left. */
  lemma ToggleRemoves(rs: seq<Reaction>, u: string, t: string, pressed: ReactionType, freshId: string)
    requires Wellformed(rs)
    requires Find(rs, OnPair(u, t)).Some? && Find(rs, OnPair(u, t)).value.kind == pressed
    ensures ApplyToggle(rs, u, t, pressed, freshId) == Ok(DeleteById(rs, ReactionKey, Find(rs, OnPair(u, t)).value.id))
    ensures Wellformed(DeleteById(rs, ReactionKey, Find(rs, OnPair(u, t)).value.id))
    ensures UserReaction(DeleteById(rs, ReactionKey, Find(rs, OnPair(u, t)).value.id), u, t) == None
  {
    var x := Find(rs, OnPair(u, t)).value;
    LookupIsFind(rs, u, t);
    var after := DeleteById(rs, ReactionKey, x.id);
    var i := PairRow(rs, u, t);
    DeleteKeepsUniqueIds(rs, ReactionKey, x.id);
    RemoveAllPairwise(rs, (y: Reaction) => ReactionKey(y) == x.id, PairsDiffer());
    forall j | 0 <= j < |after| ensures !OnPair(u, t)(after[j]) {
      var k :| 0 <= k < |rs| && rs[k] == after[j];
    }
  }

  /** A reaction of the other kind: its row is switched in place. */
  lemma ToggleSwitches(rs: seq<Reaction>, u: string, t: string, pressed: ReactionType, freshId: string) returns (i: int)
    requires Wellformed(rs)
    requires Find(rs, OnPair(u, t)).Some? && Find(rs, OnPair(u, t)).value.kind != pressed
    ensures 0 <= i < |rs| && rs[i] == Find(rs, OnPair(u, t)).value
    ensures forall j :: 0 <= j < |rs| && j != i ==> !OnPair(u, t)(rs[j]) && rs[j].id != rs[i].id
    ensures ApplyToggle(rs, u, t, pressed, freshId) == Ok(rs[i := rs[i].(kind := pressed)])
    ensures Wellformed(rs[i := rs[i].(kind := pressed)])
    ensures UserReaction(rs[i := rs[i].(kind := pressed)], u, t) == Some(pressed)
  {
    LookupIsFind(rs, u, t);
    i := PairRow(rs, u, t);
    SaveOverwrites(rs, i, rs[i].(kind := pressed));
    UpdateKeepsWellformed(rs, i, rs[i].(kind := pressed));
    FindReplaceFirst(rs, i, rs[i].(kind := pressed), OnPair(u, t));
  }

  /**
    The toggle never fails on a well-formed table, keeps it well-formed
    (one reaction per pair, distinct keys), and leaves the user's reaction
    on the target as the toggle table prescribes.
   */
  lemma ToggleFollowsTable(rs: seq<Reaction>, u: string, t: string, pressed: ReactionType, freshId: string)
    requires Wellformed(rs) && !ExistsById(rs, ReactionKey, freshId)
    ensures ApplyToggle(rs, u, t, pressed, freshId).Ok?
    ensures Wellformed(ApplyToggle(rs, u, t, pressed, freshId).value)
    ensures UserReaction(ApplyToggle(rs, u, t, pressed, freshId).value, u, t) == Toggle(UserReaction(rs, u, t), pressed)
  {
    var f := Find(rs, OnPair(u, t));
    if f.None? {
      ToggleCreates(rs, u, t, pressed, freshId);
    } else if f.value.kind == pressed {
      ToggleRemoves(rs, u, t, pressed, freshId);
    } else {
      var i := ToggleSwitches(rs, u, t, pressed, freshId);
    }
  }

  lemma OtherPairsAfterAppend(rs: seq<Reaction>, n: Reaction, u2: string, t2: string)
    requires !OnPair(u2, t2)(n)
    ensures UserReaction(rs + [n], u2, t2) == UserReaction(rs, u2, t2)
  {
    FindAppend(rs, n, OnPair(u2, t2));
  }

  lemma OtherPairsAfterDelete(rs: seq<Reaction>, i: int, u2: string, t2: string)
    requires 0 <= i < |rs| && !OnPair(u2, t2)(rs[i])
    requires forall j :: 0 <= j < |rs| && j != i ==> rs[j].id != rs[i].id
    ensures UserReaction(DeleteById(rs, ReactionKey, rs[i].id), u2, t2) == UserReaction(rs, u2, t2)
  {
    FindAfterDeleteById(rs, ReactionKey, rs[i].id, OnPair(u2, t2));
  }

  lemma OtherPairsAfterUpdate(rs: seq<Reaction>, i: int, y: Reaction, u2: string, t2: string)
    requires 0 <= i < |rs| && !OnPair(u2, t2)(rs[i]) && !OnPair(u2, t2)(y)
    ensures UserReaction(rs[i := y], u2, t2) == UserReaction(rs, u2, t2)
  {
    FindUpdate(rs, i, y, OnPair(u2, t2));
  }

  /** The toggle leaves every other user's reaction on every target, and the user's reactions elsewhere, as they were. */
  lemma ToggleLeavesOtherPairs(rs: seq<Reaction>, u: string, t: string, pressed: ReactionType, freshId: string, u2: string, t2: string)
    requires Wellformed(rs) && !ExistsById(rs, ReactionKey, freshId)
    requires !(u2 == u && t2 == t)
    ensures ApplyToggle(rs, u, t, pressed, freshId).Ok?
    ensures UserReaction(ApplyToggle(rs, u, t, pressed, freshId).value, u2, t2) == UserReaction(rs, u2, t2)
  {
    var f := Find(rs, OnPair(u, t));
    if f.None? {
      ToggleCreates(rs, u, t, pressed, freshId);
      OtherPairsAfterAppend(rs, Reaction(freshId, u, t, pressed), u2, t2);
    } else if f.value.kind == pressed {
      ToggleRemoves(rs, u, t, pressed, freshId);
      var i := PairRow(rs, u, t);
      OtherPairsAfterDelete(rs, i, u2, t2);
    } else {
      var i := ToggleSwitches(rs, u, t, pressed, freshId);
      OtherPairsAfterUpdate(rs, i, rs[i].(kind := pressed), u2, t2);
    }
  }

  lemma CountAfterDelete(rs: seq<Reaction>, i: int, p: Reaction -> bool)
    requires 0 <= i < |rs|
    requires forall j :: 0 <= j < |rs| && j != i ==> rs[j].id != rs[i].id
    ensures Count(DeleteById(rs, ReactionKey, rs[i].id), p) == Count(rs, p) - (if p(rs[i]) then 1 else 0)
  {
    CountAfterDeleteOnly(rs, ReactionKey, i, p);
  }

  /**
    Each per-target, per-kind count moves by what the user's reaction on
    the target was and becomes: a like count goes down by one when a like
    is withdrawn or switched away, and up by one when one is added.
   */
  lemma ToggleCounts(rs: seq<Reaction>, u: string, t: string, pressed: ReactionType, freshId: string, t2: string, k: ReactionType)
    requires Wellformed(rs) && !ExistsById(rs, ReactionKey, freshId)
    ensures ApplyToggle(rs, u, t, pressed, freshId).Ok?
    ensures CountByTargetAndType(ApplyToggle(rs, u, t, pressed, freshId).value, t2, k)
         == CountByTargetAndType(rs, t2, k)
            - (if t2 == t && UserReaction(rs, u, t) == Some(k) then 1 else 0)
            + (if t2 == t && Toggle(UserReaction(rs, u, t), pressed) == Some(k) then 1 else 0)
  {
    var p := OfTargetAndType(t2, k);
    var f := Find(rs, OnPair(u, t));
    if f.None? {
      ToggleCreates(rs, u, t, pressed, freshId);
      var n := Reaction(freshId, u, t, pressed);
      CountAppend(rs, n, p);
      assert UserReaction(rs, u, t) == None && Toggle(None, pressed) == Some(pressed);
      assert p(n) <==> t2 == t && pressed == k;
    } else if f.value.kind == pressed {
      ToggleRemoves(rs, u, t, pressed, freshId);
      var i := PairRow(rs, u, t);
      CountAfterDelete(rs, i, p);
      assert UserReaction(rs, u, t) == Some(pressed) && Toggle(Some(pressed), pressed) == None;
      assert p(rs[i]) <==> t2 == t && pressed == k;
    } else {
      var i := ToggleSwitches(rs, u, t, pressed, freshId);
      CountUpdate(rs, i, rs[i].(kind := pressed), p);
      assert UserReaction(rs, u, t) == Some(rs[i].kind) && Toggle(Some(rs[i].kind), pressed) == Some(pressed);
      assert p(rs[i]) <==> t2 == t && rs[i].kind == k;
      assert p(rs[i].(kind := pressed)) <==> t2 == t && pressed == k;
    }
  }
}

=== FILE: recommendation_cards.dfy ===
/**
  The teacher-recommendation card (`TeacherRecommendationAdapter`): the
  texts a row shows, when its remove button is visible, and the list
  diffing rule. The `dd/MM/yyyy` date format is a parameter.
 */
module RecommendationCard {
  import opened Wrappers
  import opened Text
  import opened AppData
  import Entities
  import opened Permission

  /** Kotlin `ifEmpty`: the fallback replaces only the empty string. */
  function OrElse(s: string, fallback: string): (r: string)
    requires fallback != ""
    ensures r != ""
    ensures s != "" ==> r == s
    ensures s == "" ==> r == fallback
  {
    if s == "" then fallback else s
  }

  const Star := "⭐"
  const NoRating := "⭐ Sin calificación"

  /** A positive rating shows that many stars and "(r/5)"; anything else shows `NoRating`. */
  function RatingText(rating: int): (text: string)
    ensures rating <= 0 ==> text == NoRating
    ensures rating > 0 ==> |text| > rating + 1 && text[rating] == ' ' && text[rating + 1] == '('
    ensures rating > 0 ==> forall k :: 0 <= k < rating ==> text[k] == Star[0]
  {
    if rating > 0 then
      RepeatAt(Star, rating);
      Repeat(Star, rating) + " (" + IntToString(rating) + "/5)"
    else NoRating
  }

  /** Every character of a repeated one-character string is that character. */
  lemma {:induction false} RepeatAt(s: string, n: nat)
    requires |s| == 1
    ensures forall k :: 0 <= k < n ==> Repeat(s, n)[k] == s[0]
  {
    if n > 0 {
      RepeatAt(s, n - 1);
      assert Repeat(s, n) == s + Repeat(s, n - 1);
    }
  }

  /** A rated text is never the unrated one, and two different ratings give different texts. */
  lemma RatingTextsDiffer(a: int, b: int)
    requires a > 0
    ensures RatingText(a) != NoRating
    ensures b > 0 && a != b ==> RatingText(a) != RatingText(b)
  {
    assert NoRating[1] == ' ' && NoRating[2] == 'S';
    if a == 1 {
      assert RatingText(a)[2] == '(';
    } else {
      assert RatingText(a)[1] == Star[0];
    }
    if 0 < b < a {
      assert RatingText(b)[b] == ' ' && RatingText(a)[b] == Star[0];
    } else if a < b {
      assert RatingText(a)[a] == ' ' && RatingText(b)[a] == Star[0];
    }
  }

  /**
    The rating text tells the rating back: two ratings with the same text
    are both unrated, or equal.
   */
  lemma RatingTextDeterminesRating(a: int, b: int)
    requires RatingText(a) == RatingText(b)
    ensures a > 0 <==> b > 0
    ensures a > 0 ==> a == b
  {
    if a > 0 {
      RatingTextsDiffer(a, b);
    }
    if b > 0 {
      RatingTextsDiffer(b, a);
    }
  }

  /** What one card shows. */
  datatype CardText = CardText(
    teacher: string,
    recommendedBy: string,
    subject: string,
    semesterLine: string,
    rating: string,
    reference: string,
    published: string,
    likes: string,
    dislikes: string,
    likeActive: bool,
    dislikeActive: bool)

  /** `bind`: the texts, with fallbacks for an empty teacher name, student name and reference. */
  function CardTextOf(rec: TeacherRecommendation, formatDate: int -> string): (c: CardText)
    ensures c.teacher != "" && c.reference != ""
    ensures rec.teacherName != "" ==> c.teacher == rec.teacherName
    ensures rec.reference != "" ==> c.reference == rec.reference
    ensures c.recommendedBy == "Recomendado por: " + OrElse(rec.studentName, "Estudiante")
    ensures c.rating == RatingText(rec.rating)
    ensures c.likeActive == rec.isLiked && c.dislikeActive == rec.isDisliked
  {
    CardText(
      OrElse(rec.teacherName, "Profesor"),
      "Recomendado por: " + OrElse(rec.studentName, "Estudiante"),
      rec.subject,
      rec.semester + " (" + IntToString(rec.year) + ")",
      RatingText(rec.rating),
      OrElse(rec.reference, "Sin referencia disponible"),
      "Publicado: " + formatDate(rec.createdAt),
      IntToString(rec.likeCount),
      IntToString(rec.dislikeCount),
      rec.isLiked,
      rec.isDisliked)
  }

  /**
    How a list builds its adapter: which click handlers it passes, whether
    own actions are shown, and the optional user-id and role providers
    (`None` for a provider that was not passed; `Some(v)` for one that
    reads `v` when the card is bound).
   */
  datatype CardConfig = CardConfig(
    hasRemove: bool,
    hasLike: bool,
    hasDislike: bool,
    showOwnActions: bool,
    userIdProvider: Option<Option<string>>,
    roleProvider: Option<Option<string>>)

  /** Invoking an optional provider: a missing one gives null. */
  function Invoke(provider: Option<Option<string>>): (v: Option<string>)
    ensures provider.None? ==> v.None?
    ensures provider.Some? ==> v == provider.value
  {
    if provider.Some? then provider.value else None
  }

  /** The remove button shows for own actions, a remove handler and the card's delete rule. */
  predicate RemoveVisible(config: CardConfig, rec: TeacherRecommendation)
  {
    config.showOwnActions && config.hasRemove
    && CardMayDelete(rec.studentId, Invoke(config.userIdProvider), Invoke(config.roleProvider))
  }

  /**
    With both providers reading a user's session, the button shows exactly
    when that user may delete the recommendation on the server.
   */
  lemma RemoveVisibleForSession(config: CardConfig, rec: TeacherRecommendation, u: Entities.User)
    requires config.showOwnActions && config.hasRemove
    requires config.userIdProvider == Some(SessionOf(u).0) && config.roleProvider == Some(SessionOf(u).1)
    ensures RemoveVisible(config, rec) <==> MayModify(rec.studentId, u)
  {
    ClientRulesAgree(rec.studentId, u);
  }

  /** Without providers only an impossible null student id would match: the button never shows. */
  lemma NoProvidersNoRemove(config: CardConfig, rec: TeacherRecommendation)
    requires config.userIdProvider.None? && config.roleProvider.None?
    ensures !RemoveVisible(config, rec)
  {
  }

  /** `DiffCallback`: the same item is the same id; the same contents is full equality. */
  predicate SameItem(a: TeacherRecommendation, b: TeacherRecommendation)
  {
    a.id == b.id
  }

  function SameContents(a: TeacherRecommendation, b: TeacherRecommendation): (same: bool)
    ensures same ==> SameItem(a, b)
    ensures same <==> a == b
  {
    a == b
  }
}

/**
  The subject filter shared by `AllRecommendationsFragment` and
  `TeacherListFragment`, the former's own-recommendation guards, and how
  each fragment builds its card adapter.
 */
module RecommendationLists {
  import opened Wrappers
  import opened Lists
  import opened Sorting
  import opened AppData
  import Entities
  import opened Permission
  import opened RecommendationCard

  const AllSubjects := "Todas las materias"

  function SubjectOf(rec: TeacherRecommendation): string { rec.subject }

  /** `updateSubjectFilter`: "all subjects", then each subject once, in order. */
  function SubjectOptions(recs: seq<TeacherRecommendation>): (options: seq<string>)
    ensures |options| >= 1 && options[0] == AllSubjects
    ensures StrictlySorted(options[1..])
    ensures forall y :: y in options[1..] <==> exists i :: 0 <= i < |recs| && recs[i].subject == y
  {
    var subjects := Map(recs, SubjectOf);
    var sorted := DistinctSorted(subjects);
    assert forall y :: y in subjects <==> exists i :: 0 <= i < |recs| && recs[i].subject == y by {
      forall y ensures y in subjects <==> exists i :: 0 <= i < |recs| && recs[i].subject == y {
        if y in subjects {
          var i :| 0 <= i < |subjects| && subjects[i] == y;
          assert recs[i].subject == y;
        }
        if exists i :: 0 <= i < |recs| && recs[i].subject == y {
          var i :| 0 <= i < |recs| && recs[i].subject == y;
          assert subjects[i] == y;
        }
      }
    }
    assert ([AllSubjects] + sorted)[1..] == sorted;
    [AllSubjects] + sorted
  }

  /** The shown list, whether the clear icon shows, and whether the empty state replaces the list. */
  datatype ListView = ListView(shown: seq<TeacherRecommendation>, clearIcon: bool, emptyState: bool)

  function ViewOf(shown: seq<TeacherRecommendation>, clearIcon: bool): (v: ListView)
    ensures v.shown == shown && v.clearIcon == clearIcon
    ensures v.emptyState <==> |shown| == 0
  {
    ListView(shown, clearIcon, |shown| == 0)
  }

  function SubjectIs(subject: string): TeacherRecommendation -> bool
  {
    (rec: TeacherRecommendation) => rec.subject == subject
  }

  /** `filterBySubject`: "all subjects" shows everything; any other choice shows that subject only. */
  function FilterBySubject(all: seq<TeacherRecommendation>, subject: string): (v: ListView)
    ensures subject == AllSubjects ==> v.shown == all && !v.clearIcon
    ensures subject != AllSubjects ==> v.clearIcon && IsFilterOf(v.shown, all, SubjectIs(subject))
    ensures forall i :: 0 <= i < |v.shown| ==> v.shown[i] in all
    ensures subject != AllSubjects ==> forall i :: 0 <= i < |v.shown| ==> v.shown[i].subject == subject
    ensures v.emptyState <==> |v.shown| == 0
  {
    if subject == AllSubjects then ViewOf(all, false)
    else ViewOf(Filter(all, SubjectIs(subject)), true)
  }

  /** `clearFilter`: back to the first option. */
  function ClearFilter(all: seq<TeacherRecommendation>): (v: ListView)
    ensures v == FilterBySubject(all, SubjectOptions(all)[0])
  {
    ViewOf(all, false)
  }

  /**
    Every option the spinner offers shows something when the list is not
    empty: the empty state appears only for an empty list.
   */
  lemma OptionsNeverEmpty(all: seq<TeacherRecommendation>, k: int)
    requires 0 <= k < |SubjectOptions(all)|
    ensures FilterBySubject(all, SubjectOptions(all)[k]).emptyState <==> |all| == 0
  {
    var options := SubjectOptions(all);
    var y := options[k];
    if k > 0 && y != AllSubjects {
      assert y in options[1..] by {
        assert options[1..][k - 1] == y;
      }
      var i :| 0 <= i < |all| && all[i].subject == y;
      assert all[i] in FilterBySubject(all, y).shown;
    }
  }

  /** A new list from the view model: everything is shown and the options are rebuilt. */
  datatype FragmentState = FragmentState(all: seq<TeacherRecommendation>, options: seq<string>, view: ListView)

  function OnRecommendations(recs: seq<TeacherRecommendation>): (st: FragmentState)
    ensures st.all == recs && st.view.shown == recs
    ensures st.options == SubjectOptions(recs)
  {
    FragmentState(recs, SubjectOptions(recs), ViewOf(recs, false))
  }

  /** A click's outcome: a toast and nothing else, a confirmation dialog, or a call to the view model. */
  datatype Click = Toast(message: string) | ConfirmDelete | SendReaction(isLike: bool)

  const DeleteRefused := "No tienes permisos para eliminar esta recomendación"
  const OwnLike := "No puedes dar like a tus propias recomendaciones"
  const OwnDislike := "No puedes dar dislike a tus propias recomendaciones"

  /** The remove click re-checks the card's rule before asking for confirmation. */
  function RemoveClick(rec: TeacherRecommendation, userId: Option<string>, role: Option<string>): (c: Click)
    ensures c == ConfirmDelete <==> CardMayDelete(rec.studentId, userId, role)
    ensures c != ConfirmDelete ==> c == Toast(DeleteRefused)
  {
    if CardMayDelete(rec.studentId, userId, role) then ConfirmDelete else Toast(DeleteRefused)
  }

  /** A like or dislike click on one's own recommendation only shows a toast. */
  function ReactClick(rec: TeacherRecommendation, userId: Option<string>, isLike: bool): (c: Click)
    ensures c.SendReaction? <==> userId != Some(rec.studentId)
    ensures c.SendReaction? ==> c.isLike == isLike
    ensures !c.SendReaction? ==> c == Toast(if isLike then OwnLike else OwnDislike)
  {
    if userId == Some(rec.studentId) then Toast(if isLike then OwnLike else OwnDislike)
    else SendReaction(isLike)
  }

  /** `AllRecommendationsFragment`'s adapter: every handler, own actions, both session providers. */
  function AllRecommendationsConfig(userId: Option<string>, role: Option<string>): (c: CardConfig)
    ensures c.hasRemove && c.hasLike && c.hasDislike && c.showOwnActions
    ensures Invoke(c.userIdProvider) == userId && Invoke(c.roleProvider) == role
  {
    CardConfig(true, true, true, true, Some(userId), Some(role))
  }

  /**
    On the all-recommendations list a visible remove button never meets
    the refusal toast: the card and the click apply one rule.
   */
  lemma VisibleRemoveConfirms(rec: TeacherRecommendation, userId: Option<string>, role: Option<string>)
    ensures RemoveVisible(AllRecommendationsConfig(userId, role), rec) <==> RemoveClick(rec, userId, role) == ConfirmDelete
  {
  }

  /** `TeacherListFragment`'s adapter as written: a remove handler and own actions, but no providers. */
  function TeacherListConfigAsWritten(): (c: CardConfig)
    ensures c.hasRemove && c.showOwnActions
    ensures c.userIdProvider.None? && c.roleProvider.None?
  {
    CardConfig(true, false, false, true, None, None)
  }

  /**
    As written, the student's own list never shows the remove button,
    even on a recommendation the signed-in student wrote.
   */
  lemma TeacherListRemoveNeverShown(rec: TeacherRecommendation)
    ensures !RemoveVisible(TeacherListConfigAsWritten(), rec)
  {
    NoProvidersNoRemove(TeacherListConfigAsWritten(), rec);
  }

  /** The adapter with the session providers the all-recommendations list passes. */
  function TeacherListConfig(userId: Option<string>, role: Option<string>): (c: CardConfig)
    ensures c.hasRemove && !c.hasLike && !c.hasDislike && c.showOwnActions
    ensures Invoke(c.userIdProvider) == userId && Invoke(c.roleProvider) == role
  {
    CardConfig(true, false, false, true, Some(userId), Some(role))
  }

  /**
    With the providers, every recommendation on a signed-in student's own
    list shows its remove button, and on any list the button follows the
    server's delete rule.
   */
  lemma TeacherListRemoveShown(recs: seq<TeacherRecommendation>, studentId: string, role: Option<string>, u: Entities.User)
    requires forall i :: 0 <= i < |recs| ==> recs[i].studentId == studentId
    ensures forall i :: 0 <= i < |recs| ==> RemoveVisible(TeacherListConfig(Some(studentId), role), recs[i])
    ensures forall rec: TeacherRecommendation ::
              RemoveVisible(TeacherListConfig(SessionOf(u).0, SessionOf(u).1), rec) <==> MayModify(rec.studentId, u)
  {
    forall rec: TeacherRecommendation
      ensures RemoveVisible(TeacherListConfig(SessionOf(u).0, SessionOf(u).1), rec) <==> MayModify(rec.studentId, u)
    {
      RemoveVisibleForSession(TeacherListConfig(SessionOf(u).0, SessionOf(u).1), rec, u);
    }
  }
}

=== FILE: recommendation_queries.dfy ===
/**
  The queries of `StudentTeacherRepository` over the recommendation table.
  `isActive = true` does not hold for a NULL column, and neither does
  `semester = :semester` when the parameter is null. Queries without an
  `ORDER BY` return the rows in table order.
 */
module RecommendationQueries {
  import opened Wrappers
  import opened Lists
  import opened Sorting
  import opened Jpa
  import opened Jpql
  import opened Entities

  predicate IsActive(r: Recommendation)
  {
    r.isActive == Some(true)
  }

  function Active(): Recommendation -> bool
  {
    (r: Recommendation) => IsActive(r)
  }

  function ActiveOfStudent(sid: string): Recommendation -> bool
  {
    (r: Recommendation) => r.studentId == sid && IsActive(r)
  }

  function ActiveOfTeacher(name: string): Recommendation -> bool
  {
    (r: Recommendation) => r.teacherName == name && IsActive(r)
  }

  function ActiveOfSubject(subject: string): Recommendation -> bool
  {
    (r: Recommendation) => r.subject == subject && IsActive(r)
  }

  function SameCourse(sid: string, name: string, subject: string): Recommendation -> bool
  {
    (r: Recommendation) => r.studentId == sid && r.teacherName == name && r.subject == subject && IsActive(r)
  }

  /** The duplicate check's condition; a null semester parameter matches no row. */
  function SameCourseAndSemester(sid: string, name: string, subject: string, semester: Option<string>): Recommendation -> bool
  {
    (r: Recommendation) => r.studentId == sid && r.teacherName == name && r.subject == subject
                           && semester.Some? && r.semester == semester && IsActive(r)
  }

  function NewestFirst(r: Recommendation): int
  {
    r.createdAt
  }

  function Subject(r: Recommendation): string
  {
    r.subject
  }

  function TeacherName(r: Recommendation): string
  {
    r.teacherName
  }

  /** `findByStudentIdAndActiveTrue`. */
  function FindByStudentActive(recs: seq<Recommendation>, sid: string): (r: seq<Recommendation>)
    ensures forall x :: x in r <==> x in recs && x.studentId == sid && IsActive(x)
    ensures IsFilterOf(r, recs, ActiveOfStudent(sid))
  {
    Filter(recs, ActiveOfStudent(sid))
  }

  /** `findByTeacherNameAndActiveTrue`. */
  function FindByTeacherActive(recs: seq<Recommendation>, name: string): (r: seq<Recommendation>)
    ensures forall x :: x in r <==> x in recs && x.teacherName == name && IsActive(x)
    ensures IsFilterOf(r, recs, ActiveOfTeacher(name))
  {
    Filter(recs, ActiveOfTeacher(name))
  }

  /** `findByStudentIdAndTeacherNameAndSubject`: an `Optional` query, which fails on two matches. */
  function FindByCourse(recs: seq<Recommendation>, sid: string, name: string, subject: string): (r: Result<Option<Recommendation>>)
    ensures r == Single(Filter(recs, SameCourse(sid, name, subject)))
    ensures r.Ok? && r.value.Some? ==> r.value.value in recs && SameCourse(sid, name, subject)(r.value.value)
    ensures r == Ok(None) <==> forall i :: 0 <= i < |recs| ==> !SameCourse(sid, name, subject)(recs[i])
  {
    var m := Filter(recs, SameCourse(sid, name, subject));
    if |m| > 0 then assert m[0] in recs; Single(m) else Single(m)
  }

  /** `findByStudentIdAndTeacherNameAndSubjectAndSemester`: the duplicate lookup, among active rows only. */
  function FindDuplicate(recs: seq<Recommendation>, sid: string, name: string, subject: string, semester: Option<string>): (r: Result<Option<Recommendation>>)
    ensures r == Single(Filter(recs, SameCourseAndSemester(sid, name, subject, semester)))
    ensures r.Ok? && r.value.Some? ==>
              && r.value.value in recs && IsActive(r.value.value)
              && r.value.value.studentId == sid && r.value.value.teacherName == name && r.value.value.subject == subject
              && semester.Some? && r.value.value.semester == semester
    ensures r == Ok(None) <==> forall i :: 0 <= i < |recs| ==> !SameCourseAndSemester(sid, name, subject, semester)(recs[i])
  {
    var m := Filter(recs, SameCourseAndSemester(sid, name, subject, semester));
    if |m| > 0 then assert m[0] in recs; Single(m) else Single(m)
  }

  /** `findByActiveTrueOrderByCreatedAtDesc`. */
  function FindActiveNewestFirst(recs: seq<Recommendation>): (r: seq<Recommendation>)
    ensures forall x :: x in r <==> x in recs && IsActive(x)
    ensures IsFilterOf(r, recs, Active())
    ensures forall i, j :: 0 <= i < j < |r| ==> r[i].createdAt >= r[j].createdAt
  {
    SelectMembers(recs, Active(), NewestFirst, NoKey);
    Select(recs, Active(), NewestFirst, NoKey)
  }

  /** `findBySubjectAndActiveTrue`. */
  function FindBySubjectActive(recs: seq<Recommendation>, subject: string): (r: seq<Recommendation>)
    ensures forall x :: x in r <==> x in recs && x.subject == subject && IsActive(x)
    ensures IsFilterOf(r, recs, ActiveOfSubject(subject))
  {
    Filter(recs, ActiveOfSubject(subject))
  }

  /** `countByStudentIdAndActiveTrue`. */
  function CountByStudentActive(recs: seq<Recommendation>, sid: string): (n: nat)
    ensures n == |FindByStudentActive(recs, sid)|
  {
    FilterLength(recs, ActiveOfStudent(sid));
    Count(recs, ActiveOfStudent(sid))
  }

  /** `countByActiveTrue`. */
  function CountActive(recs: seq<Recommendation>): (n: nat)
    ensures n == |FindActiveNewestFirst(recs)|
  {
    Count(recs, Active())
  }

  /**
    `findDistinctSubjectsByActiveTrue` (and `findAllActiveSubjects`, the
    same query): each subject of an active row once, in order.
   */
  function ActiveSubjects(recs: seq<Recommendation>): (r: seq<string>)
    ensures StrictlySorted(r)
    ensures forall y :: y in r <==> exists i :: 0 <= i < |recs| && IsActive(recs[i]) && recs[i].subject == y
  {
    ActiveDistinct(recs, Subject)
  }

  /** `findDistinctTeacherNames`: each teacher name of an active row once, in order. */
  function ActiveTeacherNames(recs: seq<Recommendation>): (r: seq<string>)
    ensures StrictlySorted(r)
    ensures forall y :: y in r <==> exists i :: 0 <= i < |recs| && IsActive(recs[i]) && recs[i].teacherName == y
  {
    ActiveDistinct(recs, TeacherName)
  }

  /** One column of the active rows, each value once, in order. */
  function ActiveDistinct(recs: seq<Recommendation>, column: Recommendation -> string): (r: seq<string>)
    ensures StrictlySorted(r)
    ensures forall y :: y in r <==> exists i :: 0 <= i < |recs| && IsActive(recs[i]) && column(recs[i]) == y
  {
    ActiveColumn(recs, column);
    DistinctSorted(Map(Filter(recs, Active()), column))
  }

  /** The column values of the active rows are exactly the values active rows carry. */
  lemma ActiveColumn(recs: seq<Recommendation>, column: Recommendation -> string)
    ensures forall y :: y in Map(Filter(recs, Active()), column) <==>
                        exists i :: 0 <= i < |recs| && IsActive(recs[i]) && column(recs[i]) == y
  {
    forall y ensures y in Map(Filter(recs, Active()), column) <==>
                     exists i :: 0 <= i < |recs| && IsActive(recs[i]) && column(recs[i]) == y {
      if y in Map(Filter(recs, Active()), column) {
        var i := ActiveColumnSource(recs, column, y);
      }
      if exists i :: 0 <= i < |recs| && IsActive(recs[i]) && column(recs[i]) == y {
        var i :| 0 <= i < |recs| && IsActive(recs[i]) && column(recs[i]) == y;
        ActiveColumnHas(recs, column, i);
      }
    }
  }

  /** Every listed value comes from an active row. */
  lemma ActiveColumnSource(recs: seq<Recommendation>, column: Recommendation -> string, y: string) returns (i: int)
    requires y in Map(Filter(recs, Active()), column)
    ensures 0 <= i < |recs| && IsActive(recs[i]) && column(recs[i]) == y
  {
    var active := Filter(recs, Active());
    var names := Map(active, column);
    var k :| 0 <= k < |names| && names[k] == y;
    assert active[k] in recs && Active()(active[k]);
    i :| 0 <= i < |recs| && recs[i] == active[k];
  }

  /** Every active row's value is listed. */
  lemma ActiveColumnHas(recs: seq<Recommendation>, column: Recommendation -> string, i: int)
    requires 0 <= i < |recs| && IsActive(recs[i])
    ensures column(recs[i]) in Map(Filter(recs, Active()), column)
  {
    var active := Filter(recs, Active());
    assert Active()(recs[i]);
    assert recs[i] in active;
    var k :| 0 <= k < |active| && active[k] == recs[i];
    assert Map(active, column)[k] == column(recs[i]);
  }

  /** The subject list depends only on which subjects active rows carry, not on row order or repeats. */
  lemma ActiveSubjectsBySet(a: seq<Recommendation>, b: seq<Recommendation>)
    requires forall x :: x in a && IsActive(x) <==> x in b && IsActive(x)
    ensures ActiveSubjects(a) == ActiveSubjects(b)
  {
    forall y ensures y in ActiveSubjects(a) <==> y in ActiveSubjects(b) {
      if y in ActiveSubjects(a) {
        var i :| 0 <= i < |a| && IsActive(a[i]) && a[i].subject == y;
        assert a[i] in b;
      }
      if y in ActiveSubjects(b) {
        var i :| 0 <= i < |b| && IsActive(b[i]) && b[i].subject == y;
        assert b[i] in a;
      }
    }
    StrictlySortedUnique(ActiveSubjects(a), ActiveSubjects(b));
  }
}

=== FILE: recommendation_service.dfy ===
/**
  `TeacherRecommendationService`: students recommend teachers, other users
  like or dislike the recommendations, and the author or an administrator
  deletes them.

  The service class is transactional, so an `Err` leaves the database as
  it was. Reactions on recommendations live in their own table
  (`recReactions`), keyed by user and recommendation like the post
  reactions.
 */
module RecommendationService {
  import opened Wrappers
  import opened Text
  import opened Lists
  import opened Sorting
  import opened Jpa
  import opened Enums
  import opened Entities
  import opened Permission
  import opened ReactionStore
  import opened RecommendationQueries

  const RecNotFound := "Recomendación no encontrada"
  const UserNotFound := "Usuario no encontrado"
  const StudentNotFound := "Estudiante no encontrado"
  const Duplicate := "Ya has publicado una recomendación para este profesor en esta materia y semestre"
  const RatingRange := "La calificación debe estar entre 1 y 5 estrellas"
  const SelfReaction := "No puedes reaccionar a tus propias recomendaciones"
  const DeleteDenied := "No tienes permisos para eliminar esta recomendación"

  /** The student behind a recommendation is read through a lazy reference. */
  function MissingStudentRow(id: string): string { MissingRow("com.uniway.entity.User", id) }

  // ---------------------------------------------------------------------
  // The DTO

  datatype RecommendationDto = RecommendationDto(
    id: string,
    studentId: string,
    studentName: string,
    teacherName: string,
    subject: string,
    semester: Option<string>,
    year: Option<int>,
    reference: Option<string>,
    rating: Option<int>,
    isActive: Option<bool>,
    createdAt: int,
    likeCount: int,
    dislikeCount: int,
    totalReactions: int,
    isLiked: bool,
    isDisliked: bool,
    userReaction: Option<string>)

  /** The name the DTO reports for the viewer's reaction, if any. */
  function ReactionLabel(k: Option<ReactionType>): (s: Option<string>)
    ensures s.None? <==> k.None?
    ensures s == Some("LIKE") <==> k == Some(LIKE)
    ensures s == Some("DISLIKE") <==> k == Some(DISLIKE)
  {
    match k
    case None => None
    case Some(t) => Some(ReactionName(t))
  }

  /**
    `convertToDto(recommendation, currentUserId)`: the row's columns, the
    student's name, the like, dislike and total counts on the
    recommendation, and the viewer's reaction. A viewer with two rows on
    the recommendation makes the lookup throw.
   */
  function ConvertRecToDto(rec: Recommendation, users: seq<User>, rs: seq<Reaction>, currentUserId: Option<string>): (r: Result<RecommendationDto>)
    ensures FindById(users, UserKey, rec.studentId).None? ==> r == Err(MissingStudentRow(rec.studentId))
    ensures FindById(users, UserKey, rec.studentId).Some? && currentUserId.None? ==> r.Ok?
    ensures FindById(users, UserKey, rec.studentId).Some? && currentUserId.Some? ==>
              (r.Err? <==> FindByUserAndTarget(rs, currentUserId.value, rec.id).Err?)
    ensures r.Ok? ==> r.value.id == rec.id && r.value.studentId == rec.studentId
                      && r.value.studentName == FindById(users, UserKey, rec.studentId).value.fullName
                      && r.value.teacherName == rec.teacherName && r.value.subject == rec.subject
                      && r.value.rating == rec.rating && r.value.isActive == rec.isActive
    ensures r.Ok? ==> r.value.likeCount == CountByTargetAndType(rs, rec.id, LIKE)
                      && r.value.dislikeCount == CountByTargetAndType(rs, rec.id, DISLIKE)
    ensures r.Ok? ==> r.value.totalReactions == r.value.likeCount + r.value.dislikeCount
    ensures r.Ok? ==> !(r.value.isLiked && r.value.isDisliked)
    ensures r.Ok? ==> (r.value.isLiked <==> r.value.userReaction == Some("LIKE"))
                      && (r.value.isDisliked <==> r.value.userReaction == Some("DISLIKE"))
    ensures r.Ok? && currentUserId.None? ==> r.value.userReaction.None?
    ensures r.Ok? && currentUserId.Some? ==>
              r.value.userReaction == ReactionLabel(match FindByUserAndTarget(rs, currentUserId.value, rec.id).value
                                                    case None => None
                                                    case Some(x) => Some(x.kind))
  {
    match FindById(users, UserKey, rec.studentId)
    case None => Err(MissingStudentRow(rec.studentId))
    case Some(student) =>
      CountByTargetSplits(rs, rec.id);
      var base := RecommendationDto(rec.id, student.id, student.fullName, rec.teacherName, rec.subject,
                                    rec.semester, rec.year, rec.reference, rec.rating, rec.isActive, rec.createdAt,
                                    CountByTargetAndType(rs, rec.id, LIKE), CountByTargetAndType(rs, rec.id, DISLIKE),
                                    CountByTarget(rs, rec.id), false, false, None);
      if currentUserId.None? then Ok(base)
      else
        match FindByUserAndTarget(rs, currentUserId.value, rec.id)
        case Err(m) => Err(m)
        case Ok(None) => Ok(base)
        case Ok(Some(x)) =>
          Ok(base.(isLiked := x.kind == LIKE, isDisliked := x.kind == DISLIKE, userReaction := Some(ReactionName(x.kind))))
  }

  /**
    Under the one-reaction-per-pair constraint the conversion of a
    recommendation whose student exists never fails, and the viewer's
    reaction is the one the table holds for the pair.
   */
  lemma RecDtoFollowsReaction(rec: Recommendation, users: seq<User>, rs: seq<Reaction>, u: string)
    requires ExistsById(users, UserKey, rec.studentId) && UniquePairs(rs)
    ensures ConvertRecToDto(rec, users, rs, Some(u)).Ok?
    ensures ConvertRecToDto(rec, users, rs, Some(u)).value.userReaction == ReactionLabel(UserReaction(rs, u, rec.id))
    ensures ConvertRecToDto(rec, users, rs, Some(u)).value.isLiked <==> UserReaction(rs, u, rec.id) == Some(LIKE)
    ensures ConvertRecToDto(rec, users, rs, Some(u)).value.isDisliked <==> UserReaction(rs, u, rec.id) == Some(DISLIKE)
  {
    LookupIsFind(rs, u, rec.id);
  }

  /** `stream().map(convertToDto)`: the first failing conversion fails the listing. */
  function ConvertAll(recs: seq<Recommendation>, users: seq<User>, rs: seq<Reaction>, currentUserId: Option<string>): (r: Result<seq<RecommendationDto>>)
    ensures r.Ok? <==> forall i :: 0 <= i < |recs| ==> ConvertRecToDto(recs[i], users, rs, currentUserId).Ok?
    ensures r.Ok? ==> |r.value| == |recs|
                      && forall i :: 0 <= i < |recs| ==> r.value[i] == ConvertRecToDto(recs[i], users, rs, currentUserId).value
    ensures r.Ok? ==> forall i :: 0 <= i < |recs| ==>
                        r.value[i].id == recs[i].id && r.value[i].studentId == recs[i].studentId
                        && r.value[i].subject == recs[i].subject && r.value[i].isActive == recs[i].isActive
    ensures r.Err? ==> exists i :: 0 <= i < |recs| && ConvertRecToDto(recs[i], users, rs, currentUserId) == Err(r.msg)
                                  && forall j :: 0 <= j < i ==> ConvertRecToDto(recs[j], users, rs, currentUserId).Ok?
  {
    MapAll(recs, (rec: Recommendation) => ConvertRecToDto(rec, users, rs, currentUserId))
  }

  // ---------------------------------------------------------------------
  // Listings

  /**
    The rows `getAllRecommendationsWithReactions` shows: those of the
    subject when the filter is present and not blank after Java's `trim`
    (the query compares the untrimmed filter), otherwise every active
    row, newest first.
   */
  function RecommendationsShown(recs: seq<Recommendation>, subjectFilter: Option<string>): (r: seq<Recommendation>)
    ensures subjectFilter.Some? && JavaTrim(subjectFilter.value) != "" ==>
              forall x :: x in r <==> x in recs && x.subject == subjectFilter.value && IsActive(x)
    ensures (subjectFilter.None? || JavaTrim(subjectFilter.value) == "") ==>
              (forall x :: x in r <==> x in recs && IsActive(x))
              && forall i, j :: 0 <= i < j < |r| ==> r[i].createdAt >= r[j].createdAt
  {
    if subjectFilter.Some? && JavaTrim(subjectFilter.value) != "" then FindBySubjectActive(recs, subjectFilter.value)
    else FindActiveNewestFirst(recs)
  }

  function GetAllRecommendationsWithReactions(db: Db, currentUserId: Option<string>, subjectFilter: Option<string>): (r: Result<seq<RecommendationDto>>)
    ensures r.Ok? ==> |r.value| == |RecommendationsShown(db.recommendations, subjectFilter)|
    ensures r.Ok? ==> forall d :: d in r.value ==> d.isActive == Some(true)
    ensures r.Ok? && subjectFilter.Some? && JavaTrim(subjectFilter.value) != "" ==>
              forall d :: d in r.value ==> d.subject == subjectFilter.value
  {
    var shown := RecommendationsShown(db.recommendations, subjectFilter);
    var r := ConvertAll(shown, db.users, db.recReactions, currentUserId);
    if r.Ok? then
      forall d | d in r.value
        ensures d.isActive == Some(true)
        ensures subjectFilter.Some? && JavaTrim(subjectFilter.value) != "" ==> d.subject == subjectFilter.value
      {
        var i :| 0 <= i < |r.value| && r.value[i] == d;
        assert shown[i] in shown;
      }
      r
    else r
  }

  /** `getUserRecommendations(userId)`: the user's active rows, seen by the user. */
  function GetUserRecommendations(db: Db, userId: string): (r: Result<seq<RecommendationDto>>)
    ensures r.Ok? ==> |r.value| == CountByStudentActive(db.recommendations, userId)
    ensures r.Ok? ==> forall d :: d in r.value ==> d.studentId == userId && d.isActive == Some(true)
  {
    var mine := FindByStudentActive(db.recommendations, userId);
    var r := ConvertAll(mine, db.users, db.recReactions, Some(userId));
    if r.Ok? then
      forall d | d in r.value ensures d.studentId == userId && d.isActive == Some(true) {
        var i :| 0 <= i < |r.value| && r.value[i] == d;
        assert mine[i] in mine;
      }
      r
    else r
  }

  // ---------------------------------------------------------------------
  // Creation

  /** The new row is saved; a taken id keeps the stored creation time, as a merge does. */
  function SaveRecommendation(db: Db, rec: Recommendation): (r: (Db, Recommendation))
    ensures r.0.(recommendations := db.recommendations) == db
    ensures r.1 == rec.(createdAt := r.1.createdAt)
    ensures !ExistsById(db.recommendations, RecommendationKey, rec.id) ==>
              r.0.recommendations == db.recommendations + [r.1] && r.1.createdAt == rec.createdAt
    ensures UniqueIds(db.recommendations, RecommendationKey) ==>
              UniqueIds(r.0.recommendations, RecommendationKey)
              && FindById(r.0.recommendations, RecommendationKey, rec.id) == Some(r.1)
  {
    var stamp := match FindById(db.recommendations, RecommendationKey, rec.id) case Some(prev) => prev.createdAt case None => rec.createdAt;
    var row := rec.(createdAt := stamp);
    if UniqueIds(db.recommendations, RecommendationKey) then
      SaveThenFind(db.recommendations, row, RecommendationKey, rec.id);
      (db.(recommendations := Save(db.recommendations, row, RecommendationKey)), row)
    else (db.(recommendations := Save(db.recommendations, row, RecommendationKey)), row)
  }

  /**
    `createRecommendation`: the student must exist; an active row of the
    same student, teacher, subject and semester refuses it (a null
    semester matches none, and two matches make the lookup throw). The new
    row is active and has no rating.
   */
  function CreateRecommendation(db: Db, studentId: string, teacherName: string, subject: string,
                                semester: Option<string>, year: Option<int>, reference: Option<string>,
                                freshId: string, now: int): (r: Result<(Db, Recommendation)>)
    ensures !ExistsById(db.users, UserKey, studentId) ==> r == Err(StudentNotFound)
    ensures ExistsById(db.users, UserKey, studentId) && FindDuplicate(db.recommendations, studentId, teacherName, subject, semester).Err?
            ==> r == Err(NonUniqueResult)
    ensures ExistsById(db.users, UserKey, studentId) && FindDuplicate(db.recommendations, studentId, teacherName, subject, semester).Ok?
            && FindDuplicate(db.recommendations, studentId, teacherName, subject, semester).value.Some?
            ==> r == Err(Duplicate)
    ensures r.Ok? <==> ExistsById(db.users, UserKey, studentId)
                       && FindDuplicate(db.recommendations, studentId, teacherName, subject, semester) == Ok(None)
    ensures r.Ok? ==> var x := r.value.1;
                      x.id == freshId && x.studentId == studentId && x.teacherName == teacherName && x.subject == subject
                      && x.semester == semester && x.year == year && x.reference == reference
                      && x.rating.None? && x.isActive == Some(true)
    ensures r.Ok? ==> r.value.0.(recommendations := db.recommendations) == db
    ensures r.Ok? && !ExistsById(db.recommendations, RecommendationKey, freshId) ==>
              r.value.0.recommendations == db.recommendations + [r.value.1] && r.value.1.createdAt == now
  {
    if !ExistsById(db.users, UserKey, studentId) then Err(StudentNotFound)
    else
      match FindDuplicate(db.recommendations, studentId, teacherName, subject, semester)
      case Err(m) => Err(m)
      case Ok(Some(_)) => Err(Duplicate)
      case Ok(None) =>
        Ok(SaveRecommendation(db, Recommendation(freshId, studentId, teacherName, subject, semester, year, reference,
                                                 None, Some(true), now)))
  }

  /**
    Creating the same recommendation twice, with a semester, refuses the
    second: the first one is what the duplicate lookup then finds.
   */
  lemma CreateThenDuplicate(db: Db, studentId: string, teacherName: string, subject: string,
                            semester: Option<string>, year: Option<int>, reference: Option<string>,
                            freshId: string, now: int, freshId2: string, now2: int)
    requires semester.Some?
    requires !ExistsById(db.recommendations, RecommendationKey, freshId)
    requires CreateRecommendation(db, studentId, teacherName, subject, semester, year, reference, freshId, now).Ok?
    ensures CreateRecommendation(CreateRecommendation(db, studentId, teacherName, subject, semester, year, reference, freshId, now).value.0,
                                 studentId, teacherName, subject, semester, year, reference, freshId2, now2)
            == Err(Duplicate)
  {
    var first := CreateRecommendation(db, studentId, teacherName, subject, semester, year, reference, freshId, now).value;
    var p := SameCourseAndSemester(studentId, teacherName, subject, semester);
    assert first.0.recommendations == db.recommendations + [first.1];
    assert p(first.1);
    CountNone(db.recommendations, p);
    CountAppend(db.recommendations, first.1, p);
    FilterLength(first.0.recommendations, p);
    assert first.0.users == db.users;
  }

  /** Without a semester the duplicate lookup matches nothing, so repeated creations all succeed. */
  lemma NullSemesterNeverDuplicate(recs: seq<Recommendation>, studentId: string, teacherName: string, subject: string)
    ensures FindDuplicate(recs, studentId, teacherName, subject, None) == Ok(None)
  {
  }

  /** The rating a recommendation may carry: one to five stars. */
  predicate ValidRating(rating: Option<int>)
  {
    rating.Some? && 1 <= rating.value <= 5
  }

  /**
    `createRecommendationWithRating`: the rating is checked first, then
    the student; there is no duplicate check. The new row is active and
    carries the rating.
   */
  function CreateRecommendationWithRating(db: Db, studentId: string, teacherName: string, subject: string,
                                          semester: Option<string>, year: Option<int>, reference: Option<string>,
                                          rating: Option<int>, freshId: string, now: int): (r: Result<(Db, Recommendation)>)
    ensures !ValidRating(rating) ==> r == Err(RatingRange)
    ensures ValidRating(rating) && !ExistsById(db.users, UserKey, studentId) ==> r == Err(StudentNotFound)
    ensures r.Ok? <==> ValidRating(rating) && ExistsById(db.users, UserKey, studentId)
    ensures r.Ok? ==> var x := r.value.1;
                      x.id == freshId && x.studentId == studentId && x.teacherName == teacherName && x.subject == subject
                      && x.semester == semester && x.year == year && x.reference == reference
                      && x.rating == rating && x.isActive == Some(true) && ValidRating(x.rating)
    ensures r.Ok? ==> r.value.0.(recommendations := db.recommendations) == db
    ensures r.Ok? && !ExistsById(db.recommendations, RecommendationKey, freshId) ==>
              r.value.0.recommendations == db.recommendations + [r.value.1] && r.value.1.createdAt == now
  {
    if !ValidRating(rating) then Err(RatingRange)
    else if !ExistsById(db.users, UserKey, studentId) then Err(StudentNotFound)
    else
      Ok(SaveRecommendation(db, Recommendation(freshId, studentId, teacherName, subject, semester, year, reference,
                                               rating, Some(true), now)))
  }

  // ---------------------------------------------------------------------
  // Reactions

  /**
    `toggleLike` (pressed = LIKE) and `toggleDislike` (pressed = DISLIKE):
    the recommendation must exist, then the user, and the user must not be
    its author; the toggle runs on the recommendation reaction table and
    the recommendation is returned as the user now sees it.
   */
  function ToggleRecReaction(db: Db, recId: string, userId: string, pressed: ReactionType, freshId: string): (r: Result<(Db, RecommendationDto)>)
    ensures FindById(db.recommendations, RecommendationKey, recId).None? ==> r == Err(RecNotFound)
    ensures FindById(db.recommendations, RecommendationKey, recId).Some? && !ExistsById(db.users, UserKey, userId) ==>
              r == Err(UserNotFound)
    ensures && FindById(db.recommendations, RecommendationKey, recId).Some? && ExistsById(db.users, UserKey, userId)
            && FindById(db.recommendations, RecommendationKey, recId).value.studentId == userId
            ==> r == Err(SelfReaction)
    ensures r.Ok? ==> FindById(db.recommendations, RecommendationKey, recId).Some?
                      && FindById(db.recommendations, RecommendationKey, recId).value.studentId != userId
                      && ExistsById(db.users, UserKey, userId)
    ensures r.Ok? ==> r.value.0.(recReactions := db.recReactions) == db
    ensures r.Ok? ==> ApplyToggle(db.recReactions, userId, recId, pressed, freshId).Ok?
                      && r.value.0.recReactions == ApplyToggle(db.recReactions, userId, recId, pressed, freshId).value
    ensures r.Ok? ==> Ok(r.value.1) == ConvertRecToDto(FindById(db.recommendations, RecommendationKey, recId).value,
                                                       db.users, r.value.0.recReactions, Some(userId))
  {
    match FindById(db.recommendations, RecommendationKey, recId)
    case None => Err(RecNotFound)
    case Some(rec) =>
      if !ExistsById(db.users, UserKey, userId) then Err(UserNotFound)
      else if rec.studentId == userId then Err(SelfReaction)
      else
        match ApplyToggle(db.recReactions, userId, recId, pressed, freshId)
        case Err(m) => Err(m)
        case Ok(after) =>
          match ConvertRecToDto(rec, db.users, after, Some(userId))
          case Err(m) => Err(m)
          case Ok(dto) => Ok((db.(recReactions := after), dto))
  }

  /**
    On a well-formed reaction table a permitted toggle succeeds, keeps the
    table well formed, moves the user's reaction as `Toggle` says, and the
    returned card shows the new reaction and the moved counts.
   */
  lemma ToggleOnRecommendation(db: Db, rec: Recommendation, userId: string, pressed: ReactionType, freshId: string, k: ReactionType)
    requires Wellformed(db.recReactions) && !ExistsById(db.recReactions, ReactionKey, freshId)
    requires FindById(db.recommendations, RecommendationKey, rec.id) == Some(rec)
    requires ExistsById(db.users, UserKey, userId) && ExistsById(db.users, UserKey, rec.studentId)
    requires rec.studentId != userId
    ensures ToggleRecReaction(db, rec.id, userId, pressed, freshId).Ok?
    ensures Wellformed(ToggleRecReaction(db, rec.id, userId, pressed, freshId).value.0.recReactions)
    ensures UserReaction(ToggleRecReaction(db, rec.id, userId, pressed, freshId).value.0.recReactions, userId, rec.id)
            == Toggle(UserReaction(db.recReactions, userId, rec.id), pressed)
    ensures ToggleRecReaction(db, rec.id, userId, pressed, freshId).value.1.userReaction
            == ReactionLabel(Toggle(UserReaction(db.recReactions, userId, rec.id), pressed))
    ensures CountByTargetAndType(ToggleRecReaction(db, rec.id, userId, pressed, freshId).value.0.recReactions, rec.id, k)
            == CountByTargetAndType(db.recReactions, rec.id, k)
               - (if UserReaction(db.recReactions, userId, rec.id) == Some(k) then 1 else 0)
               + (if Toggle(UserReaction(db.recReactions, userId, rec.id), pressed) == Some(k) then 1 else 0)
  {
    ToggleFollowsTable(db.recReactions, userId, rec.id, pressed, freshId);
    ToggleCounts(db.recReactions, userId, rec.id, pressed, freshId, rec.id, k);
    var after := ApplyToggle(db.recReactions, userId, rec.id, pressed, freshId).value;
    RecDtoFollowsReaction(rec, db.users, after, userId);
  }

  /** Reacting to one's own recommendation is refused whatever the table holds. */
  lemma NoSelfReaction(db: Db, rec: Recommendation, pressed: ReactionType, freshId: string)
    requires FindById(db.recommendations, RecommendationKey, rec.id) == Some(rec)
    requires ExistsById(db.users, UserKey, rec.studentId)
    ensures ToggleRecReaction(db, rec.id, rec.studentId, pressed, freshId) == Err(SelfReaction)
  {
  }

  // ---------------------------------------------------------------------
  // Deletion

  /**
    `deleteRecommendation`: the recommendation must exist, then the user,
    then the user must be its author or an administrator. Its reactions
    are deleted first, then the row itself.
   */
  function DeleteRecommendation(db: Db, recId: string, userId: string): (r: Result<Db>)
    ensures FindById(db.recommendations, RecommendationKey, recId).None? ==> r == Err(RecNotFound)
    ensures FindById(db.recommendations, RecommendationKey, recId).Some? && FindById(db.users, UserKey, userId).None? ==>
              r == Err(UserNotFound)
    ensures r.Ok? <==> FindById(db.recommendations, RecommendationKey, recId).Some? && FindById(db.users, UserKey, userId).Some?
                       && MayModify(FindById(db.recommendations, RecommendationKey, recId).value.studentId,
                                    FindById(db.users, UserKey, userId).value)
    ensures r.Err? && FindById(db.recommendations, RecommendationKey, recId).Some? && FindById(db.users, UserKey, userId).Some?
            ==> r.msg == DeleteDenied
    ensures r.Ok? ==> r.value.(recommendations := db.recommendations, recReactions := db.recReactions) == db
    ensures r.Ok? ==> forall x :: multiset(r.value.recommendations)[x] == if x.id == recId then 0 else multiset(db.recommendations)[x]
    ensures r.Ok? ==> forall x :: multiset(r.value.recReactions)[x] == if x.targetId == recId then 0 else multiset(db.recReactions)[x]
  {
    match FindById(db.recommendations, RecommendationKey, recId)
    case None => Err(RecNotFound)
    case Some(rec) =>
      match Authorize(db.users, rec.studentId, userId, UserNotFound, DeleteDenied)
      case Err(m) => Err(m)
      case Ok(_) =>
        Ok(db.(recReactions := DeleteByTarget(db.recReactions, recId),
               recommendations := DeleteById(db.recommendations, RecommendationKey, recId)))
  }

  /**
    After a deletion nobody's reaction points at the deleted
    recommendation, and every other recommendation keeps its counts.
   */
  lemma DeleteLeavesOtherCounts(db: Db, recId: string, userId: string, other: string, k: ReactionType)
    requires DeleteRecommendation(db, recId, userId).Ok?
    ensures CountByTarget(DeleteRecommendation(db, recId, userId).value.recReactions, recId) == 0
    ensures other != recId ==>
              CountByTargetAndType(DeleteRecommendation(db, recId, userId).value.recReactions, other, k)
              == CountByTargetAndType(db.recReactions, other, k)
  {
    var after := DeleteRecommendation(db, recId, userId).value.recReactions;
    forall j | 0 <= j < |after| ensures !OfTarget(recId)(after[j]) {
      assert multiset(after)[after[j]] > 0;
    }
    CountNone(after, OfTarget(recId));
    if other != recId {
      CountRemoveAll(db.recReactions, OfTarget(recId), OfTargetAndType(other, k), (x: Reaction) => false);
      CountNone(db.recReactions, (x: Reaction) => false);
      assert after == RemoveAll(db.recReactions, OfTarget(recId));
    }
  }

  // ---------------------------------------------------------------------
  // Statistics

  /** `RecommendationStatsResponse`: five 32-bit counts. */
  datatype RecommendationStats = RecommendationStats(
    myRecommendations: int,
    myLikesReceived: int,
    myDislikesReceived: int,
    totalRecommendations: int,
    totalReactions: int)

  /**
    `getRecommendationStats(userId)`: each repository count is cast to a
    32-bit `int`; below 2^31 rows the figures are the counts themselves.
   */
  function RecommendationStatsOf(db: Db, userId: string): (s: RecommendationStats)
    ensures IntMin <= s.myRecommendations <= IntMax && IntMin <= s.myLikesReceived <= IntMax
    ensures IntMin <= s.myDislikesReceived <= IntMax && IntMin <= s.totalRecommendations <= IntMax
    ensures IntMin <= s.totalReactions <= IntMax
    ensures |db.recommendations| <= IntMax ==>
              s.myRecommendations == |FindByStudentActive(db.recommendations, userId)|
              && s.totalRecommendations == |FindActiveNewestFirst(db.recommendations)|
    ensures |db.recReactions| <= IntMax ==>
              s.myLikesReceived == CountReceivedByStudent(db.recReactions, db.recommendations, userId, LIKE)
              && s.myDislikesReceived == CountReceivedByStudent(db.recReactions, db.recommendations, userId, DISLIKE)
              && s.totalReactions == |db.recReactions|
  {
    CountWithin(db.recommendations, ActiveOfStudent(userId));
    CountWithin(db.recommendations, Active());
    CountWithin(db.recReactions, ReceivedBy(db.recommendations, userId, LIKE));
    CountWithin(db.recReactions, ReceivedBy(db.recommendations, userId, DISLIKE));
    FilterLength(db.recommendations, Active());
    RecommendationStats(
      Int32(CountByStudentActive(db.recommendations, userId)),
      Int32(CountReceivedByStudent(db.recReactions, db.recommendations, userId, LIKE)),
      Int32(CountReceivedByStudent(db.recReactions, db.recommendations, userId, DISLIKE)),
      Int32(CountActive(db.recommendations)),
      Int32(|db.recReactions|))
  }

  /**
    The user's figures never exceed the global ones: their active
    recommendations are among all active ones, and the likes and dislikes
    they received are disjoint parts of the reaction table.
   */
  lemma StatsWithinTotals(db: Db, userId: string)
    requires |db.recommendations| <= IntMax && |db.recReactions| <= IntMax
    ensures 0 <= RecommendationStatsOf(db, userId).myRecommendations <= RecommendationStatsOf(db, userId).totalRecommendations
    ensures 0 <= RecommendationStatsOf(db, userId).myLikesReceived
    ensures 0 <= RecommendationStatsOf(db, userId).myDislikesReceived
    ensures RecommendationStatsOf(db, userId).myLikesReceived + RecommendationStatsOf(db, userId).myDislikesReceived
            <= RecommendationStatsOf(db, userId).totalReactions
  {
    var recs := db.recommendations;
    var rs := db.recReactions;
    CountMonotone(recs, ActiveOfStudent(userId), Active());
    FilterLength(recs, ActiveOfStudent(userId));
    FilterLength(recs, Active());
    var either := (x: Reaction) => ReceivedBy(recs, userId, LIKE)(x) || ReceivedBy(recs, userId, DISLIKE)(x);
    CountSplit(rs, ReceivedBy(recs, userId, LIKE), ReceivedBy(recs, userId, DISLIKE), either);
    CountWithin(rs, either);
  }
}

=== FILE: recommendation_view_models.dfy ===
/**
  The recommendation screens' view models. All of them hold a list (null
  before the first load), the loading flag and an error line; a missing
  user id in the session means no call, and after a successful change the
  screen reloads from the server (a separate load step) rather than
  editing its list.
 */
module AllRecommendationsViewModel {
  import opened Wrappers
  import opened Text
  import opened ApiClient
  import opened AppData

  datatype RecsState = RecsState(
    recommendations: Option<seq<TeacherRecommendation>>,
    isLoading: bool,
    errorMessage: Option<string>,
    successMessage: Option<string>)

  const NoUser := "Usuario no encontrado"
  const LoadFailedPrefix := "Error al cargar recomendaciones: "
  const AlreadyReacted := "Ya has reaccionado a esta recomendación"
  const DeleteRefused := "No tienes permisos para eliminar esta recomendación"
  const RecommendationMissing := "La recomendación no fue encontrada"
  const DeleteFailedPrefix := "Error al eliminar recomendación: "
  const Deleted := "Recomendación eliminada exitosamente"

  function OwnReaction(isLike: bool): string
  {
    "No puedes dar " + (if isLike then "like" else "dislike") + " a tus propias recomendaciones"
  }

  function ReactFailedPrefix(isLike: bool): string
  {
    "Error al dar " + (if isLike then "like" else "dislike") + ": "
  }

  function Reacted(isLike: bool): string
  {
    (if isLike then "Like" else "Dislike") + " agregado a la recomendación"
  }

  /**
    `loadAllRecommendations`: the error line is cleared first; a success
    shows every recommendation, an error an empty list and the reason.
   */
  function LoadAll(st: RecsState, result: ApiResult<seq<TeacherRecommendation>>): (r: RecsState)
    ensures !r.isLoading && r.successMessage == st.successMessage
    ensures result.Success? ==> r.recommendations == Some(result.data) && r.errorMessage == Some("")
    ensures result.Error? ==> r.recommendations == Some([]) && r.errorMessage == Some(LoadFailedPrefix + result.message)
    ensures result.Loading? ==> r.recommendations == st.recommendations && r.errorMessage == Some("")
  {
    match result
    case Success(data) => st.(recommendations := Some(data), isLoading := false, errorMessage := Some(""))
    case Error(message, _) =>
      st.(recommendations := Some([]), isLoading := false, errorMessage := Some(LoadFailedPrefix + message))
    case Loading(_) => st.(isLoading := false, errorMessage := Some(""))
  }

  /**
    An answered load decides everything the screen shows but the success
    line: the list, the flag and the error line shown before play no part.
   */
  lemma LoadAllForgetsShown(st1: RecsState, st2: RecsState, result: ApiResult<seq<TeacherRecommendation>>)
    requires st1.successMessage == st2.successMessage && !result.Loading?
    ensures LoadAll(st1, result) == LoadAll(st2, result)
    ensures result.Success? ==> forall x :: x in LoadAll(st1, result).recommendations.value <==> x in result.data
    ensures result.Error? ==> LoadAll(st1, result).recommendations == Some([])
  {
  }

  /** The like and dislike failure text: the two known server reasons first, in this order. */
  function ReactErrorText(message: string, isLike: bool): (text: string)
  {
    if Contains(message, "propias recomendaciones") then OwnReaction(isLike)
    else if Contains(message, "ya has reaccionado") then AlreadyReacted
    else ReactFailedPrefix(isLike) + message
  }

  /**
    The text tells the three cases apart: it is the own-recommendation
    text exactly when the reason mentions it, the already-reacted text
    exactly when only that is mentioned, and otherwise carries the reason.
   */
  lemma ReactErrorTextClassifies(message: string, isLike: bool)
    ensures ReactErrorText(message, isLike) == OwnReaction(isLike) <==> Contains(message, "propias recomendaciones")
    ensures ReactErrorText(message, isLike) == AlreadyReacted <==>
              !Contains(message, "propias recomendaciones") && Contains(message, "ya has reaccionado")
    ensures !Contains(message, "propias recomendaciones") && !Contains(message, "ya has reaccionado") ==>
              ReactErrorText(message, isLike) == ReactFailedPrefix(isLike) + message
  {
    var t := ReactErrorText(message, isLike);
    assert OwnReaction(isLike)[0] == 'N' && AlreadyReacted[0] == 'Y' && (ReactFailedPrefix(isLike) + message)[0] == 'E';
  }

  /**
    `likeRecommendation` (`isLike`) and `dislikeRecommendation`: the list is
    never edited here; a success only reports and asks for a reload.
   */
  function React<T>(st: RecsState, isLike: bool, userId: Option<string>, result: ApiResult<T>): (r: RecsState)
    ensures r.recommendations == st.recommendations && r.isLoading == st.isLoading
    ensures userId.None? ==> r == st.(errorMessage := Some(NoUser))
    ensures userId.Some? && result.Success? ==> r == st.(successMessage := Some(Reacted(isLike)))
    ensures userId.Some? && result.Error? ==> r == st.(errorMessage := Some(ReactErrorText(result.message, isLike)))
    ensures userId.Some? && result.Loading? ==> r == st
  {
    if userId.None? then st.(errorMessage := Some(NoUser))
    else
      match result
      case Success(_) => st.(successMessage := Some(Reacted(isLike)))
      case Error(message, _) => st.(errorMessage := Some(ReactErrorText(message, isLike)))
      case Loading(_) => st
  }

  /**
    A reaction moves no counter on the screen: whatever the answer, a shown
    recommendation is still shown as it was. Only the reload a success
    triggers brings the new counters, and that reload shows what it would
    have shown without the reaction, apart from the success line.
   */
  lemma ReactShowsNothingUntilReload<T>(st: RecsState, isLike: bool, userId: string, result: ApiResult<T>,
                                        rec: TeacherRecommendation, reload: ApiResult<seq<TeacherRecommendation>>)
    requires st.recommendations.Some? && rec in st.recommendations.value
    ensures var r := React(st, isLike, Some(userId), result);
            r.recommendations.Some? && rec in r.recommendations.value
    ensures var r := React(st, isLike, Some(userId), result);
            LoadAll(r, reload) == LoadAll(st, reload).(successMessage := r.successMessage)
  {
  }

  /** The delete failure text: a permission refusal first, then a missing recommendation. */
  function DeleteErrorText(message: string): (text: string)
  {
    if Contains(message, "permisos") then DeleteRefused
    else if Contains(message, "no encontrada") then RecommendationMissing
    else DeleteFailedPrefix + message
  }

  lemma DeleteErrorTextClassifies(message: string)
    ensures DeleteErrorText(message) == DeleteRefused <==> Contains(message, "permisos")
    ensures DeleteErrorText(message) == RecommendationMissing <==> !Contains(message, "permisos") && Contains(message, "no encontrada")
    ensures !Contains(message, "permisos") && !Contains(message, "no encontrada") ==>
              DeleteErrorText(message) == DeleteFailedPrefix + message
  {
    assert DeleteRefused[10] == 'p';
    assert RecommendationMissing[10] == 'd';
    assert (DeleteFailedPrefix + message)[10] == 'l';
  }

  /** `deleteRecommendation`: as the reactions, with the delete texts. */
  function Delete<T>(st: RecsState, userId: Option<string>, result: ApiResult<T>): (r: RecsState)
    ensures r.recommendations == st.recommendations && r.isLoading == st.isLoading
    ensures userId.None? ==> r == st.(errorMessage := Some(NoUser))
    ensures userId.Some? && result.Success? ==> r == st.(successMessage := Some(Deleted))
    ensures userId.Some? && result.Error? ==> r == st.(errorMessage := Some(DeleteErrorText(result.message)))
    ensures userId.Some? && result.Loading? ==> r == st
  {
    if userId.None? then st.(errorMessage := Some(NoUser))
    else
      match result
      case Success(_) => st.(successMessage := Some(Deleted))
      case Error(message, _) => st.(errorMessage := Some(DeleteErrorText(message)))
      case Loading(_) => st
  }
}

/**
  A deletion does not touch the list: the deleted recommendation is still
  shown until the reload, and after a successful reload it is shown
  exactly when the server still lists it.
 */
module AllRecommendationsDeletion {
  import opened Wrappers
  import opened ApiClient
  import opened AppData
  import opened AllRecommendationsViewModel

  lemma DeletedShownUntilReload<T>(st: RecsState, userId: string, result: ApiResult<T>, rec: TeacherRecommendation,
                                   reload: ApiResult<seq<TeacherRecommendation>>)
    requires st.recommendations.Some? && rec in st.recommendations.value
    ensures var r := Delete(st, Some(userId), result);
            r.recommendations.Some? && rec in r.recommendations.value
    ensures var r := Delete(st, Some(userId), result);
            LoadAll(r, reload) == LoadAll(st, reload).(successMessage := r.successMessage)
    ensures reload.Success? ==>
              (rec in LoadAll(Delete(st, Some(userId), result), reload).recommendations.value <==> rec in reload.data)
  {
  }
}

/** `MyRecommendationsViewModel`: the user's own recommendations. */
module MyRecommendationsViewModel {
  import opened Wrappers
  import opened ApiClient
  import opened AppData
  import opened AllRecommendationsViewModel

  const NoSession := "Usuario no encontrado. Por favor, inicia sesión nuevamente."

  /**
    `loadMyRecommendations`: without a user id only the error line changes;
    otherwise it is cleared before the call, a success shows the list and
    an error shows an empty list and the reason.
   */
  function LoadMine(st: RecsState, userId: Option<string>, result: ApiResult<seq<TeacherRecommendation>>)
    : (r: RecsState)
    ensures userId.None? ==> r == st.(errorMessage := Some(NoSession))
    ensures userId.Some? ==> !r.isLoading && r.successMessage == st.successMessage
    ensures userId.Some? && result.Success? ==> r.recommendations == Some(result.data) && r.errorMessage == Some("")
    ensures userId.Some? && result.Error? ==>
              r.recommendations == Some([]) && r.errorMessage == Some(LoadFailedPrefix + result.message)
    ensures userId.Some? && result.Loading? ==> r.recommendations == st.recommendations && r.errorMessage == Some("")
  {
    if userId.None? then st.(errorMessage := Some(NoSession))
    else
      match result
      case Success(data) => st.(recommendations := Some(data), isLoading := false, errorMessage := Some(""))
      case Error(message, _) =>
        st.(recommendations := Some([]), isLoading := false, errorMessage := Some(LoadFailedPrefix + message))
      case Loading(_) => st.(isLoading := false, errorMessage := Some(""))
  }

  /** `removeRecommendation`: the list is never edited here; the flag ends lowered. */
  function Remove<T>(st: RecsState, userId: Option<string>, result: ApiResult<T>): (r: RecsState)
    ensures r.recommendations == st.recommendations
    ensures userId.None? ==> r == st.(errorMessage := Some(NoUser))
    ensures userId.Some? && result.Success? ==> r == st.(isLoading := false, successMessage := Some(Deleted))
    ensures userId.Some? && result.Error? ==>
              r == st.(isLoading := false, errorMessage := Some(DeleteFailedPrefix + result.message))
    ensures userId.Some? && result.Loading? ==> r == st.(isLoading := false)
  {
    if userId.None? then st.(errorMessage := Some(NoUser))
    else
      match result
      case Success(_) => st.(isLoading := false, successMessage := Some(Deleted))
      case Error(message, _) => st.(isLoading := false, errorMessage := Some(DeleteFailedPrefix + message))
      case Loading(_) => st.(isLoading := false)
  }

  /**
    A removal does not touch the list: the removed recommendation is still
    shown until the reload, and the reload shows what it would have shown
    without the removal, apart from the success line.
   */
  lemma RemovedShownUntilReload<T>(st: RecsState, userId: string, result: ApiResult<T>, rec: TeacherRecommendation,
                                   reload: ApiResult<seq<TeacherRecommendation>>)
    requires st.recommendations.Some? && rec in st.recommendations.value
    ensures var r := Remove(st, Some(userId), result);
            r.recommendations.Some? && rec in r.recommendations.value
    ensures var r := Remove(st, Some(userId), result);
            LoadMine(r, Some(userId), reload) == LoadMine(st, Some(userId), reload).(successMessage := r.successMessage)
  {
  }

  /** Whatever happened before, a load decides the list alone: two states that differ only in their list load alike. */
  lemma LoadForgetsOldList(st: RecsState, list: seq<TeacherRecommendation>, userId: string,
                           result: ApiResult<seq<TeacherRecommendation>>)
    requires !result.Loading?
    ensures LoadMine(st, Some(userId), result) == LoadMine(st.(recommendations := Some(list)), Some(userId), result)
  {
  }
}

/** `TeacherListViewModel`: the "my teachers" tab, with the server's reason shown as it is. */
module TeacherListViewModel {
  import opened Wrappers
  import opened ApiClient
  import opened AppData
  import opened AllRecommendationsViewModel

  /** `loadStudentTeachers`: a success shows the list and clears the error; an error shows it with an empty list. */
  function LoadTeachers(st: RecsState, userId: Option<string>, result: ApiResult<seq<TeacherRecommendation>>)
    : (r: RecsState)
    ensures userId.None? ==> r == st.(errorMessage := Some(NoUser))
    ensures userId.Some? ==> !r.isLoading
    ensures userId.Some? && result.Success? ==> r.recommendations == Some(result.data) && r.errorMessage == Some("")
    ensures userId.Some? && result.Error? ==> r.recommendations == Some([]) && r.errorMessage == Some(result.message)
    ensures userId.Some? && result.Loading? ==> r == st.(isLoading := false)
  {
    if userId.None? then st.(errorMessage := Some(NoUser))
    else
      match result
      case Success(data) => st.(recommendations := Some(data), isLoading := false, errorMessage := Some(""))
      case Error(message, _) => st.(recommendations := Some([]), isLoading := false, errorMessage := Some(message))
      case Loading(_) => st.(isLoading := false)
  }

  /**
    An answered load decides everything the tab shows but the success line:
    the list, the flag and the error line shown before play no part.
   */
  lemma LoadTeachersForgetsShown(st1: RecsState, st2: RecsState, userId: string,
                                 result: ApiResult<seq<TeacherRecommendation>>)
    requires st1.successMessage == st2.successMessage && !result.Loading?
    ensures LoadTeachers(st1, Some(userId), result) == LoadTeachers(st2, Some(userId), result)
    ensures result.Success? ==> forall x :: x in LoadTeachers(st1, Some(userId), result).recommendations.value <==> x in result.data
  {
  }

  /** `removeTeacher`: a failure shows the reason and keeps the list. */
  function RemoveTeacher<T>(st: RecsState, userId: Option<string>, result: ApiResult<T>): (r: RecsState)
    ensures r.recommendations == st.recommendations && r.successMessage == st.successMessage
    ensures userId.None? ==> r == st.(errorMessage := Some(NoUser))
    ensures userId.Some? && result.Error? ==> r == st.(isLoading := false, errorMessage := Some(result.message))
    ensures userId.Some? && !result.Error? ==> r == st.(isLoading := false)
  {
    if userId.None? then st.(errorMessage := Some(NoUser))
    else
      match result
      case Error(message, _) => st.(isLoading := false, errorMessage := Some(message))
      case _ => st.(isLoading := false)
  }

  /**
    A removal does not touch the list: the removed recommendation is still
    shown until the reload, and an answered reload shows exactly what it
    would have shown without the removal, the error line included.
   */
  lemma RemovedTeacherShownUntilReload<T>(st: RecsState, userId: string, result: ApiResult<T>,
                                          rec: TeacherRecommendation, reload: ApiResult<seq<TeacherRecommendation>>)
    requires st.recommendations.Some? && rec in st.recommendations.value && !reload.Loading?
    ensures var r := RemoveTeacher(st, Some(userId), result);
            r.recommendations.Some? && rec in r.recommendations.value
    ensures LoadTeachers(RemoveTeacher(st, Some(userId), result), Some(userId), reload)
            == LoadTeachers(st, Some(userId), reload)
  {
  }
}

/** `TeacherMainViewModel`: the two counters on the teachers' home tab. */
module TeacherMainViewModel {
  import opened Wrappers
  import opened ApiClient
  import RecommendationService
  import RecommendationQueries
  import Entities
  import Text

  datatype StatsResponse = StatsResponse(
    myRecommendationsCount: int,
    myTotalLikesReceived: int,
    myTotalDislikesReceived: int,
    totalRecommendationsCount: int,
    totalReactionsCount: int)

  datatype StatsState = StatsState(mine: Option<int>, total: Option<int>, errorMessage: Option<string>)

  const NoUser := "Usuario no encontrado"

  /**
    `loadStatistics`: a success copies the two counts; an error zeroes
    them and, unlike the other screens, leaves the error line alone.
   */
  function LoadStatistics(st: StatsState, userId: Option<string>, result: ApiResult<StatsResponse>): (r: StatsState)
    ensures userId.None? ==> r == st.(errorMessage := Some(NoUser))
    ensures userId.Some? ==> r.errorMessage == st.errorMessage
    ensures userId.Some? && result.Success? ==>
              r.mine == Some(result.data.myRecommendationsCount) && r.total == Some(result.data.totalRecommendationsCount)
    ensures userId.Some? && result.Error? ==> r.mine == Some(0) && r.total == Some(0)
    ensures userId.Some? && result.Loading? ==> r == st
  {
    if userId.None? then st.(errorMessage := Some(NoUser))
    else
      match result
      case Success(data) => st.(mine := Some(data.myRecommendationsCount), total := Some(data.totalRecommendationsCount))
      case Error(_, _) => st.(mine := Some(0), total := Some(0))
      case Loading(_) => st
  }

  /** The response body as the client decodes it: the server's five counts under the same JSON names. */
  function FromServer(s: RecommendationService.RecommendationStats): (r: StatsResponse)
    ensures r.myRecommendationsCount == s.myRecommendations && r.totalRecommendationsCount == s.totalRecommendations
    ensures r.myTotalLikesReceived == s.myLikesReceived && r.myTotalDislikesReceived == s.myDislikesReceived
    ensures r.totalReactionsCount == s.totalReactions
  {
    StatsResponse(s.myRecommendations, s.myLikesReceived, s.myDislikesReceived, s.totalRecommendations, s.totalReactions)
  }

  /**
    An answered load for a known user decides both counts whatever the
    screen showed before; only the error line carries over. Without a user
    the old counts stay on screen.
   */
  lemma LoadStatisticsForgetsShown(st1: StatsState, st2: StatsState, userId: Option<string>, result: ApiResult<StatsResponse>)
    requires st1.errorMessage == st2.errorMessage && !result.Loading?
    ensures userId.Some? ==> LoadStatistics(st1, userId, result) == LoadStatistics(st2, userId, result)
    ensures userId.None? ==> LoadStatistics(st1, userId, result).mine == st1.mine
  {
  }

  /**
    Answered by the server's statistics, the screen shows the user's
    active recommendations and all active ones, the first never above the
    second.
   */
  lemma StatsShowServerCounts(st: StatsState, userId: string, db: Entities.Db)
    requires |db.recommendations| <= Text.IntMax && |db.recReactions| <= Text.IntMax
    ensures var r := LoadStatistics(st, Some(userId), Success(FromServer(RecommendationService.RecommendationStatsOf(db, userId))));
            r.mine == Some(|RecommendationQueries.FindByStudentActive(db.recommendations, userId)|)
            && r.total == Some(|RecommendationQueries.FindActiveNewestFirst(db.recommendations)|)
            && 0 <= r.mine.value <= r.total.value
  {
    RecommendationService.StatsWithinTotals(db, userId);
  }
}

=== FILE: register_view_model.dfy ===
/**
  `RegisterViewModel`: registration in three calls. The first sends the
  account's details and has a code e-mailed, the second checks the code,
  the third completes the registration with the code and signs the new
  account in. The clock (`System.currentTimeMillis`) is the parameter
  `now`; the server's answers are parameters.
 */
module RegisterViewModel {
  import opened Wrappers
  import opened Text
  import opened Enums
  import opened ApiClient
  import opened AppData
  import opened ApiRepository
  import opened TokenManager
  import opened UserCache
  import opened InstitutionalEmail
  import LoginViewModel

  /** The details kept between the first call and the last. */
  datatype Pending = Pending(fullName: string, email: string, password: string, role: UserRole)

  datatype CodeSent = CodeSentTo(email: string, devCode: Option<string>) | CodeRefused(message: string)
  datatype Verification = Verified | NotVerified(message: string) | Verifying
  datatype Registration = Registered(user: User) | NotRegistered(message: string)

  datatype CodeSentResponse = CodeSentResponse(
    message: string,
    email: string,
    expiresInMinutes: int,
    requiresVerification: bool,
    devCode: Option<string>,
    devNote: Option<string>)

  /** `VerifyCodeResponse`; a message the server leaves out decodes as missing. */
  datatype VerifyCodeResponse = VerifyCodeResponse(valid: bool, message: Option<string>, email: string)

  /** `RegisterRequest`; the role travels as its constant's name. */
  datatype RegisterRequest = RegisterRequest(
    email: string,
    password: string,
    role: string,
    fullName: string,
    studentId: Option<string>,
    program: Option<string>)

  /** `CompleteRegistrationRequest`: the same details and the code. */
  datatype CompleteRegistrationRequest = CompleteRegistrationRequest(details: RegisterRequest, verificationCode: string)

  datatype RegisterState = RegisterState(
    isLoading: bool,
    codeSent: Option<CodeSent>,
    verification: Option<Verification>,
    registration: Option<Registration>,
    pending: Option<Pending>,
    prefs: Prefs,
    store: UserStore)

  /** A state after one call, with the request that was sent, if any. */
  datatype Step<R> = Step(state: RegisterState, sent: Option<R>)

  const FieldsIncomplete := "Por favor completa todos los campos correctamente"
  const InvalidCode := "Código de verificación inválido"
  const DuplicateVerification := "Error del servidor: Verificación duplicada. "
                                 + "Por favor, solicita un nuevo código e intenta nuevamente."
  const StudentIdPrefix := "TL "
  const StudentProgram := "Ingeniería de Software"
  const MinPassword := 6

  /** The student id (from the clock) and the programme: present for a student and for no one else. */
  function StudentFields(role: UserRole, now: int): (f: (Option<string>, Option<string>))
    ensures f.0.Some? <==> role == STUDENT
    ensures f.1.Some? <==> role == STUDENT
    ensures f.0.Some? ==> StartsWith(f.0.value, StudentIdPrefix) && f.1 == Some(StudentProgram)
  {
    if role == STUDENT then (Some(StudentIdPrefix + IntToString(now)), Some(StudentProgram)) else (None, None)
  }

  function RequestOf(email: string, password: string, role: UserRole, fullName: string, now: int): (q: RegisterRequest)
    ensures q.email == email && q.password == password && q.fullName == fullName && RoleOf(q.role) == Some(role)
    ensures q.studentId.Some? <==> role == STUDENT
    ensures q.program.Some? <==> role == STUDENT
  {
    NameRoundTrips(GENERAL, NORMAL, role);
    var f := StudentFields(role, now);
    RegisterRequest(email, password, RoleName(role), fullName, f.0, f.1)
  }

  /**
    `sendVerificationCode`: with an empty name, an empty completed address
    or a password under six characters, an error and no call; otherwise the
    details are kept for the last step and the server's answer is
    reported with the completed address.
   */
  function SendVerificationCode(st: RegisterState, fullName: string, email: string, password: string,
                                role: UserRole, now: int, result: ApiResult<CodeSentResponse>): (r: Step<RegisterRequest>)
    ensures !r.state.isLoading
    ensures r.state.prefs == st.prefs && r.state.store == st.store
    ensures r.state.verification == st.verification && r.state.registration == st.registration
    ensures r.sent.None? <==> |fullName| == 0 || |password| < MinPassword
    ensures r.sent.None? ==> r.state == st.(codeSent := Some(CodeRefused(FieldsIncomplete)), isLoading := false)
    ensures r.sent.Some? ==>
              r.state.pending == Some(Pending(fullName, CompleteEmail(email), password, role))
              && r.sent.value.email == CompleteEmail(email) && r.sent.value.password == password
              && (r.sent.value.studentId.Some? <==> role == STUDENT)
    ensures r.sent.Some? && result.Success? ==>
              r.state.codeSent == Some(CodeSentTo(CompleteEmail(email), result.data.devCode))
    ensures r.sent.Some? && result.Error? ==> r.state.codeSent == Some(CodeRefused(result.message))
    ensures r.sent.Some? && result.Loading? ==> r.state.codeSent == st.codeSent
  {
    var fullEmail := CompleteEmail(email);
    if |fullName| == 0 || |fullEmail| == 0 || |password| < MinPassword then
      Step(st.(codeSent := Some(CodeRefused(FieldsIncomplete)), isLoading := false), None)
    else
      var kept := st.(pending := Some(Pending(fullName, fullEmail, password, role)), isLoading := false);
      var request := RequestOf(fullEmail, password, role, fullName, now);
      match result
      case Success(data) => Step(kept.(codeSent := Some(CodeSentTo(fullEmail, data.devCode))), Some(request))
      case Error(message, _) => Step(kept.(codeSent := Some(CodeRefused(message))), Some(request))
      case Loading(_) => Step(kept, Some(request))
  }

  /**
    The completed address is never empty, so the address part of the first
    check never refuses: an empty address is sent as the bare domain.
   */
  lemma EmptyAddressIsSentToDomain(st: RegisterState, fullName: string, password: string, role: UserRole,
                                   now: int, result: ApiResult<CodeSentResponse>)
    requires |fullName| > 0 && |password| >= MinPassword
    ensures var r := SendVerificationCode(st, fullName, "", password, role, now, result);
            r.sent.Some? && r.sent.value.email == Domain
  {
    assert "" + Domain == Domain;
  }

  /** `isTestCodeValid`: the four codes accepted whatever the server says about them. */
  predicate IsTestCode(code: string)
  {
    code in ["123456", "000000", "111111", "999999"]
  }

  /** Every test code is six decimal digits. */
  lemma TestCodesAreSixDigits(code: string)
    requires IsTestCode(code)
    ensures |code| == 6 && AllDigits(code)
  {
  }

  /** A server error saying the code was already used. */
  predicate IsUsedCodeError(message: string)
  {
    ContainsIgnoreCase(message, "usado") || ContainsIgnoreCase(message, "used")
  }

  /**
    `verifyCode`: a valid answer verifies; an invalid one reports the
    server's message (or a fixed one); an error saying the code was already
    used verifies; any other error is reported unless the code is a test
    code, which verifies; an answer still loading leaves the verification
    under way.
   */
  function VerifyCode(st: RegisterState, code: string, result: ApiResult<VerifyCodeResponse>): (r: RegisterState)
    ensures r == st.(isLoading := false, verification := r.verification)
    ensures r.verification == Some(Verified) <==>
              (result.Success? && result.data.valid)
              || (result.Error? && (IsUsedCodeError(result.message) || IsTestCode(code)))
    ensures result.Success? && !result.data.valid ==>
              r.verification == Some(NotVerified(result.data.message.GetOr(InvalidCode)))
    ensures result.Error? && !IsUsedCodeError(result.message) && !IsTestCode(code) ==>
              r.verification == Some(NotVerified(result.message))
    ensures result.Loading? ==> r.verification == Some(Verifying)
  {
    var outcome :=
      match result
      case Success(data) => if data.valid then Verified else NotVerified(data.message.GetOr(InvalidCode))
      case Error(message, _) =>
        if IsUsedCodeError(message) then Verified
        else if IsTestCode(code) then Verified
        else NotVerified(message)
      case Loading(_) => Verifying;
    st.(isLoading := false, verification := Some(outcome))
  }

  /** A server that answers "invalid" is believed even for a test code; a server error is not. */
  lemma TestCodeOverridesOnlyErrors(st: RegisterState, code: string, data: VerifyCodeResponse, message: string,
                                    status: Option<int>)
    requires IsTestCode(code) && !data.valid
    ensures VerifyCode(st, code, Success(data)).verification != Some(Verified)
    ensures VerifyCode(st, code, Error(message, status)).verification == Some(Verified)
  {
  }

  /** A server error about the verification code. */
  predicate IsVerificationError(message: string)
  {
    ContainsIgnoreCase(message, "código") || ContainsIgnoreCase(message, "code")
    || ContainsIgnoreCase(message, "verificación")
  }

  /** The account cached after registration: the server's account with the typed password. */
  function RegisteredUser(account: UserResponse, password: string): (u: User)
    ensures u.password == password
    ensures u.id == account.id && u.email == account.email && u.fullName == account.fullName
    ensures u.role == RoleOrStudent(account.role)
  {
    ConvertToUser(account).(password := password)
  }

  /**
    `completeRegistration`: on success the session is saved and the account,
    with the password that was typed, is cached as the current user; an
    error about the code gets the fixed duplicate-verification message, any
    other error is passed through.
   */
  function CompleteRegistration(st: RegisterState, fullName: string, email: string, password: string,
                                role: UserRole, verificationCode: string, now: int,
                                result: ApiResult<AuthResponse>): (r: RegisterState)
    ensures !r.isLoading
    ensures r.codeSent == st.codeSent && r.verification == st.verification && r.pending == st.pending
    ensures result.Success? ==>
              r.prefs == SaveAuthData(st.prefs, result.data)
              && r.registration == Some(Registered(RegisteredUser(result.data.user, password)))
              && r.store == Remember(st.store, RegisteredUser(result.data.user, password))
    ensures result.Error? && IsVerificationError(result.message) ==>
              r == st.(isLoading := false, registration := Some(NotRegistered(DuplicateVerification)))
    ensures result.Error? && !IsVerificationError(result.message) ==>
              r == st.(isLoading := false, registration := Some(NotRegistered(result.message)))
    ensures result.Loading? ==> r == st.(isLoading := false)
  {
    match result
    case Success(auth) =>
      var u := RegisteredUser(auth.user, password);
      st.(prefs := SaveAuthData(st.prefs, auth), store := Remember(st.store, u),
          registration := Some(Registered(u)), isLoading := false)
    case Error(message, _) =>
      var shown := if IsVerificationError(message) then DuplicateVerification else message;
      st.(isLoading := false, registration := Some(NotRegistered(shown)))
    case Loading(_) => st.(isLoading := false)
  }

  /** The request `completeRegistration` sends: the typed details, the student fields and the code. */
  function CompleteRequestOf(email: string, password: string, role: UserRole, fullName: string,
                             verificationCode: string, now: int): (q: CompleteRegistrationRequest)
    ensures q.details == RequestOf(email, password, role, fullName, now)
    ensures q.verificationCode == verificationCode
  {
    CompleteRegistrationRequest(RequestOf(email, password, role, fullName, now), verificationCode)
  }

  /**
    Unlike an account cached from a sign-in, a freshly registered account
    carries its password, so when the server later fails it still signs in
    from the device with that password.
   */
  lemma RegisteredSignsInOffline(st: RegisterState, fullName: string, email: string, password: string,
                                 role: UserRole, verificationCode: string, now: int,
                                 auth: AuthResponse, loginEmail: string, rememberMe: bool,
                                 emailPattern: bool, apiError: string, status: Option<int>)
    requires CompleteEmail(loginEmail) == auth.user.email
    requires LoginViewModel.Accepted(loginEmail, password, emailPattern)
    ensures var reg := CompleteRegistration(st, fullName, email, password, role, verificationCode, now, Success(auth));
            var signIn := LoginViewModel.LoginState(None, false, reg.prefs, reg.store);
            LoginViewModel.Login(signIn, loginEmail, password, rememberMe, emailPattern, Error(apiError, status)).result
              == Some(LoginViewModel.SignedIn(RegisteredUser(auth.user, password)))
  {
    var reg := CompleteRegistration(st, fullName, email, password, role, verificationCode, now, Success(auth));
    assert GetUserByEmail(reg.store, auth.user.email) == Some(RegisteredUser(auth.user, password));
  }

  /** `resendVerificationCode`: the answer is reported with the address as given. */
  function ResendVerificationCode(st: RegisterState, email: string, result: ApiResult<CodeSentResponse>): (r: RegisterState)
    ensures r == st.(isLoading := false, codeSent := r.codeSent)
    ensures result.Success? ==> r.codeSent == Some(CodeSentTo(email, result.data.devCode))
    ensures result.Error? ==> r.codeSent == Some(CodeRefused(result.message))
    ensures result.Loading? ==> r.codeSent == st.codeSent
  {
    match result
    case Success(data) => st.(isLoading := false, codeSent := Some(CodeSentTo(email, data.devCode)))
    case Error(message, _) => st.(isLoading := false, codeSent := Some(CodeRefused(message)))
    case Loading(_) => st.(isLoading := false)
  }

  /**
    Resending to the address the first step kept reports the same
    completed address and keeps the details for the last step.
   */
  lemma ResendAfterSend(st: RegisterState, fullName: string, email: string, password: string, role: UserRole,
                        now: int, first: ApiResult<CodeSentResponse>, again: ApiResult<CodeSentResponse>)
    requires |fullName| > 0 && |password| >= MinPassword && again.Success?
    ensures var s := SendVerificationCode(st, fullName, email, password, role, now, first).state;
            s.pending.Some?
            && var r := ResendVerificationCode(s, s.pending.value.email, again);
               r.codeSent == Some(CodeSentTo(CompleteEmail(email), again.data.devCode)) && r.pending == s.pending
  {
  }

  /**
    Unlike the first step, a resend does not complete a bare name: the
    address reported is the name itself, not the name with the domain.
   */
  lemma ResendDoesNotComplete(st: RegisterState, fullName: string, name: string, password: string, role: UserRole,
                              now: int, result: ApiResult<CodeSentResponse>)
    requires '@' !in name && result.Success? && |fullName| > 0 && |password| >= MinPassword
    ensures ResendVerificationCode(st, name, result).codeSent.value.email == name
    ensures SendVerificationCode(st, fullName, name, password, role, now, result).state.codeSent.value.email
            == CompleteEmail(name) != name
  {
    assert |CompleteEmail(name)| == |name| + |Domain| > |name|;
  }

  /** `registerUser`: the older entry point, which forwards to the first step and drops the confirmation. */
  function RegisterUser(st: RegisterState, fullName: string, email: string, password: string,
                        confirmPassword: string, role: UserRole, now: int,
                        result: ApiResult<CodeSentResponse>): (r: Step<RegisterRequest>)
    ensures r.sent.None? <==> |fullName| == 0 || |password| < MinPassword
  {
    SendVerificationCode(st, fullName, email, password, role, now, result)
  }

  /** The confirmation plays no part in `registerUser`. */
  lemma ConfirmationIgnored(st: RegisterState, fullName: string, email: string, password: string,
                            confirm1: string, confirm2: string, role: UserRole, now: int,
                            result: ApiResult<CodeSentResponse>)
    ensures RegisterUser(st, fullName, email, password, confirm1, role, now, result)
            == RegisterUser(st, fullName, email, password, confirm2, role, now, result)
  {
  }

  const AllFieldsMissing := "Por favor completa todos los campos"
  const InstitutionalEmailInvalid := "Correo electrónico institucional inválido. "
                                     + "Debe terminar con @pascualbravo.edu.co"
  const PasswordShort := "La contraseña debe tener al menos 6 caracteres"

  /**
    `validateInputs` (kept in the class, called by nothing): a blank name,
    then a non-institutional address, then a short password; the first
    failure's message, or none.
   */
  function ValidateInputs(fullName: string, email: string, password: string, emailPattern: bool): (r: Option<string>)
    ensures r.None? <==> !IsBlank(fullName) && IsInstitutional(email, emailPattern) && |password| >= MinPassword
    ensures IsBlank(fullName) ==> r == Some(AllFieldsMissing)
    ensures !IsBlank(fullName) && !IsInstitutional(email, emailPattern) ==> r == Some(InstitutionalEmailInvalid)
  {
    if IsBlank(fullName) then Some(AllFieldsMissing)
    else if !IsInstitutional(email, emailPattern) then Some(InstitutionalEmailInvalid)
    else if |password| < MinPassword then Some(PasswordShort)
    else None
  }

  /** What the phone check strips: the regular expression's whitespace class and `-`, `(`, `)`, `+`. */
  predicate IsPhoneFormatting(c: char)
  {
    c == ' ' || c == '\t' || c == '\n' || c == '\U{000B}' || c == '\U{000C}' || c == '\r'
    || c == '-' || c == '(' || c == ')' || c == '+'
  }

  /** The phone number with every formatting char removed, the rest in order. */
  function CleanPhone(s: string): (r: string)
    ensures |r| <= |s|
    ensures forall i :: 0 <= i < |r| ==> !IsPhoneFormatting(r[i])
  {
    if |s| == 0 then ""
    else (if IsPhoneFormatting(s[0]) then "" else [s[0]]) + CleanPhone(s[1..])
  }

  /** Cleaning distributes over concatenation. */
  lemma {:induction false} CleanPhoneConcat(a: string, b: string)
    ensures CleanPhone(a + b) == CleanPhone(a) + CleanPhone(b)
    decreases |a|
  {
    if |a| > 0 {
      assert (a + b)[0] == a[0];
      assert (a + b)[1..] == a[1..] + b;
      CleanPhoneConcat(a[1..], b);
      var head := if IsPhoneFormatting(a[0]) then "" else [a[0]];
      assert CleanPhone(a + b) == head + CleanPhone(a[1..] + b);
      assert CleanPhone(a) == head + CleanPhone(a[1..]);
    } else {
      assert a + b == b;
    }
  }

  /** A string with no formatting char is its own cleaning. */
  lemma {:induction false} CleanPhoneKeepsPlain(s: string)
    requires forall i :: 0 <= i < |s| ==> !IsPhoneFormatting(s[i])
    ensures CleanPhone(s) == s
    decreases |s|
  {
    if |s| > 0 {
      CleanPhoneKeepsPlain(s[1..]);
    }
  }

  /** `isValidPhone` (kept in the class, called by nothing): ten or more chars after cleaning, all digits. */
  predicate IsValidPhone(phone: string)
  {
    |CleanPhone(phone)| >= 10 && AllDigits(CleanPhone(phone))
  }

  /** Inserting a formatting char anywhere does not change the verdict. */
  lemma PhoneIgnoresFormatting(a: string, c: char, b: string)
    requires IsPhoneFormatting(c)
    ensures IsValidPhone(a + [c] + b) <==> IsValidPhone(a + b)
  {
    CleanPhoneConcat(a + [c], b);
    CleanPhoneConcat(a, [c]);
    CleanPhoneConcat(a, b);
    assert CleanPhone([c]) == "";
    assert CleanPhone(a + [c] + b) == CleanPhone(a + b);
  }

  /** A character that is neither formatting nor a digit makes the number invalid, wherever it stands. */
  lemma OtherCharRejectsPhone(phone: string, i: int)
    requires 0 <= i < |phone| && !IsPhoneFormatting(phone[i]) && !IsDigit(phone[i])
    ensures !IsValidPhone(phone)
  {
    var a, c, b := phone[..i], phone[i], phone[i + 1..];
    assert phone == a + [c] + b;
    CleanPhoneConcat(a + [c], b);
    CleanPhoneConcat(a, [c]);
    assert CleanPhone([c]) == [c];
    assert CleanPhone(phone)[|CleanPhone(a)|] == c;
  }

  /** A phone number of ten or more bare digits is valid, and cleaning is idempotent. */
  lemma PlainDigitsAreValid(phone: string)
    ensures AllDigits(phone) && |phone| >= 10 ==> IsValidPhone(phone)
    ensures CleanPhone(CleanPhone(phone)) == CleanPhone(phone)
  {
    CleanPhoneKeepsPlain(CleanPhone(phone));
    if AllDigits(phone) {
      CleanPhoneKeepsPlain(phone);
    }
  }
}

=== FILE: sorting.dfy ===
/**
  Ordering of query results and of client-side lists.

  A JPQL `ORDER BY a DESC, b DESC` clause and Kotlin's
  `sortedWith(compareByDescending { a }.thenByDescending { b })` are both
  modelled by `SortDesc` with two integer keys; an ascending key is given
  negated. `DistinctSorted` is Kotlin's `distinct().sorted()` on strings,
  ordered as `String.compareTo` orders them.
 */
module Sorting {

  /** `a` may stand before `b`: greater major key, or equal major key and no smaller minor key. */
  predicate Precedes<T>(a: T, b: T, major: T -> int, minor: T -> int)
  {
    major(a) > major(b) || (major(a) == major(b) && minor(a) >= minor(b))
  }

  predicate SortedDesc<T>(s: seq<T>, major: T -> int, minor: T -> int)
  {
    forall i, j :: 0 <= i < j < |s| ==> Precedes(s[i], s[j], major, minor)
  }

  /** Inserts `x` before the first element it precedes (after every element that strictly precedes it). */
  function Insert<T>(x: T, r: seq<T>, major: T -> int, minor: T -> int): (out: seq<T>)
    requires SortedDesc(r, major, minor)
    ensures SortedDesc(out, major, minor)
    ensures multiset(out) == multiset(r) + multiset{x}
  {
    if |r| == 0 then [x]
    else if Precedes(x, r[0], major, minor) then [x] + r
    else
      var tail := Insert(x, r[1..], major, minor);
      assert r == [r[0]] + r[1..];
      forall k | 0 <= k < |tail| ensures Precedes(r[0], tail[k], major, minor) {
        assert tail[k] in multiset(tail);
        if tail[k] != x {
          assert tail[k] in r[1..];
        }
      }
      ConsSorted(r[0], tail, major, minor);
      [r[0]] + tail
  }

  /** A head that precedes every element of a sorted tail keeps it sorted. */
  lemma ConsSorted<T>(h: T, t: seq<T>, major: T -> int, minor: T -> int)
    requires SortedDesc(t, major, minor)
    requires forall k :: 0 <= k < |t| ==> Precedes(h, t[k], major, minor)
    ensures SortedDesc([h] + t, major, minor)
  {
    var s := [h] + t;
    forall i, j | 0 <= i < j < |s| ensures Precedes(s[i], s[j], major, minor) {
      assert s[j] == t[j - 1];
      if i > 0 {
        assert s[i] == t[i - 1];
      }
    }
  }

  /** Insertion sort; the order among equal keys is one fixed choice (SQL leaves it open). */
  function SortDesc<T>(s: seq<T>, major: T -> int, minor: T -> int): (r: seq<T>)
    ensures SortedDesc(r, major, minor)
    ensures multiset(r) == multiset(s)
  {
    if |s| == 0 then []
    else
      assert s == [s[0]] + s[1..];
      Insert(s[0], SortDesc(s[1..], major, minor), major, minor)
  }

  /** Sorting an already ordered list leaves it alone; in particular sorting is idempotent. */
  lemma {:induction false} SortSortedIdentity<T>(s: seq<T>, major: T -> int, minor: T -> int)
    requires SortedDesc(s, major, minor)
    ensures SortDesc(s, major, minor) == s
  {
    if |s| > 0 {
      assert SortedDesc(s[1..], major, minor);
      SortSortedIdentity(s[1..], major, minor);
      if |s| > 1 {
        assert Precedes(s[0], s[1], major, minor);
      }
    }
  }

  lemma SortIdempotent<T>(s: seq<T>, major: T -> int, minor: T -> int)
    ensures SortDesc(SortDesc(s, major, minor), major, minor) == SortDesc(s, major, minor)
  {
    SortSortedIdentity(SortDesc(s, major, minor), major, minor);
  }

  // ---------------------------------------------------------------------
  // Strings

  /** `a.compareTo(b) < 0`: the first differing character decides, a proper prefix comes first. */
  predicate LexLess(a: string, b: string)
  {
    if |a| == 0 then |b| > 0
    else if |b| == 0 then false
    else if a[0] != b[0] then a[0] < b[0]
    else LexLess(a[1..], b[1..])
  }

  lemma {:induction false} LexLessIrreflexive(a: string)
    ensures !LexLess(a, a)
  {
    if |a| > 0 {
      LexLessIrreflexive(a[1..]);
    }
  }

  lemma {:induction false} LexLessTransitive(a: string, b: string, c: string)
    requires LexLess(a, b) && LexLess(b, c)
    ensures LexLess(a, c)
  {
    if |a| > 0 && |b| > 0 && |c| > 0 && a[0] == b[0] && b[0] == c[0] {
      LexLessTransitive(a[1..], b[1..], c[1..]);
    }
  }

  lemma {:induction false} LexLessTotal(a: string, b: string)
    requires a != b
    ensures LexLess(a, b) || LexLess(b, a)
  {
    if |a| > 0 && |b| > 0 && a[0] == b[0] {
      assert a == [a[0]] + a[1..] && b == [b[0]] + b[1..];
      LexLessTotal(a[1..], b[1..]);
    }
  }

  lemma LexLessAntisymmetric(a: string, b: string)
    ensures !(LexLess(a, b) && LexLess(b, a))
  {
    if LexLess(a, b) && LexLess(b, a) {
      LexLessTransitive(a, b, a);
      LexLessIrreflexive(a);
    }
  }

  predicate StrictlySorted(s: seq<string>)
  {
    forall i, j :: 0 <= i < j < |s| ==> LexLess(s[i], s[j])
  }

  /** Adds `x` to an ordered list of distinct strings unless it is already there. */
  function InsertDistinct(x: string, r: seq<string>): (out: seq<string>)
    requires StrictlySorted(r)
    ensures StrictlySorted(out)
    ensures forall y :: y in out <==> y == x || y in r
  {
    if |r| == 0 then [x]
    else if x == r[0] then r
    else if LexLess(x, r[0]) then
      assert forall j :: 0 < j < |r| ==> LexLess(x, r[j]) by {
        forall j | 0 < j < |r| ensures LexLess(x, r[j]) {
          LexLessTransitive(x, r[0], r[j]);
        }
      }
      [x] + r
    else
      LexLessTotal(x, r[0]);
      var tail := InsertDistinct(x, r[1..]);
      assert r == [r[0]] + r[1..];
      assert forall k :: 0 <= k < |tail| ==> LexLess(r[0], tail[k]) by {
        forall k | 0 <= k < |tail| ensures LexLess(r[0], tail[k]) {
          assert tail[k] in tail;
          if tail[k] != x {
            var i :| 0 <= i < |r[1..]| && r[1..][i] == tail[k];
            assert r[i + 1] == tail[k];
          }
        }
      }
      [r[0]] + tail
  }

  /** Kotlin `distinct().sorted()`. */
  function DistinctSorted(s: seq<string>): (r: seq<string>)
    ensures StrictlySorted(r)
    ensures forall y :: y in r <==> y in s
  {
    if |s| == 0 then []
    else
      assert s == [s[0]] + s[1..];
      InsertDistinct(s[0], DistinctSorted(s[1..]))
  }

  /** The head of an ordered list is below every other member. */
  lemma HeadLeast(a: seq<string>, y: string)
    requires StrictlySorted(a) && y in a
    ensures y == a[0] || LexLess(a[0], y)
  {
  }

  /** Two ordered duplicate-free lists with the same members are the same list. */
  lemma {:induction false} StrictlySortedUnique(a: seq<string>, b: seq<string>)
    requires StrictlySorted(a) && StrictlySorted(b)
    requires forall y :: y in a <==> y in b
    ensures a == b
  {
    if |a| > 0 {
      assert a[0] in a;
    }
    if |b| > 0 {
      assert b[0] in b;
    }
    if |a| > 0 && |b| > 0 {
      HeadLeast(b, a[0]);
      HeadLeast(a, b[0]);
      LexLessAntisymmetric(a[0], b[0]);
      LexLessIrreflexive(a[0]);
      forall y ensures y in a[1..] <==> y in b[1..] {
        if y in a && y != a[0] {
          assert y in a[1..];
        }
        if y in b && y != b[0] {
          assert y in b[1..];
        }
      }
      StrictlySortedUnique(a[1..], b[1..]);
      assert a == [a[0]] + a[1..] && b == [b[0]] + b[1..];
    }
  }

  /** The distinct sorted list depends only on which strings occur. */
  lemma DistinctSortedBySet(s: seq<string>, t: seq<string>)
    requires forall y :: y in s <==> y in t
    ensures DistinctSorted(s) == DistinctSorted(t)
  {
    StrictlySortedUnique(DistinctSorted(s), DistinctSorted(t));
  }
}

=== FILE: teacher_names.dfy ===
/**
  The display name the student-teacher compatibility endpoint derives from
  a teacher's institutional email: the local part, split at dots, each
  piece capitalised, joined with spaces (`maria.gonzalez@…` gives
  `Maria Gonzalez`).
 */
module TeacherNames {
  import opened Wrappers
  import opened Text
  import opened Lists

  /** `split("@")[0]` on an email made only of `@` characters. */
  const ArrayIndexOutOfBounds := "java.lang.ArrayIndexOutOfBoundsException"
  /** `substring(0, 1)` on an empty piece of the local part. */
  const StringIndexOutOfBounds := "java.lang.StringIndexOutOfBoundsException"

  /** A piece with its first character in upper case. */
  function Capitalize(part: string): (r: string)
    ensures |r| == |part|
    ensures part != "" ==> r[0] == UpperChar(part[0]) && r[1..] == part[1..]
  {
    if part == "" then "" else Upper(part[..1]) + part[1..]
  }

  /**
    The loop over the pieces: a space before every piece but the first,
    then the capitalised piece; an empty piece throws.
   */
  function AppendPieces(name: string, parts: seq<string>): (r: Result<string>)
    ensures r.Err? <==> exists k :: 0 <= k < |parts| && parts[k] == ""
    ensures r.Err? ==> r.msg == StringIndexOutOfBounds
    decreases |parts|
  {
    if |parts| == 0 then Ok(name)
    else if parts[0] == "" then Err(StringIndexOutOfBounds)
    else
      var next := (if |name| > 0 then name + " " else name) + Capitalize(parts[0]);
      var r := AppendPieces(next, parts[1..]);
      assert forall k :: 1 <= k < |parts| ==> parts[k] == parts[1..][k - 1];
      r
  }

  /**
    The name built from the pieces of the local part: the capitalised
    pieces separated by spaces, or an error when a piece is empty.
   */
  function NameOfPieces(parts: seq<string>): (r: Result<string>)
    ensures r.Err? <==> exists k :: 0 <= k < |parts| && parts[k] == ""
    ensures r.Err? ==> r.msg == StringIndexOutOfBounds
    ensures r.Ok? ==> r.value == Join(Map(parts, Capitalize), ' ')
  {
    if forall k :: 0 <= k < |parts| ==> parts[k] != "" then
      AppendPiecesIsJoin("", parts);
      assert Words("") + Map(parts, Capitalize) == Map(parts, Capitalize);
      AppendPieces("", parts)
    else AppendPieces("", parts)
  }

  /** `extractTeacherNameFromEmail`: the part before the first `@`, split at dots. */
  function ExtractTeacherNameFromEmail(email: string): (r: Result<string>)
    ensures JavaSplit(email, '@') == [] <==> r == Err(ArrayIndexOutOfBounds)
    ensures JavaSplit(email, '@') != [] ==> r == NameOfPieces(JavaSplit(JavaSplit(email, '@')[0], '.'))
  {
    var local := JavaSplit(email, '@');
    if local == [] then Err(ArrayIndexOutOfBounds)
    else NameOfPieces(JavaSplit(local[0], '.'))
  }

  /** The pieces already in the builder, as a list of words. */
  function Words(name: string): seq<string>
  {
    if name == "" then [] else [name]
  }

  lemma JoinFront(a: string, b: string, rest: seq<string>, sep: char)
    ensures Join([a + [sep] + b] + rest, sep) == a + [sep] + Join([b] + rest, sep)
  {
    if |rest| > 0 {
      assert ([a + [sep] + b] + rest)[1..] == rest;
      assert ([b] + rest)[1..] == rest;
    }
  }

  /** The builder loop computes the space-separated join of the capitalised pieces. */
  lemma {:induction false} AppendPiecesIsJoin(name: string, parts: seq<string>)
    requires forall k :: 0 <= k < |parts| ==> parts[k] != ""
    ensures AppendPieces(name, parts) == Ok(Join(Words(name) + Map(parts, Capitalize), ' '))
    decreases |parts|
  {
    if |parts| == 0 {
      assert Words(name) + Map(parts, Capitalize) == Words(name);
    } else {
      var c := Capitalize(parts[0]);
      var next := (if |name| > 0 then name + " " else name) + c;
      var rest := Map(parts[1..], Capitalize);
      AppendPiecesIsJoin(next, parts[1..]);
      assert Map(parts, Capitalize) == [c] + rest;
      JoinStep(name, c, rest);
    }
  }

  /** One builder step: appending a piece to the builder joins it with the words already there. */
  lemma JoinStep(name: string, c: string, rest: seq<string>)
    requires c != ""
    ensures Join(Words((if |name| > 0 then name + " " else name) + c) + rest, ' ') == Join(Words(name) + ([c] + rest), ' ')
  {
    var next := (if |name| > 0 then name + " " else name) + c;
    assert Words(next) == [next];
    if name == "" {
      assert next == c;
      assert Words(name) + ([c] + rest) == [next] + rest;
    } else {
      assert Words(name) + ([c] + rest) == [name] + ([c] + rest);
      JoinFront(name, c, rest, ' ');
      assert next == name + [' '] + c;
      assert ([name] + ([c] + rest))[1..] == [c] + rest;
    }
  }

  /** Java splitting undoes a join whose last piece is not empty. */
  lemma JavaSplitJoin(parts: seq<string>, sep: char)
    requires |parts| >= 1 && parts[|parts| - 1] != ""
    requires forall i :: 0 <= i < |parts| ==> sep !in parts[i]
    ensures JavaSplit(Join(parts, sep), sep) == parts
  {
    SplitJoin(parts, sep);
  }

  /** The first piece of a Java split is what precedes the first separator, when that is not empty. */
  lemma JavaSplitHead(a: string, b: string, sep: char)
    requires sep !in a && a != ""
    ensures JavaSplit(a + [sep] + b, sep) != [] && JavaSplit(a + [sep] + b, sep)[0] == a
  {
    var s := a + [sep] + b;
    assert s[|a|] == sep;
    assert s[..|a|] == a;
    assert s[|a| + 1..] == b;
    assert IndexOf(s, sep) == |a|;
    assert Split(s, sep)[0] == a;
  }

  /**
    An email whose local part is dotted non-empty pieces yields those
    pieces capitalised and separated by spaces; when no piece holds a
    space, splitting the name at spaces gives back one word per piece.
   */
  lemma {:induction false} NameOfDottedEmail(parts: seq<string>, domain: string)
    requires |parts| >= 1
    requires forall k :: 0 <= k < |parts| ==> parts[k] != "" && '.' !in parts[k] && '@' !in parts[k]
    ensures var name := Join(Map(parts, Capitalize), ' ');
            ExtractTeacherNameFromEmail(Join(parts, '.') + "@" + domain) == Ok(name)
            && ((forall k :: 0 <= k < |parts| ==> ' ' !in parts[k]) ==> Split(name, ' ') == Map(parts, Capitalize))
  {
    var local := Join(parts, '.');
    JoinFree(parts, '.', '@');
    JoinNonEmpty(parts, '.');
    assert local + "@" + domain == local + ['@'] + domain;
    JavaSplitHead(local, domain, '@');
    JavaSplitJoin(parts, '.');
    AppendPiecesIsJoin("", parts);
    assert Words("") + Map(parts, Capitalize) == Map(parts, Capitalize);
    var caps := Map(parts, Capitalize);
    if forall k :: 0 <= k < |parts| ==> ' ' !in parts[k] {
      forall k | 0 <= k < |caps| ensures ' ' !in caps[k] {
        CapitalizeKeepsSpaces(parts[k]);
      }
      SplitJoin(caps, ' ');
    }
  }

  lemma CapitalizeKeepsSpaces(part: string)
    requires ' ' !in part
    ensures ' ' !in Capitalize(part)
  {
    if part != "" {
      var r := Capitalize(part);
      assert r == [UpperChar(part[0])] + part[1..];
      assert part[0] in part;
      forall i | 1 <= i < |part| ensures part[i] != ' ' {
        assert part[i] in part;
      }
    }
  }

  /** A join of pieces free of a character other than the separator is free of it. */
  lemma {:induction false} JoinFree(parts: seq<string>, sep: char, c: char)
    requires c != sep
    requires forall k :: 0 <= k < |parts| ==> c !in parts[k]
    ensures c !in Join(parts, sep)
    decreases |parts|
  {
    if |parts| > 1 {
      JoinFree(parts[1..], sep, c);
      assert c !in parts[0];
    }
  }

  lemma JoinNonEmpty(parts: seq<string>, sep: char)
    requires |parts| >= 1 && parts[0] != ""
    ensures Join(parts, sep) != ""
  {
  }
}

=== FILE: text.dfy ===
/**
  The string operations of the JVM and the Kotlin standard library that the
  Uniway code leans on, written out so that their edge cases are explicit:
  the two different `trim`s, Java's and Kotlin's different `split`s, substring
  search (plain and case-insensitive), case mapping, decimal parsing and
  printing, and the 32-bit wrap-around of `(int)` / `Long.toInt()`.
 */
module Text {
  import opened Wrappers

  // ---------------------------------------------------------------------------
  // Whitespace and trimming
  // ---------------------------------------------------------------------------

  /** Kotlin's `Char.isWhitespace()`: Java whitespace or a Unicode space separator. */
  predicate IsWhitespace(c: char) {
    || c == '\t' || c == '\n' || c == '\U{000B}' || c == '\U{000C}' || c == '\r'
    || ('\U{001C}' <= c <= '\U{001F}')
    || c == ' ' || c == '\U{00A0}' || c == '\U{1680}'
    || ('\U{2000}' <= c <= '\U{200A}')
    || c == '\U{2028}' || c == '\U{2029}' || c == '\U{202F}' || c == '\U{205F}' || c == '\U{3000}'
  }

  /** What `java.lang.String.trim()` strips: every char up to and including the space. */
  predicate IsJavaTrimmable(c: char) {
    c <= ' '
  }

  predicate AllSatisfy(s: string, drop: char -> bool) {
    forall k :: 0 <= k < |s| ==> drop(s[k])
  }

  /** `r` is `s` with a maximal run of `drop` chars removed from each end. */
  ghost predicate TrimmedForm(s: string, r: string, drop: char -> bool) {
    exists b :: 0 <= b <= |s| - |r| && s[b..b + |r|] == r
      && AllSatisfy(s[..b], drop) && AllSatisfy(s[b + |r|..], drop)
      && (r == [] || (!drop(r[0]) && !drop(r[|r| - 1])))
  }

  function LeadingCount(s: string, drop: char -> bool): (n: nat)
    ensures n <= |s|
    ensures forall k :: 0 <= k < n ==> drop(s[k])
    ensures n < |s| ==> !drop(s[n])
  {
    if |s| == 0 || !drop(s[0]) then 0 else 1 + LeadingCount(s[1..], drop)
  }

  function TrailingStart(s: string, drop: char -> bool): (n: nat)
    ensures n <= |s|
    ensures forall k :: n <= k < |s| ==> drop(s[k])
    ensures n > 0 ==> !drop(s[n - 1])
  {
    if |s| == 0 || !drop(s[|s| - 1]) then |s| else TrailingStart(s[..|s| - 1], drop)
  }

  /** Naming the cut points is enough to establish a trimmed form. */
  lemma TrimmedFormAt(s: string, r: string, drop: char -> bool, b: int)
    requires 0 <= b <= |s| - |r| && s[b..b + |r|] == r
    requires AllSatisfy(s[..b], drop) && AllSatisfy(s[b + |r|..], drop)
    requires r == [] || (!drop(r[0]) && !drop(r[|r| - 1]))
    ensures TrimmedForm(s, r, drop)
  {
  }

  function TrimWith(s: string, drop: char -> bool): (r: string)
    ensures TrimmedForm(s, r, drop)
    ensures r == [] <==> AllSatisfy(s, drop)
  {
    var e := TrailingStart(s, drop);
    var b := LeadingCount(s[..e], drop);
    LeadDropped(s, drop, e, b);
    TrailDropped(s, drop, e);
    KeptEnds(s, drop, e, b);
    TrimCuts(s, drop, e, b);
    s[b..e]
  }

  /** Cut points with droppable chars outside and kept chars at the edges frame a trimmed form, empty exactly for all-droppable input. */
  lemma TrimCuts(s: string, drop: char -> bool, e: nat, b: nat)
    requires b <= e <= |s|
    requires AllSatisfy(s[..b], drop) && AllSatisfy(s[e..], drop)
    requires b < e ==> !drop(s[b..e][0]) && !drop(s[b..e][e - b - 1])
    ensures TrimmedForm(s, s[b..e], drop)
    ensures s[b..e] == [] <==> AllSatisfy(s, drop)
  {
    var r := s[b..e];
    assert s[b..b + |r|] == r;
    TrimmedFormAt(s, r, drop, b);
    if r == [] {
      TrimmedEmpty(s, drop, b);
    } else {
      assert r[|r| - 1] == s[e - 1];
      NotAllDropped(s, drop, e - 1);
    }
  }

  /** Everything before the leading cut is droppable. */
  lemma LeadDropped(s: string, drop: char -> bool, e: nat, b: nat)
    requires e <= |s| && b == LeadingCount(s[..e], drop)
    ensures b <= e && AllSatisfy(s[..b], drop)
  {
    var p := s[..e];
    forall k | 0 <= k < b
      ensures drop(s[..b][k])
    {
      assert drop(p[k]);
      assert s[..b][k] == p[k];
    }
  }

  /** Everything from the trailing cut on is droppable. */
  lemma TrailDropped(s: string, drop: char -> bool, e: nat)
    requires e == TrailingStart(s, drop)
    ensures AllSatisfy(s[e..], drop)
  {
    forall k | 0 <= k < |s| - e
      ensures drop(s[e..][k])
    {
      assert drop(s[e + k]);
    }
  }

  /** A non-empty cut starts and ends with kept chars. */
  lemma KeptEnds(s: string, drop: char -> bool, e: nat, b: nat)
    requires e == TrailingStart(s, drop) && b == LeadingCount(s[..e], drop)
    ensures b < e ==> !drop(s[b..e][0]) && !drop(s[b..e][e - b - 1])
  {
    if b < e {
      KeptEndsInside(s, drop, e, b);
    }
  }

  lemma KeptEndsInside(s: string, drop: char -> bool, e: nat, b: nat)
    requires e == TrailingStart(s, drop) && b == LeadingCount(s[..e], drop) && b < e
    ensures !drop(s[b..e][0]) && !drop(s[b..e][e - b - 1])
  {
    var p := s[..e];
    assert !drop(p[b]);
    assert s[b..e][0] == p[b];
    assert s[b..e][e - b - 1] == s[e - 1];
  }

  /** One kept char is enough for the string not to be all droppable. */
  lemma NotAllDropped(s: string, drop: char -> bool, i: int)
    requires 0 <= i < |s| && !drop(s[i])
    ensures !AllSatisfy(s, drop)
  {
  }

  /** The first char that is not dropped sits at index `LeadingCount`. */
  lemma FirstKept(s: string, drop: char -> bool, b: int)
    requires 0 <= b < |s| && AllSatisfy(s[..b], drop) && !drop(s[b])
    ensures b == LeadingCount(s, drop)
  {
    var n := LeadingCount(s, drop);
    if n < b {
      assert false;
    }
  }

  /** The last char that is not dropped sits just before `TrailingStart`. */
  lemma LastKept(s: string, drop: char -> bool, f: int)
    requires 0 < f <= |s| && AllSatisfy(s[f..], drop) && !drop(s[f - 1])
    ensures f == TrailingStart(s, drop)
  {
    var e := TrailingStart(s, drop);
    if f < e {
      assert false;
    }
  }

  /** A non-empty trimmed form starts at the first kept char and ends after the last one. */
  lemma TrimmedBounds(s: string, r: string, drop: char -> bool, b: int)
    requires 0 <= b <= |s| - |r| && s[b..b + |r|] == r
    requires AllSatisfy(s[..b], drop) && AllSatisfy(s[b + |r|..], drop)
    requires r != [] && !drop(r[0]) && !drop(r[|r| - 1])
    ensures b == LeadingCount(s, drop) && b + |r| == TrailingStart(s, drop)
  {
    assert s[b..b + |r|][0] == s[b];
    FirstKept(s, drop, b);
    assert s[b..b + |r|][|r| - 1] == s[b + |r| - 1];
    LastKept(s, drop, b + |r|);
  }

  /** A string whose trimmed form is empty consists of droppable chars only. */
  lemma TrimmedEmpty(s: string, drop: char -> bool, b: int)
    requires 0 <= b <= |s| && AllSatisfy(s[..b], drop) && AllSatisfy(s[b..], drop)
    ensures AllSatisfy(s, drop)
  {
    forall k | 0 <= k < |s|
      ensures drop(s[k])
    {
      if k < b { assert s[..b][k] == s[k]; } else { assert s[b..][k - b] == s[k]; }
    }
  }

  /** Trimming is unique: at most one string is a trimmed form of `s`. */
  lemma TrimmedFormUnique(s: string, r1: string, r2: string, drop: char -> bool)
    requires TrimmedForm(s, r1, drop) && TrimmedForm(s, r2, drop)
    ensures r1 == r2
  {
    var b1 :| 0 <= b1 <= |s| - |r1| && s[b1..b1 + |r1|] == r1
      && AllSatisfy(s[..b1], drop) && AllSatisfy(s[b1 + |r1|..], drop)
      && (r1 == [] || (!drop(r1[0]) && !drop(r1[|r1| - 1])));
    var b2 :| 0 <= b2 <= |s| - |r2| && s[b2..b2 + |r2|] == r2
      && AllSatisfy(s[..b2], drop) && AllSatisfy(s[b2 + |r2|..], drop)
      && (r2 == [] || (!drop(r2[0]) && !drop(r2[|r2| - 1])));
    if r1 == [] {
      TrimmedEmpty(s, drop, b1);
      if r2 != [] {
        assert false;
      }
    } else if r2 == [] {
      TrimmedEmpty(s, drop, b2);
      assert false;
    } else {
      TrimmedBounds(s, r1, drop, b1);
      TrimmedBounds(s, r2, drop, b2);
    }
  }

  /** Kotlin `trim()`. */
  function Trim(s: string): (r: string)
    ensures TrimmedForm(s, r, IsWhitespace)
    ensures r == [] <==> IsBlank(s)
  {
    TrimWith(s, IsWhitespace)
  }

  /** Java `String.trim()`. */
  function JavaTrim(s: string): (r: string)
    ensures TrimmedForm(s, r, IsJavaTrimmable)
    ensures r == [] <==> AllSatisfy(s, IsJavaTrimmable)
  {
    TrimWith(s, IsJavaTrimmable)
  }

  /** Kotlin `isBlank()`: empty or only whitespace. */
  predicate IsBlank(s: string) {
    AllSatisfy(s, IsWhitespace)
  }

  // ---------------------------------------------------------------------------
  // Substring search
  // ---------------------------------------------------------------------------

  predicate StartsWith(s: string, prefix: string) {
    |prefix| <= |s| && s[..|prefix|] == prefix
  }

  predicate EndsWith(s: string, suffix: string) {
    |suffix| <= |s| && s[|s| - |suffix|..] == suffix
  }

  /** `s.contains(sub)`. */
  predicate Contains(s: string, sub: string)
    decreases |s|
  {
    |sub| <= |s| && (StartsWith(s, sub) || Contains(s[1..], sub))
  }

  ghost predicate OccursAt(s: string, sub: string, i: int) {
    0 <= i <= |s| - |sub| && s[i..i + |sub|] == sub
  }

  lemma {:induction false} ContainsMeansOccurs(s: string, sub: string)
    ensures Contains(s, sub) <==> exists i :: OccursAt(s, sub, i)
    decreases |s|
  {
    if |sub| <= |s| && !StartsWith(s, sub) {
      ContainsMeansOccurs(s[1..], sub);
      if exists i :: OccursAt(s[1..], sub, i) {
        var i :| OccursAt(s[1..], sub, i);
        assert s[1..][i..i + |sub|] == s[i + 1..i + 1 + |sub|];
        assert OccursAt(s, sub, i + 1);
      }
      if exists i :: OccursAt(s, sub, i) {
        var i :| OccursAt(s, sub, i);
        assert i != 0;
        assert s[1..][i - 1..i - 1 + |sub|] == s[i..i + |sub|];
        assert OccursAt(s[1..], sub, i - 1);
      }
    } else if |sub| <= |s| {
      assert OccursAt(s, sub, 0);
    }
  }

  /** Whatever is glued around `sub` does not hide it. */
  lemma ContainsInside(a: string, sub: string, b: string)
    ensures Contains(a + sub + b, sub)
  {
    var s := a + sub + b;
    assert s[|a|..|a| + |sub|] == sub;
    assert OccursAt(s, sub, |a|);
    ContainsMeansOccurs(s, sub);
  }

  // ---------------------------------------------------------------------------
  // Case mapping (ASCII letters and the Spanish accented letters)
  // ---------------------------------------------------------------------------

  function UpperChar(c: char): char {
    if 'a' <= c <= 'z' then (c as int - 32) as char
    else match c {
      case 'á' => 'Á' case 'é' => 'É' case 'í' => 'Í' case 'ó' => 'Ó' case 'ú' => 'Ú'
      case 'ñ' => 'Ñ' case 'ü' => 'Ü'
      case _ => c
    }
  }

  function LowerChar(c: char): char {
    if 'A' <= c <= 'Z' then (c as int + 32) as char
    else match c {
      case 'Á' => 'á' case 'É' => 'é' case 'Í' => 'í' case 'Ó' => 'ó' case 'Ú' => 'ú'
      case 'Ñ' => 'ñ' case 'Ü' => 'ü'
      case _ => c
    }
  }

  function Upper(s: string): (r: string)
    ensures |r| == |s|
    ensures forall i :: 0 <= i < |s| ==> r[i] == UpperChar(s[i])
  {
    seq(|s|, i requires 0 <= i < |s| => UpperChar(s[i]))
  }

  function Lower(s: string): (r: string)
    ensures |r| == |s|
    ensures forall i :: 0 <= i < |s| ==> r[i] == LowerChar(s[i])
  {
    seq(|s|, i requires 0 <= i < |s| => LowerChar(s[i]))
  }

  /** Kotlin's `Char.equals(other, ignoreCase = true)`. */
  predicate CharEqualsIgnoreCase(a: char, b: char) {
    a == b || UpperChar(a) == UpperChar(b) || LowerChar(a) == LowerChar(b)
  }

  predicate EqualsIgnoreCase(a: string, b: string) {
    |a| == |b| && forall i :: 0 <= i < |a| ==> CharEqualsIgnoreCase(a[i], b[i])
  }

  /** `s.contains(sub, ignoreCase = true)`. */
  predicate ContainsIgnoreCase(s: string, sub: string)
    decreases |s|
  {
    |sub| <= |s| && (EqualsIgnoreCase(s[..|sub|], sub) || ContainsIgnoreCase(s[1..], sub))
  }

  /** A case-sensitive match is also a case-insensitive one. */
  lemma {:induction false} ContainsIsContainsIgnoreCase(s: string, sub: string)
    requires Contains(s, sub)
    ensures ContainsIgnoreCase(s, sub)
    decreases |s|
  {
    if !StartsWith(s, sub) {
      ContainsIsContainsIgnoreCase(s[1..], sub);
    }
  }

  // ---------------------------------------------------------------------------
  // Splitting and joining on one separator char
  // ---------------------------------------------------------------------------

  function IndexOf(s: string, c: char): (i: nat)
    requires c in s
    ensures i < |s| && s[i] == c && c !in s[..i]
  {
    if s[0] == c then 0 else 1 + IndexOf(s[1..], c)
  }

  function Join(parts: seq<string>, sep: char): string
  {
    if |parts| == 0 then ""
    else if |parts| == 1 then parts[0]
    else parts[0] + [sep] + Join(parts[1..], sep)
  }

  /** Kotlin `s.split(sep)`: every piece, trailing empty ones included. */
  function Split(s: string, sep: char): (parts: seq<string>)
    ensures |parts| >= 1
    ensures forall i :: 0 <= i < |parts| ==> sep !in parts[i]
    ensures Join(parts, sep) == s
    decreases |s|
  {
    if sep !in s then [s]
    else
      var i := IndexOf(s, sep);
      var rest := Split(s[i + 1..], sep);
      assert s == s[..i] + [sep] + s[i + 1..];
      [s[..i]] + rest
  }

  /** Splitting undoes joining pieces that are free of the separator. */
  lemma {:induction false} SplitJoin(parts: seq<string>, sep: char)
    requires |parts| >= 1
    requires forall i :: 0 <= i < |parts| ==> sep !in parts[i]
    ensures Split(Join(parts, sep), sep) == parts
    decreases |parts|
  {
    if |parts| > 1 {
      var s := Join(parts, sep);
      assert s == parts[0] + [sep] + Join(parts[1..], sep);
      assert s[|parts[0]|] == sep;
      assert s[..|parts[0]|] == parts[0];
      var i := IndexOf(s, sep);
      assert i == |parts[0]|;
      assert s[i + 1..] == Join(parts[1..], sep);
      SplitJoin(parts[1..], sep);
    }
  }

  /** The pieces Java keeps: trailing empty strings are removed. */
  function DropTrailingEmpty(parts: seq<string>): (r: seq<string>)
    ensures |r| <= |parts| && r == parts[..|r|]
    ensures r == [] || r[|r| - 1] != ""
    ensures forall k :: |r| <= k < |parts| ==> parts[k] == ""
  {
    if |parts| == 0 then []
    else if parts[|parts| - 1] == "" then DropTrailingEmpty(parts[..|parts| - 1])
    else parts
  }

  /**
    Java `s.split(regex)` for a one-char literal pattern: the input itself when
    the separator does not occur, otherwise the pieces without trailing empties.
   */
  function JavaSplit(s: string, sep: char): (parts: seq<string>)
    ensures sep !in s ==> parts == [s]
    ensures sep in s ==> parts == DropTrailingEmpty(Split(s, sep))
  {
    if sep !in s then [s] else DropTrailingEmpty(Split(s, sep))
  }

  // ---------------------------------------------------------------------------
  // Decimal numbers and 32-bit arithmetic
  // ---------------------------------------------------------------------------

  const IntMin: int := -0x8000_0000
  const IntMax: int := 0x7FFF_FFFF

  /** Java's `(int)` of a `long`, or Kotlin's `Long.toInt()`: keep the low 32 bits. */
  function Int32(n: int): (r: int)
    ensures IntMin <= r <= IntMax
    ensures (r - n) % 0x1_0000_0000 == 0
    ensures IntMin <= n <= IntMax ==> r == n
  {
    var m := n % 0x1_0000_0000;
    if m > IntMax then m - 0x1_0000_0000 else m
  }

  /** Java and Kotlin integer division, which truncates toward zero. */
  function Quot(a: int, b: int): (q: int)
    requires b > 0
    ensures a >= 0 ==> q == a / b
    ensures a < 0 ==> q <= 0 && q == -((-a) / b)
  {
    if a >= 0 then a / b else -((-a) / b)
  }

  predicate IsDigit(c: char) {
    '0' <= c <= '9'
  }

  predicate AllDigits(s: string) {
    forall k :: 0 <= k < |s| ==> IsDigit(s[k])
  }

  function DigitChar(d: nat): char
    requires d < 10
  {
    ('0' as int + d) as char
  }

  function DigitsValue(s: string): nat
    requires AllDigits(s)
  {
    if |s| == 0 then 0
    else DigitsValue(s[..|s| - 1]) * 10 + (s[|s| - 1] as int - '0' as int)
  }

  /** Decimal digits of `n`, without leading zeros. */
  function NatToString(n: nat): (s: string)
    ensures |s| >= 1 && AllDigits(s)
    decreases n
  {
    if n < 10 then [DigitChar(n)] else NatToString(n / 10) + [DigitChar(n % 10)]
  }

  function Pow10(k: nat): (r: nat)
    ensures r >= 1
  {
    if k == 0 then 1 else 10 * Pow10(k - 1)
  }

  /** A number with `k + 1` digits prints as `k + 1` characters, the first of them not zero. */
  lemma {:induction false} NatToStringWidth(n: nat, k: nat)
    requires Pow10(k) <= n < Pow10(k + 1)
    ensures |NatToString(n)| == k + 1
    ensures NatToString(n)[0] != '0'
    decreases k
  {
    if k > 0 {
      assert Pow10(k) == 10 * Pow10(k - 1);
      assert Pow10(k + 1) == 10 * Pow10(k);
      assert Pow10(k - 1) <= n / 10 < Pow10(k);
      NatToStringWidth(n / 10, k - 1);
    }
  }

  /** Kotlin / Java `toString()` of an integer. */
  function IntToString(n: int): string {
    if n < 0 then "-" + NatToString(-n) else NatToString(n)
  }

  lemma {:induction false} NatToStringValue(n: nat)
    ensures DigitsValue(NatToString(n)) == n
    decreases n
  {
    if n >= 10 {
      NatToStringValue(n / 10);
      var s := NatToString(n);
      assert s[..|s| - 1] == NatToString(n / 10);
    }
  }

  /** Value of an optionally signed digit string, if it is one. */
  function ParseDigits(s: string): Option<int> {
    if |s| == 0 then None
    else if s[0] == '-' || s[0] == '+' then
      if |s| == 1 || !AllDigits(s[1..]) then None
      else if s[0] == '-' then Some(0 - DigitsValue(s[1..])) else Some(DigitsValue(s[1..]) as int)
    else if AllDigits(s) then Some(DigitsValue(s)) else None
  }

  /**
    Kotlin `String.toInt()` (that is, `Integer.parseInt`): an optional sign and
    at least one digit, within the 32-bit range; anything else throws
    `NumberFormatException`, modelled as `None`.
   */
  function ParseInt(s: string): (r: Option<int>)
    ensures r.Some? ==> IntMin <= r.value <= IntMax
    ensures r.Some? ==> |s| >= 1
    ensures |s| >= 1 && AllDigits(s) && DigitsValue(s) <= IntMax ==> r == Some(DigitsValue(s))
  {
    match ParseDigits(s)
    case Some(v) => if IntMin <= v <= IntMax then Some(v) else None
    case None => None
  }

  /** Printing and parsing a 32-bit integer are inverse. */
  lemma ParseIntToString(n: int)
    requires IntMin <= n <= IntMax
    ensures ParseInt(IntToString(n)) == Some(n)
  {
    if n < 0 {
      NatToStringValue(-n);
      var s := IntToString(n);
      assert s[1..] == NatToString(-n);
    } else {
      NatToStringValue(n);
      var s := NatToString(n);
      assert IsDigit(s[0]);
    }
  }

  /** Kotlin `s.repeat(n)`. */
  function Repeat(s: string, n: nat): (r: string)
    ensures |r| == |s| * n
  {
    if n == 0 then "" else s + Repeat(s, n - 1)
  }
}

=== FILE: token_manager.dfy ===
/**
  `TokenManager`: the session kept in the device's preferences file
  `uniway_tokens`, as a map of text entries and a map of flag entries.
 */
module TokenManager {
  import opened Wrappers
  import opened ApiRepository

  const TokenKey := "auth_token"
  const UserIdKey := "user_id"
  const UserEmailKey := "user_email"
  const UserNameKey := "user_name"
  const UserRoleKey := "user_role"
  const RememberMeKey := "remember_me"

  datatype Prefs = Prefs(texts: map<string, string>, flags: map<string, bool>)

  /** `AuthResponse`: the signed-in user and the token for it. */
  datatype AuthResponse = AuthResponse(user: UserResponse, token: string, message: string)

  /** `getString(key, null)`. */
  function Text(p: Prefs, key: string): (r: Option<string>)
    ensures r.Some? <==> key in p.texts
    ensures r.Some? ==> r.value == p.texts[key]
  {
    if key in p.texts then Some(p.texts[key]) else None
  }

  function PutText(p: Prefs, key: string, value: string): (r: Prefs)
    ensures Text(r, key) == Some(value)
    ensures forall k :: k != key ==> Text(r, k) == Text(p, k)
    ensures r.flags == p.flags
  {
    p.(texts := p.texts[key := value])
  }

  function SaveToken(p: Prefs, token: string): (r: Prefs)
    ensures GetToken(r) == Some(token)
    ensures forall k :: k != TokenKey ==> Text(r, k) == Text(p, k)
    ensures r.flags == p.flags
  {
    PutText(p, TokenKey, token)
  }

  function GetToken(p: Prefs): Option<string> { Text(p, TokenKey) }

  /** `clearToken`: only the token goes; the user's details stay. */
  function ClearToken(p: Prefs): (r: Prefs)
    ensures GetToken(r) == None && !HasToken(r)
    ensures forall k :: k != TokenKey ==> Text(r, k) == Text(p, k)
    ensures r.flags == p.flags
  {
    p.(texts := p.texts - {TokenKey})
  }

  /** `hasToken`: a token that is present and not empty. */
  predicate HasToken(p: Prefs)
  {
    GetToken(p).Some? && GetToken(p).value != ""
  }

  /** `saveUserInfo`: the four user entries, and nothing else. */
  function SaveUserInfo(p: Prefs, userId: string, email: string, fullName: string, role: string): (r: Prefs)
    ensures GetUserId(r) == Some(userId) && GetUserEmail(r) == Some(email)
    ensures GetUserName(r) == Some(fullName) && GetUserRole(r) == Some(role)
    ensures forall k :: k !in {UserIdKey, UserEmailKey, UserNameKey, UserRoleKey} ==> Text(r, k) == Text(p, k)
    ensures r.flags == p.flags
  {
    PutText(PutText(PutText(PutText(p, UserIdKey, userId), UserEmailKey, email), UserNameKey, fullName),
            UserRoleKey, role)
  }

  function GetUserId(p: Prefs): Option<string> { Text(p, UserIdKey) }
  function GetUserEmail(p: Prefs): Option<string> { Text(p, UserEmailKey) }
  function GetUserName(p: Prefs): Option<string> { Text(p, UserNameKey) }
  function GetUserRole(p: Prefs): Option<string> { Text(p, UserRoleKey) }

  /** `saveAuthData`: the token, then the user's id, email, name and role from the response. */
  function SaveAuthData(p: Prefs, auth: AuthResponse): (r: Prefs)
    ensures GetToken(r) == Some(auth.token)
    ensures GetUserId(r) == Some(auth.user.id) && GetUserEmail(r) == Some(auth.user.email)
    ensures GetUserName(r) == Some(auth.user.fullName) && GetUserRole(r) == Some(auth.user.role)
    ensures IsRememberMe(r) == IsRememberMe(p)
    ensures IsLoggedIn(r) <==> auth.token != "" && auth.user.id != ""
  {
    SaveUserInfo(SaveToken(p, auth.token), auth.user.id, auth.user.email, auth.user.fullName, auth.user.role)
  }

  /** `setRememberMe`: the flag, and no other entry. */
  function SetRememberMe(p: Prefs, enabled: bool): (r: Prefs)
    ensures IsRememberMe(r) == enabled
    ensures r.texts == p.texts
    ensures forall k :: k != RememberMeKey && k in p.flags ==> k in r.flags && r.flags[k] == p.flags[k]
  {
    p.(flags := p.flags[RememberMeKey := enabled])
  }

  /** `isRememberMe`: false unless set. */
  predicate IsRememberMe(p: Prefs)
  {
    RememberMeKey in p.flags && p.flags[RememberMeKey]
  }

  /** `clearAllData`: every entry goes. */
  function ClearAllData(p: Prefs): (r: Prefs)
    ensures !IsLoggedIn(r) && !IsRememberMe(r)
    ensures forall k :: Text(r, k) == None
  {
    Prefs(map[], map[])
  }

  /** `isLoggedIn`: a non-empty token and a non-empty user id. */
  predicate IsLoggedIn(p: Prefs)
  {
    HasToken(p) && GetUserId(p).Some? && GetUserId(p).value != ""
  }

  /** Dropping the token signs the user out but keeps who they were. */
  lemma ClearTokenSignsOut(p: Prefs)
    ensures !IsLoggedIn(ClearToken(p))
    ensures GetUserId(ClearToken(p)) == GetUserId(p) && GetUserEmail(ClearToken(p)) == GetUserEmail(p)
    ensures IsRememberMe(ClearToken(p)) == IsRememberMe(p)
  {
  }

  /**
    `getToken` reads back what `saveToken` stored and `hasToken` holds
    exactly for a non-empty one; after `clearToken` there is none.
   */
  lemma TokenReadBack(p: Prefs, token: string)
    ensures GetToken(SaveToken(p, token)) == Some(token)
    ensures HasToken(SaveToken(p, token)) <==> token != ""
    ensures GetToken(ClearToken(p)).None? && !HasToken(ClearToken(p))
    ensures GetToken(p).None? ==> !HasToken(p)
  {
  }

  /** The four `getUser*` read back what `saveUserInfo` stored, and the token calls leave them alone. */
  lemma UserInfoReadBack(p: Prefs, userId: string, email: string, fullName: string, role: string, token: string)
    ensures var r := SaveUserInfo(p, userId, email, fullName, role);
            GetUserId(r) == Some(userId) && GetUserEmail(r) == Some(email)
            && GetUserName(r) == Some(fullName) && GetUserRole(r) == Some(role)
            && GetToken(r) == GetToken(p) && HasToken(r) == HasToken(p)
    ensures var r := SaveToken(p, token);
            GetUserId(r) == GetUserId(p) && GetUserEmail(r) == GetUserEmail(p)
            && GetUserName(r) == GetUserName(p) && GetUserRole(r) == GetUserRole(p)
  {
  }

  /**
    After the token and the user's details are saved, the user is signed in
    exactly when both the token and the id are non-empty; a session is
    never signed in without a token.
   */
  lemma LoggedInAfterSave(p: Prefs, token: string, userId: string, email: string, fullName: string, role: string)
    ensures IsLoggedIn(SaveUserInfo(SaveToken(p, token), userId, email, fullName, role)) <==> token != "" && userId != ""
    ensures IsLoggedIn(p) ==> HasToken(p) && GetUserId(p).Some?
  {
  }

  /** `isRememberMe` is false until set, and then reads back the last value set. */
  lemma RememberMeReadBack(p: Prefs, enabled: bool)
    ensures RememberMeKey !in p.flags ==> !IsRememberMe(p)
    ensures IsRememberMe(SetRememberMe(SetRememberMe(p, !enabled), enabled)) == enabled
  {
  }

  /** Remembering the choice does not sign anyone in or out. */
  lemma RememberMeKeepsSession(p: Prefs, enabled: bool)
    ensures IsLoggedIn(SetRememberMe(p, enabled)) == IsLoggedIn(p)
    ensures GetToken(SetRememberMe(p, enabled)) == GetToken(p)
  {
  }
}

=== FILE: user_cache.dfy ===
/**
  The client's `UserRepository`: accounts cached on the device as a list
  keyed by email, and a pointer to the current user's id.
 */
module UserCache {
  import opened Wrappers
  import opened Lists
  import opened AppData

  datatype UserStore = UserStore(users: seq<User>, currentUserId: Option<string>)

  function EmailIs(email: string): User -> bool { (u: User) => u.email == email }
  function IdIs(id: string): User -> bool { (u: User) => u.id == id }

  /** Two cached accounts have different emails. */
  function EmailsDiffer(): (User, User) -> bool { (a: User, b: User) => a.email != b.email }

  /** `getUserByEmail`. */
  function GetUserByEmail(st: UserStore, email: string): (r: Option<User>)
    ensures r.Some? ==> r.value in st.users && r.value.email == email
    ensures r.None? <==> forall i :: 0 <= i < |st.users| ==> st.users[i].email != email
  {
    Find(st.users, EmailIs(email))
  }

  /** `saveUser`: the account with the same email is replaced in place, otherwise it is appended. */
  function SaveUser(st: UserStore, u: User): (r: UserStore)
    ensures r.currentUserId == st.currentUserId
    ensures GetUserByEmail(st, u.email).Some? ==> |r.users| == |st.users|
    ensures GetUserByEmail(st, u.email).None? ==> r.users == st.users + [u]
    ensures GetUserByEmail(r, u.email) == Some(u)
    ensures forall e :: e != u.email ==> GetUserByEmail(r, e) == GetUserByEmail(st, e)
    ensures Pairwise(st.users, EmailsDiffer()) ==> Pairwise(r.users, EmailsDiffer())
  {
    var i := IndexOfFirst(st.users, EmailIs(u.email));
    var users := if i != -1 then st.users[i := u] else st.users + [u];
    SavedFound(st.users, i, u);
    SaveKeepsOthers(st.users, i, u);
    SaveKeepsDistinct(st.users, i, u);
    st.(users := users)
  }

  lemma SavedFound(s: seq<User>, i: int, u: User)
    requires i == IndexOfFirst(s, EmailIs(u.email))
    ensures Find(if i != -1 then s[i := u] else s + [u], EmailIs(u.email)) == Some(u)
    ensures i != -1 <==> Find(s, EmailIs(u.email)).Some?
  {
    var p := EmailIs(u.email);
    FindIsIndexOfFirst(s, p);
    if i != -1 {
      var t := s[i := u];
      assert forall k :: 0 <= k < i ==> t[k] == s[k] && !p(t[k]);
      assert p(t[i]);
      FindIsIndexOfFirst(t, p);
    } else {
      FindAppend(s, u, p);
    }
  }

  lemma SaveKeepsOthers(s: seq<User>, i: int, u: User)
    requires i == IndexOfFirst(s, EmailIs(u.email))
    ensures forall e :: e != u.email ==>
              Find(if i != -1 then s[i := u] else s + [u], EmailIs(e)) == Find(s, EmailIs(e))
  {
    forall e | e != u.email
      ensures Find(if i != -1 then s[i := u] else s + [u], EmailIs(e)) == Find(s, EmailIs(e))
    {
      if i != -1 {
        FindUpdate(s, i, u, EmailIs(e));
      } else {
        FindAppend(s, u, EmailIs(e));
      }
    }
  }

  lemma SaveKeepsDistinct(s: seq<User>, i: int, u: User)
    requires i == IndexOfFirst(s, EmailIs(u.email))
    ensures Pairwise(s, EmailsDiffer()) ==> Pairwise(if i != -1 then s[i := u] else s + [u], EmailsDiffer())
  {
    if Pairwise(s, EmailsDiffer()) {
      var t := if i != -1 then s[i := u] else s + [u];
      forall a, b | 0 <= a < b < |t| ensures EmailsDiffer()(t[a], t[b]) {
        if i != -1 {
          assert t[a].email == s[a].email && t[b].email == s[b].email;
          assert EmailsDiffer()(s[a], s[b]);
        } else if b < |s| {
          assert EmailsDiffer()(s[a], s[b]);
        } else {
          assert t[a] == s[a] && t[b] == u;
          assert !EmailIs(u.email)(s[a]);
        }
      }
    }
  }

  /** `getCurrentUser`: the cached account whose id the pointer holds. */
  function GetCurrentUser(st: UserStore): (r: Option<User>)
    ensures st.currentUserId.None? ==> r.None?
    ensures r.Some? ==> r.value in st.users && r.value.id == st.currentUserId.value
    ensures st.currentUserId.Some? && r.None? ==> forall i :: 0 <= i < |st.users| ==> st.users[i].id != st.currentUserId.value
  {
    match st.currentUserId
    case None => None
    case Some(id) => Find(st.users, IdIs(id))
  }

  /** `setCurrentUser`: only the id is kept; the cached list is untouched. */
  function SetCurrentUser(st: UserStore, u: User): (r: UserStore)
    ensures r.users == st.users && r.currentUserId == Some(u.id)
  {
    st.(currentUserId := Some(u.id))
  }

  /** `logout`: the pointer goes; the cached list is untouched. */
  function Logout(st: UserStore): (r: UserStore)
    ensures r.users == st.users && GetCurrentUser(r).None?
  {
    st.(currentUserId := None)
  }

  /**
    Saving an account and pointing at it makes it the current user, as
    long as every cached account with its id also has its email.
   */
  lemma SaveThenCurrent(st: UserStore, u: User)
    requires forall i :: 0 <= i < |st.users| && st.users[i].id == u.id ==> st.users[i].email == u.email
    ensures GetCurrentUser(SetCurrentUser(SaveUser(st, u), u)) == Some(u)
  {
    var s := st.users;
    var i := IndexOfFirst(s, EmailIs(u.email));
    var t := if i != -1 then s[i := u] else s + [u];
    assert SaveUser(st, u).users == t;
    var k := if i != -1 then i else |s|;
    assert t[k] == u;
    forall j | 0 <= j < k ensures !IdIs(u.id)(t[j]) {
      assert t[j] == s[j];
      assert !EmailIs(u.email)(s[j]);
    }
    FindIsIndexOfFirst(t, IdIs(u.id));
  }

  /** Remembering an account: cached by email and made the current user. */
  function Remember(store: UserStore, u: User): (r: UserStore)
    ensures GetUserByEmail(r, u.email) == Some(u)
    ensures r.currentUserId == Some(u.id)
    ensures forall e :: e != u.email ==> GetUserByEmail(r, e) == GetUserByEmail(store, e)
  {
    SetCurrentUser(SaveUser(store, u), u)
  }
}

=== FILE: user_service.dfy ===
/**
  `UserService`: creating accounts with defaults, switching them on and
  off, the name-derived lookups of `UserRepository`, and the DTO that
  leaves the password hash behind.

  The password encoder is the function parameter `encode`. The lookups by
  email and by student number are the first matching row, since the
  columns carry unique constraints.
 */
module UserService {
  import opened Wrappers
  import opened Lists
  import opened Jpa
  import opened Enums
  import opened Entities

  function UserNotFound(id: string): string { "Usuario no encontrado con ID: " + id }

  /** The account has this email. */
  function HasEmail(email: string): User -> bool
  {
    (u: User) => u.email == email
  }

  /** `findByEmail`. */
  function FindByEmail(users: seq<User>, email: string): (r: Option<User>)
    ensures r.Some? ==> r.value in users && r.value.email == email
    ensures r.None? <==> forall i :: 0 <= i < |users| ==> users[i].email != email
  {
    Find(users, HasEmail(email))
  }

  /** `findByStudentId`. */
  function FindByStudentId(users: seq<User>, sid: string): (r: Option<User>)
    ensures r.Some? ==> r.value in users && r.value.studentId == Some(sid)
    ensures r.None? <==> forall i :: 0 <= i < |users| ==> users[i].studentId != Some(sid)
  {
    Find(users, (u: User) => u.studentId == Some(sid))
  }

  /**
    The `User` handed to `createUser`: any of the id, role and active flag
    may be missing, and so may the plain-text password.
   */
  datatype NewUser = NewUser(
    id: Option<string>,
    email: string,
    password: Option<string>,
    role: Option<UserRole>,
    fullName: string,
    studentId: Option<string>,
    program: Option<string>,
    profileImageUrl: Option<string>,
    phone: Option<string>,
    address: Option<string>,
    isActive: Option<bool>)

  /** The id `createUser` saves under: the draft's, or the fresh one when it is missing or empty. */
  function IdOf(draft: NewUser, freshId: string): string
  {
    if draft.id.None? || draft.id.value == "" then freshId else draft.id.value
  }

  /**
    Saving under `id` would break a unique column: another account already
    has the address, or the student number. NULL student numbers never
    clash.
   */
  predicate TakenByOther(users: seq<User>, id: string, email: string, studentId: Option<string>)
  {
    exists i :: 0 <= i < |users| && users[i].id != id
                && (users[i].email == email || (studentId.Some? && users[i].studentId == studentId))
  }

  /** The `email` and `student_id` columns are unique; NULL student numbers may repeat. */
  predicate UniqueColumns(users: seq<User>)
  {
    forall i, j :: 0 <= i < j < |users| ==>
      users[i].email != users[j].email && (users[i].studentId.Some? ==> users[i].studentId != users[j].studentId)
  }

  /** The save fails on the NOT NULL `password_hash` column. */
  const PasswordMissing := "not-null property references a null value: passwordHash"
  /** The save fails on the unique `email` or `student_id` column. */
  const ColumnTaken := "could not execute statement; unique constraint violated"

  /**
    `createUser`: a missing or empty id becomes a fresh one, a non-empty
    password is replaced by its encoding, a missing role becomes STUDENT
    and a missing active flag true; every other field is kept as given.
    `userRepository.save` then throws when the password is null or another
    account holds the address or the student number.
   */
  function CreateUser(db: Db, draft: NewUser, freshId: string, now: int, encode: string -> string)
    : (r: Result<(Db, User)>)
    ensures r.Err? <==> draft.password.None? || TakenByOther(db.users, IdOf(draft, freshId), draft.email, draft.studentId)
    ensures draft.password.None? ==> r == Err(PasswordMissing)
    ensures draft.password.Some? && r.Err? ==> r.msg == ColumnTaken
    ensures r.Ok? ==> r.value.0.(users := db.users) == db
    ensures r.Ok? ==> r.value.1.id == IdOf(draft, freshId)
    ensures r.Ok? ==> r.value.1.passwordHash == (if draft.password.value != "" then encode(draft.password.value) else "")
    ensures r.Ok? ==> r.value.1.role == (if draft.role.None? then STUDENT else draft.role.value)
    ensures r.Ok? ==> r.value.1.isActive == (if draft.isActive.None? then Some(true) else draft.isActive)
    ensures r.Ok? ==>
              r.value.1.email == draft.email && r.value.1.fullName == draft.fullName
              && r.value.1.studentId == draft.studentId && r.value.1.program == draft.program
              && r.value.1.profileImageUrl == draft.profileImageUrl && r.value.1.phone == draft.phone
              && r.value.1.address == draft.address
    ensures r.Ok? && !ExistsById(db.users, UserKey, r.value.1.id) ==>
              r.value.0.users == db.users + [r.value.1] && r.value.1.createdAt == now
    ensures r.Ok? && UniqueIds(db.users, UserKey) ==>
              UniqueIds(r.value.0.users, UserKey) && FindById(r.value.0.users, UserKey, r.value.1.id) == Some(r.value.1)
  {
    var id := IdOf(draft, freshId);
    if draft.password.None? then Err(PasswordMissing)
    else if TakenByOther(db.users, id, draft.email, draft.studentId) then Err(ColumnTaken)
    else
      var hash := if draft.password.value != "" then encode(draft.password.value) else "";
      var stamp := match FindById(db.users, UserKey, id) case Some(prev) => prev.createdAt case None => now;
      var u := User(id, draft.email, hash, draft.role.GetOr(STUDENT), draft.fullName, draft.studentId, draft.program,
                    draft.profileImageUrl, draft.phone, draft.address, Some(draft.isActive.GetOr(true)), stamp);
      if UniqueIds(db.users, UserKey) then
        SaveThenFind(db.users, u, UserKey, id);
        Ok((db.(users := Save(db.users, u, UserKey)), u))
      else Ok((db.(users := Save(db.users, u, UserKey)), u))
  }

  /** Creation only fills gaps: a draft that already has an id, role and flag keeps them. */
  lemma CreateKeepsGivenFields(db: Db, draft: NewUser, freshId: string, freshId2: string, now: int, encode: string -> string)
    requires draft.id.Some? && draft.id.value != "" && draft.role.Some? && draft.isActive.Some?
    ensures CreateUser(db, draft, freshId, now, encode) == CreateUser(db, draft, freshId2, now, encode)
    ensures CreateUser(db, draft, freshId, now, encode).Ok? ==>
              CreateUser(db, draft, freshId, now, encode).value.1.id == draft.id.value
              && CreateUser(db, draft, freshId, now, encode).value.1.role == draft.role.value
              && CreateUser(db, draft, freshId, now, encode).value.1.isActive == draft.isActive
  {
  }

  /**
    A successful creation keeps the address and the student number unique:
    the table's constraints hold after every save that does not throw.
   */
  lemma CreateKeepsColumnsUnique(db: Db, draft: NewUser, freshId: string, now: int, encode: string -> string)
    requires UniqueIds(db.users, UserKey) && UniqueColumns(db.users)
    ensures CreateUser(db, draft, freshId, now, encode).Ok? ==>
              UniqueColumns(CreateUser(db, draft, freshId, now, encode).value.0.users)
  {
    var r := CreateUser(db, draft, freshId, now, encode);
    if r.Ok? {
      var s := db.users;
      var u := r.value.1;
      assert !TakenByOther(s, u.id, u.email, u.studentId);
      if ExistsById(s, UserKey, u.id) {
        var k := SaveOverFound(s, u, UserKey);
        ReplacedKeepsColumnsUnique(s, k, u);
      } else {
        AppendedKeepsColumnsUnique(s, u);
      }
    }
  }

  /** Replacing the row holding the key by an account no other row clashes with keeps the columns unique. */
  lemma ReplacedKeepsColumnsUnique(s: seq<User>, k: int, u: User)
    requires UniqueIds(s, UserKey) && UniqueColumns(s) && 0 <= k < |s| && s[k].id == u.id
    requires !TakenByOther(s, u.id, u.email, u.studentId)
    ensures UniqueColumns(s[k := u])
  {
    var t := s[k := u];
    forall i, j | 0 <= i < j < |t|
      ensures t[i].email != t[j].email && (t[i].studentId.Some? ==> t[i].studentId != t[j].studentId)
    {
      if i == k {
        assert s[j].id != u.id by { if s[j].id == u.id { SameKeySameRow(s, UserKey, j, k); } }
      } else if j == k {
        assert s[i].id != u.id by { if s[i].id == u.id { SameKeySameRow(s, UserKey, i, k); } }
      }
    }
  }

  /** Appending an account no row clashes with keeps the columns unique. */
  lemma AppendedKeepsColumnsUnique(s: seq<User>, u: User)
    requires UniqueColumns(s) && forall i :: 0 <= i < |s| ==> s[i].id != u.id
    requires !TakenByOther(s, u.id, u.email, u.studentId)
    ensures UniqueColumns(s + [u])
  {
    var t := s + [u];
    forall i, j | 0 <= i < j < |t|
      ensures t[i].email != t[j].email && (t[i].studentId.Some? ==> t[i].studentId != t[j].studentId)
    {
      assert t[i] == s[i];
      if j < |s| {
        assert t[j] == s[j];
      }
    }
  }

  /**
    `deactivateUser` (active = false) and `activateUser` (active = true):
    the user's flag is set and the row saved; an unknown id throws.
   */
  function SetActive(db: Db, id: string, active: bool): (r: Result<(Db, User)>)
    ensures r.Err? <==> !ExistsById(db.users, UserKey, id)
    ensures r.Err? ==> r.msg == UserNotFound(id)
    ensures r.Ok? ==> r.value.0.(users := db.users) == db
    ensures r.Ok? ==> r.value.1 == FindById(db.users, UserKey, id).value.(isActive := Some(active))
    ensures r.Ok? && UniqueIds(db.users, UserKey) ==>
              UniqueIds(r.value.0.users, UserKey) && FindById(r.value.0.users, UserKey, id) == Some(r.value.1)
              && forall key :: key != id ==> FindById(r.value.0.users, UserKey, key) == FindById(db.users, UserKey, key)
  {
    match FindById(db.users, UserKey, id)
    case None => Err(UserNotFound(id))
    case Some(u) =>
      var v := u.(isActive := Some(active));
      if UniqueIds(db.users, UserKey) then
        SaveThenFind(db.users, v, UserKey, id);
        SaveKeepsOthers(db.users, v, UserKey);
        Ok((db.(users := Save(db.users, v, UserKey)), v))
      else Ok((db.(users := Save(db.users, v, UserKey)), v))
  }

  /** Deactivating an active account and activating it again restores the database exactly. */
  lemma ReactivateRestores(db: Db, id: string)
    requires UniqueIds(db.users, UserKey)
    requires ExistsById(db.users, UserKey, id) && FindById(db.users, UserKey, id).value.isActive == Some(true)
    ensures SetActive(db, id, false).Ok?
    ensures SetActive(SetActive(db, id, false).value.0, id, true) == Ok((db, FindById(db.users, UserKey, id).value))
  {
    var s := db.users;
    var u := FindById(s, UserKey, id).value;
    var off := u.(isActive := Some(false));
    var i := SaveOverFound(s, off, UserKey);
    var t := s[i := off];
    SaveThenFind(s, off, UserKey, id);
    var j := SaveOverFound(t, u, UserKey);
    SameKeySameRow(t, UserKey, i, j);
    assert t[i := u] == s;
  }

  /** `UserDto`: the account without its password hash. */
  datatype UserDto = UserDto(
    id: string,
    email: string,
    role: UserRole,
    fullName: string,
    studentId: Option<string>,
    program: Option<string>,
    profileImageUrl: Option<string>,
    phone: Option<string>,
    address: Option<string>,
    isActive: Option<bool>,
    createdAt: int)

  /** The account a DTO describes, given the hash it left out. */
  function UserOfDto(d: UserDto, passwordHash: string): User
  {
    User(d.id, d.email, passwordHash, d.role, d.fullName, d.studentId, d.program, d.profileImageUrl,
         d.phone, d.address, d.isActive, d.createdAt)
  }

  /**
    `convertToDto`: every field but the password hash is copied, so the
    account is recovered from the DTO and its hash, and the DTO says
    nothing about the hash.
   */
  function ConvertUserToDto(u: User): (d: UserDto)
    ensures UserOfDto(d, u.passwordHash) == u
    ensures forall h :: UserOfDto(d, h) == u.(passwordHash := h)
  {
    UserDto(u.id, u.email, u.role, u.fullName, u.studentId, u.program, u.profileImageUrl, u.phone,
            u.address, u.isActive, u.createdAt)
  }
}

=== FILE: wrappers.dfy ===
/**
  Failure-carrying results shared by every module of the model.

  `Option` stands for a nullable reference or a Java `Optional`; `Result`
  stands for an operation that either returns a value or throws a
  `RuntimeException` whose message is kept in `Err`.
 */
module Wrappers {

  datatype Option<+T> = None | Some(value: T) {

    /** The value, or `default` when absent (Kotlin's `?:`). */
    function GetOr(default: T): T {
      match this
      case Some(v) => v
      case None => default
    }
  }

  datatype Result<+T> = Ok(value: T) | Err(msg: string)

  /** An operation that returns nothing or throws. */
  datatype Outcome = Done | Fail(msg: string)
}
